=== FILE: README.md ===
# JCMathLib in Dafny

JCMathLib is a JavaCard library for big-number and elliptic-curve arithmetic
on smart cards, plus host-side helpers and a Python tool (`package.py`) that
merges the library into one Java file. This project models its core logic:

- **Byte-array naturals** (`BigNatInternal`/`BigNat`, and `Bignat` of the
  older generation and of the merged release `jcmathlib_v1.1.0.java`). A
  number is the big-endian value `Val` of the first `size` bytes of a fixed
  buffer. Modules `Radix` (digits, `Val`, powers of 256), `BigNats`
  (storage, resizing, copying, predicates, reading and writing bytes),
  `AddSub` (add/subtract with carry, ±1), `Compare` (`shiftLesser`,
  `lesser`), `Scaled` (`timesMinus`, `timesAddShift`, schoolbook
  multiplication), `Division` (`remainderDivide`, `mod`), `Shifts`
  (`shiftRight`, `divide_by_2`) and `Modular` (`mod_add`, `mod_negate`).
  The two generations run the same digit loops; where they differ
  (`add(short)`, the legacy engine-size rule) both are modelled.
- **Sign-magnitude `Integer`** of both generations (`Integers`): one sign
  byte plus a magnitude, with sign-dispatched add, subtract, multiply,
  divide and modulo, and the sign-first byte serialisation.
- **`ObjectLocker`** (`Locker`): the table of registered objects with their
  lock slots, its RAM and persistent copies, and the profiling matrix of the
  merged release.
- **`ObjectAllocator`, `ResourceManager`, `ECConfig`** (`Allocator`,
  `Resources`, `Configs`): the allocator-type table and byte counters, the
  rule mapping an EC bit length to engine and buffer sizes, the
  constructor's allocations and locker registrations, and `unlockAll`.
- **Point encoding of `ECPoint`** (`Sec1`): the prefix and length dispatch of
  the compressed and uncompressed formats of section 2.3.3 and 2.3.4 of
  SEC 1 version 2.0, with the field square root as a parameter.
- **Host codecs** of the test utilities (`HostCodecs`): the five-byte
  sign-magnitude int, shorts, trimming, concatenation and hex; and the
  test's Tonelli-Shanks square root (`Tonelli`).
- **`package.py`** (`PackageTool`, over Python string and sorting helpers in
  `PyText`): import collection and wildcard subsumption, the per-line
  filter with its lock-region state, blank-line trimming, and the file
  order and layout of the merged output.

Exceptions thrown through `ISOException.throwIt` and Java runtime
exceptions become the error case of a `Result` carrying a `ReturnCodes`
condition. Scratch numbers borrowed from the resource manager are
parameters (`Reserved`: the number and whether it is already locked), and
so is whether the manager's shared byte buffers are held. The big-number
and integer operations that lock a scratch return it, still locked when a
failure came after the lock; the point codec (`Sec1`) takes which of its
scratch objects are held (`Held`) and reports the resulting
SW_LOCK_ALREADYLOCKED failure. Methods are used where the source loops and the loop is the
subject of the proof; pure functions elsewhere.

## Model

| member | source | states |
|---|---|---|
| ReturnCodes.AppletWord | applet/src/main/java/opencrypto/jcmathlib/ReturnCodes.java:9-34 | every condition has a status word in 0x7000..0xFFFF |
| ReturnCodes.AppletWordsDistinct | applet/src/main/java/opencrypto/jcmathlib/ReturnCodes.java:9-25 | different conditions have different status words in the newer table |
| ReturnCodes.LegacyWord | JCMathLib/src/opencrypto/jcmathlib/ReturnCodes.java:9-30 | every word of the older table lies in 0x7000..0xFFFF, and the table lacks exactly INVALIDMULT, INVALIDSQ, ECPOINT_INVALID and OPERATION_NOT_SUPPORTED |
| ReturnCodes.LegacyWordsDistinct | JCMathLib/src/opencrypto/jcmathlib/ReturnCodes.java:9-21 | the older table also keeps conditions apart |
| BigNats.New | applet/src/main/java/opencrypto/jcmathlib/BigNatInternal.java:26-42 | a new number has its full size and holds zero |
| BigNats.SetSize | applet/src/main/java/opencrypto/jcmathlib/BigNatInternal.java:79-84 | fails with RESIZETOLONGER exactly when the new size is negative or beyond the storage; otherwise only the size changes |
| BigNats.SetSizeRestores | jcmathlib_v1.1.0.java:347-354 | shrinking the logical size and growing it back gives the original number |
| BigNats.ResizeToMax | applet/src/main/java/opencrypto/jcmathlib/BigNatInternal.java:92-97 | the size becomes the storage size; the bytes are kept or all erased |
| BigNats.DeepResize | applet/src/main/java/opencrypto/jcmathlib/BigNatInternal.java:105-149 | fails with REALLOCATIONNOTALLOWED exactly when the new size is beyond the storage, and with ALREADYLOCKED exactly when a real resize finds the shared byte buffer held; otherwise the value becomes the old value mod 256^n, enlarging keeps it, and shrinking zeroes the storage after the new size |
| BigNats.Shrink | applet/src/main/java/opencrypto/jcmathlib/BigNatInternal.java:181-194 | the value is unchanged, the size does not grow, and afterwards the size is 0 or the first digit is nonzero; fails with ALREADYLOCKED exactly when there are leading zeros to drop and the shared byte buffer is held |
| BigNats.Zero | applet/src/main/java/opencrypto/jcmathlib/BigNatInternal.java:199-201 | the value becomes 0; size and the storage after it are kept |
| BigNats.Erase | applet/src/main/java/opencrypto/jcmathlib/BigNatInternal.java:206-208 | the whole storage becomes zero, the size is kept |
| BigNats.SetValueByte | applet/src/main/java/opencrypto/jcmathlib/BigNatInternal.java:215-218 | the value becomes the byte; an empty number is an index error |
| BigNats.SetValueShort | applet/src/main/java/opencrypto/jcmathlib/BigNatInternal.java:225-229 | as written the value becomes only the low byte of the short; fewer than two digits is an index error |
| BigNats.SetValueShortFixed | applet/src/main/java/opencrypto/jcmathlib/BigNatInternal.java:225-229 | with the high byte `v >> 8` the value becomes the short modulo 2^16 |
| BigNats.SetValueShortDropsHighByte | applet/src/main/java/opencrypto/jcmathlib/BigNatInternal.java:225-229 | 0x0100 is stored as 0 as written and as 0x0100 when corrected |
| BigNats.Copy | applet/src/main/java/opencrypto/jcmathlib/BigNat.java:430-453 | keeps this size; fails with INVALIDCOPYOTHER exactly when the other value does not fit in it; otherwise the values are equal |
| BigNats.FitsIffLeadingZeros | applet/src/main/java/opencrypto/jcmathlib/BigNatInternal.java:236-258 | a digit string fits in its last digits exactly when the digits before them are zero, which is the test `copy` makes |
| BigNats.Clone | applet/src/main/java/opencrypto/jcmathlib/BigNat.java:463-480 | takes the other's size and value and zeroes the storage after it; fails with REALLOCATIONNOTALLOWED exactly when the other is longer than the storage |
| BigNats.CopyToBuffer | applet/src/main/java/opencrypto/jcmathlib/BigNatInternal.java:60-63 | an index error exactly when `bufferOffset + size` passes the end of the caller's buffer; otherwise the `size` bytes at the offset spell the number, every other byte of the buffer is unchanged, and `size` is returned |
| BigNats.PrependZeros | applet/src/main/java/opencrypto/jcmathlib/BigNatInternal.java:170-176 | the number written into a longer field keeps its value |
| BigNats.AppendZeros | applet/src/main/java/opencrypto/jcmathlib/BigNatInternal.java:158-161 | the number followed by zeros is the number times 256^(added length) |
| BigNats.IsZero | applet/src/main/java/opencrypto/jcmathlib/BigNatInternal.java:598-605 | true exactly when the value is 0 |
| BigNats.IsOne | applet/src/main/java/opencrypto/jcmathlib/BigNatInternal.java:612-619 | true exactly when the value is 1; an empty number is an index error |
| BigNats.IsOdd | applet/src/main/java/opencrypto/jcmathlib/BigNatInternal.java:626-628 | true exactly when the value is odd; an empty number is an index error |
| BigNats.FromByteArray | applet/src/main/java/opencrypto/jcmathlib/BigNatInternal.java:1062-1066 | copies min(length, size) bytes to the front of the buffer and fails exactly when the source is too short; a full-size read sets the value to the source bytes and returns size + 1, a shorter one returns the count and keeps the rest of the buffer, a longer one reads only `size` bytes, which become the number, and returns `size` |
| BigNats.FromByteArrayRoundTrip | applet/src/main/java/opencrypto/jcmathlib/BigNatInternal.java:60-63 | `copyToBuffer` at any offset that fits, then `fromByteArray` from that offset into a number of the same size, restores the value |
| BigNats.Lock | applet/src/main/java/opencrypto/jcmathlib/BigNatInternal.java:1078-1086 | locking fails with ALREADYLOCKED exactly when locked, and keeps the number |
| BigNats.Unlock | applet/src/main/java/opencrypto/jcmathlib/BigNatInternal.java:1093-1101 | unlocking fails with NOTLOCKED exactly when unlocked, and keeps the number |
| BigNats.LockUnlockPair | applet/src/main/java/opencrypto/jcmathlib/BigNatInternal.java:1078-1110 | lock then unlock restores the state; a second lock fails |
| AddSub.AddDigits | applet/src/main/java/opencrypto/jcmathlib/BigNatInternal.java:821-844 | the digit loops add (the low digits of) y into x modulo 256^len(x), with a carry exactly when the true sum overflows |
| AddSub.SubtractDigits | applet/src/main/java/opencrypto/jcmathlib/BigNatInternal.java:332-351 | the digit loops subtract modulo 256^len(x), with a borrow exactly when x is smaller |
| AddSub.AddRegions | applet/src/main/java/opencrypto/jcmathlib/BigNatInternal.java:293-318 | static `add` as written: the x region receives x plus every y byte before `yOffset + yLength`, and the result byte is 1 exactly on carry out; bytes outside the region are untouched |
| AddSub.AddRegionsFixed | applet/src/main/java/opencrypto/jcmathlib/BigNatInternal.java:293-318 | the corrected form of this loop and of the identical one of BigNat.java:543: stopping at `yOffset`, exactly the y region is added |
| AddSub.AddRegionsReadsBeforeOffset | applet/src/main/java/opencrypto/jcmathlib/BigNatInternal.java:299-304 | y = [1, 2], offset 1, length 1: as written 258 is added, corrected 2 |
| AddSub.SubtractRegions | applet/src/main/java/opencrypto/jcmathlib/BigNatInternal.java:332-351 | for yLength <= xLength the x region becomes (x - y) mod 256^xLength, true exactly when x < y; bytes outside the region are untouched |
| AddSub.Add | applet/src/main/java/opencrypto/jcmathlib/BigNatInternal.java:821-844 | this becomes (this + other) mod 256^size with carry exactly on overflow; for a shorter other the sum is exact; `add_carry` of jcmathlib_v1.1.0.java:1219-1237 is the same |
| AddSub.AddShort | applet/src/main/java/opencrypto/jcmathlib/BigNatInternal.java:807-813 | `add(short)` adds only the low byte of the short (through `setValue`) and returns carry 1 exactly when that sum overflows; it borrows and returns the word scratch, and fails with ALREADYLOCKED exactly when the scratch is locked |
| AddSub.AddShortLegacy | jcmathlib_v1.1.0.java:1190-1193 | the older `add(short)` adds the whole short modulo 2^16 |
| AddSub.Increment | applet/src/main/java/opencrypto/jcmathlib/BigNat.java:678-689 | value becomes (value + 1) mod 256^size |
| AddSub.Decrement | applet/src/main/java/opencrypto/jcmathlib/BigNat.java:661-672 | value becomes (value - 1) mod 256^size, so zero wraps to all 0xFF |
| Compare.AlignedVal | applet/src/main/java/opencrypto/jcmathlib/BigNatInternal.java:524-544 | the digits `shiftLesser` compares against are other * 256^shift reduced to the compared width |
| Compare.ShiftLesser | applet/src/main/java/opencrypto/jcmathlib/BigNatInternal.java:524-544 | true exactly when the digits of this from `start` on are below the aligned digits of other * 256^shift |
| Compare.Lesser | applet/src/main/java/opencrypto/jcmathlib/BigNatInternal.java:589-591 | true exactly when this < other mod 256^size, so exactly this < other when other fits |
| Compare.LesserIgnoresHighDigits | applet/src/main/java/opencrypto/jcmathlib/BigNatInternal.java:524-544 | whenever `other` reaches 256^size and its low `size` digits spell at most `this`, `lesser` answers false although `this` is the smaller number: digits of `other` beyond this size are never compared |
| Scaled.TimesMinus | applet/src/main/java/opencrypto/jcmathlib/BigNatInternal.java:385-410 | this becomes (this - mult * (other mod 256^(size-shift)) * 256^shift) mod 256^size, unchanged for shift >= size, and exactly this - mult * other * 256^shift under the documented non-negative requirement; `times_minus` of BigNat.java:630-656 is the same |
| Scaled.Subtract | applet/src/main/java/opencrypto/jcmathlib/BigNatInternal.java:358-360 | this becomes (this - other) mod 256^size, exactly this - other when other <= this |
| Scaled.MinusDigits | applet/src/main/java/opencrypto/jcmathlib/BigNatInternal.java:385-410 | the digit loops of `timesMinus` compute x - m * o modulo 256^len(x) |
| Scaled.AddMulDigits | applet/src/main/java/opencrypto/jcmathlib/BigNatInternal.java:888-901 | the digit loop of `timesAddShift` computes g + m * x modulo 256^len(g) |
| Scaled.TimesAddShift | applet/src/main/java/opencrypto/jcmathlib/BigNatInternal.java:888-901 | fails with an index error exactly when the shifted x plus a carry digit does not fit; otherwise adds mult * x * 256^shift, exact when the old value is below 256^(shift + x.size) |
| Scaled.MultSchoolbook | applet/src/main/java/opencrypto/jcmathlib/BigNatInternal.java:909-914 | for size >= x.size + y.size the value becomes x * y; it fails exactly when it does not fit; `mult_schoolbook` of BigNat.java:1354-1359 is the same |
| Division.FirstNonZero | applet/src/main/java/opencrypto/jcmathlib/BigNatInternal.java:650-653 | the divisor scan stops at the first nonzero digit, so the divisor has exactly size - index significant digits |
| Division.RemainderDivide | applet/src/main/java/opencrypto/jcmathlib/BigNatInternal.java:639-799 | for a nonzero divisor this becomes the remainder and the quotient (zeroed first, size kept) the quotient; it fails with an index error exactly when a quotient is given and the quotient does not fit; `remainder_divide` of jcmathlib_v1.1.0.java:1023-1183 is the same |
| Division.Mod | applet/src/main/java/opencrypto/jcmathlib/BigNat.java:1660-1663 | value becomes value mod modulo, size kept |
| Shifts.ShiftDigitsRight | applet/src/main/java/opencrypto/jcmathlib/BigNatInternal.java:1032-1043 | the byte loop divides the digit string by 2^bits |
| Shifts.ShiftRight | applet/src/main/java/opencrypto/jcmathlib/BigNatInternal.java:1050-1052 | value becomes floor(value / 2^bits) |
| Shifts.DivideBy2 | applet/src/main/java/opencrypto/jcmathlib/BigNat.java:1560-1578 | value becomes floor(value / 2) |
| Modular.ExactSum | applet/src/main/java/opencrypto/jcmathlib/BigNat.java:1131-1140 | the scratch one digit longer than both operands holds their exact sum; too small a scratch is RESIZETOLONGER |
| Modular.ModAdd | applet/src/main/java/opencrypto/jcmathlib/BigNat.java:1131-1148 | value becomes (this + other) mod modulo, shrunk to no leading zero digit; fails, in source order, with ALREADYLOCKED when the scratch is held, RESIZETOLONGER when it is too short, ALREADYLOCKED when shrink needs the held byte buffer, REALLOCATIONNOTALLOWED when the clone does not fit; the scratch is left locked exactly on a failure after its lock |
| Modular.NegationCancels | applet/src/main/java/opencrypto/jcmathlib/BigNat.java:1796-1809 | m - (x mod m) lies in 1..m and adding it to x gives 0 mod m |
| Modular.ModNegate | applet/src/main/java/opencrypto/jcmathlib/BigNat.java:1796-1809 | value becomes mod - (this mod mod), in 1..mod (zero maps to mod), and cancels the input; fails with ALREADYLOCKED when the scratch is held, RESIZETOLONGER when it is too short, INVALIDCOPYOTHER when the result does not fit this size; the scratch stays locked exactly on a failure after its lock |
| Integers.Negate | applet/src/main/java/opencrypto/jcmathlib/Integer.java:163-169 | swaps the signs 0 and 1, leaves any other sign byte unchanged, and negates the signed value; the older JCMathLib/src/opencrypto/jcmathlib/Integer.java:157-163 is the same |
| Integers.NegateTwice | applet/src/main/java/opencrypto/jcmathlib/Integer.java:163-169 | negating twice gives the integer back for every sign byte |
| Integers.ToByteArray | applet/src/main/java/opencrypto/jcmathlib/Integer.java:207-213 | writes the sign and then the magnitude's digits, returns size + 1, leaves the rest of the buffer, and fails exactly when the buffer is too short |
| Integers.FromByteArray | applet/src/main/java/opencrypto/jcmathlib/Integer.java:223-228 | the sign is the first byte, the magnitude is read from the rest; a zero length or short input is an index error |
| Integers.ByteArrayRoundTrip | JCMathLib/src/opencrypto/jcmathlib/Integer.java:198-218 | serialising and reading back with length size + 1 restores sign and magnitude |
| Integers.Lesser | applet/src/main/java/opencrypto/jcmathlib/Integer.java:254-264 | negative before positive; two positives compare magnitudes; two negatives answer "not less in magnitude", so equal negatives give true; the older Integer.java:242-252 is the same |
| Integers.LesserFixed | applet/src/main/java/opencrypto/jcmathlib/Integer.java:261-263 | with the negative case comparing the magnitudes the other way, it answers value(x) < value(y) for canonical operands of equal length |
| Integers.LesserEqualNegatives | applet/src/main/java/opencrypto/jcmathlib/Integer.java:261-263 | -5 < -5 is true as written and false corrected |
| Integers.SubtractFrom | applet/src/main/java/opencrypto/jcmathlib/Integer.java:287-300 | the smaller-magnitude branch leaves other - this in the magnitude; fails with ALREADYLOCKED when the scratch is held, REALLOCATIONNOTALLOWED when other does not fit it, INVALIDCOPYOTHER when the difference does not fit this; the scratch stays locked exactly on a failure after its lock |
| Integers.Add | applet/src/main/java/opencrypto/jcmathlib/Integer.java:271-306 | equal signs keep the sign and add magnitudes mod 256^size (exactly the sum when it fits); opposite signs of equal length give the exact signed sum, canonical, with +0 for equal magnitudes, and fail exactly when the smaller-magnitude branch finds its scratch held (ALREADYLOCKED) or too short, or, for equal magnitudes, when `same_value` finds ARRAY_A or ARRAY_B held (ALREADYLOCKED); whenever add reaches `same_value` (`ReachesSameValue`) it fails exactly when those arrays are held and leaves the scratch alone; the older Integer.java:258-291 is the same, with `same_value`'s own buffers |
| Integers.AddMixed | applet/src/main/java/opencrypto/jcmathlib/Integer.java:280-305 | the opposite-sign branches give the exact signed sum for equal lengths; the last test, `same_value`, fails with ALREADYLOCKED exactly when ARRAY_A or ARRAY_B is held |
| Integers.Subtract | applet/src/main/java/opencrypto/jcmathlib/Integer.java:313-318 | is add of the negated other, with its errors, including `same_value`'s array locks, and scratch-lock outcome; gives the exact difference in the cases add is exact, and returns other unchanged, or still negated when the addition failed |
| Integers.TopBitModulus | applet/src/main/java/opencrypto/jcmathlib/Integer.java:337-341 | the scratch modulus becomes 0x80 followed by zeros, which is 2^(8n - 1) |
| Integers.Product | applet/src/main/java/opencrypto/jcmathlib/Integer.java:343-346 | the copied-back product is x * y mod 2^(8n - 1) |
| Integers.Multiply | applet/src/main/java/opencrypto/jcmathlib/Integer.java:325-349 | sign 1 exactly when the signs are opposite; magnitude x * y mod 2^(8 size - 1); the exact signed product when that fits; fails with ALREADYLOCKED or RESIZETOLONGER exactly as the modulus scratch and then the product scratch are found held or too short, leaving every scratch locked so far locked; the older Integer.java:310-331 is the same |
| Integers.Divide | applet/src/main/java/opencrypto/jcmathlib/Integer.java:356-371 | the sign rule of multiply and magnitude floor(a / b), i.e. Java's truncating division of the signed values; fails with ALREADYLOCKED when the scratch is held and REALLOCATIONNOTALLOWED when the dividend does not fit it, leaving it locked after a failure past the lock |
| Integers.Modulo | applet/src/main/java/opencrypto/jcmathlib/Integer.java:378-380 | the sign is kept and the magnitude becomes a value below |b| congruent to |a|; the older Integer.java:358-360 is the same |
| Locker.New | JCMathLib/src/opencrypto/jcmathlib/ObjectLocker.java:43-54 | a new locker has the requested number of empty pairs in both tables, is consistent and mirrored, and has locking active |
| Locker.FindFirst | JCMathLib/src/opencrypto/jcmathlib/ObjectLocker.java:104-120 | the search finds a slot exactly when the object is registered, and then the first slot holding it |
| Locker.RegisterLock | JCMathLib/src/opencrypto/jcmathlib/ObjectLocker.java:61-75 | stores the object unlocked in the first free pair of both tables and returns its index; fails with NOFREESLOT exactly when no pair is free; the merged release's jcmathlib_v1.1.0.java:3819-3833 is the same |
| Locker.RegisterNext | JCMathLib/src/opencrypto/jcmathlib/ObjectLocker.java:61-75 | registering into a table filled in order takes the next pair |
| Locker.RegisterFull | JCMathLib/src/opencrypto/jcmathlib/ObjectLocker.java:61-75 | a full table refuses one more object with NOFREESLOT |
| Locker.RefreshAfterReset | JCMathLib/src/opencrypto/jcmathlib/ObjectLocker.java:79-83 | the RAM table is reloaded from the persistent copy: registrations back, no locks |
| Locker.CardReset | JCMathLib/src/opencrypto/jcmathlib/ObjectLocker.java:49-54 | the cleared-on-reset RAM table loses every registration; the persistent copy stays |
| Locker.ResetThenRefresh | JCMathLib/src/opencrypto/jcmathlib/ObjectLocker.java:79-83 | after a card reset, refreshing restores exactly the registrations, unlocked |
| Locker.SetLockingActive | JCMathLib/src/opencrypto/jcmathlib/ObjectLocker.java:92-94 | only the active flag changes |
| Locker.MarkProfile | jcmathlib_v1.1.0.java:3974-3983 | the profiling loop writes the profile row of the locking slot as defined |
| Locker.ProfileMarks | jcmathlib_v1.1.0.java:3974-3983 | after locking slot k, the entry (k/2) * n + i/2 is 1 for every locked slot i, the locking one included |
| Locker.Lock | JCMathLib/src/opencrypto/jcmathlib/ObjectLocker.java:104-120 | inactive: no change; unregistered: OBJECT_NOT_FOUND; locked: ALREADYLOCKED; otherwise the first slot holding it is locked, keeping the table consistent and mirrored |
| Locker.Unlock | JCMathLib/src/opencrypto/jcmathlib/ObjectLocker.java:140-156 | as written: an unregistered object gives OBJECT_NOT_FOUND, a locked one is unlocked, and a registered unlocked one dereferences null |
| Locker.UnlockFixed | JCMathLib/src/opencrypto/jcmathlib/ObjectLocker.java:218-229 | with the null test first an unlocked object gives NOTLOCKED |
| Locker.UnlockNeverLocked | JCMathLib/src/opencrypto/jcmathlib/ObjectLocker.java:218-223 | a registered object never locked: null dereference as written, NOTLOCKED corrected |
| Locker.IsLocked | JCMathLib/src/opencrypto/jcmathlib/ObjectLocker.java:186-202 | false when inactive, OBJECT_NOT_FOUND when unregistered, otherwise whether its first slot is locked |
| Locker.LockUnlockRoundTrip | JCMathLib/src/opencrypto/jcmathlib/ObjectLocker.java:205-229 | locking an unlocked registered object makes it locked, a second lock fails, and unlocking restores the table |
| Locker.UnlockAll | JCMathLib/src/opencrypto/jcmathlib/ObjectLocker.java:171-178 | every lock slot is cleared and every registration kept; inactive: no change |
| Locker.LockBytes | JCMathLib/src/opencrypto/jcmathlib/ObjectLocker.java:121-129 | locks like `lock`, then the array is all zero exactly when erase-on-lock is set |
| Locker.UnlockBytes | JCMathLib/src/opencrypto/jcmathlib/ObjectLocker.java:158-166 | unlocks like `unlock`, then the array is all zero exactly when erase-on-unlock is set |
| Allocator.New | applet/src/main/java/opencrypto/jcmathlib/ObjectAllocator.java:41-50 | 19 type entries, all transient-reset, both counters zero |
| Allocator.SetAllAllocatorsEeprom | applet/src/main/java/opencrypto/jcmathlib/ObjectAllocator.java:54-56 | every entry persistent, counters kept |
| Allocator.SetAllAllocatorsRam | applet/src/main/java/opencrypto/jcmathlib/ObjectAllocator.java:60-62 | every entry transient-reset, counters kept |
| Allocator.SetAllocatorsTradeoff | applet/src/main/java/opencrypto/jcmathlib/ObjectAllocator.java:67-86 | exactly EC_BN_A, EC_BN_D, EC_BN_E, EC_BN_F and HASH_ARRAY stay persistent, the other ids become RAM |
| Allocator.TradeoffPersistentCount | applet/src/main/java/opencrypto/jcmathlib/ObjectAllocator.java:67-86 | five ids persistent and fourteen in RAM |
| Allocator.Allocate | applet/src/main/java/opencrypto/jcmathlib/ObjectAllocator.java:96-124 | persistent adds the bytes (two per short) to the EEPROM counter, either transient type to the RAM counter, an unknown type gives no array and no change |
| Allocator.AllocationAccounting | jcmathlib_v1.1.0.java:3688-3701 | over any run of allocations the two counters together grow by exactly the bytes of the known-type requests |
| Allocator.GetAllocatorType | applet/src/main/java/opencrypto/jcmathlib/ObjectAllocator.java:131-138 | ids inside the table give their type, id == length is an index error, other ids INVALIDOBJID |
| Allocator.GetAllocatorTypeFixed | applet/src/main/java/opencrypto/jcmathlib/ObjectAllocator.java:131-138 | with the strict bound, exactly the ids outside the table give INVALIDOBJID |
| Allocator.AllocatorTypeAtLength | jcmathlib_v1.1.0.java:3708-3715 | id 19 on a fresh allocator: index error as written, INVALIDOBJID corrected |
| Allocator.ResetAllocatorCounters | applet/src/main/java/opencrypto/jcmathlib/ObjectAllocator.java:159-162 | both counters zero, table kept |
| Resources.Derive | applet/src/main/java/opencrypto/jcmathlib/ResourceManager.java:62-63 | numbers get one byte more than the whole bytes of the modulo bit length, so they always hold a modulus of that length; a coordinate is half a point, rounded down |
| Resources.ResourceLengths | applet/src/main/java/opencrypto/jcmathlib/ResourceManager.java:40-63 | refuses lengths above 512 with INVALIDLENGTH; otherwise engines at least the RSA minimum, at least twice the curve length, a point that holds two coordinates of the curve length |
| Resources.ResourceLengthsFollowBands | applet/src/main/java/opencrypto/jcmathlib/ResourceManager.java:41-55 | the first band whose inclusive limit admits the length decides (512/768/64, 768/1024/96, 1024/1280/128), each engine raised to the RSA minimum |
| Resources.ResourceLengthsRefused | applet/src/main/java/opencrypto/jcmathlib/ResourceManager.java:56-61 | a length beyond every band gives INVALIDLENGTH |
| Resources.ResourceLengthsMonotone | applet/src/main/java/opencrypto/jcmathlib/ResourceManager.java:40-63 | a longer curve never gets smaller engines or buffers |
| Resources.New | applet/src/main/java/opencrypto/jcmathlib/ResourceManager.java:39-108 | the lengths follow the size rule, the five arrays are registered in order in a six-pair locker, the RAM and EEPROM counters are exactly the bytes allocated, the scratch numbers (`Ready`) are unlocked and zero with all their storage in use, BN_WORD of 2 bytes, BN_A..BN_E of the big-number size, BN_F two bytes more, EC_BN_A of a point and EC_BN_B..EC_BN_F of a coordinate, and the constants hold 1, 2, 3 and 1 |
| Resources.RegisterArrays | applet/src/main/java/opencrypto/jcmathlib/ResourceManager.java:72-82 | the five registrations fill the first five pairs in order |
| Resources.AllocateArrays | applet/src/main/java/opencrypto/jcmathlib/ResourceManager.java:65-81 | with every allocator switched to RAM, ARRAY_A, ARRAY_B, POINT_ARRAY_A, POINT_ARRAY_B and HASH_ARRAY take exactly 2 (multBits / 8) + 2 (pointSize + 1) + hashLength bytes of RAM and none of persistent memory, and every type stays RAM |
| Resources.AllocateNumbers | applet/src/main/java/opencrypto/jcmathlib/ResourceManager.java:84-98 | BN_WORD, BN_A..BN_F and EC_BN_A..EC_BN_F come from RAM with the sizes of the size rule, unlocked and zero with all their storage in use (`Ready`); the RAM counter grows by exactly the storage bytes of the numbers returned |
| Resources.OneFreeSlot | applet/src/main/java/opencrypto/jcmathlib/ResourceManager.java:165-168 | after construction exactly one more object can be registered |
| Resources.ReleaseAll | applet/src/main/java/opencrypto/jcmathlib/ResourceManager.java:200-237 | every number ends unlocked with its value kept |
| Resources.UnlockAll | applet/src/main/java/opencrypto/jcmathlib/ResourceManager.java:199-239 | BN_A..BN_F and EC_BN_A..EC_BN_F end unlocked, BN_WORD untouched, and every locker slot cleared with registrations kept |
| Configs.EcConfigLengths | applet/src/main/java/opencrypto/jcmathlib/ECConfig.java:41-80 | inclusive thresholds 256, 384, 512 in order select (512, 768, 64), (768, 1024, 96), (1024, 1280, 128) with derived sizes; above 512 INVALIDLENGTH |
| Configs.DefaultsAre256 | applet/src/main/java/opencrypto/jcmathlib/ECConfig.java:14-31 | the field initialisers (65 and 32 derived) are the 256-bit set |
| Configs.EcConfigMatchesResources | applet/src/main/java/opencrypto/jcmathlib/ECConfig.java:58-80 | with an RSA minimum of at most 512 bits the configuration object and the resource manager choose the same lengths |
| Configs.LegacyReset | JCMathLib/src/opencrypto/jcmathlib/ECConfig.java:83-86 | both fast-path flags cleared, lengths kept |
| Configs.LegacySet | JCMathLib/src/opencrypto/jcmathlib/ECConfig.java:88-120 | as written the setter resets the flags, takes the given lengths, and sizes numbers from the helper's modulo length rather than its own |
| Configs.LegacySetFixed | JCMathLib/src/opencrypto/jcmathlib/ECConfig.java:117-120 | sized from its own modulo length the number fits that length |
| Configs.HelperInitialize | JCMathLib/src/opencrypto/jcmathlib/Bignat_Helper.java:107-188 | the helper takes the chosen modulo length, and the RSA multiplication flag is set exactly when the trial RSA encryption succeeds |
| Configs.LegacyNew | JCMathLib/src/opencrypto/jcmathlib/ECConfig.java:49-75 | the dispatch as written always ends with 65-byte numbers and the helper set to the chosen modulo length; the RSA flag follows the engine trial of the helper's initialize, the key-agreement flag is cleared; above 512 INVALIDLENGTH |
| Configs.LegacyNewFixed | JCMathLib/src/opencrypto/jcmathlib/ECConfig.java:49-75 | corrected, the number size matches the chosen modulo length |
| Configs.LegacyFixedMatchesApplet | JCMathLib/src/opencrypto/jcmathlib/ECConfig.java:58-69 | corrected, both generations choose the same lengths |
| Configs.LegacyBigNatTooSmall | JCMathLib/src/opencrypto/jcmathlib/ECConfig.java:117-120 | a 384-bit configuration gets 65-byte numbers for a 768-bit engine as written, 97 corrected |
| Configs.Ecc521Unreachable | JCMathLib/src/opencrypto/jcmathlib/ECConfig.java:58-69 | the constructor never selects the 129-byte point of the 521-bit set |
| Configs.LegacySetEcc521 | JCMathLib/src/opencrypto/jcmathlib/ECConfig.java:109-115 | the 521-bit set has both engines at 1280 bits and a 129-byte point with 64-byte coordinates |
| Sec1.RecoverY | applet/src/main/java/opencrypto/jcmathlib/ECPoint.java:722-729 | the root is kept when its parity agrees with the prefix, otherwise p - root is written |
| Sec1.Decode | applet/src/main/java/opencrypto/jcmathlib/ECPoint.java:693-737 | full length with 0x04 stores the point and answers false; the compressed length expands and answers true unless the x scratch, or once x is read the y scratch, point buffer or p scratch, is held (ALREADYLOCKED); every other input gives ECPOINT_INVALID |
| Sec1.IsYEven | applet/src/main/java/opencrypto/jcmathlib/ECPoint.java:636-644 | SW_LOCK_ALREADYLOCKED exactly when the point buffer is held; otherwise true exactly when y is even |
| Sec1.Encode | applet/src/main/java/opencrypto/jcmathlib/ECPoint.java:748-787 | compressed: the parity prefix and x, length COORD + 1; uncompressed: 0x04, x and y, length 2 COORD + 1; nothing outside the output region changes; an index error exactly when the output is too short, and SW_LOCK_ALREADYLOCKED exactly when the recomputing path (not compressed, stored prefix not 0x04) finds the x, y or p scratch number held |
| Sec1.PrefixMatchesIsYEven | applet/src/main/java/opencrypto/jcmathlib/ECPoint.java:636-756 | when isYEven answers, encode chooses 0x02 exactly when it answers true |
| Sec1.UncompressedRoundTrip | applet/src/main/java/opencrypto/jcmathlib/ECPoint.java:693-697 | decode of an uncompressed encoding gives the point back |
| Sec1.CompressedRoundTrip | applet/src/main/java/opencrypto/jcmathlib/ECPoint.java:698-756 | over an odd prime field, decode of a compressed encoding gives the point back whichever of the two roots the card computes |
| Sec1.DecodeCompressedPoint | applet/src/main/java/opencrypto/jcmathlib/ECPoint.java:698-737 | a parity prefix and x decode to the point with that y |
| Sec1.CompressedShape | applet/src/main/java/opencrypto/jcmathlib/ECPoint.java:750-756 | compressed encoding leaves the parity prefix and x at the offset |
| Sec1.RecoveredY | applet/src/main/java/opencrypto/jcmathlib/ECPoint.java:722-729 | the recovered y is the y whose parity the prefix names |
| HostCodecs.IntToBytes | JCMathLibTests/src/opencrypto/test/Util.java:127-142 | five bytes: 1 exactly for negatives, then the big-endian absolute value (2^31 for the minimum); `intToBytes` of applet/src/test/java/tests/JCMathLibTest.java:531-546 is the same |
| HostCodecs.BytesToInt | JCMathLibTests/src/opencrypto/test/Util.java:144-155 | fewer than five bytes is an index error; otherwise a 32-bit int congruent to the magnitude, negated under wrap-around when the flag is 1 |
| HostCodecs.IntRoundTrip | JCMathLibTests/src/opencrypto/test/Util.java:127-155 | decoding an encoded 32-bit int gives it back, the minimum included; the same holds for the copies in JCMathLibTest.java:531-559 |
| HostCodecs.IntCanonical | JCMathLibTests/src/opencrypto/test/Util.java:127-155 | re-encoding a decoded array gives it back exactly when it is a canonical encoding |
| HostCodecs.ShortToByteArray | JCMathLibTests/src/opencrypto/test/Util.java:62-64 | two bytes whose value is the argument mod 2^16 |
| HostCodecs.ReadShort | JCMathLibTests/src/opencrypto/test/Util.java:58-60 | a short congruent to the two bytes; an index error exactly when they are out of range |
| HostCodecs.GetShortAgrees | JCMathLibTests/src/opencrypto/test/Util.java:54-60 | `getShort` fails and answers exactly as `readShort` |
| HostCodecs.ShortRoundTrip | JCMathLibTests/src/opencrypto/test/Util.java:54-64 | reading back a written short gives the argument cast to short |
| HostCodecs.TrimLeadingZeroes | JCMathLibTests/src/opencrypto/test/Util.java:84-98 | a suffix of the input after zero bytes only, empty or with a nonzero first byte, of the same value |
| HostCodecs.TrimCanonical | JCMathLibTests/src/opencrypto/test/Util.java:84-98 | arrays of equal value trim to the same array; trimming is idempotent and keeps minimal arrays |
| HostCodecs.Concat | JCMathLibTests/src/opencrypto/test/Util.java:100-107 | a followed by b |
| HostCodecs.Concat3 | JCMathLibTests/src/opencrypto/test/Util.java:109-113 | a, b and c in order |
| HostCodecs.ConcatAssociative | JCMathLibTests/src/opencrypto/test/Util.java:100-113 | the three-argument form equals nested two-argument concatenation |
| HostCodecs.JoinArray | JCMathLibTests/src/opencrypto/test/Util.java:67-82 | the in-order concatenation, of the summed length |
| HostCodecs.BytesToHex | JCMathLibTests/src/opencrypto/test/Util.java:41-50 | two characters per byte |
| HostCodecs.BytesToHexLayout | JCMathLibTests/src/opencrypto/test/Util.java:41-50 | the characters at 2j and 2j + 1 are the upper-case high and low hex digits of byte j |
| HostCodecs.ToHex | JCMathLibTests/src/opencrypto/test/Util.java:30-39 | `bytesToHex` of the slice; an empty string for a non-positive length; an index error exactly when the slice is out of range |
| HostCodecs.ToHexAll | JCMathLibTests/src/opencrypto/test/Util.java:26-28 | `bytesToHex` of the whole array |
| HostCodecs.HexStringToByteArray | JCMathLibTests/src/opencrypto/test/Util.java:166-175 | half as many bytes as non-space characters, or a number-format error |
| HostCodecs.DecodePairsMeaning | JCMathLibTests/src/opencrypto/test/Util.java:169-173 | parsing succeeds exactly when every pair parses, and byte i is the low byte of pair i |
| HostCodecs.HexRoundTrip | JCMathLibTests/src/opencrypto/test/Util.java:41-50 | parsing the hex of any array gives it back |
| HostCodecs.SpacesIgnored | JCMathLibTests/src/opencrypto/test/Util.java:167 | a space anywhere does not change the parse |
| HostCodecs.ParseLeniency | JCMathLibTests/src/opencrypto/test/Util.java:171 | "ff" and "-1" both give 0xFF, "+1" gives 1, and "G0" fails |
| Tonelli.OddPart | applet/src/test/java/tests/JCMathLibTest.java:473-483 | the factoring loop ends with an odd Q and Q * 2^S = p - 1 |
| Tonelli.TonelliShanks | applet/src/test/java/tests/JCMathLibTest.java:470-529 | a returned value is 0 or a root of n modulo p |
| Tonelli.RoundsSquare | applet/src/test/java/tests/JCMathLibTest.java:500-522 | the outer loop keeps R^2 = n*t (mod p), so the R it leaves when t reaches 1 squares to n |
| Tonelli.ReturnedIsRoot | applet/src/test/java/tests/JCMathLibTest.java:468-529 | for 0 <= n < p a returned value always passes the final check: it is a square root of n modulo p, and nonzero when n is |
| Tonelli.NonSquareGivesZero | applet/src/test/java/tests/JCMathLibTest.java:524-528 | when n has no root modulo p a returned value is 0 (a corollary of TonelliShanks's ensures) |
| Tonelli.FuelMonotone | applet/src/test/java/tests/JCMathLibTest.java:470-529 | the outcome does not depend on the step bound once one is reached |
| Tonelli.NonSquareThrows | applet/src/test/java/tests/JCMathLibTest.java:499-515 | as written 3 modulo 7 throws from a negative exponent instead of returning 0 |
| Tonelli.ZeroNeverReturns | applet/src/test/java/tests/JCMathLibTest.java:499-508 | as written n = 0 never leaves the squaring loop |
| Tonelli.TonelliShanksFixed | applet/src/test/java/tests/JCMathLibTest.java:507 | with the commented-out bound restored it never throws, and a returned value is 0 or a root |
| Tonelli.FixedZero | applet/src/test/java/tests/JCMathLibTest.java:507 | corrected, n = 0 returns 0 |
| Tonelli.FixedNonSquare | applet/src/test/java/tests/JCMathLibTest.java:507 | corrected, 3 modulo 7 returns 0 |
| PyText.RStrip | package.py:45-46 | the longest prefix without trailing whitespace; what is dropped is whitespace |
| PyText.StripEmpty | package.py:49-52 | a line strips to empty exactly when it is whitespace only |
| PyText.TranslateJoin | package.py:53 | a text-mode write of a join turns each newline of the separator into the platform separator |
| PyText.Sort | package.py:87-88 | `sorted` gives an ordered permutation |
| PyText.SortSet | package.py:96-97 | `sorted` of a set gives an ordered sequence of exactly its elements |
| PackageTool.WordThenAt | package.py:17 | a line matches `word .*close` exactly when the word occurs with the closing character somewhere after it |
| PackageTool.Emit | package.py:45-46 | an emitted line is empty or starts with four spaces and has no trailing whitespace |
| PackageTool.EmitPlain | package.py:45-46 | without `public class ` a line is indented by four spaces and right-stripped |
| PackageTool.EmitClass | package.py:46 | a class header `public class ` + rest (rest without a further header and no trailing space) becomes `    public static class ` + rest |
| PackageTool.Step | package.py:34-46 | an end marker is dropped and clears skipping; kept lines are no import, package or registerLock line; without keep_locks they are also no lock call and no begin marker |
| PackageTool.KeptOrigin | package.py:33-46 | every kept line is the rewrite of an input line that passes the filters |
| PackageTool.LockRegionDropped | package.py:34-40 | without keep_locks everything from a begin marker to the end marker is dropped |
| PackageTool.BeginKeptWithLocks | package.py:37-46 | with keep_locks a begin-marker line is emitted like any other |
| PackageTool.BlankLineIsEmptyStrip | package.py:49-51 | the trimming test `strip() == ""` is whitespace-only |
| PackageTool.TrimBlank | package.py:48-52 | IndexError exactly when every kept line is blank; otherwise first and last lines are not blank |
| PackageTool.TrimBlankSlice | package.py:48-52 | the trimmed lines are a contiguous slice with only blank lines outside it |
| PackageTool.PackageFile | package.py:29-53 | IndexError exactly when every kept line is blank |
| PackageTool.WindowsPackageFile | package.py:53 | with "\r\n" as separator two plain lines are joined by "\r\n" |
| PackageTool.WindowsBreaksDoubled | package.py:53 | written through a text-mode file on Windows those lines are separated by "\r\r\n" |
| PackageTool.FixedBreaks | package.py:53 | joined with "\n", a text-mode write produces the platform separator once per break |
| PackageTool.Collected | package.py:12-18 | every stripped import line of every file is collected |
| PackageTool.CollectedOrigin | package.py:12-18 | conversely, everything collected is the strip of an import line of some file |
| PackageTool.RemoveSubsumed | package.py:20-26 | the loop over any iteration order computes `Subsumed`: KeyError exactly when an import is covered by two wildcards, otherwise the imports no other wildcard prefixes |
| PackageTool.SubsumedFixed | package.py:22-25 | with `discard` the result is a subset and drops exactly the covered imports |
| PackageTool.FixedAgrees | package.py:22-25 | the as-written result is the corrected one exactly when no import is doubly covered |
| PackageTool.NestedWildcards | package.py:22-25 | `import a.*;`, `import a.b.*;`, `import a.b.C;` raise KeyError as written and keep only `import a.*;` corrected |
| PackageTool.Filtered | package.py:84-86 | the three files of the fixed list at line 9 are always filtered, ObjectLocker.java exactly when locks are not kept |
| PackageTool.SelectSources | package.py:87-88 | exactly the listed `.java` names outside the filtered set |
| PackageTool.IncludedFiles | package.py:87-89 | the sorted sources followed by exactly the curve paths of the requested curves, in order |
| PackageTool.IncludedSource | package.py:87-88 | a source path is included exactly when its name is selected |
| PackageTool.LockerIncludedIffKept | package.py:84-88 | ObjectLocker.java is included exactly when locks are kept |
| PackageTool.Bodies | package.py:104-105 | succeeds exactly when every file packages, one body per file |
| PackageTool.Package | package.py:84-107 | FileNotFoundError exactly when a file is missing, otherwise KeyError exactly when imports are doubly covered; nothing is written in those two cases |
| PackageTool.PackageLayout | package.py:93-107 | the written text starts with the header; an IndexError leaves just the header; otherwise it ends with the closing brace |
| PackageTool.PackageFixed | package.py:84-107 | corrected, never KeyError, and nothing is written exactly when a file is missing |
| PackageTool.FixedSameEverywhere | package.py:93-107 | corrected, the output on any platform is the Unix output with its newlines translated |
| PackageTool.FixedAgreesOnUnix | package.py:84-107 | on Unix without a double cover the corrected tool writes what the original writes |

## Left out

- Crypto engines the library delegates to (RSA ciphers, `MessageDigest`, `KeyAgreement`, `Signature`): `mult_rsa_trick`, `mod_mult_rsa_trick`, `mod_exp`, `mod_exp2`, `mod_inv`, `sqrt_FP`, `mod_mult`, `same_value`, `isEqual` and all point arithmetic. `same_value` inside `Integer.add` is taken as equality of values; its locks on ARRAY_A and ARRAY_B are modelled (`arraysHeld`). `mod_mult` inside `Integer.multiply` is taken at its meaning, `(x * y) mod m`.
- `smaller()`: it scans for the last nonzero digit and has no contract worth stating.
- `timesAdd`/`times_add`, `mod_sub`, `divide`, `gcd`, `exponentiation`, `shift_left`, `shift_bytes_right`, `one`/`two`/`three`: not part of the modelled core.
- Java 16-bit `short` wrap-around of sizes, offsets and counters: sizes are unbounded naturals. It is modelled only where it is the point (`setValue(short)`, `IntToBytes` of `Integer.MIN_VALUE`, `readShort`). The short accumulators of `timesMinus`/`timesAddShift` stay below 65536 and are read back through `& 0xff`, so the wrap does not change their results.
- Allocator counters are unbounded integers, not shorts.
- `OperationSupport.MIN_RSA_BIT_LENGTH` is the parameter `minRsaBits`; the SHA-256 engine's output length is the parameter `hashLength`.
- The engines and key objects the `ResourceManager` constructor builds, and its `erase()`.
- The applet `ECConfig` constructor calls a five-argument `ResourceManager` constructor that the newer `ResourceManager` does not have; only `ECConfig`'s own length arithmetic is modelled. The newer `ResourceManager` uses `ObjectLocker`, which is modelled from the older generation's file.
- The older `ResourceManager.initialize`, `Bignat_Helper` and `ECPoint_Helper` wiring: `bnh` is modelled only by its modulo-length field and the RSA multiplication flag its `initialize` sets; the trial encryption that decides the flag is the parameter `rsaEngineWorks`.
- `ECPoint`: the curve square root (`modSqrt`) is the parameter `root`; the validity check `setW` performs on a curve is not modelled.
- Sec1.Encode: `getW` writes the stored point into the output before the scratch locks are taken, so on a lock failure the card's output already holds it; the model returns only the error. The locks taken inside `modSq`/`modSqrt`/`modMult` are not modelled.
- Sec1.Decode: the x scratch `EC_BN_D` is taken to hold exactly COORD_SIZE digits. The source allocates it with MAX_COORD_SIZE and never sets its size, so when its current size exceeds COORD_SIZE `prependZeros` copies to a negative offset and raises an index error, and when it is smaller `fromByteArray` reads only part of x; the model does not carry that size. The locks taken inside `modSq`/`modSqrt`/`modMult` and the lock state left after a failure are not returned either.
- `refreshAfterReset` of `ResourceManager`/`ECConfig`: only the null test around the locker's own refresh, which the model does not need.
- `Scaled.TimesMinus`: requires `mult < 256`, the documented requirement; callers pass quotient digits.
- `Division.RemainderDivide`: requires a nonzero divisor; with a zero divisor the source's divisor scan runs off the end. The quotient-digit estimate is abstracted as any multiple from 1 up to the largest one that does not overshoot, as the source's own argument states; the exact estimate formula is not modelled.
- `Division.Mod`, `Modular.ModAdd`, `Modular.ModNegate`, `Integers.Divide`, `Integers.Modulo`: require a nonzero modulus or divisor for the same reason.
- `Shifts.ShiftRight`: requires `bits < 8`, and only the public `shiftRight(bits)` (carry 0) is modelled; `divide_by_2(carry)` is modelled with carry 0.
- `Integers.Multiply`: requires a magnitude of at least one byte; with size 0 the source writes `as_byte_array()[0]` of an empty number.
- Integers.FromByteArray: the sign byte is stored before the magnitude is read, so a call that then fails on a zero or short length has already changed the sign; the model returns no integer on failure.
- Integers.Add: in the branches that subtract into the scratch the sign is written before `tmp.lock()`, so a failed call has already changed it; the model returns no integer on failure. `arraysHeld` says only that ARRAY_A or ARRAY_B is held: when ARRAY_A was free, `same_value` has locked it before failing on ARRAY_B, and that lock state is not returned.
- Integers.Subtract: a failed add has already changed the sign of `this` as described for `Integers.Add`; only the negated `other` is returned.
- Integers.Divide: the sign is set before `tmp.lock()` and the clone, so a failed call has already changed it; the model returns no integer on failure.
- Scaled.TimesAddShift: when the window does not fit, the loop has already written digits of `this` before the index goes negative; the model returns only the error.
- Scaled.MultSchoolbook: `zero()` and the rows added before the failing one have already changed `this` when the index error comes; the model returns only the error.
- Division.RemainderDivide: the quotient has been zeroed and the remainder partly reduced when a quotient write fails; the model returns only the error.
- Integers.Multiply: the sign is written before the scratch locks, so a failed call has already changed it; the model returns no integer on failure. The locks `mod_mult` takes on its own buffers are part of the engine code left out above.
- `Integers.Add`: exact results are stated for equal-length magnitudes; for different lengths only the modular equal-sign sum and the error codes are stated.
- `AddSub.AddRegionsFixed`: requires `yLength <= xLength`.
- Tonelli.TonelliShanks: the loops carry a step bound `fuel`; `OutOfSteps` stands for a loop that does not end within it. `BigInteger.modPow` is `ModPow` for non-negative exponents and throws for negative ones. That a residue modulo an odd prime does get a value back (the loops end and the exponent M-i-1 stays non-negative) is not proved: it rests on Euler's criterion and the order of t, which the model does not develop; what is proved is that any value returned for 0 <= n < p is a root of n (`Tonelli.ReturnedIsRoot`), and 0 for an n without one.
- `HostCodecs.HexStringToByteArray`: `Integer.parseInt` also accepts non-ASCII Unicode digits; the model accepts only ASCII hex digits with an optional sign.
- `HostCodecs.TrimLeadingZeroes`: the `short` counter of the source wraps past 32767 leading zeros; not modelled.
- `HostCodecs.ToHex`: the `int` arithmetic of `offset + len` is not wrapped.
- `package.py`: `get_version`, argparse, `os.listdir` and file reading and writing become parameters (the version, the directory listing, a map from path to lines, the platform line separator). Lines are modelled without their terminators, as text-mode reading yields them apart from the final `\n`.
- `PackageTool.RemoveSubsumed`: set iteration order is an explicit parameter; `PackageTool.Package` uses the order-independent `Subsumed`.
- The `[DependencyBegin:ObjectLocker]` line with `keep_locks` is emitted like any other line, as the code does.

## Findings

| source | as written | input that shows it | evidently intended | confidence | as-written member | corrected member |
|---|---|---|---|---|---|---|
| applet/src/main/java/opencrypto/jcmathlib/BigNatInternal.java:299 | static `add` loops while `j >= 0`; `add` of BigNat.java:543 has the same guard | x = [0, 0], y = [1, 2], yOffset = 1, yLength = 1: 258 is added | loop while `j >= yOffset`, adding 2 | high, not executed | AddSub.AddRegionsReadsBeforeOffset | AddSub.AddRegionsFixed |
| applet/src/main/java/opencrypto/jcmathlib/BigNatInternal.java:227 | `setValue(short)` writes `(byte)(v & 0xff00)`, always 0 | v = 0x0100 is stored as 0 | write `(byte)(v >> 8)` | high, not executed | BigNats.SetValueShortDropsHighByte | BigNats.SetValueShortFixed |
| applet/src/main/java/opencrypto/jcmathlib/Integer.java:262 | two negatives answer `!(|this| < |other|)` | -5 < -5 is true | `|other| < |this|` | high, not executed | Integers.LesserEqualNegatives | Integers.LesserFixed |
| JCMathLib/src/opencrypto/jcmathlib/ObjectLocker.java:223 | private `unlock` calls `equals` on the holder slot before the not-locked test | unlock of a registered object never locked dereferences null | raise SW_LOCK_NOTLOCKED | high, not executed | Locker.UnlockNeverLocked | Locker.UnlockFixed |
| applet/src/main/java/opencrypto/jcmathlib/ObjectAllocator.java:132 | `getAllocatorType` guard `id <= ALLOCATOR_TYPE_ARRAY_LENGTH` | id 19 indexes out of bounds | strict `<`, giving SW_ALLOCATOR_INVALIDOBJID | high, not executed | Allocator.AllocatorTypeAtLength | Allocator.GetAllocatorTypeFixed |
| JCMathLib/src/opencrypto/jcmathlib/ECConfig.java:118 | `computeDerivedLengths` reads `bnh.MODULO_RSA_ENGINE_MAX_LENGTH_BITS`, still 512 during construction | maxECLength 384 gives 65-byte numbers for a 768-bit engine | read ECConfig's own field, giving 97 | high, not executed | Configs.LegacyBigNatTooSmall | Configs.LegacyNewFixed |
| applet/src/test/java/tests/JCMathLibTest.java:507 | the bound `if (i == m) return ZERO` is commented out | n = 3, p = 7 throws from a negative exponent; n = 0 never leaves the loop | return 0 when the squaring count reaches M | medium, not executed | Tonelli.NonSquareThrows | Tonelli.TonelliShanksFixed |
| package.py:53 | bodies joined with `os.linesep` and written to a text-mode file | on Windows two lines "a", "b" are written as "    a\r\r\n    b" | join with "\n" and let the file translate | high, not executed | PackageTool.WindowsBreaksDoubled | PackageTool.FixedSameEverywhere |
| package.py:25 | `imports.remove(other)` for every covering wildcard | `import a.*;`, `import a.b.*;`, `import a.b.C;` raise KeyError | `discard`, dropping a doubly covered import once | high, not executed | PackageTool.NestedWildcards | PackageTool.SubsumedFixed |

=== FILE: addsub.dfy ===
/** Addition and subtraction with carry, the building blocks of all other
    arithmetic: the static region forms (`add`/`subtract` on byte arrays
    with offset and length), the in-place forms, and increment/decrement.
    Each loop walks from the least significant byte and stops early when
    the carry dies out, exactly as the library's loops do. */
module AddSub {
  import opened Wrappers
  import opened ReturnCodes
  import opened Radix
  import opened BigNats

  /** The first loop of `add`: columns where both operands have digits. */
  method AddColumns(x: seq<Byte>, y: seq<Byte>) returns (r: seq<Byte>, j: int, akku: int)
    ensures -1 <= j < |x| && |r| == |x| && 0 <= akku <= 1
    ensures Val(r) + Carried(akku, |x| - j - 1) == Val(x) + Val(Tail(y, |x|))
  {
    r := x;
    j := |x| - 1;
    var i := |y| - 1;
    akku := 0;
    while i >= 0 && j >= 0
      invariant -1 <= j < |x| && -1 <= i < |y| && |x| - j == |y| - i
      invariant |r| == |x| && 0 <= akku <= 1
      invariant Val(r) + Carried(akku, |x| - j - 1) == Val(x) + Val(y[i + 1..])
    {
      AddColumn(r, y, i, j, akku);
      var t := r[j] as int + akku + y[i];
      r := r[j := t % 256];
      akku := t / 256;
      i, j := i - 1, j - 1;
    }
    assert y[i + 1..] == Tail(y, |x|);
  }

  /** The second loop of `add`: the carry runs on while it is set. Ends
      with the carry out of the whole of `r`. */
  method CarryColumns(r0: seq<Byte>, j0: int, akku0: int, ghost sum: int)
    returns (r: seq<Byte>, akku: int)
    requires -1 <= j0 < |r0| && 0 <= akku0 <= 1
    requires Val(r0) + Carried(akku0, |r0| - j0 - 1) == sum
    ensures |r| == |r0| && 0 <= akku <= 1
    ensures Val(r) + Carried(akku, |r|) == sum
  {
    r, akku := r0, akku0;
    var j := j0;
    while akku > 0 && j >= 0
      invariant -1 <= j < |r| == |r0| && 0 <= akku <= 1
      invariant Val(r) + Carried(akku, |r| - j - 1) == sum
    {
      CarryColumn(r, j, akku);
      var t := r[j] as int + akku;
      r := r[j := t % 256];
      akku := t / 256;
      j := j - 1;
    }
    assert Carried(akku, |r| - j - 1) == Carried(akku, |r|);
  }

  /** The digit loops of `add`: adds the last `|x|` digits of `y` into `x`.
      Digits of `y` beyond the length of `x` are never read. */
  method AddDigits(x: seq<Byte>, y: seq<Byte>) returns (r: seq<Byte>, carry: bool)
    ensures |r| == |x|
    ensures Val(r) == (Val(x) + Val(y) % Pow256(|x|)) % Pow256(|x|)
    ensures carry <==> Val(x) + Val(y) % Pow256(|x|) >= Pow256(|x|)
  {
    var r1, j1, akku1 := AddColumns(x, y);
    ghost var t := Val(Tail(y, |x|));
    var akku;
    r, akku := CarryColumns(r1, j1, akku1, Val(x) + t);
    ValTail(y, |x|);
    Settle(Val(x) + t, |x|, akku, Val(r));
    carry := akku != 0;
  }

  /** The final column count of an addition decides result and carry. */
  lemma Settle(sum: int, n: nat, k: int, v: int)
    requires 0 <= v < Pow256(n) && 0 <= k <= 1 && v + Carried(k, n) == sum
    ensures v == sum % Pow256(n) && (k != 0 <==> sum >= Pow256(n))
  {
    DivModUnique(sum, Pow256(n), k, v);
  }

  /** The final borrow of a subtraction decides result and sign. */
  lemma SettleBorrow(diff: int, n: nat, k: int, v: int)
    requires 0 <= v < Pow256(n) && 0 <= k <= 1 && v - Carried(k, n) == diff
    ensures v == diff % Pow256(n) && (k != 0 <==> diff < 0)
  {
    DivModUnique(diff, Pow256(n), -k, v);
  }

  /** The first loop of `subtract`: columns where both operands have digits. */
  method SubtractColumns(x: seq<Byte>, y: seq<Byte>) returns (r: seq<Byte>, i: int, carry: int)
    ensures -1 <= i < |x| && |r| == |x| && 0 <= carry <= 1
    ensures Val(r) - Carried(carry, |x| - i - 1) == Val(x) - Val(Tail(y, |x|))
  {
    r := x;
    i := |x| - 1;
    var j := |y| - 1;
    carry := 0;
    while i >= 0 && j >= 0
      invariant -1 <= i < |x| && -1 <= j < |y| && |x| - i == |y| - j
      invariant |r| == |x| && 0 <= carry <= 1
      invariant Val(r) - Carried(carry, |x| - i - 1) == Val(x) - Val(y[j + 1..])
    {
      SubtractColumn(r, y, j, i, carry);
      var t := r[i] as int - y[j] - carry;
      r := r[i := t % 256];
      carry := BorrowOut(t);
      i, j := i - 1, j - 1;
    }
    assert y[j + 1..] == Tail(y, |x|);
  }

  /** The second loop of `subtract`: the borrow runs on while it is set.
      Ends with the borrow out of the whole of `r`. */
  method BorrowColumns(r0: seq<Byte>, i0: int, carry0: int, ghost diff: int)
    returns (r: seq<Byte>, carry: int)
    requires -1 <= i0 < |r0| && 0 <= carry0 <= 1
    requires Val(r0) - Carried(carry0, |r0| - i0 - 1) == diff
    ensures |r| == |r0| && 0 <= carry <= 1
    ensures Val(r) - Carried(carry, |r|) == diff
  {
    r, carry := r0, carry0;
    var i := i0;
    while i >= 0 && carry > 0
      invariant -1 <= i < |r| == |r0| && 0 <= carry <= 1
      invariant Val(r) - Carried(carry, |r| - i - 1) == diff
    {
      BorrowColumn(r, i, carry);
      var t := r[i] as int - carry;
      carry := BorrowOut(t);
      r := r[i := t % 256];
      i := i - 1;
    }
    assert Carried(carry, |r| - i - 1) == Carried(carry, |r|);
  }

  /** The digit loops of `subtract`: subtracts `y` (its last `|x|`
      digits) from `x`, modulo 256^|x|. */
  method SubtractDigits(x: seq<Byte>, y: seq<Byte>) returns (r: seq<Byte>, borrow: bool)
    ensures |r| == |x|
    ensures Val(r) == (Val(x) - Val(y) % Pow256(|x|)) % Pow256(|x|)
    ensures borrow <==> Val(x) < Val(y) % Pow256(|x|)
  {
    var r1, i1, carry1 := SubtractColumns(x, y);
    ghost var t := Val(Tail(y, |x|));
    var carry;
    r, carry := BorrowColumns(r1, i1, carry1, Val(x) - t);
    ValTail(y, |x|);
    SettleBorrow(Val(x) - t, |x|, carry, Val(r));
    borrow := carry > 0;
  }

  /** Static `add(x, xOffset, xLength, y, yOffset, yLength)` as written:
      the y index runs down to 0 rather than to `yOffset`, so every byte of
      `y` before `yOffset + yLength` is added, as far as the x region
      reaches. Returns 1 iff a carry leaves the x region. */
  method AddRegions(x: seq<Byte>, xOffset: nat, xLength: nat, y: seq<Byte>, yOffset: nat, yLength: nat)
    returns (x': seq<Byte>, carry: Byte)
    requires xOffset + xLength <= |x| && yOffset + yLength <= |y|
    ensures |x'| == |x| && x'[..xOffset] == x[..xOffset] && x'[xOffset + xLength..] == x[xOffset + xLength..]
    ensures var sum := Val(x[xOffset..xOffset + xLength]) + Val(y[..yOffset + yLength]) % Pow256(xLength);
            Val(x'[xOffset..xOffset + xLength]) == sum % Pow256(xLength)
            && (carry == 1 <==> sum >= Pow256(xLength)) && carry <= 1
  {
    var r, c := AddDigits(x[xOffset..xOffset + xLength], y[..yOffset + yLength]);
    x' := x[..xOffset] + r + x[xOffset + xLength..];
    assert x'[xOffset..xOffset + xLength] == r;
    carry := if c then 1 else 0;
  }

  /** Static `add` with the loop guard the parameters call for
      (`j >= yOffset`): exactly the y region is added. */
  method AddRegionsFixed(x: seq<Byte>, xOffset: nat, xLength: nat, y: seq<Byte>, yOffset: nat, yLength: nat)
    returns (x': seq<Byte>, carry: Byte)
    requires xOffset + xLength <= |x| && yOffset + yLength <= |y| && yLength <= xLength
    ensures |x'| == |x| && x'[..xOffset] == x[..xOffset] && x'[xOffset + xLength..] == x[xOffset + xLength..]
    ensures var sum := Val(x[xOffset..xOffset + xLength]) + Val(y[yOffset..yOffset + yLength]);
            Val(x'[xOffset..xOffset + xLength]) == sum % Pow256(xLength)
            && (carry == 1 <==> sum >= Pow256(xLength)) && carry <= 1
  {
    var yRegion := y[yOffset..yOffset + yLength];
    PowMonotone(yLength, xLength);
    DivModUnique(Val(yRegion), Pow256(xLength), 0, Val(yRegion));
    var r, c := AddDigits(x[xOffset..xOffset + xLength], yRegion);
    x' := x[..xOffset] + r + x[xOffset + xLength..];
    assert x'[xOffset..xOffset + xLength] == r;
    carry := if c then 1 else 0;
  }

  /** A two-byte zero x region and y = [1, 2] with offset 1 and length 1:
      the fixed form adds 2; as written the byte before the offset is read
      too and 258 is added. */
  method AddRegionsReadsBeforeOffset() returns (asWritten: seq<Byte>, carryAsWritten: Byte,
                                                 fixed: seq<Byte>, carryFixed: Byte)
    ensures carryAsWritten == 0 && Val(asWritten) == 258
    ensures carryFixed == 0 && Val(fixed) == 2
  {
    assert Val([1, 2]) == 258 by {
      assert [1, 2][1..] == [2];
    }
    assert Val([0, 0]) == 0 by {
      assert [0, 0][1..] == [0];
    }
    asWritten, carryAsWritten := AddRegions([0, 0], 0, 2, [1, 2], 1, 1);
    assert asWritten[0..2] == asWritten;
    assert [1, 2][..2] == [1, 2];
    fixed, carryFixed := AddRegionsFixed([0, 0], 0, 2, [1, 2], 1, 1);
    assert fixed[0..2] == fixed;
    assert [1, 2][1..2] == [2];
    assert [0, 0][0..2] == [0, 0];
  }

  /** Static `subtract(x, xOffset, xLength, y, yOffset, yLength)`: the x
      region becomes `(x - y) mod 256^xLength`; true iff it underflowed. */
  method SubtractRegions(x: seq<Byte>, xOffset: nat, xLength: nat, y: seq<Byte>, yOffset: nat, yLength: nat)
    returns (x': seq<Byte>, borrow: bool)
    requires xOffset + xLength <= |x| && yOffset + yLength <= |y|
    ensures |x'| == |x| && x'[..xOffset] == x[..xOffset] && x'[xOffset + xLength..] == x[xOffset + xLength..]
    ensures var diff := Val(x[xOffset..xOffset + xLength]) - Val(y[yOffset..yOffset + yLength]) % Pow256(xLength);
            Val(x'[xOffset..xOffset + xLength]) == diff % Pow256(xLength) && (borrow <==> diff < 0)
    ensures yLength <= xLength ==>
              var diff := Val(x[xOffset..xOffset + xLength]) - Val(y[yOffset..yOffset + yLength]);
              Val(x'[xOffset..xOffset + xLength]) == diff % Pow256(xLength) && (borrow <==> diff < 0)
  {
    var yRegion := y[yOffset..yOffset + yLength];
    if yLength <= xLength {
      PowMonotone(yLength, xLength);
      DivModUnique(Val(yRegion), Pow256(xLength), 0, Val(yRegion));
    }
    var r, b := SubtractDigits(x[xOffset..xOffset + xLength], yRegion);
    x' := x[..xOffset] + r + x[xOffset + xLength..];
    assert x'[xOffset..xOffset + xLength] == r;
    borrow := b;
  }

  /** `this` with its logical digits replaced by `d`. */
  function WithDigits(b: BigNat, d: seq<Byte>): (r: BigNat)
    requires |d| == b.size
    ensures r.size == b.size && TailKept(b, r) && Digits(r) == d && Num(r) == Val(d)
  {
    SetDigits(b, d).value
  }

  /** In-place `add(other)` of BigNatInternal (`add_carry` of the older
      library): `this := (this + other) mod 256^size`, carry out reported.
      Digits of `other` beyond `this.size` are not read. */
  method Add(b: BigNat, other: BigNat) returns (r: BigNat, carry: bool)
    ensures r.size == b.size && TailKept(b, r)
    ensures Num(r) == (Num(b) + Num(other) % Pow256(b.size)) % Pow256(b.size)
    ensures carry <==> Num(b) + Num(other) % Pow256(b.size) >= Pow256(b.size)
    ensures other.size <= b.size ==>
              Num(r) == (Num(b) + Num(other)) % Pow256(b.size)
              && (carry <==> Num(b) + Num(other) >= Pow256(b.size))
  {
    if other.size <= b.size {
      PowMonotone(other.size, b.size);
      DivModUnique(Num(other), Pow256(b.size), 0, Num(other));
    }
    var d, c := AddDigits(Digits(b), Digits(other));
    r := WithDigits(b, d);
    carry := c;
  }

  /** `add(other)` returns the carry as the byte 1 or 0. */
  function CarryByte(carry: bool): (v: Byte)
    ensures v == 1 <==> carry
    ensures v == 0 <==> !carry
  {
    if carry then 1 else 0
  }

  /** `add(short)` of BigNatInternal: the short goes through `setValue`
      into the two-byte scratch word BN_WORD, which is reserved for the
      duration; as `setValue(short)` keeps only the low byte, only
      `v mod 256` is added. */
  method AddShort(b: BigNat, word: Reserved, v: int) returns (r: Result<(BigNat, Reserved), Failure>, carry: Byte)
    requires -0x8000 <= v < 0x8000
    requires word.num.size == 2
    ensures r.Ok? <==> !word.locked
    ensures r.Err? ==> r.error == LockAlreadyLocked
    ensures r.Ok? ==> r.value.0.size == b.size && TailKept(b, r.value.0)
    ensures r.Ok? ==> Num(r.value.0) == (Num(b) + v % 256 % Pow256(b.size)) % Pow256(b.size)
    ensures r.Ok? ==> !r.value.1.locked
    ensures carry <= 1
    ensures r.Ok? ==> (carry == 1 <==> Num(b) + v % 256 % Pow256(b.size) >= Pow256(b.size))
  {
    carry := 0;
    var locked := Lock(word);
    if locked.Err? {
      return Err(locked.error), 0;
    }
    var w := SetValueShort(locked.value.num, v).value;
    var sum, c := Add(b, w);
    var released := Unlock(locked.value.(num := w)).value;
    carry := CarryByte(c);
    r := Ok((sum, released));
  }

  /** The older library's `add(short)` serialises the full short with
      `Util.setShort` before `add_carry`, so all sixteen bits are added. */
  method AddShortLegacy(b: BigNat, v: int) returns (r: BigNat, carry: bool)
    requires -0x8000 <= v < 0x8000
    ensures r.size == b.size && TailKept(b, r)
    ensures Num(r) == (Num(b) + v % 0x10000 % Pow256(b.size)) % Pow256(b.size)
    ensures carry <==> Num(b) + v % 0x10000 % Pow256(b.size) >= Pow256(b.size)
  {
    var u := v % 0x10000;
    var word := [u / 256, u % 256];
    ValSnoc([u / 256], u % 256);
    assert word == [u / 256] + [u % 256];
    var d, c := AddDigits(Digits(b), word);
    r := WithDigits(b, d);
    carry := c;
  }

  /** increment_one: `this := (this + 1) mod 256^size`; all-0xFF wraps to zero. */
  method Increment(b: BigNat) returns (r: BigNat)
    ensures r.size == b.size && TailKept(b, r)
    ensures Num(r) == (Num(b) + 1) % Pow256(b.size)
  {
    var d: seq<Byte> := Digits(b);
    var i := b.size - 1;
    var carry := 1;
    while i >= 0
      invariant -1 <= i < b.size == |d| && 0 <= carry <= 1
      invariant Val(d) + Carried(carry, b.size - i - 1) == Num(b) + 1
    {
      CarryColumn(d, i, carry);
      var t := d[i] as int + carry;
      d := d[i := t % 256];
      carry := t / 256;
      i := i - 1;
      if carry == 0 {
        break;
      }
    }
    assert Carried(carry, b.size - i - 1) == Carried(carry, b.size);
    Settle(Num(b) + 1, b.size, carry, Val(d));
    r := WithDigits(b, d);
  }

  /** decrement_one: `this := (this - 1) mod 256^size`; zero wraps to all-0xFF. */
  method Decrement(b: BigNat) returns (r: BigNat)
    ensures r.size == b.size && TailKept(b, r)
    ensures Num(r) == (Num(b) - 1) % Pow256(b.size)
  {
    var d: seq<Byte> := Digits(b);
    var i := b.size - 1;
    var borrow := 1;
    while i >= 0
      invariant -1 <= i < b.size == |d| && 0 <= borrow <= 1
      invariant Val(d) - Carried(borrow, b.size - i - 1) == Num(b) - 1
    {
      BorrowColumn(d, i, borrow);
      var t := d[i] as int - borrow;
      d := d[i := t % 256];
      borrow := BorrowOut(t);
      i := i - 1;
      if borrow == 0 {
        break;
      }
    }
    assert Carried(borrow, b.size - i - 1) == Carried(borrow, b.size);
    SettleBorrow(Num(b) - 1, b.size, borrow, Val(d));
    r := WithDigits(b, d);
  }
}

=== FILE: allocator.dfy ===
/** The allocation control point (`ObjectAllocator`): a table giving, for
    each shared helper object, the memory type it is allocated in, and two
    counters of the bytes allocated in RAM and in persistent memory. */
module Allocator {
  import opened Wrappers
  import opened ReturnCodes

  /** The JCSystem memory types. */
  const MemoryPersistent := 0
  const MemoryTransientReset := 1
  const MemoryTransientDeselect := 2

  /** Identifiers of the helper objects: indices into the type table. */
  const ArrayA := 0
  const ArrayB := 1
  const BnWord := 2
  const BnA := 3
  const BnB := 4
  const BnC := 5
  const BnD := 6
  const BnE := 7
  const BnF := 8
  const BnG := 9
  const EcBnA := 10
  const EcBnB := 11
  const EcBnC := 12
  const EcBnD := 13
  const EcBnE := 14
  const EcBnF := 15
  const PointArrayA := 16
  const PointArrayB := 17
  const HashArray := 18
  const TypeTableLength := HashArray + 1

  /** Counters are kept as unbounded integers (see the README). */
  datatype ObjectAllocator = ObjectAllocator(inRam: int, inEeprom: int, types: seq<int>)

  /** Where an allocated array lives. */
  datatype Memory = Eeprom | ClearOnReset | ClearOnDeselect

  /** What a caller asks for: a byte array or a short array of a length. */
  datatype Request = ByteArray(length: nat, memoryType: int) | ShortArray(length: nat, memoryType: int)

  /** Bytes a request occupies: a short is two bytes. */
  function Bytes(q: Request): nat {
    match q
    case ByteArray(n, _) => n
    case ShortArray(n, _) => 2 * n
  }

  predicate KnownType(t: int) {
    t == MemoryPersistent || t == MemoryTransientReset || t == MemoryTransientDeselect
  }

  /** The constructor: every object in RAM (cleared on reset), counters
      at zero. */
  function New(): (a: ObjectAllocator)
    ensures |a.types| == TypeTableLength == 19
    ensures forall id :: 0 <= id < |a.types| ==> a.types[id] == MemoryTransientReset
    ensures a.inRam == 0 && a.inEeprom == 0
  {
    ResetAllocatorCounters(SetAllAllocatorsRam(ObjectAllocator(0, 0, seq(TypeTableLength, _ => 0))))
  }

  function SetAllAllocatorsEeprom(a: ObjectAllocator): (r: ObjectAllocator)
    ensures |r.types| == |a.types| && r.inRam == a.inRam && r.inEeprom == a.inEeprom
    ensures forall id :: 0 <= id < |r.types| ==> r.types[id] == MemoryPersistent
  {
    a.(types := seq(|a.types|, _ => MemoryPersistent))
  }

  function SetAllAllocatorsRam(a: ObjectAllocator): (r: ObjectAllocator)
    ensures |r.types| == |a.types| && r.inRam == a.inRam && r.inEeprom == a.inEeprom
    ensures forall id :: 0 <= id < |r.types| ==> r.types[id] == MemoryTransientReset
  {
    a.(types := seq(|a.types|, _ => MemoryTransientReset))
  }

  /** The objects setAllocatorsTradeoff leaves in persistent memory. */
  predicate KeptPersistent(id: int) {
    id == EcBnA || id == EcBnD || id == EcBnE || id == EcBnF || id == HashArray
  }

  /** setAllocatorsTradeoff: everything persistent, then fourteen named
      objects back to RAM. */
  function SetAllocatorsTradeoff(a: ObjectAllocator): (r: ObjectAllocator)
    requires |a.types| == TypeTableLength
    ensures |r.types| == TypeTableLength && r.inRam == a.inRam && r.inEeprom == a.inEeprom
    ensures forall id :: 0 <= id < |r.types| ==>
              (r.types[id] == MemoryPersistent <==> KeptPersistent(id))
              && (r.types[id] == MemoryTransientReset <==> !KeptPersistent(id))
  {
    var e := SetAllAllocatorsEeprom(a).types;
    a.(types := seq(|e|, id requires 0 <= id < |e| => if MovedToRam(id) then MemoryTransientReset else e[id]))
  }

  /** The fourteen objects setAllocatorsTradeoff moves back to RAM. */
  predicate MovedToRam(id: int) {
    id == ArrayA || id == ArrayB || id == BnWord || id == BnA || id == BnB || id == BnC
    || id == BnD || id == BnE || id == BnF || id == BnG || id == EcBnB || id == EcBnC
    || id == PointArrayA || id == PointArrayB
  }

  /** Exactly five objects stay persistent under the tradeoff. */
  lemma TradeoffPersistentCount(a: ObjectAllocator)
    requires |a.types| == TypeTableLength
    ensures var r := SetAllocatorsTradeoff(a);
            (set id | 0 <= id < TypeTableLength && r.types[id] == MemoryPersistent) == {10, 13, 14, 15, 18}
  {
    var r := SetAllocatorsTradeoff(a);
    var s := set id | 0 <= id < TypeTableLength && r.types[id] == MemoryPersistent;
    forall id | id in s ensures id in {10, 13, 14, 15, 18} {
      assert KeptPersistent(id);
    }
    forall id | id in {10, 13, 14, 15, 18} ensures id in s {
      assert KeptPersistent(id);
    }
  }

  /** The memory an array of a known type is made in. */
  function MemoryOf(t: int): Memory
    requires KnownType(t)
  {
    if t == MemoryPersistent then Eeprom
    else if t == MemoryTransientReset then ClearOnReset
    else ClearOnDeselect
  }

  /** allocateByteArray / allocateShortArray: a known type makes the array
      in its memory and adds its bytes to the matching counter; an unknown
      type gives null and counts nothing. */
  function Allocate(a: ObjectAllocator, q: Request): (r: (ObjectAllocator, Option<Memory>))
    ensures r.0.types == a.types
    ensures r.1.Some? <==> KnownType(q.memoryType)
    ensures q.memoryType == MemoryPersistent ==>
              r.1 == Some(Eeprom) && r.0.inEeprom == a.inEeprom + Bytes(q) && r.0.inRam == a.inRam
    ensures q.memoryType == MemoryTransientReset || q.memoryType == MemoryTransientDeselect ==>
              r.0.inRam == a.inRam + Bytes(q) && r.0.inEeprom == a.inEeprom
              && r.1 == Some(if q.memoryType == MemoryTransientReset then ClearOnReset else ClearOnDeselect)
    ensures !KnownType(q.memoryType) ==> r == (a, None)
  {
    if !KnownType(q.memoryType) then (a, None)
    else if q.memoryType == MemoryPersistent then (a.(inEeprom := a.inEeprom + Bytes(q)), Some(Eeprom))
    else (a.(inRam := a.inRam + Bytes(q)), Some(MemoryOf(q.memoryType)))
  }

  /** A run of allocations, in order. */
  function AllocateAll(a: ObjectAllocator, qs: seq<Request>): ObjectAllocator
    decreases |qs|
  {
    if |qs| == 0 then a else AllocateAll(Allocate(a, qs[0]).0, qs[1..])
  }

  /** Bytes of the requests of known type. */
  function KnownBytes(qs: seq<Request>): nat
    decreases |qs|
  {
    if |qs| == 0 then 0 else (if KnownType(qs[0].memoryType) then Bytes(qs[0]) else 0) + KnownBytes(qs[1..])
  }

  /** Bookkeeping: the two counters together grow by exactly the bytes of
      the arrays actually made, and the type table is not touched. */
  lemma {:induction false} AllocationAccounting(a: ObjectAllocator, qs: seq<Request>)
    ensures AllocateAll(a, qs).inRam + AllocateAll(a, qs).inEeprom == a.inRam + a.inEeprom + KnownBytes(qs)
    ensures AllocateAll(a, qs).types == a.types
    decreases |qs|
  {
    if |qs| > 0 {
      AllocationAccounting(Allocate(a, qs[0]).0, qs[1..]);
    }
  }

  /** getAllocatorType as written: the guard admits ids up to and
      including the table length, so the length itself reaches the array
      access and fails with an index error. */
  function GetAllocatorType(a: ObjectAllocator, id: int): (r: Result<int, Failure>)
    ensures 0 <= id < |a.types| ==> r == Ok(a.types[id])
    ensures id == |a.types| ==> r == Err(ArrayIndexOutOfBounds)
    ensures (id < 0 || id > |a.types|) ==> r == Err(AllocatorInvalidObjId)
  {
    if 0 <= id <= |a.types| then
      if id < |a.types| then Ok(a.types[id]) else Err(ArrayIndexOutOfBounds)
    else Err(AllocatorInvalidObjId)
  }

  /** getAllocatorType with the strict bound: every id outside the table
      raises SW_ALLOCATOR_INVALIDOBJID. */
  function GetAllocatorTypeFixed(a: ObjectAllocator, id: int): (r: Result<int, Failure>)
    ensures r.Ok? <==> 0 <= id < |a.types|
    ensures r.Ok? ==> r.value == a.types[id]
    ensures r.Err? ==> r.error == AllocatorInvalidObjId
  {
    if 0 <= id < |a.types| then Ok(a.types[id]) else Err(AllocatorInvalidObjId)
  }

  /** id 19 on a fresh allocator: an index error as written, the
      allocator's own error code as corrected. */
  lemma AllocatorTypeAtLength()
    ensures GetAllocatorType(New(), 19) == Err(ArrayIndexOutOfBounds)
    ensures GetAllocatorTypeFixed(New(), 19) == Err(AllocatorInvalidObjId)
  {
  }

  function ResetAllocatorCounters(a: ObjectAllocator): (r: ObjectAllocator)
    ensures r.inRam == 0 && r.inEeprom == 0 && r.types == a.types
  {
    a.(inRam := 0, inEeprom := 0)
  }
}

=== FILE: bignat.dfy ===
/** The storage of a byte-array natural number (`BigNatInternal`, `BigNat`,
    and `Bignat` of the merged single-file release): a fixed buffer `value`
    whose first `size` bytes hold the number, most significant first.
    The buffer length is the maximal size; runtime reallocation is
    switched off in the library, so every request beyond it fails. */
module BigNats {
  import opened Wrappers
  import opened ReturnCodes
  import opened Radix

  datatype Buffer = Buffer(value: seq<Byte>, size: nat)

  /** A buffer whose logical size fits its storage. */
  type BigNat = b: Buffer | b.size <= |b.value| witness Buffer([], 0)

  /** The bytes that make up the number. */
  function Digits(b: BigNat): seq<Byte> {
    b.value[..b.size]
  }

  /** The number held. */
  function Num(b: BigNat): nat {
    Val(b.value[..b.size])
  }

  /** Bytes after the logical size are kept as they were. */
  predicate TailKept(b: BigNat, r: BigNat)
    requires b.size == r.size
  {
    |r.value| == |b.value| && r.value[r.size..] == b.value[b.size..]
  }

  /** A fresh number of `maxSize` bytes: storage is zero-initialised. */
  function New(maxSize: nat): (b: BigNat)
    ensures b.size == maxSize == |b.value| && Num(b) == 0
  {
    ValZeros(maxSize);
    assert Zeros(maxSize)[..maxSize] == Zeros(maxSize);
    Buffer(Zeros(maxSize), maxSize)
  }

  /** setSize: a non-destructive change of the logical size. */
  function SetSize(b: BigNat, newSize: int): (r: Result<BigNat, Failure>)
    ensures r.Ok? <==> 0 <= newSize <= |b.value|
    ensures r.Err? ==> r.error == ResizeToLonger
    ensures r.Ok? ==> r.value.size == newSize && r.value.value == b.value
  {
    if newSize < 0 || newSize > |b.value| then Err(ResizeToLonger)
    else Ok(Buffer(b.value, newSize))
  }

  /** Shrinking with setSize and growing back restores the number: the
      storage is not touched. */
  lemma SetSizeRestores(b: BigNat, n: int)
    requires SetSize(b, n).Ok?
    ensures SetSize(SetSize(b, n).value, b.size) == Ok(b)
  {
  }

  /** resizeToMax: the logical size becomes the storage size, optionally erasing. */
  function ResizeToMax(b: BigNat, erase: bool): (r: BigNat)
    ensures r.size == |r.value| == |b.value|
    ensures erase ==> Num(r) == 0
    ensures !erase ==> r.value == b.value
  {
    var s := Buffer(b.value, |b.value|);
    if erase then Erase(s) else s
  }

  /** deepResize: keeps the low-order `newSize` bytes of the number. A real
      resize moves the bytes through the manager's shared byte buffer, which
      it locks first; `bufferLocked` says whether that buffer is already held. */
  function DeepResize(b: BigNat, newSize: nat, bufferLocked: bool): (r: Result<BigNat, Failure>)
    ensures r.Ok? <==> newSize <= |b.value| && (newSize == b.size || !bufferLocked)
    ensures r.Err? ==> r.error == (if newSize > |b.value| then ReallocationNotAllowed else LockAlreadyLocked)
    ensures r.Ok? ==> r.value.size == newSize && |r.value.value| == |b.value|
    ensures r.Ok? ==> Num(r.value) == Num(b) % Pow256(newSize)
    ensures r.Ok? && newSize >= b.size ==> Num(r.value) == Num(b)
    ensures r.Ok? && newSize < b.size ==> AllZero(r.value.value[newSize..])
  {
    if newSize > |b.value| then Err(ReallocationNotAllowed)
    else if newSize == b.size then
      DivModUnique(Num(b), Pow256(newSize), 0, Num(b));
      Ok(b)
    else if bufferLocked then Err(LockAlreadyLocked)
    else if b.size >= newSize then
      var kept := b.value[b.size - newSize..b.size];
      var v := kept + Zeros(|b.value| - newSize);
      assert v[..newSize] == kept;
      assert v[newSize..] == Zeros(|b.value| - newSize);
      assert kept == Tail(Digits(b), newSize);
      ValTail(Digits(b), newSize);
      Ok(Buffer(v, newSize))
    else
      var v := Zeros(newSize - b.size) + Digits(b) + b.value[newSize..];
      assert v[..newSize] == Zeros(newSize - b.size) + Digits(b);
      ValLeadingZeros(Zeros(newSize - b.size), Digits(b));
      PowMonotone(b.size, newSize);
      DivModUnique(Num(b), Pow256(newSize), 0, Num(b));
      Ok(Buffer(v, newSize))
  }

  /** shrink: drops leading zero bytes without changing the number. Only a
      number that has leading zeros is resized, so only then does a held
      byte buffer make it fail. */
  method Shrink(b: BigNat, bufferLocked: bool) returns (r: Result<BigNat, Failure>)
    ensures r.Ok? <==> !bufferLocked || b.size == 0 || b.value[0] != 0
    ensures r.Err? ==> r.error == LockAlreadyLocked
    ensures r.Ok? ==> Num(r.value) == Num(b)
    ensures r.Ok? ==> r.value.size <= b.size && |r.value.value| == |b.value|
    ensures r.Ok? ==> r.value.size == 0 || r.value.value[0] != 0
  {
    var i := LeadingZeros(b);
    var res := DeepResize(b, b.size - i, bufferLocked);
    if res.Err? {
      return Err(LockAlreadyLocked);
    }
    Shrunk(b, i, res.value);
    return Ok(res.value);
  }

  /** The number of leading zero bytes of the number. */
  method LeadingZeros(b: BigNat) returns (i: nat)
    ensures i <= b.size && AllZero(b.value[..i])
    ensures i < b.size ==> b.value[i] != 0
  {
    i := 0;
    while i < b.size && b.value[i] == 0
      invariant 0 <= i <= b.size
      invariant AllZero(b.value[..i])
    {
      assert b.value[..i + 1] == b.value[..i] + [0];
      i := i + 1;
    }
  }

  /** Dropping `i` leading zero bytes keeps the number and leaves a
      non-zero leading byte. */
  lemma Shrunk(b: BigNat, i: nat, s: BigNat)
    requires i <= b.size && AllZero(b.value[..i]) && (i < b.size ==> b.value[i] != 0)
    requires DeepResize(b, b.size - i, false) == Ok(s)
    ensures Num(s) == Num(b) && s.size <= b.size && |s.value| == |b.value|
    ensures s.size == 0 || s.value[0] != 0
  {
    ZerosDropped(b, i);
    DivModUnique(Num(b), Pow256(b.size - i), 0, Num(b));
    if 0 < i < b.size {
      assert s.value[..b.size - i] == b.value[i..b.size];
    }
  }

  lemma ZerosDropped(b: BigNat, i: nat)
    requires i <= b.size && AllZero(b.value[..i])
    ensures Num(b) == Val(b.value[i..b.size]) < Pow256(b.size - i)
  {
    var d := Digits(b);
    assert d[..i] == b.value[..i];
    assert d[i..] == b.value[i..b.size];
    ValSplit(d, i);
    ValAllZero(d[..i]);
  }

  /** zero: clears the logical bytes, keeps the size. */
  function Zero(b: BigNat): (r: BigNat)
    ensures r.size == b.size && TailKept(b, r)
    ensures Num(r) == 0
  {
    var v := Zeros(b.size) + b.value[b.size..];
    assert v[..b.size] == Zeros(b.size);
    ValZeros(b.size);
    Buffer(v, b.size)
  }

  /** erase: clears the whole storage. */
  function Erase(b: BigNat): (r: BigNat)
    ensures r.size == b.size && |r.value| == |b.value|
    ensures AllZero(r.value) && Num(r) == 0
  {
    assert Zeros(|b.value|)[..b.size] == Zeros(b.size);
    ValZeros(b.size);
    Buffer(Zeros(|b.value|), b.size)
  }

  /** setValue(byte): the number becomes the byte, size unchanged; an empty
      number has no place to write it. */
  function SetValueByte(b: BigNat, v: Byte): (r: Result<BigNat, Failure>)
    ensures r.Ok? <==> b.size >= 1
    ensures r.Err? ==> r.error == ArrayIndexOutOfBounds
    ensures r.Ok? ==> r.value.size == b.size && TailKept(b, r.value) && Num(r.value) == v
  {
    if b.size == 0 then Err(ArrayIndexOutOfBounds)
    else
      var d := Zeros(b.size - 1) + [v];
      assert d[..|d| - 1] == Zeros(b.size - 1);
      ValLeadingZerosLast(d);
      SetDigits(b, d)
  }

  /** Puts the digits `d` into the logical part of `b`. */
  function SetDigits(b: BigNat, d: seq<Byte>): (r: Result<BigNat, Failure>)
    requires |d| == b.size
    ensures r.Ok? && r.value.size == b.size && TailKept(b, r.value)
    ensures Digits(r.value) == d && Num(r.value) == Val(d)
  {
    var v := d + b.value[b.size..];
    assert v[..b.size] == d;
    Ok(Buffer(v, b.size))
  }

  /** Helper fact for digit strings that are zero except the last digits. */
  lemma ValLeadingZerosLast(d: seq<Byte>)
    ensures |d| > 0 && AllZero(d[..|d| - 1]) ==> Val(d) == d[|d| - 1]
  {
    if |d| > 0 && AllZero(d[..|d| - 1]) {
      assert d == d[..|d| - 1] + [d[|d| - 1]];
      ValLeadingZeros(d[..|d| - 1], [d[|d| - 1]]);
    }
  }

  /** The low byte of a Java `short`, as `v & 0xff` computes it. */
  function LowByte(v: int): Byte {
    v % 256
  }

  /** setValue(short) as written: the second byte is `(byte)(v & 0xff00)`,
      whose low eight bits are always zero, so only the low byte of `v`
      survives. A size below 2 indexes before the buffer. */
  function SetValueShort(b: BigNat, v: int): (r: Result<BigNat, Failure>)
    requires -0x8000 <= v < 0x8000
    ensures r.Ok? <==> b.size >= 2
    ensures r.Err? ==> r.error == ArrayIndexOutOfBounds
    ensures r.Ok? ==> r.value.size == b.size && TailKept(b, r.value)
    ensures r.Ok? ==> Num(r.value) == v % 256
  {
    if b.size < 2 then Err(ArrayIndexOutOfBounds)
    else
      var high := ((v % 0x10000) / 256 * 256) % 256; // (byte)(v & 0xff00)
      assert high == 0;
      var d := Zeros(b.size - 2) + [high, LowByte(v)];
      assert AllZero(d[..|d| - 1]);
      ValLeadingZerosLast(d);
      SetDigits(b, d)
  }

  /** setValue(short) as evidently intended: the high byte is `v >> 8`. */
  function SetValueShortFixed(b: BigNat, v: int): (r: Result<BigNat, Failure>)
    requires -0x8000 <= v < 0x8000
    ensures r.Ok? <==> b.size >= 2
    ensures r.Err? ==> r.error == ArrayIndexOutOfBounds
    ensures r.Ok? ==> r.value.size == b.size && TailKept(b, r.value)
    ensures r.Ok? ==> Num(r.value) == v % 0x10000
  {
    if b.size < 2 then Err(ArrayIndexOutOfBounds)
    else
      var u := v % 0x10000;
      var pair := [u / 256, u % 256];
      var d := Zeros(b.size - 2) + pair;
      assert d == Zeros(b.size - 2) + pair;
      ValLeadingZeros(Zeros(b.size - 2), pair);
      ValSnoc([u / 256], u % 256);
      assert pair == [u / 256] + [u % 256];
      SetDigits(b, d)
  }

  /** The high byte is lost: 0x0100 is stored as zero. */
  lemma SetValueShortDropsHighByte(b: BigNat)
    requires b.size >= 2
    ensures SetValueShort(b, 0x100).Ok? && Num(SetValueShort(b, 0x100).value) == 0
    ensures SetValueShortFixed(b, 0x100).Ok? && Num(SetValueShortFixed(b, 0x100).value) == 0x100
  {
  }

  /** copy: the other number in this size; it fails when the other has a
      nonzero byte that does not fit. */
  function Copy(b: BigNat, other: BigNat): (r: Result<BigNat, Failure>)
    ensures r.Ok? <==> Num(other) < Pow256(b.size)
    ensures r.Err? ==> r.error == InvalidCopyOther
    ensures r.Ok? ==> r.value.size == b.size && TailKept(b, r.value) && Num(r.value) == Num(other)
  {
    var od := Digits(other);
    if b.size >= other.size then
      var d := Zeros(b.size - other.size) + od;
      ValLeadingZeros(Zeros(b.size - other.size), od);
      PowMonotone(other.size, b.size);
      SetDigits(b, d)
    else
      var start := other.size - b.size;
      FitsIffLeadingZeros(od, start);
      if !AllZero(other.value[..start]) then
        assert other.value[..start] == od[..start];
        Err(InvalidCopyOther)
      else
        assert other.value[..start] == od[..start];
        SetDigits(b, od[start..])
  }

  /** A digit string fits in its last `|s| - k` digits exactly when the
      first `k` are zero. */
  lemma FitsIffLeadingZeros(s: seq<Byte>, k: nat)
    requires k <= |s|
    ensures Val(s) < Pow256(|s| - k) <==> AllZero(s[..k])
    ensures AllZero(s[..k]) ==> Val(s) == Val(s[k..])
  {
    ValSplit(s, k);
    ValAllZero(s[..k]);
    if !AllZero(s[..k]) {
      MulMono(1, Val(s[..k]), Pow256(|s| - k));
    }
  }

  /** clone: takes over the other's size and number; zeroes the rest. */
  function Clone(b: BigNat, other: BigNat): (r: Result<BigNat, Failure>)
    ensures r.Ok? <==> other.size <= |b.value|
    ensures r.Err? ==> r.error == ReallocationNotAllowed
    ensures r.Ok? ==> r.value.size == other.size && |r.value.value| == |b.value|
    ensures r.Ok? ==> Num(r.value) == Num(other) && AllZero(r.value.value[other.size..])
  {
    if other.size > |b.value| then Err(ReallocationNotAllowed)
    else
      var v := Digits(other) + Zeros(|b.value| - other.size);
      assert v[..other.size] == Digits(other);
      assert v[other.size..] == Zeros(|b.value| - other.size);
      Ok(Buffer(v, other.size))
  }

  /** copyToBuffer(buffer, bufferOffset): the logical bytes, in order,
      written into the caller's buffer at the offset; returns the buffer
      and the count `size`. A buffer too short for them is an index error. */
  function CopyToBuffer(b: BigNat, buffer: seq<Byte>, bufferOffset: nat)
    : (r: Result<(seq<Byte>, nat), Failure>)
    ensures r.Ok? <==> bufferOffset + b.size <= |buffer|
    ensures r.Err? ==> r.error == ArrayIndexOutOfBounds
    ensures r.Ok? ==> r.value.1 == b.size && |r.value.0| == |buffer|
    ensures r.Ok? ==> Val(r.value.0[bufferOffset..bufferOffset + b.size]) == Num(b)
    ensures r.Ok? ==>
              r.value.0[..bufferOffset] == buffer[..bufferOffset]
              && r.value.0[bufferOffset + b.size..] == buffer[bufferOffset + b.size..]
  {
    if bufferOffset + b.size > |buffer| then Err(ArrayIndexOutOfBounds)
    else
      var out := buffer[..bufferOffset] + Digits(b) + buffer[bufferOffset + b.size..];
      assert out[..bufferOffset] == buffer[..bufferOffset];
      assert out[bufferOffset..bufferOffset + b.size] == Digits(b);
      assert out[bufferOffset + b.size..] == buffer[bufferOffset + b.size..];
      Ok((out, b.size))
  }

  /** prependZeros: the number written into `targetLength` bytes. */
  function PrependZeros(b: BigNat, targetLength: nat): (out: seq<Byte>)
    requires targetLength >= b.size
    ensures |out| == targetLength && Val(out) == Num(b)
  {
    ValLeadingZeros(Zeros(targetLength - b.size), Digits(b));
    Zeros(targetLength - b.size) + Digits(b)
  }

  /** appendZeros: the number followed by zero bytes, i.e. scaled up. */
  function AppendZeros(b: BigNat, targetLength: nat): (out: seq<Byte>)
    requires targetLength >= b.size
    ensures |out| == targetLength
    ensures Val(out) == Num(b) * Pow256(targetLength - b.size)
  {
    ValConcat(Digits(b), Zeros(targetLength - b.size));
    ValZeros(targetLength - b.size);
    Digits(b) + Zeros(targetLength - b.size)
  }

  /** isZero. */
  method IsZero(b: BigNat) returns (z: bool)
    ensures z <==> Num(b) == 0
  {
    ValAllZero(Digits(b));
    var i := 0;
    while i < b.size
      invariant 0 <= i <= b.size
      invariant forall k :: 0 <= k < i ==> b.value[k] == 0
    {
      if b.value[i] != 0 {
        assert Digits(b)[i] != 0;
        return false;
      }
      i := i + 1;
    }
    assert AllZero(Digits(b));
    return true;
  }

  /** isOne; reads the last byte, so an empty number is out of bounds. */
  method IsOne(b: BigNat) returns (r: Result<bool, Failure>)
    ensures r.Ok? <==> b.size >= 1
    ensures r.Err? ==> r.error == ArrayIndexOutOfBounds
    ensures r.Ok? ==> (r.value <==> Num(b) == 1)
  {
    if b.size == 0 {
      return Err(ArrayIndexOutOfBounds);
    }
    var d := Digits(b);
    ValLeadingZerosLast(d);
    FitsIffLeadingZeros(d, b.size - 1);
    assert d[b.size - 1..] == [d[b.size - 1]];
    var i := 0;
    while i < b.size - 1
      invariant 0 <= i <= b.size - 1
      invariant forall k :: 0 <= k < i ==> b.value[k] == 0
    {
      if b.value[i] != 0 {
        assert d[..b.size - 1][i] != 0;
        return Ok(false);
      }
      i := i + 1;
    }
    assert AllZero(d[..b.size - 1]);
    return Ok(b.value[b.size - 1] == 1);
  }

  /** isOdd; reads the last byte. */
  function IsOdd(b: BigNat): (r: Result<bool, Failure>)
    ensures r.Ok? <==> b.size >= 1
    ensures r.Err? ==> r.error == ArrayIndexOutOfBounds
    ensures r.Ok? ==> (r.value <==> Num(b) % 2 == 1)
  {
    if b.size == 0 then Err(ArrayIndexOutOfBounds)
    else
      ValParity(Digits(b));
      Ok(b.value[b.size - 1] % 2 == 1)
  }

  /** fromByteArray(source, offset, length): reads at most `size` bytes into
      the front of the buffer; returns `length + 1` when the length matched
      the size exactly, else the count read. */
  function FromByteArray(b: BigNat, source: seq<Byte>, offset: nat, length: nat)
    : (r: Result<(BigNat, int), Failure>)
    ensures r.Ok? <==> offset + (if length <= b.size then length else b.size) <= |source|
    ensures r.Err? ==> r.error == ArrayIndexOutOfBounds
    ensures r.Ok? ==> r.value.0.size == b.size && |r.value.0.value| == |b.value|
    ensures r.Ok? && length == b.size ==>
              r.value.1 == length + 1 && Num(r.value.0) == Val(source[offset..offset + length])
    ensures r.Ok? && length != b.size ==> r.value.1 == if length < b.size then length else b.size
    ensures r.Ok? && length < b.size ==>
              r.value.0.value[..length] == source[offset..offset + length]
              && r.value.0.value[length..] == b.value[length..]
    ensures r.Ok? && length > b.size ==>
              Num(r.value.0) == Val(source[offset..offset + b.size])
              && r.value.0.value[b.size..] == b.value[b.size..]
  {
    var max := if length <= b.size then length else b.size;
    if offset + max > |source| then Err(ArrayIndexOutOfBounds)
    else
      var v := source[offset..offset + max] + b.value[max..];
      assert v[..max] == source[offset..offset + max];
      Ok((Buffer(v, b.size), if length == b.size then length + 1 else max))
  }

  /** Serialising with copyToBuffer at any offset that fits and reading
      back from that offset into a number of the same size gives the same
      number. */
  lemma FromByteArrayRoundTrip(b: BigNat, target: BigNat, buffer: seq<Byte>, offset: nat)
    requires target.size == b.size && offset + b.size <= |buffer|
    ensures CopyToBuffer(b, buffer, offset).Ok?
    ensures FromByteArray(target, CopyToBuffer(b, buffer, offset).value.0, offset, b.size).Ok?
    ensures Num(FromByteArray(target, CopyToBuffer(b, buffer, offset).value.0, offset, b.size).value.0) == Num(b)
  {
    var out := CopyToBuffer(b, buffer, offset).value.0;
    assert Val(out[offset..offset + b.size]) == Num(b);
  }

  /** The logical reservation flag of a number (`lock`/`unlock`). */
  datatype Reserved = Reserved(num: BigNat, locked: bool)

  function Lock(x: Reserved): (r: Result<Reserved, Failure>)
    ensures r.Ok? <==> !x.locked
    ensures r.Err? ==> r.error == LockAlreadyLocked
    ensures r.Ok? ==> r.value.locked && r.value.num == x.num
  {
    if x.locked then Err(LockAlreadyLocked) else Ok(x.(locked := true))
  }

  function Unlock(x: Reserved): (r: Result<Reserved, Failure>)
    ensures r.Ok? <==> x.locked
    ensures r.Err? ==> r.error == LockNotLocked
    ensures r.Ok? ==> !r.value.locked && r.value.num == x.num
  {
    if !x.locked then Err(LockNotLocked) else Ok(x.(locked := false))
  }

  /** A lock followed by an unlock restores the reservation state, and a
      second lock in between is refused. */
  lemma LockUnlockPair(x: Reserved)
    requires !x.locked
    ensures Unlock(Lock(x).value) == Ok(x)
    ensures Lock(Lock(x).value) == Err(LockAlreadyLocked)
  {
  }
}

=== FILE: compare.dfy ===
/** Scaled comparison (`shiftLesser`) and plain comparison (`lesser`):
    the digits of `this` from position `start` on are compared, most
    significant first, against `other` shifted `shift` digits to the left
    and aligned at the right end of `this`. */
module Compare {
  import opened Radix
  import opened BigNats

  /** The digit of `other * 256^shift` that faces digit `start + k` of a
      number of `size` digits; digits outside `other` count as zero. */
  function Aligned(other: BigNat, shift: nat, size: nat, start: nat): (a: seq<Byte>)
    requires start <= size
    ensures |a| == size - start
  {
    seq(size - start, k requires 0 <= k < size - start =>
      var j := other.size + shift - size + start + k;
      if 0 <= j < other.size then other.value[j] else 0)
  }

  /** The aligned digits spell the low `size - start` digits of the shifted
      `other`. */
  lemma AlignedVal(other: BigNat, shift: nat, size: nat, start: nat)
    requires start <= size
    ensures Val(Aligned(other, shift, size, start)) == (Num(other) * Pow256(shift)) % Pow256(size - start)
  {
    var a := Aligned(other, shift, size, start);
    var w := Digits(other) + Zeros(shift);
    var n := size - start;
    ValConcat(Digits(other), Zeros(shift));
    ValZeros(shift);
    assert Val(w) == Num(other) * Pow256(shift);
    if |w| >= n {
      assert a == w[|w| - n..];
      assert Tail(w, n) == w[|w| - n..];
      ValTail(w, n);
    } else {
      var z := Zeros(n - |w|);
      assert a == z + w;
      ValLeadingZeros(z, w);
      PowMonotone(|w|, n);
      DivModUnique(Val(w), Pow256(n), 0, Val(w));
    }
  }

  /** For strings of equal length, the first differing digit decides. */
  lemma LexLess(x: seq<Byte>, y: seq<Byte>, k: nat)
    requires |x| == |y| && k < |x| && x[..k] == y[..k] && x[k] < y[k]
    ensures Val(x) < Val(y)
  {
    var p: int := Pow256(|x| - (k + 1));
    ValSplit(x, k + 1);
    ValSplit(y, k + 1);
    var hx: int, hy: int := Val(x[..k + 1]), Val(y[..k + 1]);
    var lx: int, ly: int := Val(x[k + 1..]), Val(y[k + 1..]);
    assert Val(x) == hx * p + lx;
    assert Val(y) == hy * p + ly;
    ValPrefixStep(x, k);
    ValPrefixStep(y, k);
    assert hx + 1 <= hy;
    HighDigitDecides(hx, hy, lx, ly, p);
  }

  lemma HighDigitDecides(hx: int, hy: int, lx: int, ly: int, p: int)
    requires hx + 1 <= hy && 0 <= lx < p && 0 <= ly
    ensures hx * p + lx < hy * p + ly
  {
    MulMono(hx + 1, hy, p);
  }

  /** shiftLesser: true iff the digits of `this` from `start` on are less
      than the aligned digits of `other * 256^shift`. When `start` lies
      beyond the size, nothing is compared and the answer is false. */
  method ShiftLesser(b: BigNat, other: BigNat, shift: nat, start: nat) returns (lt: bool)
    ensures start <= b.size ==>
              (lt <==> Val(b.value[start..b.size]) < (Num(other) * Pow256(shift)) % Pow256(b.size - start))
    ensures start > b.size ==> !lt
  {
    if start > b.size {
      return false;
    }
    var a := Aligned(other, shift, b.size, start);
    var x := b.value[start..b.size];
    AlignedVal(other, shift, b.size, start);
    var i := start;
    var j := other.size + shift - b.size + start;
    while i < b.size
      invariant start <= i <= b.size && j == other.size + shift - b.size + i
      invariant x[..i - start] == a[..i - start]
    {
      var mine := b.value[i];
      var theirs := if 0 <= j < other.size then other.value[j] else 0;
      assert theirs == a[i - start] && mine == x[i - start];
      if mine < theirs {
        LexLess(x, a, i - start);
        return true;
      }
      if mine > theirs {
        LexLess(a, x, i - start);
        return false;
      }
      assert x[..i + 1 - start] == a[..i + 1 - start];
      i, j := i + 1, j + 1;
    }
    assert x == x[..i - start] && a == a[..i - start];
    lt := false;
  }

  /** lesser: `shiftLesser(other, 0, 0)`. Digits of `other` beyond the size
      of `this` are not looked at, so the comparison is against `other`
      reduced modulo 256^size; it is exact when `other` fits. */
  method Lesser(b: BigNat, other: BigNat) returns (lt: bool)
    ensures lt <==> Num(b) < Num(other) % Pow256(b.size)
    ensures Num(other) < Pow256(b.size) ==> (lt <==> Num(b) < Num(other))
  {
    lt := ShiftLesser(b, other, 0, 0);
    assert b.value[0..b.size] == Digits(b);
    assert Num(other) * Pow256(0) == Num(other) && b.size - 0 == b.size;
    if Num(other) < Pow256(b.size) {
      DivModUnique(Num(other), Pow256(b.size), 0, Num(other));
    }
  }

  /** The digits skipped by `lesser` matter: whenever `other` reaches
      256^size and its low digits spell at most `this`, `lesser` answers
      false although `this` is the smaller number (`this` = 0 of one digit
      against `other` = 256 is one such pair). */
  method LesserIgnoresHighDigits(b: BigNat, other: BigNat) returns (lt: bool)
    ensures Num(other) >= Pow256(b.size) && Num(other) % Pow256(b.size) <= Num(b) ==>
              !lt && Num(b) < Num(other)
  {
    lt := Lesser(b, other);
    assert Num(b) < Pow256(|Digits(b)|);
  }
}

=== FILE: configs.dfy ===
/** The curve-length configuration objects (`ECConfig`) of both library
    generations: the dispatch from the largest curve length to one of the
    fixed length sets, and the derived sizes. The older generation also
    clears two speed-up flags before every change and reads the modulo
    engine length for the derived number size from its number helper. */
module Configs {
  import opened Wrappers
  import opened ReturnCodes
  import opened Resources

  /** The field initialisers: the 256-bit set. */
  const Defaults := Lengths(512, 768, 65, 64, 32)

  /** setECC256Config / setECC384Config / setECC512Config of the newer
      generation, with computeDerivedLengths. */
  function SetEcc256(): Lengths { Derive(512, 768, 64) }
  function SetEcc384(): Lengths { Derive(768, 1024, 96) }
  function SetEcc512(): Lengths { Derive(1024, 1280, 128) }

  /** The constructor's dispatch: thresholds inclusive, tested in
      ascending order; a curve longer than 512 bits raises
      SW_ECPOINT_INVALIDLENGTH. */
  function EcConfigLengths(maxEcLength: int): (r: Result<Lengths, Failure>)
    ensures r.Err? <==> maxEcLength > 512
    ensures r.Err? ==> r.error == EcPointInvalidLength
    ensures r.Ok? ==>
              r.value.moduloBits >= 2 * maxEcLength && 8 * r.value.coordSize >= maxEcLength
              && 8 * (r.value.bigNatSize - 1) == r.value.moduloBits
              && r.value.multBits == r.value.moduloBits + 256
  {
    if maxEcLength <= 256 then Ok(SetEcc256())
    else if maxEcLength <= 384 then Ok(SetEcc384())
    else if maxEcLength <= 512 then Ok(SetEcc512())
    else Err(EcPointInvalidLength)
  }

  /** The field initialisers agree with the 256-bit set, which every
      length up to 256 bits selects. */
  lemma DefaultsAre256(maxEcLength: int)
    requires maxEcLength <= 256
    ensures EcConfigLengths(maxEcLength) == Ok(Defaults)
  {
  }

  /** The configuration object and the resource manager agree whenever the
      card accepts RSA engines of 512 bits: no length is raised then. */
  lemma EcConfigMatchesResources(maxEcLength: int, minRsaBits: int)
    requires minRsaBits <= 512
    ensures EcConfigLengths(maxEcLength) == ResourceLengths(maxEcLength, minRsaBits)
  {
  }

  /** The older configuration object: the lengths, the modulo engine
      length its number helper holds, and the two speed-up flags
      (FLAG_FAST_MULT_VIA_RSA of the number helper, FLAG_FAST_EC_MULT_VIA_KA
      of the point helper). */
  datatype LegacyConfig = LegacyConfig(lengths: Lengths, helperModuloBits: int, fastMultViaRsa: bool, fastEcMultViaKa: bool)

  /** A fresh object: the field initialisers, the helper's own initialiser
      (512 bits) and the helper flags as the helpers leave them. */
  function LegacyFresh(fastMultViaRsa: bool, fastEcMultViaKa: bool): (c: LegacyConfig)
    ensures c.lengths == Defaults && c.helperModuloBits == 512
  {
    LegacyConfig(Defaults, 512, fastMultViaRsa, fastEcMultViaKa)
  }

  /** reset: both speed-up flags cleared. */
  function LegacyReset(c: LegacyConfig): (r: LegacyConfig)
    ensures !r.fastMultViaRsa && !r.fastEcMultViaKa
    ensures r.lengths == c.lengths && r.helperModuloBits == c.helperModuloBits
  {
    c.(fastMultViaRsa := false, fastEcMultViaKa := false)
  }

  /** A setECC*Config of the older generation as written: reset, the
      three lengths, then computeDerivedLengths, which takes the number
      size from the helper's modulo length rather than the one just set. */
  function LegacySet(c: LegacyConfig, moduloBits: int, multBits: int, pointSize: int): (r: LegacyConfig)
    requires pointSize >= 0 && c.helperModuloBits >= 0
    ensures !r.fastMultViaRsa && !r.fastEcMultViaKa && r.helperModuloBits == c.helperModuloBits
    ensures r.lengths.moduloBits == moduloBits && r.lengths.multBits == multBits && r.lengths.pointSize == pointSize
    ensures 8 * (r.lengths.bigNatSize - 1) <= c.helperModuloBits < 8 * r.lengths.bigNatSize
    ensures 2 * r.lengths.coordSize <= pointSize <= 2 * r.lengths.coordSize + 1
  {
    var d := Derive(c.helperModuloBits, multBits, pointSize);
    LegacyReset(c).(lengths := d.(moduloBits := moduloBits))
  }

  /** The same setter taking the number size from the modulo length it
      has just set, as the newer generation does. */
  function LegacySetFixed(c: LegacyConfig, moduloBits: int, multBits: int, pointSize: int): (r: LegacyConfig)
    requires pointSize >= 0 && moduloBits >= 0
    ensures !r.fastMultViaRsa && !r.fastEcMultViaKa && r.helperModuloBits == c.helperModuloBits
    ensures r.lengths == Derive(moduloBits, multBits, pointSize)
    ensures 8 * (r.lengths.bigNatSize - 1) <= moduloBits < 8 * r.lengths.bigNatSize
  {
    LegacyReset(c).(lengths := Derive(moduloBits, multBits, pointSize))
  }

  /** setECC521Config: the one set the constructor never selects. */
  const Ecc521Point := 129

  /** The number helper's initialize: it stores the chosen modulo length
      and sets the RSA multiplication flag exactly when its trial
      encryption on the card's RSA engine (`rsaEngineWorks`) goes through. */
  function HelperInitialize(s: LegacyConfig, rsaEngineWorks: bool): (r: LegacyConfig)
    ensures r.helperModuloBits == s.lengths.moduloBits && r.lengths == s.lengths
    ensures r.fastMultViaRsa == rsaEngineWorks && r.fastEcMultViaKa == s.fastEcMultViaKa
  {
    s.(helperModuloBits := s.lengths.moduloBits, fastMultViaRsa := rsaEngineWorks)
  }

  /** The older constructor as written: the dispatch (each branch one
      setter), then the number helper's initialize, which is the first
      thing to store the chosen modulo length in the helper. */
  function LegacyNew(maxEcLength: int, fastMultViaRsa: bool, fastEcMultViaKa: bool, rsaEngineWorks: bool)
    : (r: Result<LegacyConfig, Failure>)
    ensures r.Err? <==> maxEcLength > 512
    ensures r.Err? ==> r.error == EcPointInvalidLength
    ensures r.Ok? ==> r.value.lengths.bigNatSize == 65
    ensures r.Ok? ==> r.value.helperModuloBits == r.value.lengths.moduloBits
    ensures r.Ok? ==> r.value.fastMultViaRsa == rsaEngineWorks && !r.value.fastEcMultViaKa
  {
    var c := LegacyFresh(fastMultViaRsa, fastEcMultViaKa);
    var chosen :=
      if maxEcLength <= 256 then Ok(LegacySet(c, 512, 768, 64))
      else if maxEcLength <= 384 then Ok(LegacySet(c, 768, 1024, 96))
      else if maxEcLength <= 512 then Ok(LegacySet(c, 1024, 1280, 128))
      else Err(EcPointInvalidLength);
    var s :- chosen;
    Ok(HelperInitialize(s, rsaEngineWorks))
  }

  /** The older constructor with the corrected setter. */
  function LegacyNewFixed(maxEcLength: int, fastMultViaRsa: bool, fastEcMultViaKa: bool, rsaEngineWorks: bool)
    : (r: Result<LegacyConfig, Failure>)
    ensures r.Err? <==> maxEcLength > 512
    ensures r.Err? ==> r.error == EcPointInvalidLength
    ensures r.Ok? ==> 8 * (r.value.lengths.bigNatSize - 1) == r.value.lengths.moduloBits
    ensures r.Ok? ==> r.value.helperModuloBits == r.value.lengths.moduloBits
    ensures r.Ok? ==> r.value.fastMultViaRsa == rsaEngineWorks && !r.value.fastEcMultViaKa
  {
    var c := LegacyFresh(fastMultViaRsa, fastEcMultViaKa);
    var chosen :=
      if maxEcLength <= 256 then Ok(LegacySetFixed(c, 512, 768, 64))
      else if maxEcLength <= 384 then Ok(LegacySetFixed(c, 768, 1024, 96))
      else if maxEcLength <= 512 then Ok(LegacySetFixed(c, 1024, 1280, 128))
      else Err(EcPointInvalidLength);
    var s :- chosen;
    Ok(HelperInitialize(s, rsaEngineWorks))
  }

  /** Corrected, the two generations choose the same lengths. */
  lemma LegacyFixedMatchesApplet(maxEcLength: int, a: bool, b: bool, e: bool)
    ensures LegacyNewFixed(maxEcLength, a, b, e).Ok? == EcConfigLengths(maxEcLength).Ok?
    ensures LegacyNewFixed(maxEcLength, a, b, e).Ok? ==>
              LegacyNewFixed(maxEcLength, a, b, e).value.lengths == EcConfigLengths(maxEcLength).value
  {
  }

  /** As written, a 384-bit configuration gets 65-byte numbers under a
      768-bit (96-byte) modulo engine; corrected, 97 bytes. */
  lemma LegacyBigNatTooSmall()
    ensures LegacyNew(384, false, false, false).value.lengths.moduloBits == 768
    ensures LegacyNew(384, false, false, false).value.lengths.bigNatSize == 65
    ensures LegacyNewFixed(384, false, false, false).value.lengths.bigNatSize == 97
  {
  }

  /** The constructor never selects the 521-bit set. */
  lemma Ecc521Unreachable(maxEcLength: int, a: bool, b: bool, e: bool)
    ensures LegacyNew(maxEcLength, a, b, e).Ok? ==> LegacyNew(maxEcLength, a, b, e).value.lengths.pointSize != Ecc521Point
    ensures LegacyNewFixed(maxEcLength, a, b, e).Ok? ==> LegacyNewFixed(maxEcLength, a, b, e).value.lengths.pointSize != Ecc521Point
  {
  }

  /** setECC521Config: a 129-byte point, both engines at 1280 bits. */
  function LegacySetEcc521(c: LegacyConfig): (r: LegacyConfig)
    requires c.helperModuloBits >= 0
    ensures r.lengths.moduloBits == r.lengths.multBits == 1280 && r.lengths.pointSize == Ecc521Point
    ensures r.lengths.coordSize == 64
  {
    LegacySet(c, 1280, 1280, Ecc521Point)
  }
}

=== FILE: division.dfy ===
/** Long division (`remainderDivide`) and reduction (`mod`). */
module Division {
  import opened Wrappers
  import opened ReturnCodes
  import opened Radix
  import opened BigNats
  import Compare
  import Scaled

  // ---------------------------------------------------------------------
  // The divisor's leading digit

  /** divisorIndex: the scan from the front of the divisor's storage stops
      at its first nonzero digit; the digits from there on are the
      significant ones. */
  method FirstNonZero(d: BigNat) returns (idx: nat)
    requires Num(d) > 0
    ensures idx < d.size && d.value[idx] != 0
    ensures Pow256(d.size - idx - 1) <= Num(d) < Pow256(d.size - idx)
  {
    ValAllZero(Digits(d));
    assert !AllZero(Digits(d));
    ghost var k :| 0 <= k < d.size && d.value[k] != 0;
    idx := 0;
    while d.value[idx] == 0
      invariant idx <= k && AllZero(d.value[..idx])
      decreases k - idx
    {
      assert AllZero(d.value[..idx + 1]);
      idx := idx + 1;
    }
    FitsIffLeadingZeros(Digits(d), idx);
    assert Digits(d)[..idx] == d.value[..idx];
    assert Digits(d)[idx..] == d.value[idx..d.size];
    ValLeadingDigit(d.value[idx..d.size]);
  }

  // ---------------------------------------------------------------------
  // Arithmetic steps of a subtraction round

  lemma ScaledBelow(d: int, sd: nat, k: nat)
    requires 0 <= d < Pow256(sd)
    ensures d * Pow256(k) < Pow256(sd + k)
  {
    MulMono(d + 1, Pow256(sd), Pow256(k));
    PowAdd(sd, k);
  }

  lemma ScaledAbove(d: int, sd: nat, k: nat)
    requires sd >= 1 && Pow256(sd - 1) <= d
    ensures Pow256(sd - 1 + k) <= d * Pow256(k)
  {
    MulMono(Pow256(sd - 1), d, Pow256(k));
    PowAdd(sd - 1, k);
  }

  lemma DigitRoom(c: int, m: int, dp: int, r0: int, r: int)
    requires dp > 0 && c >= 0 && m >= 1
    requires r0 == r + c * dp && m * dp <= r && r0 < 256 * dp
    ensures c + m < 256
  {
    assert (c + m) * dp == c * dp + m * dp;
    if c + m >= 256 {
      MulMono(256, c + m, dp);
    }
  }

  lemma Accumulate(r0: int, r: int, r': int, c: int, m: int, dp: int)
    requires r0 == r + c * dp && r' == r - m * dp
    ensures r0 == r' + (c + m) * dp
  {
    assert (c + m) * dp == c * dp + m * dp;
  }

  lemma DigitWeight(a: int, b: int, c: int, m: int, p: int)
    requires a + c * p == b + (c + m) * p
    ensures a == b + m * p
  {
    assert (c + m) * p == c * p + m * p;
  }

  lemma GrowQuotient(v: int, v0: int, c: int, m: int, p: int)
    requires v == v0 + c * p
    ensures v + m * p == v0 + (c + m) * p
  {
    assert (c + m) * p == c * p + m * p;
  }

  lemma QuotientStep(n: int, q: int, d: int, r: int, r': int, c: int, p: int)
    requires n == q * d + r && r == r' + c * (d * p)
    ensures n == (q + c * p) * d + r'
  {
    assert (q + c * p) * d == q * d + c * (d * p);
  }

  lemma QuotientAtLeast(n: int, d: int, p: int)
    requires d > 0 && p >= 0 && n >= d * p
    ensures n / d >= p
  {
    var k := n / d;
    assert n < (k + 1) * d;
    if k < p {
      MulMono(k + 1, p, d);
    }
  }

  lemma NonNegProducts(q: int, d: int, c: int, dp: int)
    requires q >= 0 && d >= 0 && c >= 0 && dp >= 0
    ensures q * d >= 0 && c * dp >= 0
  {
  }

  // ---------------------------------------------------------------------
  // The quotient under construction

  /** The digits worth `256^0 .. 256^s` of the quotient are still zero. */
  predicate LowZero(q: BigNat, s: int) {
    forall k :: 0 <= k < q.size && q.size - 1 - s <= k ==> q.value[k] == 0
  }

  lemma ZeroIsLowZero(q: BigNat, s: int)
    requires Num(q) == 0
    ensures LowZero(q, s)
  {
    ValAllZero(Digits(q));
    forall k | 0 <= k < q.size
      ensures q.value[k] == 0
    {
      assert Digits(q)[k] == q.value[k];
    }
  }

  /** `quotient.value[quotient.size - 1 - shift] = (byte)(digit + multiple)`:
      the quotient digit of weight `256^shift` grows by `m`, as a byte. */
  function AddToDigit(q: BigNat, s: nat, m: int): (r: BigNat)
    requires s < q.size && m >= 0
    ensures r.size == q.size && TailKept(q, r)
  {
    var j := q.size - 1 - s;
    Buffer(q.value[j := (q.value[j] + m) % 256], q.size)
  }

  /** Without wrap-around the digit update adds `m * 256^s` to the quotient
      and leaves the lower digits alone. */
  lemma AddToDigitAdds(q: BigNat, s: nat, c: int, m: int)
    requires s < q.size && 0 <= c && 0 <= m && c + m < 256
    requires q.value[q.size - 1 - s] == c && LowZero(q, s - 1)
    ensures Num(AddToDigit(q, s, m)) == Num(q) + m * Pow256(s)
    ensures LowZero(AddToDigit(q, s, m), s - 1)
    ensures AddToDigit(q, s, m).value[q.size - 1 - s] == c + m
  {
    var j := q.size - 1 - s;
    var r := AddToDigit(q, s, m);
    assert Digits(r) == Digits(q)[j := c + m];
    ValUpdate(Digits(q), j, c + m);
    DigitWeight(Num(r), Num(q), c, m, Pow256(s));
  }

  /** What a subtraction round does to the quotient. */
  predicate Advanced(q0: BigNat, q: BigNat, c: int, s: nat) {
    q.size == q0.size && TailKept(q0, q)
    && Num(q) == Num(q0) + c * Pow256(s) && LowZero(q, s - 1)
  }

  // ---------------------------------------------------------------------
  // One subtraction round

  /** Comparing from digit `start` is exact when the skipped digits are zero
      and the shifted divisor fits in the compared digits. */
  lemma ExactCompare(cur: BigNat, start: nat, dp: int)
    requires start <= cur.size && Num(cur) < Pow256(cur.size - start)
    requires 0 <= dp < Pow256(cur.size - start)
    ensures Val(cur.value[start..cur.size]) == Num(cur)
    ensures dp % Pow256(cur.size - start) == dp
  {
    FitsIffLeadingZeros(Digits(cur), start);
    assert Digits(cur)[start..] == cur.value[start..cur.size];
    DivModUnique(dp, Pow256(cur.size - start), 0, dp);
  }

  /** The loop test `shiftLesser(divisor, s, start)` of a round: with the
      skipped digits zero it compares the whole remainder against
      `divisor * 256^s`. */
  method Below(cur: BigNat, divisor: BigNat, s: nat, start: nat) returns (lt: bool)
    requires start <= cur.size && Num(cur) < Pow256(cur.size - start)
    requires Num(divisor) * Pow256(s) < Pow256(cur.size - start)
    ensures lt <==> Num(cur) < Num(divisor) * Pow256(s)
  {
    ExactCompare(cur, start, Num(divisor) * Pow256(s));
    lt := Compare.ShiftLesser(cur, divisor, s, start);
  }

  /** One pass of the inner loop: subtract `m * divisor * 256^s` for a
      multiple `m` that does not overshoot (`timesMinus`), then add `m` to
      the quotient digit of weight `256^s`. That digit does not exist when
      `quotient.size <= s`; the card then indexes out of bounds. The
      multiple is any digit from 1 up to the true quotient digit -- the
      code's estimate from the leading digits is conservative in exactly
      this sense. */
  method SubtractStep(cur: BigNat, divisor: BigNat, s: nat, q: Option<BigNat>, ghost c: int, ghost r0: int)
    returns (res: Result<(BigNat, Option<BigNat>), Failure>, ghost m: int)
    requires Num(divisor) > 0 && c >= 0 && Num(cur) >= Num(divisor) * Pow256(s)
    requires r0 == Num(cur) + c * (Num(divisor) * Pow256(s)) && r0 < 256 * (Num(divisor) * Pow256(s))
    requires q.Some? ==> LowZero(q.value, s - 1)
    requires q.Some? && s < q.value.size ==> q.value.value[q.value.size - 1 - s] == c
    ensures res.Err? <==> q.Some? && q.value.size <= s
    ensures res.Err? ==> res.error == ArrayIndexOutOfBounds
    ensures res.Ok? ==> 1 <= m && c + m < 256
    ensures res.Ok? ==> res.value.0.size == cur.size && TailKept(cur, res.value.0)
    ensures res.Ok? ==> Num(res.value.0) == Num(cur) - m * (Num(divisor) * Pow256(s))
    ensures res.Ok? ==> res.value.1.Some? == q.Some?
    ensures res.Ok? && q.Some? ==> res.value.1.value.size == q.value.size && TailKept(q.value, res.value.1.value)
    ensures res.Ok? && q.Some? ==>
              Num(res.value.1.value) == Num(q.value) + m * Pow256(s) && LowZero(res.value.1.value, s - 1)
    ensures res.Ok? && q.Some? && s < q.value.size ==> res.value.1.value.value[q.value.size - 1 - s] == c + m
  {
    var dp: int := Num(divisor) * Pow256(s);
    MulAtLeast(Num(divisor), Pow256(s));
    assert 1 * dp <= Num(cur);
    var mult: int :| 1 <= mult < 256 && mult * dp <= Num(cur);
    m := mult;
    DigitRoom(c, mult, dp, r0, Num(cur));
    var next := Scaled.TimesMinus(cur, divisor, s, mult);
    if q.None? {
      res := Ok((next, q));
    } else if q.value.size <= s {
      res := Err(ArrayIndexOutOfBounds);
    } else {
      AddToDigitAdds(q.value, s, c, mult);
      res := Ok((next, Some(AddToDigit(q.value, s, mult))));
    }
  }

  /** The inner loop of remainderDivide for one shift `s`: while the
      remainder is not below `divisor * 256^s`, subtract multiples of it
      and count them in the quotient digit of weight `256^s`. */
  method SubtractRound(cur0: BigNat, divisor: BigNat, s: nat, start: nat, q0: Option<BigNat>)
    returns (res: Result<(BigNat, Option<BigNat>), Failure>, ghost c: int)
    requires Num(divisor) > 0
    requires start <= cur0.size && Num(cur0) < Pow256(cur0.size - start)
    requires Num(divisor) * Pow256(s) < Pow256(cur0.size - start)
    requires Num(cur0) < 256 * (Num(divisor) * Pow256(s))
    requires q0.Some? ==> LowZero(q0.value, s)
    ensures res.Err? <==> q0.Some? && q0.value.size <= s && Num(cur0) >= Num(divisor) * Pow256(s)
    ensures res.Err? ==> res.error == ArrayIndexOutOfBounds
    ensures res.Ok? ==> res.value.0.size == cur0.size && TailKept(cur0, res.value.0)
    ensures res.Ok? ==> c >= 0 && Num(res.value.0) < Num(divisor) * Pow256(s)
    ensures res.Ok? ==> Num(cur0) == Num(res.value.0) + c * (Num(divisor) * Pow256(s))
    ensures res.Ok? ==> res.value.1.Some? == q0.Some?
    ensures res.Ok? && q0.Some? ==> Advanced(q0.value, res.value.1.value, c, s)
  {
    var p: int := Pow256(s);
    var dp: int := Num(divisor) * p;
    var cur: BigNat := cur0;
    var q: Option<BigNat> := q0;
    c := 0;
    var lt := Below(cur, divisor, s, start);
    while !lt
      invariant cur.size == cur0.size && TailKept(cur0, cur)
      invariant c >= 0 && Num(cur0) == Num(cur) + c * dp
      invariant lt <==> Num(cur) < dp
      invariant q.Some? == q0.Some?
      invariant q.Some? ==> q.value.size == q0.value.size && TailKept(q0.value, q.value)
      invariant q.Some? ==> Num(q.value) == Num(q0.value) + c * p && LowZero(q.value, s - 1)
      invariant q.Some? && s < q.value.size ==> q.value.value[q.value.size - 1 - s] == c
      invariant q0.Some? && q0.value.size <= s ==> c == 0
      decreases Num(cur)
    {
      var step, m := SubtractStep(cur, divisor, s, q, c, Num(cur0));
      if step.Err? {
        assert c == 0 && Num(cur0) >= dp;
        res := Err(ArrayIndexOutOfBounds);
        return;
      }
      Accumulate(Num(cur0), Num(cur), Num(step.value.0), c, m, dp);
      if q.Some? {
        GrowQuotient(Num(q.value), Num(q0.value), c, m, p);
      }
      MulAtLeast(m, dp);
      cur, q := step.value.0, step.value.1;
      c := c + m;
      lt := Below(cur, divisor, s, start);
    }
    res := Ok((cur, q));
  }

  /** The preconditions of a subtraction round hold at every shift: the
      digits before `start` are zero and the divisor, shifted by `s`, fits
      in the digits from `start` on. */
  lemma RoundBounds(cur: BigNat, d: int, sd: nat, s: nat, round: nat, start: nat)
    requires 0 < d < Pow256(sd) && start == (if round > 0 then round - 1 else 0)
    requires s + round + sd == cur.size && Num(cur) < d * Pow256(s + 1)
    ensures start <= cur.size && Num(cur) < Pow256(cur.size - start)
    ensures d * Pow256(s) < Pow256(cur.size - start)
    ensures Num(cur) < 256 * (d * Pow256(s))
  {
    var p: int := Pow256(s);
    assert Pow256(s + 1) == 256 * p;
    MulAssoc256(d, p);
    ScaledBelow(d, sd, s);
    PowMonotone(sd + s, cur.size - start);
    if round > 0 {
      ScaledBelow(d, sd, s + 1);
    }
  }

  // ---------------------------------------------------------------------
  // remainderDivide

  /** The two results of a division: `this` holds the remainder, the
      optional quotient argument the quotient. */
  datatype Divided = Divided(remainder: BigNat, quotient: Option<BigNat>)

  /** remainderDivide(divisor, quotient): schoolbook division, one
      subtraction round per shift from `size - significant digits of the
      divisor` down to 0. The remainder keeps this number's size; the
      quotient (zeroed first) keeps its own. The quotient must be large
      enough for the true quotient, otherwise the first digit that does
      not fit raises the index error. */
  method RemainderDivide(b: BigNat, divisor: BigNat, quotient: Option<BigNat>)
    returns (res: Result<Divided, Failure>)
    requires Num(divisor) > 0
    ensures res.Ok? <==> quotient.None? || Num(b) / Num(divisor) < Pow256(quotient.value.size)
    ensures res.Err? ==> res.error == ArrayIndexOutOfBounds
    ensures res.Ok? ==> res.value.remainder.size == b.size && TailKept(b, res.value.remainder)
    ensures res.Ok? ==> Num(res.value.remainder) == Num(b) % Num(divisor)
    ensures res.Ok? ==> res.value.quotient.Some? == quotient.Some?
    ensures res.Ok? && quotient.Some? ==>
              res.value.quotient.value.size == quotient.value.size
              && TailKept(quotient.value, res.value.quotient.value)
              && Num(res.value.quotient.value) == Num(b) / Num(divisor)
  {
    var q: Option<BigNat> := None;
    if quotient.Some? {
      q := Some(Zero(quotient.value));
    }
    var idx := FirstNonZero(divisor);
    var sd: int := divisor.size - idx;
    var s: int := b.size - sd;
    ghost var d: int := Num(divisor);
    ghost var n: int := Num(b);
    if s < 0 {
      PowMonotone(b.size, sd - 1);
      DivModUnique(n, d, 0, n);
      res := Ok(Divided(b, q));
      return;
    }
    if q.Some? {
      ZeroIsLowZero(q.value, s);
    }
    ScaledAbove(d, sd, s + 1);
    var cur: BigNat := b;
    var round: int := 0;
    ghost var acc: int := 0;
    while s >= 0
      invariant -1 <= s && 0 <= round && s + round == b.size - sd
      invariant cur.size == b.size && TailKept(b, cur)
      invariant acc >= 0 && n == acc * d + Num(cur)
      invariant Num(cur) < d * Pow256(s + 1)
      invariant q.Some? == quotient.Some?
      invariant q.Some? ==> q.value.size == quotient.value.size && TailKept(quotient.value, q.value)
      invariant q.Some? ==> Num(q.value) == acc && LowZero(q.value, s)
      decreases s
    {
      var start: int := if round > 0 then round - 1 else 0;
      var p: int := Pow256(s);
      RoundBounds(cur, d, sd, s, round, start);
      var r, c := SubtractRound(cur, divisor, s, start, q);
      if r.Err? {
        NonNegProducts(acc, d, 0, 0);
        QuotientAtLeast(n, d, p);
        PowMonotone(quotient.value.size, s);
        res := Err(ArrayIndexOutOfBounds);
        return;
      }
      QuotientStep(n, acc, d, Num(cur), Num(r.value.0), c, p);
      NonNegProducts(0, 0, c, p);
      acc := acc + c * p;
      cur, q := r.value.0, r.value.1;
      round, s := round + 1, s - 1;
    }
    DivModUnique(n, d, acc, Num(cur));
    res := Ok(Divided(cur, q));
  }

  /** mod(modulo): the remainder of dividing by `modulo`, in place. */
  method Mod(b: BigNat, modulo: BigNat) returns (r: BigNat)
    requires Num(modulo) > 0
    ensures r.size == b.size && TailKept(b, r)
    ensures Num(r) == Num(b) % Num(modulo)
  {
    var res := RemainderDivide(b, modulo, None);
    r := res.value.remainder;
  }
}

=== FILE: hostcodecs.dfy ===
/** The host-side byte codecs the test programs use to talk to the card:
    the 5-byte sign-and-magnitude integer encoding, 16-bit big-endian
    reads and writes, leading-zero trimming, concatenation and the
    hexadecimal text form. Java `int` and `short` arithmetic is written
    out: results are reduced to 32 or 16 bits in two's complement. */
module HostCodecs {
  import opened Wrappers
  import opened Radix

  /** The Java runtime exceptions these helpers can end in. */
  datatype Thrown =
    | ArrayIndexOutOfBoundsException
    | IndexOutOfBoundsException
    | NumberFormatException

  const TwoTo15 := 0x8000
  const TwoTo16 := 0x1_0000
  const TwoTo31 := 0x8000_0000
  const TwoTo32 := 0x1_0000_0000

  /** Integer.MIN_VALUE and Integer.MAX_VALUE. */
  const IntMin := -TwoTo31
  const IntMax := TwoTo31 - 1

  predicate IsInt(v: int) {
    IntMin <= v <= IntMax
  }

  predicate IsShort(v: int) {
    -TwoTo15 <= v < TwoTo15
  }

  /** Two's-complement reduction of an `int` result to 32 bits. */
  function Wrap32(x: int): (r: int)
    ensures IsInt(r)
    ensures r % TwoTo32 == x % TwoTo32
    ensures IsInt(x) ==> r == x
  {
    var m := x % TwoTo32;
    if m >= TwoTo31 then m - TwoTo32 else m
  }

  /** The `(short)` cast: two's-complement reduction to 16 bits. */
  function Wrap16(x: int): (r: int)
    ensures IsShort(r)
    ensures r % TwoTo16 == x % TwoTo16
    ensures IsShort(x) ==> r == x
  {
    var m := x % TwoTo16;
    if m >= TwoTo15 then m - TwoTo16 else m
  }

  /** Math.abs on an `int`: the negation wraps, so the most negative value
      is its own absolute value. */
  function Abs(v: int): (r: int)
    requires IsInt(v)
    ensures v != IntMin ==> r >= 0 && (r == v || r == -v)
    ensures v == IntMin ==> r == IntMin
  {
    if v < 0 then Wrap32(-v) else v
  }

  /** The bits of an `int` read as an unsigned number, as `>>>` sees them. */
  function Unsigned32(v: int): (u: nat)
    ensures u < TwoTo32 && u % TwoTo32 == v % TwoTo32
  {
    v % TwoTo32
  }

  lemma Pow256Four()
    ensures Pow256(4) == TwoTo32
  {
    assert Pow256(2) == TwoTo16;
  }

  /** IntToBytes / intToBytes: a sign byte (1 for a negative value, else
      0) and the four big-endian bytes of the absolute value's bits. */
  function IntToBytes(v: int): (data: seq<Byte>)
    requires IsInt(v)
    ensures |data| == 5
    ensures data[0] == (if v < 0 then 1 else 0)
    ensures v != IntMin ==> Val(data[1..]) == (if v < 0 then -v else v)
    ensures v == IntMin ==> Val(data[1..]) == TwoTo31
  {
    Pow256Four();
    var magnitude := FromNat(Unsigned32(Abs(v)), 4);
    assert ([if v < 0 then 1 else 0] + magnitude)[1..] == magnitude;
    [if v < 0 then 1 else 0] + magnitude
  }

  /** BytesToInt / bytesToInt: the four bytes after the sign byte as an
      `int` (the top byte's bits land in the sign bit), negated with
      wrap-around when the sign byte is 1. An array shorter than five
      bytes ends in an index error. */
  function BytesToInt(data: seq<Byte>): (r: Result<int, Thrown>)
    ensures r.Err? <==> |data| < 5
    ensures r.Err? ==> r.error == ArrayIndexOutOfBoundsException
    ensures r.Ok? ==> IsInt(r.value)
    ensures r.Ok? && data[0] != 1 ==> r.value % TwoTo32 == Val(data[1..5])
    ensures r.Ok? && data[0] == 1 ==> (r.value + Val(data[1..5])) % TwoTo32 == 0
  {
    if |data| < 5 then Err(ArrayIndexOutOfBoundsException)
    else
      Pow256Four();
      var bits := Wrap32(Val(data[1..5]));
      if data[0] == 1 then
        var r := Wrap32(-bits);
        NegatedSum(r, bits, Val(data[1..5]));
        Ok(r)
      else Ok(bits)
  }

  lemma NegatedSum(r: int, bits: int, v: int)
    requires r % TwoTo32 == (-bits) % TwoTo32 && bits % TwoTo32 == v % TwoTo32
    ensures (r + v) % TwoTo32 == 0
  {
  }

  /** Every `int` survives the encoding, the most negative one included,
      because both the absolute value and the negation wrap. */
  lemma IntRoundTrip(v: int)
    requires IsInt(v)
    ensures BytesToInt(IntToBytes(v)) == Ok(v)
  {
    var data := IntToBytes(v);
    assert data[1..5] == data[1..];
    var u := Val(data[1..5]);
    var bits := Wrap32(u);
    if v == IntMin {
      assert u == TwoTo31 && bits == IntMin;
      assert Wrap32(-bits) == IntMin;
    } else if v < 0 {
      assert bits == -v;
      assert Wrap32(-bits) == v;
    } else {
      assert bits == v;
    }
  }

  /** The encodings decoding returns unchanged: a positive sign byte with a
      value below 2^31, or a negative sign byte with a magnitude from 1 to
      2^31. */
  predicate CanonicalInt(data: seq<Byte>) {
    |data| == 5
    && ((data[0] == 0 && Val(data[1..]) < TwoTo31)
        || (data[0] == 1 && 1 <= Val(data[1..]) <= TwoTo31))
  }

  /** Decoding then encoding gives the five bytes back exactly when they
      are canonical; other arrays (a negative zero, a sign byte other than
      0 or 1, a magnitude using the top bit) are normalised. */
  lemma IntCanonical(data: seq<Byte>)
    requires |data| == 5
    ensures IntToBytes(BytesToInt(data).value) == data <==> CanonicalInt(data)
  {
    var v := BytesToInt(data).value;
    assert data[1..5] == data[1..];
    if CanonicalInt(data) {
      CanonicalDecodes(data);
      EncodingsAgree(IntToBytes(v), data);
    } else if IntToBytes(v) == data {
      EncodedIsCanonical(v);
    }
  }

  lemma CanonicalDecodes(data: seq<Byte>)
    requires CanonicalInt(data)
    ensures var v := BytesToInt(data).value;
            data[0] == (if v < 0 then 1 else 0)
            && (v != IntMin ==> Val(data[1..]) == (if v < 0 then -v else v))
            && (v == IntMin ==> Val(data[1..]) == TwoTo31)
  {
    assert data[1..5] == data[1..];
    var u := Val(data[1..]);
    if data[0] == 1 && u == TwoTo31 {
      assert Wrap32(u) == IntMin;
      assert Wrap32(-IntMin) == IntMin;
    }
  }

  lemma EncodingsAgree(a: seq<Byte>, b: seq<Byte>)
    requires |a| == |b| == 5 && a[0] == b[0] && Val(a[1..]) == Val(b[1..])
    ensures a == b
  {
    ValInjective(a[1..], b[1..]);
    assert a == a[..1] + a[1..];
    assert b == b[..1] + b[1..];
  }

  lemma EncodedIsCanonical(v: int)
    requires IsInt(v)
    ensures CanonicalInt(IntToBytes(v))
  {
  }

  /** shortToByteArray: the low 16 bits of an `int`, big-endian. */
  function ShortToByteArray(s: int): (b: seq<Byte>)
    ensures |b| == 2 && Val(b) == s % TwoTo16
  {
    var low := s % TwoTo16;
    LowByte(s, low);
    [low / 256, s % 256]
  }

  lemma LowByte(s: int, low: int)
    requires low == s % TwoTo16
    ensures 256 * (low / 256) + s % 256 == low
  {
    var q := s / TwoTo16;
    assert s == 256 * (256 * q + low / 256) + low % 256;
    DivModUnique(s, 256, 256 * q + low / 256, low % 256);
  }

  /** The `short` two bytes denote, high byte first. */
  function BigEndianShort(b0: Byte, b1: Byte): int {
    Wrap16(256 * b0 + b1)
  }

  /** readShort: the two bytes at the offset as a `short`. */
  function ReadShort(data: seq<Byte>, offset: int): (r: Result<int, Thrown>)
    ensures r.Err? <==> offset < 0 || offset + 2 > |data|
    ensures r.Err? ==> r.error == ArrayIndexOutOfBoundsException
    ensures r.Ok? ==> IsShort(r.value) && r.value % TwoTo16 == Val(data[offset..offset + 2])
  {
    if offset < 0 || offset + 2 > |data| then Err(ArrayIndexOutOfBoundsException)
    else
      assert data[offset..offset + 2][..1] == [data[offset]];
      Ok(BigEndianShort(data[offset], data[offset + 1]))
  }

  /** getShort: a two-byte big-endian buffer view at the offset. The view
      is refused with a general index error when it does not fit. */
  function GetShort(buffer: seq<Byte>, offset: int): (r: Result<int, Thrown>)
    ensures r.Err? <==> offset < 0 || offset > |buffer| - 2
    ensures r.Err? ==> r.error == IndexOutOfBoundsException
    ensures r.Ok? ==> IsShort(r.value)
  {
    if offset < 0 || offset > |buffer| - 2 then Err(IndexOutOfBoundsException)
    else Ok(BigEndianShort(buffer[offset], buffer[offset + 1]))
  }

  /** The two readers accept the same offsets and read the same value. */
  lemma GetShortAgrees(buffer: seq<Byte>, offset: int)
    ensures GetShort(buffer, offset).Ok? == ReadShort(buffer, offset).Ok?
    ensures GetShort(buffer, offset).Ok? ==> GetShort(buffer, offset).value == ReadShort(buffer, offset).value
  {
  }

  /** Writing then reading gives the argument cast to `short`: every
      `short` comes back unchanged. */
  lemma ShortRoundTrip(s: int)
    ensures ReadShort(ShortToByteArray(s), 0) == Ok(Wrap16(s))
    ensures IsShort(s) ==> ReadShort(ShortToByteArray(s), 0) == Ok(s)
  {
    var b := ShortToByteArray(s);
    assert b[0..2] == b;
    var r := ReadShort(b, 0).value;
    SameLow16(r, Wrap16(s));
  }

  lemma SameLow16(a: int, b: int)
    requires IsShort(a) && IsShort(b) && a % TwoTo16 == b % TwoTo16
    ensures a == b
  {
  }

  /** Number of zero bytes at the front. */
  function LeadingZeros(a: seq<Byte>): (k: nat)
    ensures k <= |a| && (k == |a| || a[k] != 0)
    ensures forall i :: 0 <= i < k ==> a[i] == 0
    decreases |a|
  {
    if |a| == 0 || a[0] != 0 then 0 else 1 + LeadingZeros(a[1..])
  }

  /** trimLeadingZeroes: the array without its leading zero bytes. */
  function TrimLeadingZeroes(a: seq<Byte>): (r: seq<Byte>)
    ensures |r| <= |a| && r == a[|a| - |r|..]
    ensures AllZero(a[..|a| - |r|])
    ensures |r| == 0 || r[0] != 0
    ensures Val(r) == Val(a)
  {
    var k := LeadingZeros(a);
    assert a == a[..k] + a[k..];
    ValLeadingZeros(a[..k], a[k..]);
    a[k..]
  }

  /** Digit strings without leading zeros. */
  predicate Minimal(s: seq<Byte>) {
    |s| == 0 || s[0] != 0
  }

  /** Number of base-256 digits of a value, without leading zeros. */
  function DigitCount(v: nat): nat
    decreases v
  {
    if v == 0 then 0 else 1 + DigitCount(v / 256)
  }

  /** A minimal string has exactly as many digits as its value needs. */
  lemma {:induction false} MinimalLength(s: seq<Byte>)
    requires Minimal(s)
    ensures |s| == DigitCount(Val(s))
    decreases |s|
  {
    if |s| > 0 {
      var n := |s| - 1;
      var init := s[..n];
      ValLeadingDigit(s);
      DivModUnique(Val(s), 256, Val(init), s[n]);
      assert n > 0 ==> init[0] == s[0];
      MinimalLength(init);
    }
  }

  /** A value has one minimal digit string. */
  lemma MinimalUnique(s: seq<Byte>, t: seq<Byte>)
    requires Minimal(s) && Minimal(t) && Val(s) == Val(t)
    ensures s == t
  {
    MinimalLength(s);
    MinimalLength(t);
    ValInjective(s, t);
  }

  /** Arrays denoting the same number trim to the same bytes, so trimming
      is the canonical form: idempotent, and the identity on minimal
      strings. */
  lemma TrimCanonical(a: seq<Byte>, b: seq<Byte>)
    requires Val(a) == Val(b)
    ensures TrimLeadingZeroes(a) == TrimLeadingZeroes(b)
    ensures TrimLeadingZeroes(TrimLeadingZeroes(a)) == TrimLeadingZeroes(a)
    ensures Minimal(a) ==> TrimLeadingZeroes(a) == a
  {
    MinimalUnique(TrimLeadingZeroes(a), TrimLeadingZeroes(b));
    var t := TrimLeadingZeroes(a);
    MinimalUnique(TrimLeadingZeroes(t), t);
    if Minimal(a) {
      MinimalUnique(t, a);
    }
  }

  /** concat of two arrays. */
  function Concat(a: seq<Byte>, b: seq<Byte>): (c: seq<Byte>)
    ensures |c| == |a| + |b| && c[..|a|] == a && c[|a|..] == b
  {
    a + b
  }

  /** The three-argument concat: the first two joined, then the third. */
  function Concat3(a: seq<Byte>, b: seq<Byte>, c: seq<Byte>): (d: seq<Byte>)
    ensures |d| == |a| + |b| + |c|
    ensures d[..|a|] == a && d[|a|..|a| + |b|] == b && d[|a| + |b|..] == c
  {
    var ab := Concat(a, b);
    assert Concat(ab, c)[..|a|] == ab[..|a|];
    assert Concat(ab, c)[|a|..|a| + |b|] == ab[|a|..];
    Concat(ab, c)
  }

  /** The grouping does not matter, and the joined value is the first
      number shifted past the second. */
  lemma ConcatAssociative(a: seq<Byte>, b: seq<Byte>, c: seq<Byte>)
    ensures Concat3(a, b, c) == Concat(a, Concat(b, c))
    ensures Val(Concat(a, b)) == Val(a) * Pow256(|b|) + Val(b)
  {
    var d := Concat3(a, b, c);
    assert d == d[..|a|] + d[|a|..|a| + |b|] + d[|a| + |b|..];
    ValConcat(a, b);
  }

  /** The arrays laid end to end, in order. */
  function Flatten(arrays: seq<seq<Byte>>): seq<Byte>
    decreases |arrays|
  {
    if |arrays| == 0 then [] else Flatten(arrays[..|arrays| - 1]) + arrays[|arrays| - 1]
  }

  function TotalLength(arrays: seq<seq<Byte>>): nat
    decreases |arrays|
  {
    if |arrays| == 0 then 0 else TotalLength(arrays[..|arrays| - 1]) + |arrays[|arrays| - 1]|
  }

  lemma {:induction false} FlattenLength(arrays: seq<seq<Byte>>)
    ensures |Flatten(arrays)| == TotalLength(arrays)
    decreases |arrays|
  {
    if |arrays| > 0 {
      FlattenLength(arrays[..|arrays| - 1]);
    }
  }

  /** joinArray: sum the lengths, then copy each array at the running
      offset. */
  method JoinArray(arrays: seq<seq<Byte>>) returns (result: seq<Byte>)
    ensures |result| == TotalLength(arrays)
    ensures result == Flatten(arrays)
  {
    var length := 0;
    for i := 0 to |arrays|
      invariant length == TotalLength(arrays[..i])
    {
      assert arrays[..i + 1][..i] == arrays[..i];
      length := length + |arrays[i]|;
    }
    assert arrays[..|arrays|] == arrays;
    FlattenLength(arrays);
    result := seq(length, _ => 0);
    var offset := 0;
    for i := 0 to |arrays|
      invariant |result| == length
      invariant offset == TotalLength(arrays[..i]) && offset <= length
      invariant result[..offset] == Flatten(arrays[..i])
    {
      assert arrays[..i + 1][..i] == arrays[..i];
      FlattenLength(arrays[..i + 1]);
      PrefixLength(arrays, i + 1);
      result := result[..offset] + arrays[i] + result[offset + |arrays[i]|..];
      assert result[..offset + |arrays[i]|] == Flatten(arrays[..i]) + arrays[i];
      offset := offset + |arrays[i]|;
    }
    assert arrays[..|arrays|] == arrays;
    assert result[..offset] == result;
  }

  /** A prefix of the arrays is no longer than all of them. */
  lemma {:induction false} PrefixLength(arrays: seq<seq<Byte>>, k: nat)
    requires k <= |arrays|
    ensures TotalLength(arrays[..k]) <= TotalLength(arrays)
    decreases |arrays|
  {
    if k < |arrays| {
      var init := arrays[..|arrays| - 1];
      assert init[..k] == arrays[..k];
      PrefixLength(init, k);
    } else {
      assert arrays[..k] == arrays;
    }
  }

  /** Joining two arrays is concat. */
  lemma JoinPair(a: seq<Byte>, b: seq<Byte>)
    ensures Flatten([a, b]) == Concat(a, b)
  {
    assert [a, b][..1] == [a];
    assert [a][..0] == [];
    assert Flatten([a]) == a;
  }

  /** The upper-case digit table of bytesToHex. */
  const HexDigits: seq<char> := "0123456789ABCDEF"

  /** The two hexadecimal digits of a byte, high nibble first. */
  function HexPair(b: Byte): seq<char> {
    [HexDigits[b / 16], HexDigits[b % 16]]
  }

  /** bytesToHex: two upper-case digits per byte. */
  function BytesToHex(bytes: seq<Byte>): (h: seq<char>)
    ensures |h| == 2 * |bytes|
    decreases |bytes|
  {
    if |bytes| == 0 then [] else BytesToHex(bytes[..|bytes| - 1]) + HexPair(bytes[|bytes| - 1])
  }

  /** Characters 2j and 2j+1 are the high and low digit of byte j. */
  lemma {:induction false} BytesToHexLayout(bytes: seq<Byte>, j: nat)
    requires j < |bytes|
    ensures BytesToHex(bytes)[2 * j] == HexDigits[bytes[j] / 16]
    ensures BytesToHex(bytes)[2 * j + 1] == HexDigits[bytes[j] % 16]
    decreases |bytes|
  {
    var n := |bytes| - 1;
    if j < n {
      BytesToHexLayout(bytes[..n], j);
    }
  }

  /** toHex(bytes, offset, len): one `%02X` field per byte from the
      offset on. A negative byte is formatted as its unsigned value, so
      each field is the byte's two upper-case digits. A length of zero
      or less reads nothing; otherwise an index outside the array ends
      the loop with an index error. */
  method ToHex(bytes: seq<Byte>, offset: int, len: int) returns (r: Result<seq<char>, Thrown>)
    ensures r.Ok? <==> len <= 0 || (0 <= offset && offset + len <= |bytes|)
    ensures r.Err? ==> r.error == ArrayIndexOutOfBoundsException
    ensures r.Ok? && len <= 0 ==> r.value == []
    ensures r.Ok? && len > 0 ==> r.value == BytesToHex(bytes[offset..offset + len])
  {
    if len <= 0 {
      return Ok([]);
    }
    if offset < 0 {
      return Err(ArrayIndexOutOfBoundsException);
    }
    r := HexFields(bytes, offset, len);
  }

  /** The loop of toHex from a non-negative offset; an offset past the
      end fails at the first read. */
  method HexFields(bytes: seq<Byte>, offset: nat, len: nat) returns (r: Result<seq<char>, Thrown>)
    requires len > 0
    ensures r.Ok? <==> offset + len <= |bytes|
    ensures r.Err? ==> r.error == ArrayIndexOutOfBoundsException
    ensures r.Ok? ==> r.value == BytesToHex(bytes[offset..offset + len])
  {
    if offset >= |bytes| {
      return Err(ArrayIndexOutOfBoundsException);
    }
    var result: seq<char> := [];
    var i := offset;
    assert bytes[offset..offset] == [];
    while i < offset + len
      invariant offset <= i <= offset + len && i <= |bytes|
      invariant result == BytesToHex(bytes[offset..i])
    {
      if i == |bytes| {
        return Err(ArrayIndexOutOfBoundsException);
      }
      HexSnoc(bytes, offset, i);
      result := result + HexPair(bytes[i]);
      i := i + 1;
    }
    r := Ok(result);
  }

  lemma HexSnoc(bytes: seq<Byte>, offset: int, i: int)
    requires 0 <= offset <= i < |bytes|
    ensures BytesToHex(bytes[offset..i + 1]) == BytesToHex(bytes[offset..i]) + HexPair(bytes[i])
  {
    assert bytes[offset..i + 1][..i - offset] == bytes[offset..i];
  }

  /** The one-argument toHex is bytesToHex. */
  method ToHexAll(bytes: seq<Byte>) returns (r: seq<char>)
    ensures r == BytesToHex(bytes)
  {
    var t := ToHex(bytes, 0, |bytes|);
    assert t.Ok?;
    assert bytes[0..|bytes|] == bytes;
    r := if t.Ok? then t.value else [];
  }

  /** The string with every space removed (`replace(" ", "")`). */
  function RemoveSpaces(s: seq<char>): (t: seq<char>)
    ensures |t| <= |s|
    ensures forall i :: 0 <= i < |t| ==> t[i] != ' '
    decreases |s|
  {
    if |s| == 0 then []
    else
      var rest := RemoveSpaces(s[..|s| - 1]);
      if s[|s| - 1] == ' ' then rest else rest + [s[|s| - 1]]
  }

  lemma {:induction false} RemoveSpacesConcat(a: seq<char>, b: seq<char>)
    ensures RemoveSpaces(a + b) == RemoveSpaces(a) + RemoveSpaces(b)
    decreases |b|
  {
    if |b| == 0 {
      assert a + b == a;
    } else {
      var b' := b[..|b| - 1];
      assert (a + b)[..|a + b| - 1] == a + b';
      RemoveSpacesConcat(a, b');
    }
  }

  lemma {:induction false} RemoveSpacesKeeps(s: seq<char>)
    requires forall i :: 0 <= i < |s| ==> s[i] != ' '
    ensures RemoveSpaces(s) == s
    decreases |s|
  {
    if |s| > 0 {
      RemoveSpacesKeeps(s[..|s| - 1]);
    }
  }

  /** Character.digit(c, 16) on ASCII: decimal digits and the letters A-F
      in either case. */
  function HexValue(c: char): (d: Option<int>)
    ensures d.Some? ==> 0 <= d.value < 16
  {
    if '0' <= c <= '9' then Some(c as int - '0' as int)
    else if 'A' <= c <= 'F' then Some(c as int - 'A' as int + 10)
    else if 'a' <= c <= 'f' then Some(c as int - 'a' as int + 10)
    else None
  }

  /** Integer.parseInt of a two-character string in base 16: an optional
      sign followed by one digit, or two digits. */
  function ParsePair(c0: char, c1: char): (v: Option<int>)
    ensures v.Some? ==> -15 <= v.value < 256
    ensures v.Some? <==> HexValue(c1).Some? && (c0 == '-' || c0 == '+' || HexValue(c0).Some?)
  {
    var d1 :- HexValue(c1);
    if c0 == '-' then Some(-d1)
    else if c0 == '+' then Some(d1)
    else
      var d0 :- HexValue(c0);
      Some(16 * d0 + d1)
  }

  /** The `(byte)` cast of a parsed value, seen unsigned. */
  function ToByte(v: int): Byte {
    v % 256
  }

  /** The first `n` character pairs of `t`, each parsed and cast. */
  function DecodePairs(t: seq<char>, n: nat): (r: Result<seq<Byte>, Thrown>)
    requires 2 * n <= |t|
    ensures r.Ok? ==> |r.value| == n
    ensures r.Err? ==> r.error == NumberFormatException
    decreases n
  {
    if n == 0 then Ok([])
    else
      var init :- DecodePairs(t, n - 1);
      var v := ParsePair(t[2 * n - 2], t[2 * n - 1]);
      if v.None? then Err(NumberFormatException) else Ok(init + [ToByte(v.value)])
  }

  /** Decoding succeeds exactly when every pair parses, and byte `i` is
      pair `i` cast to a byte. */
  lemma DecodePairsMeaning(t: seq<char>, n: nat)
    requires 2 * n <= |t|
    ensures DecodePairs(t, n).Ok? <==> forall i :: 0 <= i < n ==> ParsePair(t[2 * i], t[2 * i + 1]).Some?
    ensures DecodePairs(t, n).Ok? ==>
              forall i :: 0 <= i < n ==> DecodePairs(t, n).value[i] == ToByte(ParsePair(t[2 * i], t[2 * i + 1]).value)
  {
    DecodePairsOk(t, n);
    if DecodePairs(t, n).Ok? {
      DecodePairsBytes(t, n);
    }
  }

  lemma {:induction false} DecodePairsOk(t: seq<char>, n: nat)
    requires 2 * n <= |t|
    ensures DecodePairs(t, n).Ok? <==> forall i :: 0 <= i < n ==> ParsePair(t[2 * i], t[2 * i + 1]).Some?
    decreases n
  {
    if n > 0 {
      DecodePairsOk(t, n - 1);
      var k := n - 1;
      assert 2 * k == 2 * n - 2 && 2 * k + 1 == 2 * n - 1;
      if DecodePairs(t, k).Err? {
        var i :| 0 <= i < k && ParsePair(t[2 * i], t[2 * i + 1]).None?;
      }
    }
  }

  lemma {:induction false} DecodePairsBytes(t: seq<char>, n: nat)
    requires 2 * n <= |t| && DecodePairs(t, n).Ok?
    ensures forall i :: 0 <= i < n ==> ParsePair(t[2 * i], t[2 * i + 1]).Some?
    ensures forall i :: 0 <= i < n ==> DecodePairs(t, n).value[i] == ToByte(ParsePair(t[2 * i], t[2 * i + 1]).value)
    decreases n
  {
    if n > 0 {
      var k := n - 1;
      DecodePairsBytes(t, k);
      assert 2 * k == 2 * n - 2 && 2 * k + 1 == 2 * n - 1;
      var init := DecodePairs(t, k).value;
      assert DecodePairs(t, n).value == init + [ToByte(ParsePair(t[2 * k], t[2 * k + 1]).value)];
    }
  }

  /** hexStringToByteArray: the spaces removed, then one byte per pair of
      characters; a trailing odd character is ignored. A pair that is not
      a number ends in NumberFormatException. */
  function HexStringToByteArray(s: seq<char>): (r: Result<seq<Byte>, Thrown>)
    ensures r.Ok? ==> |r.value| == |RemoveSpaces(s)| / 2
    ensures r.Err? ==> r.error == NumberFormatException
  {
    var sanitized := RemoveSpaces(s);
    DecodePairs(sanitized, |sanitized| / 2)
  }

  /** A digit of the table reads back as its position. */
  lemma HexDigitValue(k: int)
    requires 0 <= k < 16
    ensures HexValue(HexDigits[k]) == Some(k)
  {
  }

  /** The text bytesToHex makes holds no space. */
  lemma HexHasNoSpaces(bytes: seq<Byte>)
    ensures RemoveSpaces(BytesToHex(bytes)) == BytesToHex(bytes)
  {
    var h := BytesToHex(bytes);
    forall i | 0 <= i < |h|
      ensures h[i] != ' '
    {
      var j := i / 2;
      BytesToHexLayout(bytes, j);
      HexDigitValue(bytes[j] / 16);
      HexDigitValue(bytes[j] % 16);
    }
    RemoveSpacesKeeps(h);
  }

  /** The first `k` pairs of a bytesToHex text decode to the first `k`
      bytes. */
  lemma {:induction false} HexPrefixDecodes(bytes: seq<Byte>, k: nat)
    requires k <= |bytes|
    ensures DecodePairs(BytesToHex(bytes), k) == Ok(bytes[..k])
    decreases k
  {
    if k > 0 {
      HexPrefixDecodes(bytes, k - 1);
      var h := BytesToHex(bytes);
      var j := k - 1;
      var b := bytes[j];
      BytesToHexLayout(bytes, j);
      PairOfByte(b);
      assert h[2 * k - 2] == h[2 * j] && h[2 * k - 1] == h[2 * j + 1];
      DecodeStep(h, k, bytes[..j], b);
      assert bytes[..k] == bytes[..k - 1] + [b];
    }
  }

  /** One more pair that parses to a byte appends that byte. */
  lemma DecodeStep(t: seq<char>, k: nat, init: seq<Byte>, b: Byte)
    requires 0 < k && 2 * k <= |t| && DecodePairs(t, k - 1) == Ok(init)
    requires ParsePair(t[2 * k - 2], t[2 * k - 1]) == Some(b)
    ensures DecodePairs(t, k) == Ok(init + [b])
  {
    assert ToByte(b) == b;
  }

  /** The two digits of a byte parse back to the byte. */
  lemma PairOfByte(b: Byte)
    ensures ParsePair(HexDigits[b / 16], HexDigits[b % 16]) == Some(b)
  {
    HexDigitValue(b / 16);
    HexDigitValue(b % 16);
  }

  /** Parsing reverses bytesToHex. */
  lemma HexRoundTrip(bytes: seq<Byte>)
    ensures HexStringToByteArray(BytesToHex(bytes)) == Ok(bytes)
  {
    var h := BytesToHex(bytes);
    HexHasNoSpaces(bytes);
    assert |h| / 2 == |bytes|;
    assert HexStringToByteArray(h) == DecodePairs(h, |bytes|);
    HexPrefixDecodes(bytes, |bytes|);
    assert bytes[..|bytes|] == bytes;
  }

  /** Spaces anywhere in the text do not change the bytes. */
  lemma SpacesIgnored(a: seq<char>, b: seq<char>)
    ensures HexStringToByteArray(a + " " + b) == HexStringToByteArray(a + b)
  {
    RemoveSpacesConcat(a + " ", b);
    RemoveSpacesConcat(a, " ");
    RemoveSpacesConcat(a, b);
    assert RemoveSpaces(" ") == [];
  }

  /** Lower-case digits are accepted, and so is a signed single digit,
      which parseInt reads as a negative number before the byte cast. */
  lemma ParseLeniency()
    ensures HexStringToByteArray("ff") == Ok([255])
    ensures HexStringToByteArray("-1") == Ok([255])
    ensures HexStringToByteArray("+1") == Ok([1])
    ensures HexStringToByteArray("G0") == Err(NumberFormatException)
  {
    ParsesAlone("ff");
    ParsesAlone("-1");
    ParsesAlone("+1");
    ParsesAlone("G0");
    assert ParsePair('f', 'f') == Some(255);
    assert ParsePair('-', '1') == Some(-1) && ToByte(-1) == 255;
    assert ParsePair('+', '1') == Some(1);
    assert ParsePair('G', '0') == None;
  }

  /** A two-character text without spaces is one pair. */
  lemma ParsesAlone(s: seq<char>)
    requires |s| == 2 && s[0] != ' ' && s[1] != ' '
    ensures HexStringToByteArray(s) == DecodePairs(s, 1)
    ensures DecodePairs(s, 1) == (var v := ParsePair(s[0], s[1]); if v.None? then Err(NumberFormatException) else Ok([ToByte(v.value)]))
  {
    assert s[..1][..0] == [];
    assert RemoveSpaces(s[..1]) == [s[0]];
    assert s[..1] == [s[0]];
    var v := ParsePair(s[0], s[1]);
    assert DecodePairs(s, 0) == Ok([]);
    if v.Some? {
      assert DecodePairs(s, 1) == Ok([] + [ToByte(v.value)]);
      assert [] + [ToByte(v.value)] == [ToByte(v.value)];
    }
  }
}

=== FILE: integer.dfy ===
/** The sign-and-magnitude integer of both library generations
    (`Integer`): a sign byte, 0 for positive and 1 for negative, and a
    BigNat magnitude whose size is the integer's length. Every operation
    keeps the length of `this`. The scratch numbers an operation borrows
    from the resource manager (or, in the legacy library, from the helper
    object) are passed in as parameters. */
module Integers {
  import opened Wrappers
  import opened ReturnCodes
  import opened Radix
  import opened BigNats
  import AddSub
  import Scaled
  import Compare
  import Division
  import Shifts

  /** Any byte can sit in the sign field (`fromByteArray` copies it
      verbatim); only 0 and 1 mean something. */
  datatype Integer = Integer(sign: Byte, mag: BigNat)

  predicate IsPositive(x: Integer) { x.sign == 0 }

  predicate IsNegative(x: Integer) { x.sign == 1 }

  /** The sign byte is one of the two meaningful values. */
  predicate Signed(x: Integer) { IsPositive(x) || IsNegative(x) }

  /** Signed, and zero is never negative. */
  predicate Canonical(x: Integer) { Signed(x) && (IsNegative(x) ==> Num(x.mag) > 0) }

  /** One operand positive and the other negative: the sign rule of
      multiply and divide. */
  predicate Opposite(x: Integer, y: Integer) {
    (IsPositive(x) && IsNegative(y)) || (IsNegative(x) && IsPositive(y))
  }

  /** The integer a signed value stands for. */
  function Value(x: Integer): int {
    if IsNegative(x) then -(Num(x.mag) as int) else Num(x.mag)
  }

  /** Java's `/` on integers: the quotient of the absolute values, with the
      sign of the exact quotient (rounding toward zero). */
  function TruncDiv(p: int, q: int): int
    requires q != 0
  {
    var m := (if p < 0 then -p else p) / (if q < 0 then -q else q);
    if (p < 0) == (q < 0) then m else -m
  }

  /** negate: swaps the two meaningful signs and leaves any other sign
      byte alone. */
  function Negate(x: Integer): (r: Integer)
    ensures r.mag == x.mag
    ensures IsNegative(r) <==> IsPositive(x)
    ensures IsPositive(r) <==> IsNegative(x)
    ensures !Signed(x) ==> r == x
    ensures Signed(x) ==> Value(r) == -Value(x)
  {
    if IsPositive(x) then x.(sign := 1)
    else if IsNegative(x) then x.(sign := 0)
    else x
  }

  /** Negating twice gives the integer back, whatever its sign byte. */
  lemma NegateTwice(x: Integer)
    ensures Negate(Negate(x)) == x
  {
  }

  /** toByteArray(out, offset): the sign byte, then the magnitude's digits;
      returns the number of bytes written. */
  function ToByteArray(x: Integer, out: seq<Byte>, offset: nat): (r: Result<(seq<Byte>, nat), Failure>)
    ensures r.Ok? <==> offset + 1 + x.mag.size <= |out|
    ensures r.Err? ==> r.error == ArrayIndexOutOfBounds
    ensures r.Ok? ==> |r.value.0| == |out| && r.value.1 == x.mag.size + 1
    ensures r.Ok? ==> r.value.0[offset] == x.sign
                      && Val(r.value.0[offset + 1..offset + 1 + x.mag.size]) == Num(x.mag)
    ensures r.Ok? ==> r.value.0[..offset] == out[..offset]
                      && r.value.0[offset + 1 + x.mag.size..] == out[offset + 1 + x.mag.size..]
  {
    var n := x.mag.size;
    if offset + 1 + n > |out| then Err(ArrayIndexOutOfBounds)
    else
      var w := out[..offset] + [x.sign] + Digits(x.mag) + out[offset + 1 + n..];
      assert w[offset + 1..offset + 1 + n] == Digits(x.mag);
      assert w[offset + 1 + n..] == out[offset + 1 + n..];
      Ok((w, n + 1))
  }

  /** fromByteArray(value, offset, length): the sign is the first byte, the
      magnitude is read from the `length - 1` bytes after it. A zero length
      makes the magnitude copy negative, which the runtime rejects. */
  function FromByteArray(x: Integer, value: seq<Byte>, offset: nat, length: nat): (r: Result<Integer, Failure>)
    ensures r.Ok? <==> 1 <= length && offset + 1 + (if length - 1 <= x.mag.size then length - 1 else x.mag.size) <= |value|
    ensures r.Err? ==> r.error == ArrayIndexOutOfBounds
    ensures r.Ok? ==> r.value.sign == value[offset]
                      && r.value.mag.size == x.mag.size && |r.value.mag.value| == |x.mag.value|
    ensures r.Ok? && length == x.mag.size + 1 ==> Num(r.value.mag) == Val(value[offset + 1..offset + length])
  {
    if offset >= |value| || length == 0 then Err(ArrayIndexOutOfBounds)
    else
      var read :- BigNats.FromByteArray(x.mag, value, offset + 1, length - 1);
      Ok(Integer(value[offset], read.0))
  }

  /** Serialising an integer and reading the bytes back into an integer of
      the same length restores its sign and value. */
  lemma ByteArrayRoundTrip(x: Integer, y: Integer, out: seq<Byte>, offset: nat)
    requires y.mag.size == x.mag.size && offset + 1 + x.mag.size <= |out|
    ensures ToByteArray(x, out, offset).Ok?
    ensures var w := ToByteArray(x, out, offset).value;
            var r := FromByteArray(y, w.0, offset, w.1);
            r.Ok? && r.value.sign == x.sign && Num(r.value.mag) == Num(x.mag)
  {
    var w := ToByteArray(x, out, offset).value;
    assert w.0[offset + 1..offset + w.1] == w.0[offset + 1..offset + 1 + x.mag.size];
  }

  /** lesser(other) as written: for two negative operands it answers
      `!(|this| < |other|)`, which is "less than or equal". */
  method Lesser(x: Integer, y: Integer) returns (lt: bool)
    ensures IsNegative(x) && IsPositive(y) ==> lt
    ensures IsPositive(x) && IsNegative(y) ==> !lt
    ensures IsPositive(x) && IsPositive(y) ==> (lt <==> Num(x.mag) < Num(y.mag) % Pow256(x.mag.size))
    ensures !Opposite(x, y) && !(IsPositive(x) && IsPositive(y)) ==>
              (lt <==> Num(y.mag) % Pow256(x.mag.size) <= Num(x.mag))
    ensures Canonical(x) && Canonical(y) && x.mag.size == y.mag.size ==>
              (lt <==> if IsNegative(x) && IsNegative(y) then Value(x) <= Value(y) else Value(x) < Value(y))
  {
    if x.sign == 1 && y.sign == 0 {
      lt := true;
    } else if x.sign == 0 && y.sign == 1 {
      lt := false;
    } else if x.sign == 0 && y.sign == 0 {
      lt := Compare.Lesser(x.mag, y.mag);
    } else {
      var below := Compare.Lesser(x.mag, y.mag);
      lt := !below;
    }
  }

  /** lesser with the negative case comparing the magnitudes the other way
      round: a strict order on canonical integers of equal length. */
  method LesserFixed(x: Integer, y: Integer) returns (lt: bool)
    ensures IsNegative(x) && IsPositive(y) ==> lt
    ensures IsPositive(x) && IsNegative(y) ==> !lt
    ensures IsPositive(x) && IsPositive(y) ==> (lt <==> Num(x.mag) < Num(y.mag) % Pow256(x.mag.size))
    ensures !Opposite(x, y) && !(IsPositive(x) && IsPositive(y)) ==>
              (lt <==> Num(y.mag) < Num(x.mag) % Pow256(y.mag.size))
    ensures Canonical(x) && Canonical(y) && x.mag.size == y.mag.size ==> (lt <==> Value(x) < Value(y))
  {
    if x.sign == 1 && y.sign == 0 {
      lt := true;
    } else if x.sign == 0 && y.sign == 1 {
      lt := false;
    } else if x.sign == 0 && y.sign == 0 {
      lt := Compare.Lesser(x.mag, y.mag);
    } else {
      lt := Compare.Lesser(y.mag, x.mag);
    }
  }

  /** -5 < -5: the code as written says yes, the corrected comparison no. */
  method LesserEqualNegatives() returns (asWritten: bool, fixed: bool)
    ensures asWritten && !fixed
  {
    var five: Integer := Integer(1, Buffer([5], 1));
    assert Num(five.mag) == 5 by {
      assert five.mag.value[..1] == [5];
      assert [5][..0] == [];
    }
    asWritten := Lesser(five, five);
    fixed := LesserFixed(five, five);
  }

  /** The smaller-magnitude branch of add: the scratch number is locked,
      then `tmp.clone(other); tmp.subtract(this); this.copy(tmp)`, then
      unlocked. A failure after the lock leaves the scratch locked. */
  method SubtractFrom(m: BigNat, other: BigNat, tmp: Reserved) returns (res: Result<BigNat, Failure>, tmp': Reserved)
    ensures res.Ok? <==> !tmp.locked && other.size <= |tmp.num.value|
                         && (Num(other) - Num(m) % Pow256(other.size)) % Pow256(other.size) < Pow256(m.size)
    ensures res.Err? ==> res.error == if tmp.locked then LockAlreadyLocked
                                      else if other.size <= |tmp.num.value| then InvalidCopyOther
                                      else ReallocationNotAllowed
    ensures tmp'.locked <==> tmp.locked || res.Err?
    ensures res.Ok? ==> res.value.size == m.size && TailKept(m, res.value)
    ensures res.Ok? ==> Num(res.value) == (Num(other) - Num(m) % Pow256(other.size)) % Pow256(other.size)
    ensures Num(m) <= Num(other) < Pow256(m.size) && !tmp.locked && other.size <= |tmp.num.value| ==>
              res.Ok? && Num(res.value) == Num(other) - Num(m)
  {
    var held := Lock(tmp);
    if held.Err? {
      return Err(LockAlreadyLocked), tmp;
    }
    tmp' := held.value;
    var t := Clone(tmp.num, other);
    if t.Err? {
      return Err(ReallocationNotAllowed), tmp';
    }
    var d := Scaled.Subtract(t.value, m);
    res := Copy(m, d);
    if res.Ok? {
      tmp' := Unlock(tmp').value.(num := d);
    }
  }

  /** add reaches its last test, `same_value`: the operands are not both
      positive or both negative, and neither `lesser` test chose a
      subtraction. `same_value` locks ARRAY_A and ARRAY_B. */
  predicate ReachesSameValue(x: Integer, y: Integer) {
    !(IsPositive(x) && IsPositive(y)) && !(IsNegative(x) && IsNegative(y))
    && !(Signed(x) && (Num(y.mag) < Num(x.mag) % Pow256(y.mag.size) || Num(x.mag) < Num(y.mag) % Pow256(x.mag.size)))
  }

  /** add(other). Operands of equal sign add their magnitudes (modulo the
      length); operands of opposite sign subtract the smaller magnitude
      from the larger and take the sign of the larger, and equal
      magnitudes give +0. The answers are exact for equal lengths; with
      different lengths `lesser` sees a truncated magnitude. `arraysHeld`
      says that ARRAY_A or ARRAY_B is already held, which makes the
      `same_value` test raise SW_LOCK_ALREADYLOCKED. */
  method Add(x: Integer, y: Integer, tmp: Reserved, arraysHeld: bool) returns (res: Result<Integer, Failure>, tmp': Reserved)
    ensures res.Ok? ==> res.value.mag.size == x.mag.size && TailKept(x.mag, res.value.mag)
    ensures ReachesSameValue(x, y) ==>
              tmp' == tmp && (res.Err? <==> arraysHeld) && (res.Err? ==> res.error == LockAlreadyLocked)
    ensures !ReachesSameValue(x, y) && res.Err? ==>
              res.error == (if tmp.locked then LockAlreadyLocked
                            else if y.mag.size <= |tmp.num.value| then InvalidCopyOther
                            else ReallocationNotAllowed)
    ensures !ReachesSameValue(x, y) ==> (tmp'.locked <==> tmp.locked || res.Err?)
    ensures !Opposite(x, y) && Signed(x) && Signed(y) ==>
              res.Ok? && res.value.sign == x.sign
              && Num(res.value.mag) == (Num(x.mag) + Num(y.mag) % Pow256(x.mag.size)) % Pow256(x.mag.size)
    ensures !Opposite(x, y) && Signed(x) && Signed(y) && Num(x.mag) + Num(y.mag) < Pow256(x.mag.size) ==>
              res.Ok? && Value(res.value) == Value(x) + Value(y)
    ensures Opposite(x, y) && x.mag.size == y.mag.size ==>
              (res.Ok? <==> if Num(x.mag) == Num(y.mag) then !arraysHeld
                            else Num(y.mag) < Num(x.mag) || (!tmp.locked && y.mag.size <= |tmp.num.value|))
    ensures Opposite(x, y) && x.mag.size == y.mag.size && res.Ok? ==>
              Value(res.value) == Value(x) + Value(y) && Canonical(res.value)
    ensures !Signed(x) ==>
              (res.Ok? <==> !arraysHeld)
              && (res.Ok? ==> if Num(x.mag) == Num(y.mag) then IsPositive(res.value) && Num(res.value.mag) == 0
                              else res.value == x)
  {
    if (IsPositive(x) && IsPositive(y)) || (IsNegative(x) && IsNegative(y)) {
      var r := SameSignAdd(x, y);
      return Ok(r), tmp;
    }
    res, tmp' := AddMixed(x, y, tmp, arraysHeld);
  }

  /** Equal signs: the magnitudes are added in place, the carry dropped. */
  method SameSignAdd(x: Integer, y: Integer) returns (r: Integer)
    requires (IsPositive(x) && IsPositive(y)) || (IsNegative(x) && IsNegative(y))
    ensures r.sign == x.sign && r.mag.size == x.mag.size && TailKept(x.mag, r.mag)
    ensures Num(r.mag) == (Num(x.mag) + Num(y.mag) % Pow256(x.mag.size)) % Pow256(x.mag.size)
    ensures Num(x.mag) + Num(y.mag) < Pow256(x.mag.size) ==> Value(r) == Value(x) + Value(y)
  {
    var p: int := Pow256(x.mag.size);
    if Num(x.mag) + Num(y.mag) < p {
      SmallSum(Num(x.mag), Num(y.mag), p);
    }
    var s, _ := AddSub.Add(x.mag, y.mag);
    r := Integer(x.sign, s);
  }

  lemma SmallSum(a: int, b: int, p: int)
    requires 0 <= a && 0 <= b && a + b < p
    ensures (a + b % p) % p == a + b
  {
    DivModUnique(b, p, 0, b);
    DivModUnique(a + b, p, 0, a + b);
  }

  /** The branches of add for operands that are not both positive and
      not both negative. */
  method AddMixed(x: Integer, y: Integer, tmp: Reserved, arraysHeld: bool) returns (res: Result<Integer, Failure>, tmp': Reserved)
    requires !(IsPositive(x) && IsPositive(y)) && !(IsNegative(x) && IsNegative(y))
    ensures res.Ok? ==> res.value.mag.size == x.mag.size && TailKept(x.mag, res.value.mag)
    ensures ReachesSameValue(x, y) ==>
              tmp' == tmp && (res.Err? <==> arraysHeld) && (res.Err? ==> res.error == LockAlreadyLocked)
    ensures !ReachesSameValue(x, y) && res.Err? ==>
              res.error == (if tmp.locked then LockAlreadyLocked
                            else if y.mag.size <= |tmp.num.value| then InvalidCopyOther
                            else ReallocationNotAllowed)
    ensures !ReachesSameValue(x, y) ==> (tmp'.locked <==> tmp.locked || res.Err?)
    ensures Opposite(x, y) && x.mag.size == y.mag.size ==>
              (res.Ok? <==> if Num(x.mag) == Num(y.mag) then !arraysHeld
                            else Num(y.mag) < Num(x.mag) || (!tmp.locked && y.mag.size <= |tmp.num.value|))
    ensures Opposite(x, y) && x.mag.size == y.mag.size && res.Ok? ==>
              Value(res.value) == Value(x) + Value(y) && Canonical(res.value)
    ensures !Signed(x) ==>
              (res.Ok? <==> !arraysHeld)
              && (res.Ok? ==> if Num(x.mag) == Num(y.mag) then IsPositive(res.value) && Num(res.value.mag) == 0
                              else res.value == x)
  {
    tmp' := tmp;
    var otherBelow := Compare.Lesser(y.mag, x.mag);
    if IsPositive(x) && otherBelow {
      var d := Scaled.Subtract(x.mag, y.mag);
      return Ok(Integer(0, d)), tmp';
    }
    if IsNegative(x) && otherBelow {
      var d := Scaled.Subtract(x.mag, y.mag);
      return Ok(Integer(1, d)), tmp';
    }
    var thisBelow := Compare.Lesser(x.mag, y.mag);
    if IsPositive(x) && thisBelow {
      var d;
      d, tmp' := SubtractFrom(x.mag, y.mag, tmp);
      if d.Err? {
        return Err(d.error), tmp';
      }
      return Ok(Integer(1, d.value)), tmp';
    }
    if IsNegative(x) && thisBelow {
      var d;
      d, tmp' := SubtractFrom(x.mag, y.mag, tmp);
      if d.Err? {
        return Err(d.error), tmp';
      }
      return Ok(Integer(0, d.value)), tmp';
    }
    if arraysHeld {
      return Err(LockAlreadyLocked), tmp';
    }
    if Num(x.mag) == Num(y.mag) {
      return Ok(Integer(0, Zero(x.mag))), tmp';
    }
    return Ok(x), tmp';
  }

  /** subtract(other): negates `other`, adds it, and negates it back. When
      the addition fails the second negation never runs, so the caller's
      `other` is left negated; the second result is `other` afterwards. */
  method Subtract(x: Integer, y: Integer, tmp: Reserved, arraysHeld: bool)
    returns (res: Result<Integer, Failure>, y': Integer, tmp': Reserved)
    ensures ReachesSameValue(x, Negate(y)) ==>
              tmp' == tmp && (res.Err? <==> arraysHeld) && (res.Err? ==> res.error == LockAlreadyLocked)
    ensures !ReachesSameValue(x, Negate(y)) && res.Err? ==>
              res.error == (if tmp.locked then LockAlreadyLocked
                            else if y.mag.size <= |tmp.num.value| then InvalidCopyOther
                            else ReallocationNotAllowed)
    ensures !ReachesSameValue(x, Negate(y)) ==> (tmp'.locked <==> tmp.locked || res.Err?)
    ensures res.Ok? ==> y' == y
    ensures res.Err? ==> y' == Negate(y)
    ensures res.Ok? ==> res.value.mag.size == x.mag.size && TailKept(x.mag, res.value.mag)
    ensures Opposite(x, y) ==>
              res.Ok? && res.value.sign == x.sign
              && Num(res.value.mag) == (Num(x.mag) + Num(y.mag) % Pow256(x.mag.size)) % Pow256(x.mag.size)
    ensures Opposite(x, y) && Num(x.mag) + Num(y.mag) < Pow256(x.mag.size) ==>
              res.Ok? && Value(res.value) == Value(x) - Value(y)
    ensures Signed(x) && Signed(y) && !Opposite(x, y) && x.mag.size == y.mag.size ==>
              (res.Ok? <==> if Num(x.mag) == Num(y.mag) then !arraysHeld
                            else Num(y.mag) < Num(x.mag) || (!tmp.locked && y.mag.size <= |tmp.num.value|))
    ensures Signed(x) && Signed(y) && !Opposite(x, y) && x.mag.size == y.mag.size && res.Ok? ==>
              Value(res.value) == Value(x) - Value(y) && Canonical(res.value)
  {
    var negated := Negate(y);
    res, tmp' := Add(x, negated, tmp, arraysHeld);
    if res.Ok? {
      NegateTwice(y);
      y' := Negate(negated);
    } else {
      y' := negated;
    }
  }

  /** `mod_mult(x, y, modulo)`, taken at its meaning: the product reduced
      modulo `modulo`. */
  function ModMult(x: BigNat, y: BigNat, modulo: BigNat): nat
    requires Num(modulo) > 0
  {
    (Num(x) * Num(y)) % Num(modulo)
  }

  /** 256^k is 2^(8k). */
  lemma {:induction false} Pow256IsPow2(k: nat)
    ensures Pow256(k) == Pow2(8 * k)
  {
    if k > 0 {
      Pow256IsPow2(k - 1);
      Shifts.Pow2Add(8 * (k - 1), 8);
      assert Pow2(8) == 256 by {
        assert Pow2(4) == 16;
      }
    }
  }

  /** The modulus multiply builds: the scratch number resized to n >= 1
      digits, zeroed, and its first digit set to 0x80, which is 2^(8n-1),
      one more than the largest magnitude an n-byte two's-complement
      integer can have. */
  function TopBitModulus(modulus: BigNat, n: nat): (r: Result<BigNat, Failure>)
    requires n >= 1
    ensures r.Ok? <==> n <= |modulus.value|
    ensures r.Err? ==> r.error == ResizeToLonger
    ensures r.Ok? ==> r.value.size == n && Num(r.value) == Pow2(8 * n - 1)
  {
    var sized :- SetSize(modulus, n);
    var z := Zero(sized);
    TopBitValue(z);
    Ok(Buffer(z.value[0 := 0x80], n))
  }

  lemma TopBitValue(z: BigNat)
    requires z.size >= 1 && Num(z) == 0
    ensures Num(Buffer(z.value[0 := 0x80], z.size)) == Pow2(8 * z.size - 1)
  {
    var n := z.size;
    var d := Digits(z);
    ValAllZero(d);
    var d' := Buffer(z.value[0 := 0x80], n).value[..n];
    assert d' == [0x80] + d[1..];
    assert AllZero(d[1..]) by {
      forall i | 0 <= i < |d[1..]| ensures d[1..][i] == 0 {
        assert d[1..][i] == d[i + 1];
      }
    }
    ValAllZero(d[1..]);
    ValConcat([0x80], d[1..]);
    assert Val([0x80]) == 0x80 by {
      assert [0x80][..0] == [];
    }
    assert Val(d') == 0x80 * Pow256(n - 1);
    TopBitPower(n - 1);
  }

  lemma TopBitPower(k: nat)
    ensures 0x80 * Pow256(k) == Pow2(8 * (k + 1) - 1)
  {
    Pow256IsPow2(k);
    Shifts.Pow2Add(8 * k, 7);
    assert Pow2(7) == 128 by {
      assert Pow2(3) == 8;
    }
  }

  /** The product `mod_mult` leaves, copied back into the magnitude of
      `this`; it always fits, being below 2^(8n-1). */
  function Product(x: BigNat, y: BigNat, top: BigNat): (r: BigNat)
    requires x.size >= 1 && Num(top) == Pow2(8 * x.size - 1)
    ensures r.size == x.size && TailKept(x, r)
    ensures Num(r) == (Num(x) * Num(y)) % Pow2(8 * x.size - 1)
  {
    var n := x.size;
    var product := ModMult(x, y, top);
    Pow256IsPow2(n);
    Shifts.Pow2Add(8 * n - 1, 1);
    DivModUnique(product, Pow256(n), 0, product);
    AddSub.WithDigits(x, FromNat(product, n))
  }

  lemma NonNegProduct(a: int, b: int)
    requires a >= 0 && b >= 0
    ensures a * b >= 0
  {
  }

  lemma ProductSigns(a: int, b: int)
    ensures (-a) * b == -(a * b) && a * (-b) == -(a * b) && (-a) * (-b) == a * b
  {
  }

  /** A magnitude that is the product's, reduced by a modulus it stays
      below, with the sign rule of multiply: the signed values multiply. */
  lemma SignedProduct(x: Integer, y: Integer, r: Integer, m: int)
    requires r.sign == (if Opposite(x, y) then 1 else 0) && m > 0
    requires Num(r.mag) == (Num(x.mag) * Num(y.mag)) % m
    ensures Signed(r) && (IsNegative(r) <==> Opposite(x, y))
    ensures Signed(x) && Signed(y) && Num(x.mag) * Num(y.mag) < m ==> Value(r) == Value(x) * Value(y)
  {
    var a: int := Num(x.mag);
    var b: int := Num(y.mag);
    ProductSigns(a, b);
    NonNegProduct(a, b);
    if a * b < m {
      DivModUnique(a * b, m, 0, a * b);
    }
  }

  /** multiply(other): the result is negative exactly when the signs are
      opposite; the magnitude is the product modulo 2^(8n-1), n the length,
      computed by `mod_mult` into a scratch number. The modulus scratch is
      locked and built first, then the product scratch is locked and
      resized; a failure leaves every scratch locked so far locked, and a
      scratch never reached unchanged. */
  method Multiply(x: Integer, y: Integer, modulus: Reserved, tmp: Reserved)
    returns (res: Result<Integer, Failure>, modulus': Reserved, tmp': Reserved)
    requires x.mag.size >= 1
    ensures res.Ok? <==> !modulus.locked && x.mag.size <= |modulus.num.value|
                         && !tmp.locked && x.mag.size <= |tmp.num.value|
    ensures res.Err? ==> res.error == (if modulus.locked || (x.mag.size <= |modulus.num.value| && tmp.locked)
                                       then LockAlreadyLocked else ResizeToLonger)
    ensures modulus'.locked <==> modulus.locked || res.Err?
    ensures tmp'.locked <==> tmp.locked || (res.Err? && !modulus.locked && x.mag.size <= |modulus.num.value|)
    ensures res.Ok? ==> res.value.mag.size == x.mag.size && TailKept(x.mag, res.value.mag)
    ensures res.Ok? ==> Signed(res.value) && (IsNegative(res.value) <==> Opposite(x, y))
    ensures res.Ok? ==> Num(res.value.mag) == (Num(x.mag) * Num(y.mag)) % Pow2(8 * x.mag.size - 1)
    ensures res.Ok? && Signed(x) && Signed(y) && Num(x.mag) * Num(y.mag) < Pow2(8 * x.mag.size - 1) ==>
              Value(res.value) == Value(x) * Value(y)
  {
    modulus', tmp' := modulus, tmp;
    var sign: Byte := if Opposite(x, y) then 1 else 0;
    var heldMod := Lock(modulus);
    if heldMod.Err? {
      return Err(LockAlreadyLocked), modulus', tmp';
    }
    modulus' := heldMod.value;
    var top := TopBitModulus(modulus.num, x.mag.size);
    if top.Err? {
      return Err(ResizeToLonger), modulus', tmp';
    }
    var heldTmp := Lock(tmp);
    if heldTmp.Err? {
      return Err(LockAlreadyLocked), modulus', tmp';
    }
    tmp' := heldTmp.value;
    var sized := SetSize(tmp.num, x.mag.size);
    if sized.Err? {
      return Err(ResizeToLonger), modulus', tmp';
    }
    var r := Integer(sign, Product(x.mag, y.mag, top.value));
    SignedProduct(x, y, r, Pow2(8 * x.mag.size - 1));
    modulus' := Unlock(modulus').value.(num := top.value);
    tmp' := Unlock(tmp').value.(num := r.mag);
    return Ok(r), modulus', tmp';
  }

  /** A quotient never exceeds its dividend. */
  lemma QuotientAtMost(a: nat, b: nat)
    requires b > 0
    ensures a / b <= a
  {
    var k := a / b;
    DivisionBounds(a, b);
    assert k >= 0;
    MulMono(1, b, k);
    assert k <= b * k == k * b <= a;
  }

  /** divide(other): the sign rule of multiply; the magnitude becomes the
      quotient of the magnitudes, which always fits in the length of
      `this`. The dividend is first cloned into a scratch number, which is
      locked for the duration; a failure leaves it locked. */
  method Divide(x: Integer, y: Integer, tmp: Reserved) returns (res: Result<Integer, Failure>, tmp': Reserved)
    requires Num(y.mag) > 0
    ensures res.Ok? <==> !tmp.locked && x.mag.size <= |tmp.num.value|
    ensures res.Err? ==> res.error == if tmp.locked then LockAlreadyLocked else ReallocationNotAllowed
    ensures tmp'.locked <==> tmp.locked || res.Err?
    ensures res.Ok? ==> res.value.mag.size == x.mag.size && TailKept(x.mag, res.value.mag)
    ensures res.Ok? ==> Signed(res.value) && (IsNegative(res.value) <==> Opposite(x, y))
    ensures res.Ok? ==> Num(res.value.mag) * Num(y.mag) <= Num(x.mag) < (Num(res.value.mag) + 1) * Num(y.mag)
    ensures res.Ok? && Signed(x) && Signed(y) ==> Value(res.value) == TruncDiv(Value(x), Value(y))
  {
    var sign: Byte := if Opposite(x, y) then 1 else 0;
    var held := Lock(tmp);
    if held.Err? {
      return Err(LockAlreadyLocked), tmp;
    }
    tmp' := held.value;
    var t := Clone(tmp.num, x.mag);
    if t.Err? {
      return Err(ReallocationNotAllowed), tmp';
    }
    QuotientAtMost(Num(x.mag), Num(y.mag));
    var divided := Division.RemainderDivide(t.value, y.mag, Some(x.mag));
    var q: BigNat := divided.value.quotient.value;
    var a, b, k := Num(x.mag), Num(y.mag), Num(q);
    assert k == a / b;
    assert k * b <= a < (k + 1) * b by {
      DivisionBounds(a, b);
    }
    tmp' := Unlock(tmp').value.(num := divided.value.remainder);
    res := Ok(Integer(sign, q));
  }

  lemma DivisionBounds(a: int, b: int)
    requires a >= 0 && b > 0
    ensures (a / b) * b <= a < (a / b + 1) * b
  {
  }

  /** modulo(other): the magnitude becomes its remainder modulo the other
      magnitude; the sign is left as it was. */
  method Modulo(x: Integer, y: Integer) returns (r: Integer)
    requires Num(y.mag) > 0
    ensures r.sign == x.sign && r.mag.size == x.mag.size && TailKept(x.mag, r.mag)
    ensures Num(r.mag) < Num(y.mag) && (Num(x.mag) - Num(r.mag)) % Num(y.mag) == 0
  {
    var m := Division.Mod(x.mag, y.mag);
    r := Integer(x.sign, m);
    ModCongruent(Num(x.mag), Num(y.mag));
  }

  lemma ModCongruent(a: int, b: int)
    requires b > 0
    ensures (a - a % b) % b == 0
  {
    DivModUnique(a - a % b, b, a / b, 0);
  }
}

=== FILE: locker.dfy ===
/** The object locker (`ObjectLocker`): a table of guarded objects, each
    registered in an even slot whose odd neighbour records whether it is
    locked, mirrored in persistent memory so the table survives a card
    reset. The merged single-file release adds an optional profile of
    which objects were locked together. */
module Locker {
  import opened Wrappers
  import opened ReturnCodes
  import opened Radix

  /** Identity of a guarded object; `equals` on the guarded objects is
      reference equality. */
  type Obj = nat

  datatype ObjectLocker = ObjectLocker(
    ram: seq<Option<Obj>>,         // lockedObjects: slot 2k the object, slot 2k+1 its holder or null
    persistent: seq<Option<Obj>>,  // lockedObjectsPersistent
    active: bool,                  // bLockingActive
    eraseOnLock: bool,             // ERASE_ON_LOCK
    eraseOnUnlock: bool,           // ERASE_ON_UNLOCK
    profiling: bool,               // PROFILE_LOCKED_OBJECTS (merged release)
    profile: seq<Byte>)            // profileLockedObjects: one row of `Slots` bytes per slot

  function Slots(l: ObjectLocker): nat { |l.ram| / 2 }

  /** The shape every constructed locker has. */
  predicate Valid(l: ObjectLocker) {
    |l.ram| % 2 == 0 && |l.persistent| == |l.ram| && |l.profile| == Slots(l) * Slots(l)
  }

  /** Slot `i` is the first object slot holding `obj`. */
  predicate FirstSlot(ram: seq<Option<Obj>>, obj: Obj, i: nat) {
    i % 2 == 0 && i + 1 < |ram| && ram[i] == Some(obj)
    && forall j :: 0 <= j < i && j % 2 == 0 ==> ram[j] != Some(obj)
  }

  /** Slot `i` is the first free object slot. */
  predicate FirstFree(ram: seq<Option<Obj>>, i: nat) {
    i % 2 == 0 && i + 1 < |ram| && ram[i].None?
    && forall j :: 0 <= j < i && j % 2 == 0 ==> ram[j].Some?
  }

  predicate Registered(ram: seq<Option<Obj>>, obj: Obj) {
    exists i :: 0 <= i < |ram| && i % 2 == 0 && ram[i] == Some(obj)
  }

  /** Every lock slot is empty or holds the object of its pair: the only
      value `lock` ever writes there. */
  predicate Consistent(ram: seq<Option<Obj>>) {
    forall i :: 0 <= i < |ram| && i % 2 == 1 ==> ram[i].None? || ram[i] == ram[i - 1]
  }

  /** The persistent table repeats the registrations and holds no locks. */
  predicate Mirrored(l: ObjectLocker) {
    Valid(l)
    && (forall i :: 0 <= i < |l.ram| && i % 2 == 0 ==> l.persistent[i] == l.ram[i])
    && (forall i :: 0 <= i < |l.ram| && i % 2 == 1 ==> l.persistent[i].None?)
  }

  /** The constructor: `numObjects` empty pairs in both tables, locking
      active, a zeroed profile. */
  function New(numObjects: nat, eraseOnLock: bool, eraseOnUnlock: bool, profiling: bool): (l: ObjectLocker)
    ensures Valid(l) && Mirrored(l) && Consistent(l.ram) && Slots(l) == numObjects && l.active
    ensures forall obj :: !Registered(l.ram, obj)
  {
    var empty := seq(2 * numObjects, _ => None);
    ObjectLocker(empty, empty, true, eraseOnLock, eraseOnUnlock, profiling, Zeros(numObjects * numObjects))
  }

  /** The search loop of lock/unlock/isLocked from object slot `from` on;
      the table length when the object is not registered. */
  function Find(ram: seq<Option<Obj>>, obj: Obj, from: nat): (i: nat)
    requires |ram| % 2 == 0 && from % 2 == 0 && from <= |ram|
    ensures from <= i <= |ram| && i % 2 == 0
    ensures i < |ram| ==> ram[i] == Some(obj)
    ensures forall j :: from <= j < i && j % 2 == 0 ==> ram[j] != Some(obj)
    decreases |ram| - from
  {
    if from == |ram| || ram[from] == Some(obj) then from else Find(ram, obj, from + 2)
  }

  /** The search from slot 0 finds the first slot exactly when the object
      is registered. */
  lemma FindFirst(ram: seq<Option<Obj>>, obj: Obj)
    requires |ram| % 2 == 0
    ensures Find(ram, obj, 0) < |ram| <==> Registered(ram, obj)
    ensures Find(ram, obj, 0) < |ram| ==> FirstSlot(ram, obj, Find(ram, obj, 0))
  {
  }

  /** Any first slot of the object is the one the search from slot 0
      stops at. */
  lemma FirstIsFound(ram: seq<Option<Obj>>, obj: Obj)
    requires |ram| % 2 == 0
    ensures forall i :: FirstSlot(ram, obj, i) ==> i == Find(ram, obj, 0)
  {
    var f := Find(ram, obj, 0);
    forall i | FirstSlot(ram, obj, i)
      ensures i == f
    {
    }
  }

  /** Writing the holder slot of pair `i` with nothing or the pair's own
      object keeps the locker's invariants. */
  lemma HolderWritten(l: ObjectLocker, r: ObjectLocker, i: nat, v: Option<Obj>)
    requires Valid(l) && Valid(r) && i % 2 == 0 && i + 1 < |l.ram|
    requires r.ram == l.ram[i + 1 := v] && r.persistent == l.persistent
    ensures Consistent(l.ram) && (v.None? || v == l.ram[i]) ==> Consistent(r.ram)
    ensures Mirrored(l) ==> Mirrored(r)
  {
    if Consistent(l.ram) && (v.None? || v == l.ram[i]) {
      forall j | 0 <= j < |r.ram| && j % 2 == 1
        ensures r.ram[j].None? || r.ram[j] == r.ram[j - 1]
      {
        if j != i + 1 {
          assert r.ram[j] == l.ram[j] && r.ram[j - 1] == l.ram[j - 1];
        }
      }
    }
    if Mirrored(l) {
      forall j | 0 <= j < |r.ram| && j % 2 == 0
        ensures r.persistent[j] == r.ram[j]
      {
        assert r.ram[j] == l.ram[j];
      }
    }
  }

  /** The free-slot loop of registerLock. */
  function FindFree(ram: seq<Option<Obj>>, from: nat): (i: nat)
    requires |ram| % 2 == 0 && from % 2 == 0 && from <= |ram|
    ensures from <= i <= |ram| && i % 2 == 0
    ensures i < |ram| ==> ram[i].None?
    ensures forall j :: from <= j < i && j % 2 == 0 ==> ram[j].Some?
    decreases |ram| - from
  {
    if from == |ram| || ram[from].None? then from else FindFree(ram, from + 2)
  }

  /** registerLock(obj): the first free object slot takes the object in
      both tables, unlocked; its index is returned. A full table raises
      SW_LOCK_NOFREESLOT. The activity flag is not consulted. */
  function RegisterLock(l: ObjectLocker, obj: Obj): (res: Result<(ObjectLocker, nat), Failure>)
    requires Valid(l)
    ensures res.Err? <==> forall j :: 0 <= j < |l.ram| && j % 2 == 0 ==> l.ram[j].Some?
    ensures res.Err? ==> res.error == LockNoFreeSlot
    ensures res.Ok? ==> FirstFree(l.ram, res.value.1)
    ensures res.Ok? ==>
              var (r, i) := res.value;
              r == l.(ram := l.ram[i := Some(obj)][i + 1 := None],
                      persistent := l.persistent[i := Some(obj)][i + 1 := None])
    ensures res.Ok? ==> Valid(res.value.0) && Registered(res.value.0.ram, obj)
    ensures res.Ok? && Consistent(l.ram) ==> Consistent(res.value.0.ram)
    ensures res.Ok? && Mirrored(l) ==> Mirrored(res.value.0)
  {
    var i := FindFree(l.ram, 0);
    if i == |l.ram| then Err(LockNoFreeSlot)
    else
      var r := l.(ram := l.ram[i := Some(obj)][i + 1 := None],
                  persistent := l.persistent[i := Some(obj)][i + 1 := None]);
      RegisteredAt(l, obj, i);
      Ok((r, i))
  }

  /** Writing a registration into object slot `i` of both tables keeps the
      locker's shape and invariants. */
  lemma RegisteredAt(l: ObjectLocker, obj: Obj, i: nat)
    requires Valid(l) && i % 2 == 0 && i + 1 < |l.ram|
    ensures var r := l.(ram := l.ram[i := Some(obj)][i + 1 := None],
                        persistent := l.persistent[i := Some(obj)][i + 1 := None]);
            Valid(r) && Registered(r.ram, obj)
            && (Consistent(l.ram) ==> Consistent(r.ram))
            && (Mirrored(l) ==> Mirrored(r))
  {
    var r := l.(ram := l.ram[i := Some(obj)][i + 1 := None],
                persistent := l.persistent[i := Some(obj)][i + 1 := None]);
    assert r.ram[i] == Some(obj);
    if Consistent(l.ram) {
      forall j | 0 <= j < |r.ram| && j % 2 == 1 ensures r.ram[j].None? || r.ram[j] == r.ram[j - 1] {
        if j != i + 1 {
          assert r.ram[j] == l.ram[j] && r.ram[j - 1] == l.ram[j - 1];
        }
      }
    }
  }

  /** The first |objs| pairs hold `objs` in order, unlocked; the rest of
      the table is empty. */
  predicate FilledWith(ram: seq<Option<Obj>>, objs: seq<Obj>) {
    |ram| % 2 == 0 && 2 * |objs| <= |ram|
    && (forall k :: 0 <= k < |objs| ==> ram[2 * k] == Some(objs[k]) && ram[2 * k + 1].None?)
    && (forall j :: 2 * |objs| <= j < |ram| ==> ram[j].None?)
  }

  /** Registering into a table filled in order takes the next pair, while
      one is left. */
  lemma RegisterNext(l: ObjectLocker, objs: seq<Obj>, obj: Obj)
    requires Valid(l) && FilledWith(l.ram, objs) && |objs| < Slots(l)
    ensures RegisterLock(l, obj).Ok?
    ensures RegisterLock(l, obj).value.1 == 2 * |objs|
    ensures FilledWith(RegisterLock(l, obj).value.0.ram, objs + [obj])
  {
    var n := |objs|;
    assert l.ram[2 * n].None?;
    var res := RegisterLock(l, obj);
    var i := res.value.1;
    assert FirstFree(l.ram, i);
    forall j | 0 <= j < 2 * n && j % 2 == 0 ensures l.ram[j].Some? {
      var k := j / 2;
      assert j == 2 * k;
      assert l.ram[2 * k] == Some(objs[k]);
    }
    assert i == 2 * n;
    var ram' := l.ram[i := Some(obj)][i + 1 := None];
    assert res.value.0.ram == ram';
    var objs' := objs + [obj];
    forall k | 0 <= k < n + 1
      ensures ram'[2 * k] == Some(objs'[k]) && ram'[2 * k + 1].None?
    {
      if k < n {
        assert objs'[k] == objs[k];
      }
    }
  }

  /** A table filled to the last pair refuses one more registration. */
  lemma RegisterFull(l: ObjectLocker, objs: seq<Obj>, obj: Obj)
    requires Valid(l) && FilledWith(l.ram, objs) && |objs| == Slots(l)
    ensures RegisterLock(l, obj) == Err(LockNoFreeSlot)
  {
    forall j | 0 <= j < |l.ram| && j % 2 == 0 ensures l.ram[j].Some? {
      var k := j / 2;
      assert j == 2 * k;
      assert l.ram[2 * k] == Some(objs[k]);
    }
  }

  /** refreshAfterReset: the RAM table is reloaded from the persistent one. */
  function RefreshAfterReset(l: ObjectLocker): (r: ObjectLocker)
    requires Valid(l)
    ensures Valid(r) && r.ram == r.persistent == l.persistent
    ensures Mirrored(l) ==> forall i :: 0 <= i < |r.ram| && i % 2 == 0 ==> r.ram[i] == l.ram[i]
    ensures Mirrored(l) ==> forall i :: 0 <= i < |r.ram| && i % 2 == 1 ==> r.ram[i].None?
  {
    l.(ram := l.persistent)
  }

  /** A card reset clears the RAM table (CLEAR_ON_RESET). */
  function CardReset(l: ObjectLocker): (r: ObjectLocker)
    requires Valid(l)
    ensures Valid(r) && r.persistent == l.persistent
    ensures forall obj :: !Registered(r.ram, obj)
  {
    l.(ram := seq(|l.ram|, _ => None))
  }

  /** After a reset, refreshing restores every registration and leaves
      every object unlocked. */
  lemma ResetThenRefresh(l: ObjectLocker, obj: Obj)
    requires Mirrored(l)
    ensures Registered(RefreshAfterReset(CardReset(l)).ram, obj) <==> Registered(l.ram, obj)
    ensures Consistent(RefreshAfterReset(CardReset(l)).ram)
  {
    var r := RefreshAfterReset(CardReset(l));
    if Registered(l.ram, obj) {
      var i :| 0 <= i < |l.ram| && i % 2 == 0 && l.ram[i] == Some(obj);
      assert r.ram[i] == Some(obj);
    }
    if Registered(r.ram, obj) {
      var i :| 0 <= i < |r.ram| && i % 2 == 0 && r.ram[i] == Some(obj);
      assert l.ram[i] == Some(obj);
    }
  }

  function SetLockingActive(l: ObjectLocker, active: bool): (r: ObjectLocker)
    ensures r.active == active && r.ram == l.ram && r.persistent == l.persistent
  {
    l.(active := active)
  }

  /** The profile after locking object slot `lockIndex`: in the row of that
      slot, every slot whose object is currently locked is marked 1. */
  function ProfileRow(ram: seq<Option<Obj>>, profile: seq<Byte>, lockIndex: nat): (p: seq<Byte>)
    requires |ram| % 2 == 0 && lockIndex < |ram| && |profile| == (|ram| / 2) * (|ram| / 2)
    ensures |p| == |profile|
  {
    var n := |ram| / 2;
    var offset := (lockIndex / 2) * n;
    seq(|profile|, k requires 0 <= k < |profile| =>
      if offset <= k < offset + n && ram[2 * (k - offset) + 1].Some? then 1 else profile[k])
  }

  lemma RowInside(row: nat, n: nat, col: nat)
    requires row < n && col < n
    ensures row * n + col < n * n
  {
    assert (row + 1) * n <= n * n by {
      MulMono(row + 1, n, n);
    }
  }

  /** The profiling loop of the merged release's private lock: marks
      `profile[(lockIndex/2) * n + i/2]` for every locked slot `i`. */
  method MarkProfile(ram: seq<Option<Obj>>, profile: seq<Byte>, lockIndex: nat) returns (p: seq<Byte>)
    requires |ram| % 2 == 0 && lockIndex < |ram| && lockIndex % 2 == 0
    requires |profile| == (|ram| / 2) * (|ram| / 2)
    ensures p == ProfileRow(ram, profile, lockIndex)
  {
    var n := |ram| / 2;
    var offset := (lockIndex / 2) * n;
    p := profile;
    var i := 0;
    while i < |ram|
      invariant 0 <= i <= |ram| && i % 2 == 0 && |p| == |profile|
      invariant forall k :: 0 <= k < |p| ==>
                  p[k] == if offset <= k < offset + i / 2 && ram[2 * (k - offset) + 1].Some? then 1 else profile[k]
    {
      if ram[i + 1].Some? {
        RowInside(lockIndex / 2, n, i / 2);
        p := p[offset + i / 2 := 1];
      }
      i := i + 2;
    }
    assert forall k :: 0 <= k < |p| ==> p[k] == ProfileRow(ram, profile, lockIndex)[k];
  }

  /** The profile marks the locking slot's own column once it is locked,
      and nothing outside its row changes. */
  lemma ProfileMarks(ram: seq<Option<Obj>>, profile: seq<Byte>, lockIndex: nat, i: nat)
    requires |ram| % 2 == 0 && lockIndex < |ram| && lockIndex % 2 == 0
    requires |profile| == (|ram| / 2) * (|ram| / 2)
    requires i < |ram| && i % 2 == 0 && ram[i + 1].Some?
    ensures (lockIndex / 2) * (|ram| / 2) + i / 2 < |profile|
    ensures ProfileRow(ram, profile, lockIndex)[(lockIndex / 2) * (|ram| / 2) + i / 2] == 1
  {
    RowInside(lockIndex / 2, |ram| / 2, i / 2);
  }

  /** The locked result of `lock(obj, i)`: the holder slot takes the
      object, and the profile is updated when profiling. */
  function Locked(l: ObjectLocker, obj: Obj, i: nat): (r: ObjectLocker)
    requires Valid(l) && i % 2 == 0 && i + 1 < |l.ram|
    ensures Valid(r) && r.persistent == l.persistent && r.ram == l.ram[i + 1 := Some(obj)]
    ensures l.ram[i] == Some(obj) && Consistent(l.ram) ==> Consistent(r.ram)
    ensures Mirrored(l) ==> Mirrored(r)
  {
    var ram := l.ram[i + 1 := Some(obj)];
    var r := l.(ram := ram, profile := if l.profiling then ProfileRow(ram, l.profile, i) else l.profile);
    HolderWritten(l, r, i, Some(obj));
    r
  }

  /** lock(obj). Inactive: nothing happens. Otherwise the first slot
      holding the object is locked; an unregistered object raises
      SW_LOCK_OBJECT_NOT_FOUND and a locked one SW_LOCK_ALREADYLOCKED.
      The object-mismatch test of the private lock cannot fire: the slot
      found holds the object. */
  function Lock(l: ObjectLocker, obj: Obj): (res: Result<ObjectLocker, Failure>)
    requires Valid(l)
    ensures !l.active ==> res == Ok(l)
    ensures l.active && !Registered(l.ram, obj) ==> res == Err(LockObjectNotFound)
    ensures forall i :: l.active && FirstSlot(l.ram, obj, i) ==>
              if l.ram[i + 1].Some? then res == Err(LockAlreadyLocked)
              else res == Ok(Locked(l, obj, i))
    ensures res.Ok? ==> Valid(res.value) && res.value.persistent == l.persistent
    ensures res.Ok? && Consistent(l.ram) ==> Consistent(res.value.ram)
    ensures res.Ok? && Mirrored(l) ==> Mirrored(res.value)
  {
    if !l.active then Ok(l)
    else
      var i := Find(l.ram, obj, 0);
      FindFirst(l.ram, obj);
      FirstIsFound(l.ram, obj);
      if i == |l.ram| then Err(LockObjectNotFound)
      else if l.ram[i + 1].Some? then Err(LockAlreadyLocked)
      else Ok(Locked(l, obj, i))
  }

  /** unlock(obj) as written. The private unlock calls `equals` on the
      holder slot, so an object that is registered but not locked
      dereferences null instead of reaching SW_LOCK_NOTLOCKED. */
  function Unlock(l: ObjectLocker, obj: Obj): (res: Result<ObjectLocker, Failure>)
    requires Valid(l)
    ensures !l.active ==> res == Ok(l)
    ensures l.active && !Registered(l.ram, obj) ==> res == Err(LockObjectNotFound)
    ensures forall i :: l.active && FirstSlot(l.ram, obj, i) ==>
              if l.ram[i + 1].None? then res == Err(NullPointer)
              else if l.ram[i + 1] == Some(obj) then res == Ok(l.(ram := l.ram[i + 1 := None]))
              else res == Err(LockNotLocked)
    ensures res.Ok? ==> Valid(res.value) && res.value.persistent == l.persistent
    ensures res.Ok? && Consistent(l.ram) ==> Consistent(res.value.ram)
    ensures res.Ok? && Mirrored(l) ==> Mirrored(res.value)
  {
    if !l.active then Ok(l)
    else
      var i := Find(l.ram, obj, 0);
      FindFirst(l.ram, obj);
      FirstIsFound(l.ram, obj);
      if i == |l.ram| then Err(LockObjectNotFound)
      else if l.ram[i + 1].None? then Err(NullPointer)
      else if l.ram[i + 1] == Some(obj) then HolderWritten(l, l.(ram := l.ram[i + 1 := None]), i, None); Ok(l.(ram := l.ram[i + 1 := None]))
      else Err(LockNotLocked)
  }

  /** unlock(obj) with the holder slot tested for null first, as the
      method's documentation promises: an unlocked object raises
      SW_LOCK_NOTLOCKED. */
  function UnlockFixed(l: ObjectLocker, obj: Obj): (res: Result<ObjectLocker, Failure>)
    requires Valid(l)
    ensures !l.active ==> res == Ok(l)
    ensures l.active && !Registered(l.ram, obj) ==> res == Err(LockObjectNotFound)
    ensures forall i :: l.active && FirstSlot(l.ram, obj, i) ==>
              if l.ram[i + 1] == Some(obj) then res == Ok(l.(ram := l.ram[i + 1 := None]))
              else res == Err(LockNotLocked)
    ensures res.Ok? ==> Valid(res.value) && res.value.persistent == l.persistent
    ensures res.Ok? && Consistent(l.ram) ==> Consistent(res.value.ram)
    ensures res.Ok? && Mirrored(l) ==> Mirrored(res.value)
  {
    if !l.active then Ok(l)
    else
      var i := Find(l.ram, obj, 0);
      FindFirst(l.ram, obj);
      FirstIsFound(l.ram, obj);
      if i == |l.ram| then Err(LockObjectNotFound)
      else if l.ram[i + 1] == Some(obj) then HolderWritten(l, l.(ram := l.ram[i + 1 := None]), i, None); Ok(l.(ram := l.ram[i + 1 := None]))
      else Err(LockNotLocked)
  }

  /** isLocked(obj): false when inactive; whether the first slot holding
      the object is locked; SW_LOCK_OBJECT_NOT_FOUND otherwise. */
  function IsLocked(l: ObjectLocker, obj: Obj): (res: Result<bool, Failure>)
    requires Valid(l)
    ensures !l.active ==> res == Ok(false)
    ensures l.active && !Registered(l.ram, obj) ==> res == Err(LockObjectNotFound)
    ensures forall i :: l.active && FirstSlot(l.ram, obj, i) ==> res == Ok(l.ram[i + 1].Some?)
  {
    if !l.active then Ok(false)
    else
      var i := Find(l.ram, obj, 0);
      FindFirst(l.ram, obj);
      if i == |l.ram| then Err(LockObjectNotFound) else Ok(l.ram[i + 1].Some?)
  }

  /** Locking then unlocking a registered, unlocked object gives the
      tables back (only the profile keeps a trace); the lock is seen by
      isLocked in between; a second lock is refused. */
  lemma LockUnlockRoundTrip(l: ObjectLocker, obj: Obj)
    requires Valid(l) && l.active && Registered(l.ram, obj)
    requires IsLocked(l, obj) == Ok(false)
    ensures Lock(l, obj).Ok?
    ensures IsLocked(Lock(l, obj).value, obj) == Ok(true)
    ensures Lock(Lock(l, obj).value, obj) == Err(LockAlreadyLocked)
    ensures Unlock(Lock(l, obj).value, obj).Ok?
    ensures Unlock(Lock(l, obj).value, obj).value.ram == l.ram
  {
    FindFirst(l.ram, obj);
    var i := Find(l.ram, obj, 0);
    var m := Lock(l, obj).value;
    assert m.ram == l.ram[i + 1 := Some(obj)];
    assert FirstSlot(m.ram, obj, i);
    assert l.ram[i + 1 := Some(obj)][i + 1 := None] == l.ram;
  }

  /** Unlocking a registered object that was never locked: null
      dereference as written, SW_LOCK_NOTLOCKED as corrected. */
  lemma UnlockNeverLocked()
    ensures var l := RegisterLock(New(1, false, false, false), 7).value.0;
            Unlock(l, 7) == Err(NullPointer) && UnlockFixed(l, 7) == Err(LockNotLocked)
  {
    var l := RegisterLock(New(1, false, false, false), 7).value.0;
    assert l.ram == [Some(7), None];
    assert FirstSlot(l.ram, 7, 0);
  }

  /** unlockAll: every lock slot is cleared, every registration kept;
      nothing happens when locking is inactive. */
  method UnlockAll(l: ObjectLocker) returns (r: ObjectLocker)
    requires Valid(l)
    ensures !l.active ==> r == l
    ensures l.active ==> r == l.(ram := r.ram) && |r.ram| == |l.ram|
    ensures l.active ==> forall i :: 0 <= i < |r.ram| ==> r.ram[i] == if i % 2 == 0 then l.ram[i] else None
    ensures Valid(r) && (l.active ==> Consistent(r.ram)) && (Mirrored(l) ==> Mirrored(r))
  {
    if !l.active {
      return l;
    }
    var ram := l.ram;
    var i := 0;
    while i < |ram|
      invariant 0 <= i <= |ram| && i % 2 == 0 && |ram| == |l.ram|
      invariant forall k :: 0 <= k < |ram| ==>
                  ram[k] == if k % 2 == 1 && k < i then None else l.ram[k]
    {
      ram := ram[i + 1 := None];
      i := i + 2;
    }
    r := l.(ram := ram);
  }

  /** lock(byte[]): locks, then zeroes the whole array when ERASE_ON_LOCK
      is set. Inactive: nothing happens and nothing is erased. */
  function LockBytes(l: ObjectLocker, obj: Obj, bytes: seq<Byte>): (res: Result<(ObjectLocker, seq<Byte>), Failure>)
    requires Valid(l)
    ensures !l.active ==> res == Ok((l, bytes))
    ensures l.active ==> (res.Ok? <==> Lock(l, obj).Ok?)
    ensures l.active && res.Err? ==> res.error == Lock(l, obj).error
    ensures l.active && res.Ok? ==>
              res.value.0 == Lock(l, obj).value
              && res.value.1 == if l.eraseOnLock then Zeros(|bytes|) else bytes
  {
    if !l.active then Ok((l, bytes))
    else
      var r :- Lock(l, obj);
      Ok((r, if l.eraseOnLock then Zeros(|bytes|) else bytes))
  }

  /** unlock(byte[]): unlocks, then zeroes the whole array when
      ERASE_ON_UNLOCK is set. */
  function UnlockBytes(l: ObjectLocker, obj: Obj, bytes: seq<Byte>): (res: Result<(ObjectLocker, seq<Byte>), Failure>)
    requires Valid(l)
    ensures !l.active ==> res == Ok((l, bytes))
    ensures l.active ==> (res.Ok? <==> Unlock(l, obj).Ok?)
    ensures l.active && res.Err? ==> res.error == Unlock(l, obj).error
    ensures l.active && res.Ok? ==>
              res.value.0 == Unlock(l, obj).value
              && res.value.1 == if l.eraseOnUnlock then Zeros(|bytes|) else bytes
  {
    if !l.active then Ok((l, bytes))
    else
      var r :- Unlock(l, obj);
      Ok((r, if l.eraseOnUnlock then Zeros(|bytes|) else bytes))
  }
}

=== FILE: modular.dfy ===
/** Modular addition and negation (`mod_add`, `mod_negate`), composed from
    copy, add, subtract, reduction and shrink on a scratch number of the
    resource manager (passed in here as `tmp`). */
module Modular {
  import opened Wrappers
  import opened ReturnCodes
  import opened Radix
  import opened BigNats
  import AddSub
  import Scaled
  import Compare
  import Division

  function Max(a: nat, b: nat): nat {
    if a < b then b else a
  }

  /** After `shrink` the size is the number of significant digits, so the
      number fits a capacity exactly when its size does. */
  lemma ShrunkFits(r: BigNat, cap: nat)
    requires r.size == 0 || r.value[0] != 0
    ensures r.size <= cap <==> Num(r) < Pow256(cap)
  {
    if r.size <= cap {
      PowMonotone(r.size, cap);
    } else {
      assert Digits(r)[0] == r.value[0];
      ValLeadingDigit(Digits(r));
      PowMonotone(cap, r.size - 1);
    }
  }

  lemma SumFits(a: int, b: int, n: nat)
    requires 0 <= a < Pow256(n) && 0 <= b < Pow256(n)
    ensures a + b < Pow256(n + 1)
  {
  }

  /** The first half of mod_add: `tmp` resized to one digit more than the
      longer operand, zeroed, loaded with this number and added to. The sum
      never overflows that size. */
  method ExactSum(b: BigNat, other: BigNat, tmp: BigNat) returns (res: Result<BigNat, Failure>)
    ensures res.Ok? <==> Max(b.size, other.size) + 1 <= |tmp.value|
    ensures res.Err? ==> res.error == ResizeToLonger
    ensures res.Ok? ==> Num(res.value) == Num(b) + Num(other)
    ensures res.Ok? ==> res.value.size == Max(b.size, other.size) + 1
  {
    var tmpSize := Max(b.size, other.size) + 1;
    var sized := SetSize(tmp, tmpSize);
    if sized.Err? {
      assert tmpSize > |tmp.value|;
      return Err(ResizeToLonger);
    }
    var t := Zero(sized.value);
    PowMonotone(b.size, tmpSize - 1);
    PowMonotone(other.size, tmpSize - 1);
    SumFits(Num(b), Num(other), tmpSize - 1);
    var copied := Copy(t, b).value;
    var sum, _ := AddSub.Add(copied, other);
    DivModUnique(Num(b) + Num(other), Pow256(tmpSize), 0, Num(b) + Num(other));
    return Ok(sum);
  }

  /** A number of positive size has a non-zero leading byte exactly when it
      reaches the weight of that byte. */
  lemma LeadingByte(r: BigNat)
    requires r.size > 0
    ensures r.value[0] != 0 <==> Num(r) >= Pow256(r.size - 1)
  {
    var d := Digits(r);
    assert d[0] == r.value[0];
    ValLeadingDigit(d);
    ValSuffixStep(d, 0);
    assert d[0..] == d;
  }

  /** mod_add(other, modulo): the scratch number `tmp` is locked, receives
      the exact sum, is reduced and shrunk, and is cloned back into this
      number. `bufferLocked` says whether the manager's byte buffer that
      shrink moves digits through is already held. A failure after the lock
      leaves `tmp` locked, because the unlock is never reached. */
  method ModAdd(b: BigNat, other: BigNat, modulo: BigNat, tmp: Reserved, bufferLocked: bool)
    returns (res: Result<BigNat, Failure>, tmp': Reserved)
    requires Num(modulo) > 0
    ensures res.Ok? <==> !tmp.locked && Max(b.size, other.size) + 1 <= |tmp.num.value|
                         && (bufferLocked ==> (Num(b) + Num(other)) % Num(modulo) >= Pow256(Max(b.size, other.size)))
                         && (Num(b) + Num(other)) % Num(modulo) < Pow256(|b.value|)
    ensures res.Err? ==> res.error == (if tmp.locked then LockAlreadyLocked
                                       else if Max(b.size, other.size) + 1 > |tmp.num.value| then ResizeToLonger
                                       else if bufferLocked && (Num(b) + Num(other)) % Num(modulo) < Pow256(Max(b.size, other.size))
                                       then LockAlreadyLocked
                                       else ReallocationNotAllowed)
    ensures res.Ok? ==> Num(res.value) == (Num(b) + Num(other)) % Num(modulo)
    ensures res.Ok? ==> |res.value.value| == |b.value| && (res.value.size == 0 || res.value.value[0] != 0)
    ensures tmp'.locked <==> tmp.locked || res.Err?
  {
    var held := Lock(tmp);
    if held.Err? {
      return Err(LockAlreadyLocked), tmp;
    }
    tmp' := held.value;
    var sum := ExactSum(b, other, tmp.num);
    if sum.Err? {
      return Err(ResizeToLonger), tmp';
    }
    var reduced := Division.Mod(sum.value, modulo);
    LeadingByte(reduced);
    var shrunk := Shrink(reduced, bufferLocked);
    if shrunk.Err? {
      return Err(LockAlreadyLocked), tmp';
    }
    ShrunkFits(shrunk.value, |b.value|);
    var cloned := Clone(b, shrunk.value);
    if cloned.Err? {
      return Err(ReallocationNotAllowed), tmp';
    }
    assert Digits(cloned.value)[..shrunk.value.size] == Digits(shrunk.value);
    tmp' := Unlock(tmp').value.(num := shrunk.value);
    return Ok(cloned.value), tmp';
  }

  lemma ModAtMost(x: int, m: int)
    requires x >= 0 && m > 0
    ensures x % m <= x
  {
    if x < m {
      DivModUnique(x, m, 0, x);
    }
  }

  /** Negation always lands in `1 .. modulo`, and it cancels the input. */
  lemma NegationCancels(x: int, m: int)
    requires x >= 0 && m > 0
    ensures 0 < m - x % m <= m
    ensures (x + (m - x % m)) % m == 0
  {
    assert x + (m - x % m) == (x / m + 1) * m;
    DivModUnique(x + (m - x % m), m, x / m + 1, 0);
  }

  /** mod_negate(mod): `mod - (this mod mod)`, written back into this
      number with its own size. The reduction is skipped when this number
      already compares below `mod`; a multiple of `mod` (zero included)
      maps to `mod`, not to 0. */
  method ModNegate(b: BigNat, mod: BigNat, tmp: Reserved) returns (res: Result<BigNat, Failure>, tmp': Reserved)
    requires Num(mod) > 0
    ensures res.Ok? <==> !tmp.locked && mod.size <= |tmp.num.value| && Num(mod) - Num(b) % Num(mod) < Pow256(b.size)
    ensures res.Err? ==> res.error == (if tmp.locked then LockAlreadyLocked
                                       else if mod.size <= |tmp.num.value| then InvalidCopyOther
                                       else ResizeToLonger)
    ensures res.Ok? ==> res.value.size == b.size && TailKept(b, res.value)
    ensures res.Ok? ==> Num(res.value) == Num(mod) - Num(b) % Num(mod)
    ensures res.Ok? ==> 0 < Num(res.value) <= Num(mod) && (Num(b) + Num(res.value)) % Num(mod) == 0
    ensures tmp'.locked <==> tmp.locked || res.Err?
  {
    var held := Lock(tmp);
    if held.Err? {
      return Err(LockAlreadyLocked), tmp;
    }
    tmp' := held.value;
    var sized := SetSize(tmp.num, mod.size);
    if sized.Err? {
      assert mod.size > |tmp.num.value|;
      return Err(ResizeToLonger), tmp';
    }
    var t := Copy(sized.value, mod).value;
    var out, diff := Negated(b, mod, t);
    if out.Err? {
      return Err(InvalidCopyOther), tmp';
    }
    tmp' := Unlock(tmp').value.(num := diff);
    return Ok(out.value), tmp';
  }

  /** The arithmetic of mod_negate once the scratch `t` holds `mod`: the
      difference `mod - (this mod mod)` (also returned as the scratch's
      content) copied back into this number. */
  method Negated(b: BigNat, mod: BigNat, t: BigNat) returns (res: Result<BigNat, Failure>, diff: BigNat)
    requires Num(mod) > 0 && t.size == mod.size && Num(t) == Num(mod)
    ensures res.Ok? <==> Num(mod) - Num(b) % Num(mod) < Pow256(b.size)
    ensures res.Err? ==> res.error == InvalidCopyOther
    ensures res.Ok? ==> res.value.size == b.size && TailKept(b, res.value)
    ensures res.Ok? ==> Num(res.value) == Num(mod) - Num(b) % Num(mod)
    ensures res.Ok? ==> 0 < Num(res.value) <= Num(mod) && (Num(b) + Num(res.value)) % Num(mod) == 0
  {
    var lt := Compare.Lesser(b, mod);
    var y := b;
    if !lt {
      y := Division.Mod(b, mod);
    } else {
      ModAtMost(Num(mod), Pow256(b.size));
      DivModUnique(Num(b), Num(mod), 0, Num(b));
    }
    ModAtMost(Num(b), Num(mod));
    diff := Scaled.Subtract(t, y);
    NegationCancels(Num(b), Num(mod));
    res := Copy(y, diff);
  }
}

=== FILE: package.dfy ===
/** The packaging script that merges the library's source files into one
    Java file: collecting and de-duplicating the imports, cutting each
    file down to its body (dropping the lock-manager code unless locks are
    kept), and laying the bodies out inside one outer class. File system
    access is replaced by parameters: the directory listing, the file
    contents, the iteration order of the import set and the platform line
    separator. */
module PackageTool {
  import opened Wrappers
  import opened PyText

  /** The Python exceptions the script can end in. */
  datatype PyError = KeyError | IndexError | FileNotFoundError

  /** A line of a source file, without its line terminator. */
  type Line = seq<char>

  const BeginMarker := "[DependencyBegin:ObjectLocker]"
  const EndMarker := "[DependencyEnd:ObjectLocker]"

  /** A regular-expression search for `word` followed, anywhere later on
      the line, by `close`: `import .*;`, `package .*;` and
      `(un)?lock\(.*\)`. A line carries no newline, so `.` matches each of
      its characters; and a line matches `(un)?lock\(.*\)` exactly when it
      matches `lock\(.*\)`. */
  predicate WordThen(s: Line, word: seq<char>, close: char)
    decreases |s|
  {
    (StartsWith(s, word) && close in s[|word|..]) || (|s| > 0 && WordThen(s[1..], word, close))
  }

  predicate ImportLine(l: Line) {
    WordThen(l, "import ", ';')
  }

  predicate PackageLine(l: Line) {
    WordThen(l, "package ", ';')
  }

  predicate LockCall(l: Line) {
    WordThen(l, "lock(", ')')
  }

  predicate RegisterLockCall(l: Line) {
    Contains(l, "registerLock(")
  }

  /** The search succeeds exactly when the word occurs at some index with
      the closing character after it. */
  lemma {:induction false} WordThenAt(s: Line, word: seq<char>, close: char)
    ensures WordThen(s, word, close) <==>
              exists i :: OccursAt(s, word, i) && close in s[i + |word|..]
    decreases |s|
  {
    if StartsWith(s, word) && close in s[|word|..] {
      assert OccursAt(s, word, 0) && s[0 + |word|..] == s[|word|..];
    } else if |s| > 0 {
      WordThenAt(s[1..], word, close);
      if WordThen(s[1..], word, close) {
        var i :| OccursAt(s[1..], word, i) && close in s[1..][i + |word|..];
        assert s[i + 1..i + 1 + |word|] == s[1..][i..i + |word|];
        assert s[i + 1 + |word|..] == s[1..][i + |word|..];
        assert OccursAt(s, word, i + 1);
      } else {
        assert OccursAt(s, word, 0) ==> StartsWith(s, word) && s[0 + |word|..] == s[|word|..];
        forall i | OccursAt(s, word, i) && close in s[i + |word|..]
          ensures i > 0 && OccursAt(s[1..], word, i - 1) && close in s[1..][i - 1 + |word|..]
        {
          assert s[1..][i - 1..i - 1 + |word|] == s[i..i + |word|];
          assert s[1..][i - 1 + |word|..] == s[i + |word|..];
        }
      }
    }
  }

  /** Every kept line is indented by four spaces, every "public class "
      becomes "public static class ", and trailing whitespace goes. */
  function Emit(line: Line): (r: Line)
    ensures r == [] || (StartsWith(r, "    ") && !IsSpace(r[|r| - 1]))
  {
    var s := "    " + ReplaceAll(line, "public class ", "public static class ");
    var r := RStrip(s);
    if |r| > 0 then Indented(s, r); r else r
  }

  /** A non-blank prefix of an indented line, ending in a non-space, keeps
      the indentation. */
  lemma Indented(s: seq<char>, r: seq<char>)
    requires StartsWith(s, "    ") && |r| <= |s| && r == s[..|r|]
    requires |r| > 0 && !IsSpace(r[|r| - 1])
    ensures StartsWith(r, "    ")
  {
    assert forall j :: 0 <= j < 4 ==> s[j] == ' ';
    assert |r| > 4;
    assert r[..4] == s[..4];
  }

  /** A line without the class keyword pair is only indented and
      right-stripped. */
  lemma EmitPlain(line: Line)
    requires !Contains(line, "public class ")
    ensures Emit(line) == RStrip("    " + line)
  {
    ReplaceAbsent(line, "public class ", "public static class ");
  }

  /** A top-level class becomes a nested static class: for a class
      header "public class " + `rest` (say `rest` = "BigNat {"), the
      emitted line is "public static class " + `rest`, indented. */
  lemma EmitClass(rest: seq<char>)
    requires !Contains(rest, "public class ") && |rest| > 0 && !IsSpace(rest[|rest| - 1])
    ensures Emit("public class " + rest) == "    " + ("public static class " + rest)
  {
    ClassReplaced(rest, "public class ", "public static class ");
    var s := "    " + ("public static class " + rest);
    assert s[|s| - 1] == rest[|rest| - 1];
  }

  lemma ClassReplaced(rest: seq<char>, pat: seq<char>, rep: seq<char>)
    requires |pat| > 0 && !Contains(rest, pat)
    ensures ReplaceAll(pat + rest, pat, rep) == rep + rest
  {
    var l := pat + rest;
    assert StartsWith(l, pat);
    assert l[|pat|..] == rest;
    ReplaceAbsent(rest, pat, rep);
  }

  /** A text shorter than the pattern cannot contain it. */
  lemma {:induction false} TooShort(s: seq<char>, p: seq<char>)
    requires |s| < |p|
    ensures !Contains(s, p)
    decreases |s|
  {
    if |s| > 0 {
      TooShort(s[1..], p);
    }
  }

  /** One line of package_file: whether it is emitted, and the skip state
      after it. The end marker always clears skipping and is dropped; the
      begin marker starts skipping only when locks are not kept. */
  function Step(line: Line, keepLocks: bool, skip: bool): (r: (bool, bool))
    ensures Contains(line, EndMarker) ==> r == (false, false)
    ensures keepLocks && !skip ==> !r.1
    ensures r.1 ==> !r.0
    ensures r.0 ==> !ImportLine(line) && !PackageLine(line) && !RegisterLockCall(line)
    ensures r.0 && !keepLocks ==> !LockCall(line) && !Contains(line, BeginMarker) && !skip
  {
    if Contains(line, EndMarker) then (false, false)
    else
      var skipping := if !keepLocks && Contains(line, BeginMarker) then true else skip;
      if skipping then (false, true)
      else if ImportLine(line) || PackageLine(line) then (false, false)
      else if (!keepLocks && LockCall(line)) || RegisterLockCall(line) then (false, false)
      else (true, false)
  }

  /** The lines package_file keeps, emitted, starting in state `skip`. */
  function Kept(lines: seq<Line>, keepLocks: bool, skip: bool): (r: seq<Line>)
    ensures |r| <= |lines|
    decreases |lines|
  {
    if |lines| == 0 then []
    else
      var st := Step(lines[0], keepLocks, skip);
      (if st.0 then [Emit(lines[0])] else []) + Kept(lines[1..], keepLocks, st.1)
  }

  /** A line the filters let through. */
  predicate Passes(l: Line, keepLocks: bool) {
    !ImportLine(l) && !PackageLine(l) && !RegisterLockCall(l) && !Contains(l, EndMarker)
    && (!keepLocks ==> !LockCall(l) && !Contains(l, BeginMarker))
  }

  /** `x` is the emitted form of a line of `lines` that passes the filters. */
  predicate EmittedFrom(x: Line, lines: seq<Line>, keepLocks: bool) {
    exists j :: 0 <= j < |lines| && x == Emit(lines[j]) && Passes(lines[j], keepLocks)
  }

  /** Every emitted line is the emitted form of an input line that passes
      the filters. */
  lemma {:induction false} KeptOrigin(lines: seq<Line>, keepLocks: bool, skip: bool)
    ensures forall k :: 0 <= k < |Kept(lines, keepLocks, skip)| ==>
              EmittedFrom(Kept(lines, keepLocks, skip)[k], lines, keepLocks)
    decreases |lines|
  {
    if |lines| > 0 {
      var st := Step(lines[0], keepLocks, skip);
      KeptOrigin(lines[1..], keepLocks, st.1);
      var tail := Kept(lines[1..], keepLocks, st.1);
      var head: seq<Line> := if st.0 then [Emit(lines[0])] else [];
      assert Kept(lines, keepLocks, skip) == head + tail;
      forall k | 0 <= k < |head + tail|
        ensures EmittedFrom((head + tail)[k], lines, keepLocks)
      {
        if k < |head| {
          EmittedFirst(lines, keepLocks, skip);
        } else {
          assert (head + tail)[k] == tail[k - |head|];
          EmittedLater(tail[k - |head|], lines, keepLocks);
        }
      }
    }
  }

  /** The first line, when its step emits it, is emitted from the input. */
  lemma EmittedFirst(lines: seq<Line>, keepLocks: bool, skip: bool)
    requires |lines| > 0 && Step(lines[0], keepLocks, skip).0
    ensures EmittedFrom(Emit(lines[0]), lines, keepLocks)
  {
    assert Passes(lines[0], keepLocks);
  }

  /** A line emitted from the rest of the input is emitted from the input. */
  lemma EmittedLater(x: Line, lines: seq<Line>, keepLocks: bool)
    requires |lines| > 0 && EmittedFrom(x, lines[1..], keepLocks)
    ensures EmittedFrom(x, lines, keepLocks)
  {
    var j :| 0 <= j < |lines[1..]| && x == Emit(lines[1..][j]) && Passes(lines[1..][j], keepLocks);
    assert lines[1..][j] == lines[j + 1];
  }

  /** Without keeping locks, a region from a begin marker to the next end
      marker disappears with both markers. */
  lemma {:induction false} LockRegionDropped(middle: seq<Line>, endLine: Line, rest: seq<Line>)
    requires forall i :: 0 <= i < |middle| ==> !Contains(middle[i], EndMarker)
    requires Contains(endLine, EndMarker)
    ensures Kept(middle + [endLine] + rest, false, true) == Kept(rest, false, false)
    decreases |middle|
  {
    var all := middle + [endLine] + rest;
    if |middle| == 0 {
      assert all[1..] == rest;
    } else {
      assert all[1..] == middle[1..] + [endLine] + rest;
      LockRegionDropped(middle[1..], endLine, rest);
    }
  }

  /** Keeping locks, the begin marker is an ordinary line: emitted unless
      another filter drops it. */
  lemma BeginKeptWithLocks(line: Line)
    requires Contains(line, BeginMarker) && Passes(line, true)
    ensures Kept([line], true, false) == [Emit(line)]
  {
    assert [line][1..] == [];
  }

  /** A line holding only whitespace. */
  predicate BlankLine(l: Line) {
    Blank(l)
  }

  /** It is the test `line.strip() == ""` of package_file. */
  lemma BlankLineIsEmptyStrip(l: Line)
    ensures BlankLine(l) <==> Strip(l) == []
  {
    StripEmpty(l);
  }

  /** The index of the first line that is not blank at or after `a`, or
      the end; the first while loop of package_file. */
  function LeadingBlanks(lines: seq<Line>, a: nat): (r: nat)
    requires a <= |lines| && forall i :: 0 <= i < a ==> BlankLine(lines[i])
    ensures a <= r <= |lines|
    ensures forall i :: 0 <= i < r ==> BlankLine(lines[i])
    ensures r < |lines| ==> !BlankLine(lines[r])
    decreases |lines| - a
  {
    if a < |lines| && BlankLine(lines[a]) then LeadingBlanks(lines, a + 1) else a
  }

  /** The end of the run after removing the blank lines before `b`; the
      second while loop, which the non-blank line at `a` stops. */
  function TrailingEnd(lines: seq<Line>, a: nat, b: nat): (r: nat)
    requires a < b <= |lines| && !BlankLine(lines[a])
    requires forall i :: b <= i < |lines| ==> BlankLine(lines[i])
    ensures a < r <= b
    ensures !BlankLine(lines[r - 1])
    ensures forall i :: r <= i < |lines| ==> BlankLine(lines[i])
    decreases b
  {
    if BlankLine(lines[b - 1]) then TrailingEnd(lines, a, b - 1) else b
  }

  /** The two while loops of package_file: popping blank lines off the
      front (an IndexError once none is left) and then off the back. */
  function TrimBlank(lines: seq<Line>): (r: Result<seq<Line>, PyError>)
    ensures r.Err? <==> forall i :: 0 <= i < |lines| ==> BlankLine(lines[i])
    ensures r.Err? ==> r.error == IndexError
    ensures r.Ok? ==> |r.value| > 0 && !BlankLine(r.value[0]) && !BlankLine(r.value[|r.value| - 1])
  {
    var a := LeadingBlanks(lines, 0);
    if a == |lines| then Err(IndexError)
    else Ok(lines[a..TrailingEnd(lines, a, |lines|)])
  }

  /** The kept lines are a contiguous run of the input, with only blank
      lines around it. */
  lemma TrimBlankSlice(lines: seq<Line>)
    requires TrimBlank(lines).Ok?
    ensures exists a, b :: 0 <= a < b <= |lines| && TrimBlank(lines).value == lines[a..b]
              && (forall i :: 0 <= i < a ==> BlankLine(lines[i]))
              && (forall i :: b <= i < |lines| ==> BlankLine(lines[i]))
  {
    var a := LeadingBlanks(lines, 0);
    var b := TrailingEnd(lines, a, |lines|);
    assert TrimBlank(lines).value == lines[a..b];
  }

  /** package_file: the kept lines, trimmed, joined by the platform line
      separator. */
  function PackageFile(lines: seq<Line>, keepLocks: bool, lineSep: seq<char>): (r: Result<seq<char>, PyError>)
    ensures r.Err? <==> forall i :: 0 <= i < |Kept(lines, keepLocks, false)| ==> BlankLine(Kept(lines, keepLocks, false)[i])
    ensures r.Err? ==> r.error == IndexError
  {
    var body :- TrimBlank(Kept(lines, keepLocks, false));
    Ok(Join(body, lineSep))
  }

  /** A short line with no keyword, marker or trailing space is kept as
      it is, indented. */
  lemma PlainShortLine(l: Line)
    requires 0 < |l| < 5 && !IsSpace(l[|l| - 1])
    ensures Step(l, false, false) == (true, false)
    ensures Emit(l) == "    " + l
  {
    TooShort(l, EndMarker);
    TooShort(l, BeginMarker);
    TooShort(l, "registerLock(");
    TooShort(l, "public class ");
    ShortNoWord(l, "import ", ';');
    ShortNoWord(l, "package ", ';');
    ShortNoWord(l, "lock(", ')');
    EmitPlain(l);
    var s := "    " + l;
    assert s[|s| - 1] == l[|l| - 1];
  }

  /** A line shorter than the word cannot match. */
  lemma {:induction false} ShortNoWord(s: Line, word: seq<char>, close: char)
    requires |s| < |word|
    ensures !WordThen(s, word, close)
    decreases |s|
  {
    if |s| > 0 {
      ShortNoWord(s[1..], word, close);
    }
  }

  /** Two lines joined: the separator between them. */
  lemma JoinTwo(x: seq<char>, y: seq<char>, sep: seq<char>)
    ensures Join([x, y], sep) == x + sep + y
  {
    assert [x, y][..1] == [x];
  }

  /** Two short plain lines, as the counterexample uses ("a" and "b"). */
  predicate PlainShort(l: Line) {
    0 < |l| < 5 && !IsSpace(l[|l| - 1]) && forall i :: 0 <= i < |l| ==> l[i] != '\n'
  }

  /** On a platform whose separator is "\r\n", package_file returns
      two plain lines joined by "\r\n". */
  lemma WindowsPackageFile(x: Line, y: Line)
    requires PlainShort(x) && PlainShort(y)
    ensures PackageFile([x, y], false, "\r\n") == Ok("    " + x + "\r\n" + "    " + y)
  {
    KeptTwoPlain(x, y);
    TwoLinesTrimmed("    " + x, "    " + y);
    JoinTwo("    " + x, "    " + y, "\r\n");
    assert "    " + x + "\r\n" + "    " + y == ("    " + x) + "\r\n" + ("    " + y);
  }

  /** Written through a text-mode file on that platform, the line break
      comes out as "\r\r\n": the separator's own "\n" is translated
      again. With the lines "a" and "b" the file holds
      "    a\r\r\n    b". */
  lemma WindowsBreaksDoubled(x: Line, y: Line)
    requires PlainShort(x) && PlainShort(y)
    ensures PackageFile([x, y], false, "\r\n").Ok?
    ensures Translate(PackageFile([x, y], false, "\r\n").value, "\r\n") == "    " + x + "\r\r\n" + "    " + y
  {
    WindowsPackageFile(x, y);
    CrLfTranslated("    " + x, "    " + y);
    assert "    " + x + "\r\n" + "    " + y == ("    " + x) + "\r\n" + ("    " + y);
    assert "    " + x + "\r\r\n" + "    " + y == ("    " + x) + "\r\r\n" + ("    " + y);
  }

  /** A "\r\n" between two lines without newlines becomes "\r\r\n". */
  lemma CrLfTranslated(x: seq<char>, y: seq<char>)
    requires forall i :: 0 <= i < |x| ==> x[i] != '\n'
    requires forall i :: 0 <= i < |y| ==> y[i] != '\n'
    ensures Translate(x + "\r\n" + y, "\r\n") == x + "\r\r\n" + y
  {
    TranslateConcat(x + "\r\n", y, "\r\n");
    TranslateConcat(x, "\r\n", "\r\n");
    assert Translate("\r\n", "\r\n") == "\r\r\n";
  }

  lemma TwoLinesTrimmed(x: Line, y: Line)
    requires |x| > 0 && |y| > 0 && !IsSpace(x[|x| - 1]) && !IsSpace(y[|y| - 1])
    ensures TrimBlank([x, y]) == Ok([x, y])
  {
    var body := [x, y];
    assert !BlankLine(body[0]) && !BlankLine(body[1]);
    assert LeadingBlanks(body, 0) == 0;
    assert TrailingEnd(body, 0, 2) == 2;
    assert body[0..2] == body;
  }

  lemma KeptTwoPlain(x: Line, y: Line)
    requires PlainShort(x) && PlainShort(y)
    ensures Kept([x, y], false, false) == ["    " + x, "    " + y]
  {
    PlainShortLine(x);
    PlainShortLine(y);
    var lines: seq<Line> := [x, y];
    assert lines[1..] == [y];
    assert [y][1..] == [];
    assert Kept([y], false, false) == [Emit(y)] + Kept([], false, false);
    assert Kept(lines, false, false) == [Emit(x)] + Kept([y], false, false);
  }

  /** Joined by "\n" instead, every line break of a body is exactly one
      platform separator once written. */
  lemma FixedBreaks(lines: seq<Line>, keepLocks: bool, lineSep: seq<char>)
    requires forall i, k :: 0 <= i < |lines| && 0 <= k < |lines[i]| ==> lines[i][k] != '\n'
    requires PackageFile(lines, keepLocks, "\n").Ok?
    ensures Translate(PackageFile(lines, keepLocks, "\n").value, lineSep)
            == PackageFile(lines, keepLocks, lineSep).value
  {
    var kept := Kept(lines, keepLocks, false);
    KeptNoNewline(lines, keepLocks, false);
    var body := TrimBlank(kept).value;
    TrimBlankSlice(kept);
    TranslateJoin(body, "\n", lineSep);
    assert Translate("\n", lineSep) == lineSep;
  }

  /** No emitted line holds a newline when no input line does. */
  lemma {:induction false} KeptNoNewline(lines: seq<Line>, keepLocks: bool, skip: bool)
    requires forall i, k :: 0 <= i < |lines| && 0 <= k < |lines[i]| ==> lines[i][k] != '\n'
    ensures forall i, k :: 0 <= i < |Kept(lines, keepLocks, skip)| && 0 <= k < |Kept(lines, keepLocks, skip)[i]| ==>
              Kept(lines, keepLocks, skip)[i][k] != '\n'
    decreases |lines|
  {
    if |lines| > 0 {
      KeptNoNewline(lines[1..], keepLocks, Step(lines[0], keepLocks, skip).1);
      EmitNoNewline(lines[0]);
    }
  }

  lemma EmitNoNewline(line: Line)
    requires forall k :: 0 <= k < |line| ==> line[k] != '\n'
    ensures forall k :: 0 <= k < |Emit(line)| ==> Emit(line)[k] != '\n'
  {
    ReplaceNoNewline(line);
  }

  lemma {:induction false} ReplaceNoNewline(s: seq<char>)
    requires forall k :: 0 <= k < |s| ==> s[k] != '\n'
    ensures forall k :: 0 <= k < |ReplaceAll(s, "public class ", "public static class ")| ==>
              ReplaceAll(s, "public class ", "public static class ")[k] != '\n'
    decreases |s|
  {
    if |s| > 0 {
      if StartsWith(s, "public class ") {
        ReplaceNoNewline(s[|"public class "|..]);
      } else {
        ReplaceNoNewline(s[1..]);
      }
    }
  }

  // ---------------------------------------------------------------
  // load_imports

  /** The stripped import lines of the given files. */
  function Collected(files: seq<seq<Line>>): (r: set<seq<char>>)
    ensures forall k, j :: 0 <= k < |files| && 0 <= j < |files[k]| && ImportLine(files[k][j]) ==> Strip(files[k][j]) in r
  {
    set k, j | 0 <= k < |files| && 0 <= j < |files[k]| && ImportLine(files[k][j]) :: Strip(files[k][j])
  }

  /** Every collected line is the stripped form of some import line of
      some file: nothing else enters the set. */
  lemma CollectedOrigin(files: seq<seq<Line>>)
    ensures forall s :: s in Collected(files) ==>
              exists k, j :: 0 <= k < |files| && 0 <= j < |files[k]| && ImportLine(files[k][j]) && s == Strip(files[k][j])
  {
  }

  /** `"*;" in imp`. */
  predicate Wildcard(imp: seq<char>) {
    Contains(imp, "*;")
  }

  /** `imp[:-2]`: the wildcard line without its "*;". */
  function Stem(imp: seq<char>): seq<char> {
    if |imp| >= 2 then imp[..|imp| - 2] else []
  }

  /** The wildcard line `w` makes `other` redundant. */
  predicate Covers(w: seq<char>, other: seq<char>) {
    Wildcard(w) && other != w && StartsWith(other, Stem(w))
  }

  /** Some line is made redundant by two different wildcards, so the
      second removal finds it gone. */
  predicate DoublyCovered(imports: set<seq<char>>) {
    exists o, w1, w2 :: o in imports && w1 in imports && w2 in imports && w1 != w2 && Covers(w1, o) && Covers(w2, o)
  }

  /** What the removal loop of load_imports computes, whatever the order
      in which it visits the set: a KeyError when some line is covered
      twice, otherwise every line no wildcard covers. */
  function Subsumed(imports: set<seq<char>>): Result<set<seq<char>>, PyError> {
    if DoublyCovered(imports) then Err(KeyError)
    else Ok(set o | o in imports && !(exists w :: w in imports && Covers(w, o)))
  }

  /** A visiting order of a set: each element once. */
  predicate Enumerates(order: seq<seq<char>>, st: set<seq<char>>) {
    (forall x :: x in order ==> x in st) && (forall x :: x in st ==> x in order)
    && forall i, j :: 0 <= i < j < |order| ==> order[i] != order[j]
  }

  /** The lines covered by a wildcard among `ws`. */
  function CoveredBy(imports: set<seq<char>>, ws: seq<seq<char>>): set<seq<char>> {
    set o | o in imports && exists k :: 0 <= k < |ws| && Covers(ws[k], o)
  }

  /** Some line is covered by two of `ws`. */
  predicate DoubleWithin(imports: set<seq<char>>, ws: seq<seq<char>>) {
    exists o, i, j :: o in imports && 0 <= i < j < |ws| && Covers(ws[i], o) && Covers(ws[j], o)
  }

  /** The removal loop of load_imports, visiting the copied set in the
      order `order`. */
  method RemoveSubsumed(imports: set<seq<char>>, order: seq<seq<char>>) returns (r: Result<set<seq<char>>, PyError>)
    requires Enumerates(order, imports)
    ensures r == Subsumed(imports)
  {
    var current := imports;
    for a := 0 to |order|
      invariant current == imports - CoveredBy(imports, order[..a])
      invariant !DoubleWithin(imports, order[..a])
    {
      var imp := order[a];
      if Wildcard(imp) {
        ghost var before := current;
        for b := 0 to |order|
          invariant current == before - (set k | 0 <= k < b && Covers(imp, order[k]) :: order[k])
          invariant forall k :: 0 <= k < b && Covers(imp, order[k]) ==> order[k] in before
        {
          var other := order[b];
          if other != imp && StartsWith(other, Stem(imp)) {
            if other !in current {
              DoubleFound(imports, order, a, b, before, current);
              return Err(KeyError);
            }
            current := current - {other};
          }
        }
        Extended(imports, order, a, before, current);
      } else {
        NotExtended(imports, order, a);
      }
    }
    Finished(imports, order, current);
    return Ok(current);
  }

  lemma DoubleFound(imports: set<seq<char>>, order: seq<seq<char>>, a: int, b: int,
                    before: set<seq<char>>, current: set<seq<char>>)
    requires Enumerates(order, imports) && 0 <= a < |order| && 0 <= b < |order|
    requires before == imports - CoveredBy(imports, order[..a])
    requires current == before - (set k | 0 <= k < b && Covers(order[a], order[k]) :: order[k])
    requires Covers(order[a], order[b]) && order[b] !in current
    ensures DoublyCovered(imports)
  {
    var other := order[b];
    assert other !in (set k | 0 <= k < b && Covers(order[a], order[k]) :: order[k]);
    assert other in CoveredBy(imports, order[..a]);
    var k :| 0 <= k < a && Covers(order[..a][k], other);
    assert order[k] in imports && order[a] in imports && other in imports && order[k] != order[a];
    assert Covers(order[k], other) && Covers(order[a], other);
  }

  lemma Extended(imports: set<seq<char>>, order: seq<seq<char>>, a: int,
                 before: set<seq<char>>, current: set<seq<char>>)
    requires Enumerates(order, imports) && 0 <= a < |order|
    requires before == imports - CoveredBy(imports, order[..a])
    requires !DoubleWithin(imports, order[..a])
    requires current == before - (set k | 0 <= k < |order| && Covers(order[a], order[k]) :: order[k])
    requires forall k :: 0 <= k < |order| && Covers(order[a], order[k]) ==> order[k] in before
    ensures current == imports - CoveredBy(imports, order[..a + 1])
    ensures !DoubleWithin(imports, order[..a + 1])
  {
    CoverStep(imports, order, a);
    forall o | o in imports && Covers(order[a], o)
      ensures o in (set k | 0 <= k < |order| && Covers(order[a], order[k]) :: order[k])
    {
      var k :| 0 <= k < |order| && order[k] == o;
    }
    DoubleStep(imports, order, a, before);
  }

  /** The wildcard at position `a` adds the lines it covers. */
  lemma CoverStep(imports: set<seq<char>>, order: seq<seq<char>>, a: int)
    requires 0 <= a < |order|
    ensures forall o :: o in imports ==>
              (o in CoveredBy(imports, order[..a + 1]) <==> o in CoveredBy(imports, order[..a]) || Covers(order[a], o))
  {
    var ws := order[..a + 1];
    assert order[..a] == ws[..a];
    forall o | o in imports
      ensures o in CoveredBy(imports, ws) <==> o in CoveredBy(imports, order[..a]) || Covers(order[a], o)
    {
      if Covers(order[a], o) {
        assert Covers(ws[a], o);
      }
      if o in CoveredBy(imports, ws) {
        var k :| 0 <= k < |ws| && Covers(ws[k], o);
        assert k < a ==> Covers(order[..a][k], o);
      }
    }
  }

  /** When every line the wildcard at `a` covers is still present, no line
      becomes covered twice. */
  lemma DoubleStep(imports: set<seq<char>>, order: seq<seq<char>>, a: int, before: set<seq<char>>)
    requires Enumerates(order, imports) && 0 <= a < |order|
    requires before == imports - CoveredBy(imports, order[..a])
    requires !DoubleWithin(imports, order[..a])
    requires forall k :: 0 <= k < |order| && Covers(order[a], order[k]) ==> order[k] in before
    ensures !DoubleWithin(imports, order[..a + 1])
  {
    var ws := order[..a + 1];
    assert order[..a] == ws[..a];
    forall o, i, j | o in imports && 0 <= i < j < a
      ensures !(Covers(ws[i], o) && Covers(ws[j], o))
    {
      assert ws[i] == order[..a][i] && ws[j] == order[..a][j];
    }
    forall o, i | o in imports && 0 <= i < a && Covers(ws[i], o)
      ensures !Covers(order[a], o)
    {
      assert Covers(order[..a][i], o);
      assert o !in before;
      var k :| 0 <= k < |order| && order[k] == o;
    }
  }

  lemma NotExtended(imports: set<seq<char>>, order: seq<seq<char>>, a: int)
    requires 0 <= a < |order| && !Wildcard(order[a])
    ensures CoveredBy(imports, order[..a + 1]) == CoveredBy(imports, order[..a])
    ensures DoubleWithin(imports, order[..a + 1]) == DoubleWithin(imports, order[..a])
  {
    var ws := order[..a + 1];
    assert order[..a] == ws[..a];
    forall o | o in CoveredBy(imports, ws)
      ensures o in CoveredBy(imports, order[..a])
    {
      var k :| 0 <= k < |ws| && Covers(ws[k], o);
      assert Covers(order[..a][k], o);
    }
    forall o, i, j | o in imports && 0 <= i < j < |ws| && Covers(ws[i], o) && Covers(ws[j], o)
      ensures DoubleWithin(imports, order[..a])
    {
      assert Covers(order[..a][i], o) && Covers(order[..a][j], o);
    }
    forall o, i, j | o in imports && 0 <= i < j < a && Covers(order[..a][i], o) && Covers(order[..a][j], o)
      ensures DoubleWithin(imports, ws)
    {
      assert Covers(ws[i], o) && Covers(ws[j], o);
    }
  }

  lemma Finished(imports: set<seq<char>>, order: seq<seq<char>>, current: set<seq<char>>)
    requires Enumerates(order, imports)
    requires current == imports - CoveredBy(imports, order[..|order|])
    requires !DoubleWithin(imports, order[..|order|])
    ensures Subsumed(imports) == Ok(current)
  {
    assert order[..|order|] == order;
    NoDouble(imports, order);
    CoveredByAll(imports, order);
  }

  /** No line covered twice within a full visiting order means no line
      covered by two wildcards of the set. */
  lemma NoDouble(imports: set<seq<char>>, order: seq<seq<char>>)
    requires Enumerates(order, imports) && !DoubleWithin(imports, order)
    ensures !DoublyCovered(imports)
  {
    forall o, w1, w2 | o in imports && w1 in imports && w2 in imports && w1 != w2
      ensures !(Covers(w1, o) && Covers(w2, o))
    {
      var i :| 0 <= i < |order| && order[i] == w1;
      var j :| 0 <= j < |order| && order[j] == w2;
      assert i < j ==> !(Covers(order[i], o) && Covers(order[j], o));
      assert j < i ==> !(Covers(order[j], o) && Covers(order[i], o));
    }
  }

  /** The lines covered by the wildcards of a full visiting order are the
      lines some wildcard of the set covers. */
  lemma CoveredByAll(imports: set<seq<char>>, order: seq<seq<char>>)
    requires Enumerates(order, imports)
    ensures imports - CoveredBy(imports, order) == set o | o in imports && !(exists w :: w in imports && Covers(w, o))
  {
    forall o | o in imports
      ensures o in CoveredBy(imports, order) <==> exists w :: w in imports && Covers(w, o)
    {
      if exists w :: w in imports && Covers(w, o) {
        var w :| w in imports && Covers(w, o);
        var i :| 0 <= i < |order| && order[i] == w;
      }
    }
  }

  /** The removal done with `discard` instead of `remove`: every line a
      wildcard covers goes, and nothing raises. */
  function SubsumedFixed(imports: set<seq<char>>): (r: set<seq<char>>)
    ensures r <= imports
    ensures forall o :: o in imports ==> (o !in r <==> exists w :: w in imports && Covers(w, o))
  {
    set o | o in imports && !(exists w :: w in imports && Covers(w, o))
  }

  /** Where the script does not raise, the corrected removal agrees with
      it. */
  lemma FixedAgrees(imports: set<seq<char>>)
    ensures !DoublyCovered(imports) <==> Subsumed(imports) == Ok(SubsumedFixed(imports))
  {
  }

  /** A wildcard and a nested wildcard both cover a single import of the
      inner package: the script raises KeyError, the corrected removal
      keeps the outer wildcard alone. */
  lemma NestedWildcards(w1: seq<char>, w2: seq<char>, o: seq<char>)
    requires w1 == "import a.*;" && w2 == "import a.b.*;" && o == "import a.b.C;"
    ensures Subsumed({w1, w2, o}) == Err(KeyError)
    ensures SubsumedFixed({w1, w2, o}) == {w1}
  {
    NestedCovers(w1, w2, o);
    OuterWildcardKept(w1, w2, o);
  }

  /** Three lines where `w1` covers `w2` and both cover `o`. */
  lemma OuterWildcardKept(w1: seq<char>, w2: seq<char>, o: seq<char>)
    requires Covers(w1, o) && Covers(w2, o) && Covers(w1, w2) && !Covers(w2, w1) && !Wildcard(o)
    requires w1 != w2 && w2 != o && w1 != o
    ensures Subsumed({w1, w2, o}) == Err(KeyError)
    ensures SubsumedFixed({w1, w2, o}) == {w1}
  {
    var st := {w1, w2, o};
    assert DoublyCovered(st);
    OuterUncovered(w1, w2, o);
    var r := SubsumedFixed(st);
    assert w2 !in r && o !in r;
    assert r == {w1};
  }

  lemma OuterUncovered(w1: seq<char>, w2: seq<char>, o: seq<char>)
    requires !Covers(w2, w1) && !Wildcard(o)
    ensures w1 in SubsumedFixed({w1, w2, o})
  {
    var st := {w1, w2, o};
    if w :| w in st && Covers(w, w1) {
      assert false;
    }
    assert w1 in st;
  }

  lemma NestedCovers(w1: seq<char>, w2: seq<char>, o: seq<char>)
    requires w1 == "import a.*;" && w2 == "import a.b.*;" && o == "import a.b.C;"
    ensures Covers(w1, o) && Covers(w2, o) && Covers(w1, w2) && !Covers(w2, w1) && !Wildcard(o)
    ensures w1 != w2 && w2 != o && w1 != o
  {
    WildcardAt(w1, 9);
    WildcardAt(w2, 11);
    NoStar(o);
    assert Stem(w1) == w1[..9];
    assert Stem(w2) == w2[..11];
    assert o[..9] == w1[..9] && o[..11] == w2[..11] && w2[..9] == w1[..9];
    assert w1[9] != w2[9] && w2[9] == o[9];
  }

  lemma WildcardAt(w: seq<char>, i: int)
    requires OccursAt(w, "*;", i)
    ensures Wildcard(w)
  {
    ContainsAt(w, "*;");
  }

  lemma NoStar(s: seq<char>)
    requires forall k :: 0 <= k < |s| ==> s[k] != '*'
    ensures !Wildcard(s)
  {
    ContainsAt(s, "*;");
    forall i | 0 <= i <= |s| - 2
      ensures !OccursAt(s, "*;", i)
    {
      assert s[i..i + 2][0] == s[i];
    }
  }

  // ---------------------------------------------------------------
  // main

  /** The files never packaged; the lock manager too unless locks are
      kept. */
  function Filtered(keepLocks: bool): (r: set<seq<char>>)
    ensures "UnitTests.java" in r && "Example.java" in r && "Integer.java" in r
    ensures "ObjectLocker.java" in r <==> !keepLocks
    ensures |r| == if keepLocks then 3 else 4
  {
    var base := {"UnitTests.java", "Example.java", "Integer.java"};
    if keepLocks then base else base + {"ObjectLocker.java"}
  }

  /** The listed `.java` names that are not filtered, in listing order. */
  function SelectSources(listing: seq<seq<char>>, filtered: set<seq<char>>): (r: seq<seq<char>>)
    ensures forall x :: x in r <==> x in listing && EndsWith(x, ".java") && x !in filtered
    decreases |listing|
  {
    if |listing| == 0 then []
    else
      var rest := SelectSources(listing[1..], filtered);
      assert forall x :: x in listing <==> x == listing[0] || x in listing[1..];
      if EndsWith(listing[0], ".java") && listing[0] !in filtered then [listing[0]] + rest else rest
  }

  function Prefixed(names: seq<seq<char>>, dir: seq<char>): (r: seq<seq<char>>)
    ensures |r| == |names| && forall i :: 0 <= i < |names| ==> r[i] == dir + names[i]
  {
    seq(|names|, i requires 0 <= i < |names| => dir + names[i])
  }

  function CurvePath(sources: seq<char>, curve: seq<char>): seq<char> {
    sources + "curves/" + curve + ".java"
  }

  /** The packaged files: the selected sources in sorted order, then the
      requested curves in the order given. */
  function IncludedFiles(sources: seq<char>, listing: seq<seq<char>>, keepLocks: bool, curves: seq<seq<char>>): (r: seq<seq<char>>)
    ensures |r| == |SelectSources(listing, Filtered(keepLocks))| + |curves|
    ensures Sorted(r[..|r| - |curves|])
    ensures r[|r| - |curves|..] == CurvePaths(sources, curves)
  {
    var sorted := SortedSources(sources, listing, keepLocks);
    var paths := CurvePaths(sources, curves);
    var r := sorted + paths;
    assert r[..|r| - |curves|] == sorted && r[|r| - |curves|..] == paths;
    r
  }

  /** The selected sources, prefixed with their directory, sorted. */
  function SortedSources(sources: seq<char>, listing: seq<seq<char>>, keepLocks: bool): (r: seq<seq<char>>)
    ensures |r| == |SelectSources(listing, Filtered(keepLocks))| && Sorted(r)
    ensures multiset(r) == multiset(Prefixed(SelectSources(listing, Filtered(keepLocks)), sources))
  {
    var sorted := Sort(Prefixed(SelectSources(listing, Filtered(keepLocks)), sources));
    assert |sorted| == |multiset(sorted)|;
    sorted
  }

  /** The path of each requested curve, in the order given. */
  function CurvePaths(sources: seq<char>, curves: seq<seq<char>>): (r: seq<seq<char>>)
    ensures |r| == |curves| && forall i :: 0 <= i < |curves| ==> r[i] == CurvePath(sources, curves[i])
  {
    seq(|curves|, i requires 0 <= i < |curves| => CurvePath(sources, curves[i]))
  }

  /** A listed name is among the sorted sources exactly when it is a
      `.java` file that is not filtered. */
  lemma IncludedSource(sources: seq<char>, listing: seq<seq<char>>, keepLocks: bool, curves: seq<seq<char>>, x: seq<char>)
    ensures var r := IncludedFiles(sources, listing, keepLocks, curves);
            sources + x in r[..|r| - |curves|] <==> x in listing && EndsWith(x, ".java") && x !in Filtered(keepLocks)
  {
    var names := SelectSources(listing, Filtered(keepLocks));
    var pre := Prefixed(names, sources);
    var sorted := Sort(pre);
    var r := IncludedFiles(sources, listing, keepLocks, curves);
    assert r[..|r| - |curves|] == sorted;
    assert sources + x in sorted <==> sources + x in multiset(pre);
    if sources + x in pre {
      var i :| 0 <= i < |pre| && pre[i] == sources + x;
      assert (sources + names[i])[|sources|..] == names[i];
      assert (sources + x)[|sources|..] == x;
    }
    if x in names {
      var i :| 0 <= i < |names| && names[i] == x;
      assert pre[i] == sources + x;
    }
  }

  /** The lock manager is packaged exactly when locks are kept. */
  lemma LockerIncludedIffKept(sources: seq<char>, listing: seq<seq<char>>, keepLocks: bool, curves: seq<seq<char>>)
    requires "ObjectLocker.java" in listing
    ensures var r := IncludedFiles(sources, listing, keepLocks, curves);
            sources + "ObjectLocker.java" in r[..|r| - |curves|] <==> keepLocks
  {
    IncludedSource(sources, listing, keepLocks, curves, "ObjectLocker.java");
    assert EndsWith("ObjectLocker.java", ".java");
  }

  /** The lines `print` writes for each import, each ended by "\n". */
  function PrintLines(xs: seq<seq<char>>): (r: seq<char>)
    ensures |r| >= |xs|
    decreases |xs|
  {
    if |xs| == 0 then [] else xs[0] + "\n" + PrintLines(xs[1..])
  }

  /** Everything printed before the bodies. */
  function Header(pkg: seq<char>, imports: seq<seq<char>>, version: seq<char>): seq<char> {
    "package " + pkg + ";\n" + "\n" + PrintLines(imports) + "\n"
    + "/**\n" + " * Packaged JCMathLib v" + version + " (https://github.com/OpenCryptoProject/JCMathLib).\n"
    + " */\n" + "public class jcmathlib {\n"
  }

  /** The bodies of the packaged files, in order; the first failing file
      ends it. */
  function Bodies(files: seq<seq<char>>, contents: map<seq<char>, seq<Line>>, keepLocks: bool, sep: seq<char>): (r: Result<seq<seq<char>>, PyError>)
    requires forall f :: f in files ==> f in contents
    ensures r.Ok? <==> forall i :: 0 <= i < |files| ==> PackageFile(contents[files[i]], keepLocks, sep).Ok?
    ensures r.Err? ==> r.error == IndexError
    ensures r.Ok? ==> |r.value| == |files|
                      && forall i :: 0 <= i < |files| ==> r.value[i] == PackageFile(contents[files[i]], keepLocks, sep).value
    decreases |files|
  {
    if |files| == 0 then Ok([])
    else
      var first := PackageFile(contents[files[0]], keepLocks, sep);
      var rest := Bodies(files[1..], contents, keepLocks, sep);
      assert forall i :: 1 <= i < |files| ==> files[i] == files[1..][i - 1];
      if first.Err? || rest.Err? then Err(IndexError)
      else Ok([first.value] + rest.value)
  }

  /** How a run of the script ends: what the output file holds, if it was
      opened, and the exception raised, if any. */
  datatype Run = Run(written: Option<seq<char>>, error: Option<PyError>)

  /** The lines of all packaged files. */
  function FileLines(files: seq<seq<char>>, contents: map<seq<char>, seq<Line>>): (r: seq<seq<Line>>)
    requires forall f :: f in files ==> f in contents
    ensures |r| == |files| && forall i :: 0 <= i < |files| ==> r[i] == contents[files[i]]
  {
    seq(|files|, i requires 0 <= i < |files| => contents[files[i]])
  }

  /** The newline `print` adds after the bodies, and the closing brace
      line. */
  const Closing := "\n}\n"

  /** The output text before the platform's newline translation, with
      `sep` joining the lines of a body. */
  function Assemble(pkg: seq<char>, version: seq<char>, files: seq<seq<char>>, contents: map<seq<char>, seq<Line>>,
                    keepLocks: bool, kept: set<seq<char>>, sep: seq<char>): (r: Result<seq<char>, (seq<char>, PyError)>)
    requires forall f :: f in files ==> f in contents
    ensures r.Err? ==> r.error.1 == IndexError
  {
    var header := Header(pkg, SortSet(kept), version);
    match Bodies(files, contents, keepLocks, sep)
    case Err(e) => Err((header, e))
    case Ok(bodies) => Ok(header + (Join(bodies, sep + sep) + Closing))
  }

  /** Some packaged file cannot be opened. */
  predicate Missing(files: seq<seq<char>>, contents: map<seq<char>, seq<Line>>) {
    exists f :: f in files && f !in contents
  }

  /** The script's main: directory listing, file contents (by path),
      version string and platform line separator are parameters. */
  function Package(pkg: seq<char>, version: seq<char>, sources: seq<char>, listing: seq<seq<char>>, keepLocks: bool,
                   curves: seq<seq<char>>, contents: map<seq<char>, seq<Line>>, lineSep: seq<char>): (run: Run)
    ensures var files := IncludedFiles(sources, listing, keepLocks, curves);
            run.error == Some(FileNotFoundError) <==> Missing(files, contents)
    ensures var files := IncludedFiles(sources, listing, keepLocks, curves);
            run.error == Some(KeyError) <==> !Missing(files, contents) && DoublyCovered(Collected(FileLines(files, contents)))
    ensures run.written.None? <==> run.error == Some(FileNotFoundError) || run.error == Some(KeyError)
  {
    var files := IncludedFiles(sources, listing, keepLocks, curves);
    if Missing(files, contents) then Run(None, Some(FileNotFoundError))
    else Loaded(pkg, version, files, contents, keepLocks, lineSep)
  }

  /** The run once every packaged file could be opened. */
  function Loaded(pkg: seq<char>, version: seq<char>, files: seq<seq<char>>, contents: map<seq<char>, seq<Line>>,
                  keepLocks: bool, lineSep: seq<char>): (run: Run)
    requires !Missing(files, contents)
    ensures run.error == Some(KeyError) <==> DoublyCovered(Collected(FileLines(files, contents)))
    ensures run.error != Some(FileNotFoundError)
    ensures run.written.None? <==> run.error == Some(KeyError)
  {
    match Subsumed(Collected(FileLines(files, contents)))
    case Err(e) => Run(None, Some(e))
    case Ok(kept) => Written(pkg, version, files, contents, keepLocks, lineSep, kept)
  }

  /** The run once the imports reduce to `kept`: the assembled text, or
      the header alone with the error of a failing body. */
  function Written(pkg: seq<char>, version: seq<char>, files: seq<seq<char>>, contents: map<seq<char>, seq<Line>>,
                   keepLocks: bool, lineSep: seq<char>, kept: set<seq<char>>): (run: Run)
    requires forall f :: f in files ==> f in contents
    ensures run.written.Some? && run.error != Some(KeyError) && run.error != Some(FileNotFoundError)
  {
    match Assemble(pkg, version, files, contents, keepLocks, kept, lineSep)
    case Err(failed) => Run(Some(Translate(failed.0, lineSep)), Some(failed.1))
    case Ok(t) => Run(Some(Translate(t, lineSep)), None)
  }

  /** Once the output is opened, the header with the sorted, de-duplicated
      imports comes first; a body that is only blank lines leaves the
      header alone in the file; otherwise the class is closed at the end. */
  lemma PackageLayout(pkg: seq<char>, version: seq<char>, sources: seq<char>, listing: seq<seq<char>>, keepLocks: bool,
                      curves: seq<seq<char>>, contents: map<seq<char>, seq<Line>>, lineSep: seq<char>)
    requires !Missing(IncludedFiles(sources, listing, keepLocks, curves), contents)
    requires Subsumed(Collected(FileLines(IncludedFiles(sources, listing, keepLocks, curves), contents))).Ok?
    ensures var files := IncludedFiles(sources, listing, keepLocks, curves);
            var kept := Subsumed(Collected(FileLines(files, contents))).value;
            var run := Package(pkg, version, sources, listing, keepLocks, curves, contents, lineSep);
            var header := Translate(Header(pkg, SortSet(kept), version), lineSep);
            run.written.Some? && StartsWith(run.written.value, header)
            && (run.error == Some(IndexError) ==> run.written.value == header)
            && (run.error == None ==> EndsWith(run.written.value, Translate(Closing, lineSep)))
  {
    var files := IncludedFiles(sources, listing, keepLocks, curves);
    assert Package(pkg, version, sources, listing, keepLocks, curves, contents, lineSep)
        == Loaded(pkg, version, files, contents, keepLocks, lineSep);
    WrittenLayout(pkg, version, files, contents, keepLocks, lineSep, Subsumed(Collected(FileLines(files, contents))).value);
  }

  /** `PackageLayout` once the imports reduce to `kept`. */
  lemma WrittenLayout(pkg: seq<char>, version: seq<char>, files: seq<seq<char>>, contents: map<seq<char>, seq<Line>>,
                      keepLocks: bool, lineSep: seq<char>, kept: set<seq<char>>)
    requires forall f :: f in files ==> f in contents
    ensures var run := Written(pkg, version, files, contents, keepLocks, lineSep, kept);
            var header := Translate(Header(pkg, SortSet(kept), version), lineSep);
            StartsWith(run.written.value, header)
            && (run.error == Some(IndexError) ==> run.written.value == header)
            && (run.error == None ==> EndsWith(run.written.value, Translate(Closing, lineSep)))
  {
    AssembleLayout(pkg, version, files, contents, keepLocks, kept, lineSep, lineSep);
    var header := Translate(Header(pkg, SortSet(kept), version), lineSep);
    assert header[..|header|] == header;
  }

  /** The assembled text starts with the header and ends with the closing
      brace; a failing body leaves the header alone. */
  lemma AssembleLayout(pkg: seq<char>, version: seq<char>, files: seq<seq<char>>, contents: map<seq<char>, seq<Line>>,
                       keepLocks: bool, kept: set<seq<char>>, sep: seq<char>, lineSep: seq<char>)
    requires forall f :: f in files ==> f in contents
    ensures var a := Assemble(pkg, version, files, contents, keepLocks, kept, sep);
            var h := Header(pkg, SortSet(kept), version);
            (a.Err? ==> a.error == (h, IndexError))
            && (a.Ok? ==> StartsWith(Translate(a.value, lineSep), Translate(h, lineSep))
                          && EndsWith(Translate(a.value, lineSep), Translate(Closing, lineSep)))
  {
    var h := Header(pkg, SortSet(kept), version);
    var b := Bodies(files, contents, keepLocks, sep);
    if b.Ok? {
      TranslatedAround(h, Join(b.value, sep + sep), lineSep);
    }
  }

  lemma TranslatedAround(h: seq<char>, mid: seq<char>, lineSep: seq<char>)
    ensures StartsWith(Translate(h + (mid + Closing), lineSep), Translate(h, lineSep))
    ensures EndsWith(Translate(h + (mid + Closing), lineSep), Translate(Closing, lineSep))
  {
    TranslateConcat(h, mid + Closing, lineSep);
    TranslateConcat(mid, Closing, lineSep);
    var t := Translate(h + (mid + Closing), lineSep);
    assert t == Translate(h, lineSep) + Translate(mid, lineSep) + Translate(Closing, lineSep);
  }

  /** The script with both corrections: wildcard-covered imports are
      discarded rather than removed, and body lines are joined by "\n",
      which the text-mode file turns into the platform separator. */
  function PackageFixed(pkg: seq<char>, version: seq<char>, sources: seq<char>, listing: seq<seq<char>>, keepLocks: bool,
                        curves: seq<seq<char>>, contents: map<seq<char>, seq<Line>>, lineSep: seq<char>): (run: Run)
    ensures var files := IncludedFiles(sources, listing, keepLocks, curves);
            run.error == Some(FileNotFoundError) <==> Missing(files, contents)
    ensures run.error != Some(KeyError)
    ensures run.written.None? <==> run.error == Some(FileNotFoundError)
  {
    var files := IncludedFiles(sources, listing, keepLocks, curves);
    if Missing(files, contents) then Run(None, Some(FileNotFoundError))
    else
      var kept := SubsumedFixed(Collected(FileLines(files, contents)));
      match Assemble(pkg, version, files, contents, keepLocks, kept, "\n")
      case Err(failed) => Run(Some(Translate(failed.0, lineSep)), Some(failed.1))
      case Ok(t) => Run(Some(Translate(t, lineSep)), None)
  }

  /** Translating for a "\n" platform changes nothing. */
  lemma {:induction false} TranslateNewline(s: seq<char>)
    ensures Translate(s, "\n") == s
    decreases |s|
  {
    if |s| > 0 {
      TranslateNewline(s[1..]);
      assert s == [s[0]] + s[1..];
    }
  }

  /** Corrected, every platform gets the same file up to its line
      separator: the "\n" platform's output with each "\n" replaced. */
  lemma FixedSameEverywhere(pkg: seq<char>, version: seq<char>, sources: seq<char>, listing: seq<seq<char>>, keepLocks: bool,
                            curves: seq<seq<char>>, contents: map<seq<char>, seq<Line>>, lineSep: seq<char>)
    ensures var unix := PackageFixed(pkg, version, sources, listing, keepLocks, curves, contents, "\n");
            var here := PackageFixed(pkg, version, sources, listing, keepLocks, curves, contents, lineSep);
            here.error == unix.error
            && here.written == (if unix.written.Some? then Some(Translate(unix.written.value, lineSep)) else None)
  {
    var unix := PackageFixed(pkg, version, sources, listing, keepLocks, curves, contents, "\n");
    if unix.written.Some? {
      var files := IncludedFiles(sources, listing, keepLocks, curves);
      var kept := SubsumedFixed(Collected(FileLines(files, contents)));
      var a := Assemble(pkg, version, files, contents, keepLocks, kept, "\n");
      var raw := if a.Ok? then a.value else a.error.0;
      TranslateNewline(raw);
    }
  }

  /** On a "\n" platform, where the script does not raise KeyError, the
      corrected script writes what the script writes. */
  lemma FixedAgreesOnUnix(pkg: seq<char>, version: seq<char>, sources: seq<char>, listing: seq<seq<char>>, keepLocks: bool,
                          curves: seq<seq<char>>, contents: map<seq<char>, seq<Line>>)
    requires Package(pkg, version, sources, listing, keepLocks, curves, contents, "\n").error != Some(KeyError)
    ensures PackageFixed(pkg, version, sources, listing, keepLocks, curves, contents, "\n")
            == Package(pkg, version, sources, listing, keepLocks, curves, contents, "\n")
  {
    var files := IncludedFiles(sources, listing, keepLocks, curves);
    if !Missing(files, contents) {
      FixedAgrees(Collected(FileLines(files, contents)));
    }
  }
}

=== FILE: pytext.dfy ===
/** The Python string operations the packaging script relies on, over
    `seq<char>`: whitespace and `strip`, substring tests, `replace`,
    `join`, the newline translation of text-mode files, and `sorted` on
    strings (code-point order). */
module PyText {

  /** str.isspace for one character: ASCII tab to carriage return, the
      four information separators, space, NEL, no-break space and the
      Unicode space separators. */
  predicate IsSpace(c: char) {
    var n := c as int;
    n == 32 || 9 <= n <= 13 || 28 <= n <= 31 || n == 0x85 || n == 0xA0 || n == 0x1680
    || 0x2000 <= n <= 0x200A || n == 0x2028 || n == 0x2029 || n == 0x202F || n == 0x205F || n == 0x3000
  }

  /** Only whitespace. */
  predicate Blank(s: seq<char>) {
    forall i :: 0 <= i < |s| ==> IsSpace(s[i])
  }

  predicate StartsWith(s: seq<char>, p: seq<char>) {
    |p| <= |s| && s[..|p|] == p
  }

  predicate EndsWith(s: seq<char>, p: seq<char>) {
    |p| <= |s| && s[|s| - |p|..] == p
  }

  /** `p in s`. */
  predicate Contains(s: seq<char>, p: seq<char>)
    decreases |s|
  {
    StartsWith(s, p) || (|s| > 0 && Contains(s[1..], p))
  }

  /** `p` occurs in `s` at index `i`. */
  predicate OccursAt(s: seq<char>, p: seq<char>, i: int) {
    0 <= i <= |s| - |p| && s[i..i + |p|] == p
  }

  /** The substring test finds `p` exactly when it occurs at some index. */
  lemma {:induction false} ContainsAt(s: seq<char>, p: seq<char>)
    ensures Contains(s, p) <==> exists i :: OccursAt(s, p, i)
    decreases |s|
  {
    if StartsWith(s, p) {
      assert OccursAt(s, p, 0);
    } else if |s| > 0 {
      ContainsAt(s[1..], p);
      if Contains(s[1..], p) {
        var i :| OccursAt(s[1..], p, i);
        assert s[i + 1..i + 1 + |p|] == s[1..][i..i + |p|];
        assert OccursAt(s, p, i + 1);
      } else {
        forall i | OccursAt(s, p, i)
          ensures i > 0 && OccursAt(s[1..], p, i - 1)
        {
          assert s[1..][i - 1..i - 1 + |p|] == s[i..i + |p|];
        }
      }
    }
  }

  /** str.rstrip(): trailing whitespace removed. */
  function RStrip(s: seq<char>): (r: seq<char>)
    ensures |r| <= |s| && r == s[..|r|]
    ensures |r| == 0 || !IsSpace(r[|r| - 1])
    ensures Blank(s[|r|..])
    decreases |s|
  {
    if |s| > 0 && IsSpace(s[|s| - 1]) then
      var r := RStrip(s[..|s| - 1]);
      assert s[|r|..] == s[..|s| - 1][|r|..] + [s[|s| - 1]];
      r
    else s
  }

  /** str.lstrip(): leading whitespace removed. */
  function LStrip(s: seq<char>): (r: seq<char>)
    ensures |r| <= |s| && r == s[|s| - |r|..]
    ensures |r| == 0 || !IsSpace(r[0])
    ensures Blank(s[..|s| - |r|])
    decreases |s|
  {
    if |s| > 0 && IsSpace(s[0]) then
      var r := LStrip(s[1..]);
      assert s[..|s| - |r|] == [s[0]] + s[1..][..|s[1..]| - |r|];
      r
    else s
  }

  /** str.strip(). */
  function Strip(s: seq<char>): (r: seq<char>)
    ensures |r| <= |s|
    ensures |r| == 0 || (!IsSpace(r[0]) && !IsSpace(r[|r| - 1]))
  {
    var t := RStrip(s);
    var r := LStrip(t);
    assert |r| > 0 ==> r[|r| - 1] == t[|t| - 1];
    r
  }

  /** `s.strip() == ""` holds exactly for whitespace-only strings. */
  lemma StripEmpty(s: seq<char>)
    ensures Strip(s) == [] <==> Blank(s)
  {
    var t := RStrip(s);
    if Strip(s) == [] {
      assert Blank(t[..|t|]);
      BlankStripped(t);
      assert s[0..] == s;
    }
    if Blank(s) {
      BlankRStrip(s);
    }
  }

  lemma {:induction false} BlankRStrip(s: seq<char>)
    requires Blank(s)
    ensures RStrip(s) == []
    decreases |s|
  {
    if |s| > 0 {
      BlankRStrip(s[..|s| - 1]);
    }
  }

  /** A blank string whose last character is not a space is empty. */
  lemma BlankStripped(t: seq<char>)
    requires Blank(t) && (|t| == 0 || !IsSpace(t[|t| - 1]))
    ensures |t| == 0
  {
  }

  /** str.replace(pat, rep): every occurrence, scanning left to right,
      without overlaps. */
  function ReplaceAll(s: seq<char>, pat: seq<char>, rep: seq<char>): (r: seq<char>)
    requires |pat| > 0
    decreases |s|
  {
    if |s| == 0 then []
    else if StartsWith(s, pat) then rep + ReplaceAll(s[|pat|..], pat, rep)
    else [s[0]] + ReplaceAll(s[1..], pat, rep)
  }

  /** A string without the pattern is left as it is. */
  lemma {:induction false} ReplaceAbsent(s: seq<char>, pat: seq<char>, rep: seq<char>)
    requires |pat| > 0 && !Contains(s, pat)
    ensures ReplaceAll(s, pat, rep) == s
    decreases |s|
  {
    if |s| > 0 {
      ReplaceAbsent(s[1..], pat, rep);
      assert s == [s[0]] + s[1..];
    }
  }

  /** Text that starts with the pattern starts with the replacement. */
  lemma ReplaceAtFront(s: seq<char>, pat: seq<char>, rep: seq<char>)
    requires |pat| > 0 && StartsWith(s, pat)
    ensures StartsWith(ReplaceAll(s, pat, rep), rep)
  {
    var r := ReplaceAll(s, pat, rep);
    assert r[..|rep|] == rep;
  }

  /** sep.join(parts). */
  function Join(parts: seq<seq<char>>, sep: seq<char>): seq<char>
    decreases |parts|
  {
    if |parts| == 0 then []
    else if |parts| == 1 then parts[0]
    else Join(parts[..|parts| - 1], sep) + sep + parts[|parts| - 1]
  }

  /** Writing to a text-mode file: every "\n" becomes the platform line
      separator. */
  function Translate(s: seq<char>, lineSep: seq<char>): (r: seq<char>)
    ensures (forall i :: 0 <= i < |s| ==> s[i] != '\n') ==> r == s
    decreases |s|
  {
    if |s| == 0 then []
    else (if s[0] == '\n' then lineSep else [s[0]]) + Translate(s[1..], lineSep)
  }

  lemma {:induction false} TranslateConcat(a: seq<char>, b: seq<char>, lineSep: seq<char>)
    ensures Translate(a + b, lineSep) == Translate(a, lineSep) + Translate(b, lineSep)
    decreases |a|
  {
    if |a| > 0 {
      assert (a + b)[1..] == a[1..] + b;
      TranslateConcat(a[1..], b, lineSep);
    } else {
      assert a + b == b;
    }
  }

  /** Parts without newlines keep their text; only the separator is
      translated. */
  lemma {:induction false} TranslateJoin(parts: seq<seq<char>>, sep: seq<char>, lineSep: seq<char>)
    requires forall k, i :: 0 <= k < |parts| && 0 <= i < |parts[k]| ==> parts[k][i] != '\n'
    ensures Translate(Join(parts, sep), lineSep) == Join(parts, Translate(sep, lineSep))
    decreases |parts|
  {
    if |parts| > 1 {
      var init := parts[..|parts| - 1];
      TranslateJoin(init, sep, lineSep);
      TranslateConcat(Join(init, sep) + sep, parts[|parts| - 1], lineSep);
      TranslateConcat(Join(init, sep), sep, lineSep);
    }
  }

  /** Python's `<` on strings: code-point order, a proper prefix first. */
  predicate LexLess(a: seq<char>, b: seq<char>)
    decreases |a|
  {
    if |a| == 0 then |b| > 0
    else if |b| == 0 then false
    else if a[0] != b[0] then a[0] < b[0]
    else LexLess(a[1..], b[1..])
  }

  lemma {:induction false} LexIrreflexive(a: seq<char>)
    ensures !LexLess(a, a)
    decreases |a|
  {
    if |a| > 0 {
      LexIrreflexive(a[1..]);
    }
  }

  lemma {:induction false} LexTransitive(a: seq<char>, b: seq<char>, c: seq<char>)
    requires LexLess(a, b) && LexLess(b, c)
    ensures LexLess(a, c)
    decreases |a|
  {
    if |a| > 0 && a[0] == b[0] && b[0] == c[0] {
      LexTransitive(a[1..], b[1..], c[1..]);
    }
  }

  /** Two different strings are ordered one way or the other, never both. */
  lemma {:induction false} LexTotal(a: seq<char>, b: seq<char>)
    ensures a != b <==> (LexLess(a, b) || LexLess(b, a))
    ensures !(LexLess(a, b) && LexLess(b, a))
    decreases |a|
  {
    if |a| > 0 && |b| > 0 && a[0] == b[0] {
      LexTotal(a[1..], b[1..]);
      assert a == [a[0]] + a[1..];
      assert b == [b[0]] + b[1..];
    } else if a == b {
      LexIrreflexive(a);
    }
  }

  /** In order: no later element sorts before an earlier one. */
  predicate Sorted(s: seq<seq<char>>) {
    forall i, j :: 0 <= i < j < |s| ==> !LexLess(s[j], s[i])
  }

  /** `x` placed before the first element it sorts before. */
  function Insert(x: seq<char>, s: seq<seq<char>>): (r: seq<seq<char>>)
    requires Sorted(s)
    ensures Sorted(r) && multiset(r) == multiset(s) + multiset{x}
    decreases |s|
  {
    if |s| == 0 then [x]
    else if LexLess(s[0], x) || s[0] == x then
      var rest := Insert(x, s[1..]);
      assert s == [s[0]] + s[1..];
      InsertHead(s[0], rest, x, s[1..]);
      [s[0]] + rest
    else
      LexTotal(s[0], x);
      forall j | 0 <= j < |s|
        ensures !LexLess(s[j], x)
      {
        LexTotal(s[0], s[j]);
        if s[j] != s[0] {
          LexTransitive(x, s[0], s[j]);
        }
        LexTotal(s[j], x);
      }
      [x] + s
  }

  lemma InsertHead(h: seq<char>, rest: seq<seq<char>>, x: seq<char>, tail: seq<seq<char>>)
    requires Sorted(rest) && multiset(rest) == multiset(tail) + multiset{x}
    requires Sorted([h] + tail) && (LexLess(h, x) || h == x)
    ensures Sorted([h] + rest)
  {
    forall k | 0 <= k < |rest|
      ensures !LexLess(rest[k], h)
    {
      NotBelowHead(h, rest, x, tail, k);
    }
    ConsSorted(h, rest);
  }

  /** A head no element of a sorted list sorts before keeps it sorted. */
  lemma ConsSorted(h: seq<char>, rest: seq<seq<char>>)
    requires Sorted(rest) && forall k :: 0 <= k < |rest| ==> !LexLess(rest[k], h)
    ensures Sorted([h] + rest)
  {
    var r := [h] + rest;
    forall i, j | 0 <= i < j < |r|
      ensures !LexLess(r[j], r[i])
    {
      assert r[j] == rest[j - 1];
      if i > 0 {
        assert r[i] == rest[i - 1];
      }
    }
  }

  /** An element of the inserted tail is not below the head. */
  lemma NotBelowHead(h: seq<char>, rest: seq<seq<char>>, x: seq<char>, tail: seq<seq<char>>, k: nat)
    requires k < |rest| && multiset(rest) == multiset(tail) + multiset{x}
    requires Sorted([h] + tail) && (LexLess(h, x) || h == x)
    ensures !LexLess(rest[k], h)
  {
    var y := rest[k];
    assert y in multiset(rest);
    if y == x {
      LexTotal(h, x);
    } else {
      assert y in multiset(tail);
      var m :| 0 <= m < |tail| && tail[m] == y;
      assert ([h] + tail)[m + 1] == y && ([h] + tail)[0] == h;
    }
  }

  /** sorted(list): insertion sort, stable for equal strings. */
  function Sort(s: seq<seq<char>>): (r: seq<seq<char>>)
    ensures Sorted(r) && multiset(r) == multiset(s)
    decreases |s|
  {
    if |s| == 0 then []
    else
      var r := Insert(s[|s| - 1], Sort(s[..|s| - 1]));
      assert s == s[..|s| - 1] + [s[|s| - 1]];
      r
  }

  /** The least element of a non-empty finite set of strings. */
  lemma {:induction false} HasLeast(st: set<seq<char>>)
    requires st != {}
    ensures exists m :: m in st && forall y :: y in st ==> !LexLess(y, m)
    decreases |st|
  {
    var x :| x in st;
    if st == {x} {
      LexIrreflexive(x);
      assert forall y :: y in st ==> y == x;
    } else {
      HasLeast(st - {x});
      var m :| m in st - {x} && forall y :: y in st - {x} ==> !LexLess(y, m);
      if LexLess(x, m) {
        forall y | y in st
          ensures !LexLess(y, x)
        {
          if y != x && LexLess(y, x) {
            LexTransitive(y, x, m);
          }
          if y == x {
            LexIrreflexive(x);
          }
        }
      } else {
        assert forall y :: y in st ==> !LexLess(y, m);
      }
    }
  }

  /** sorted(set): the elements, each once, in order. */
  function SortSet(st: set<seq<char>>): (r: seq<seq<char>>)
    ensures Sorted(r) && |r| == |st|
    ensures forall x :: x in r <==> x in st
    decreases |st|
  {
    if st == {} then []
    else
      HasLeast(st);
      LeastUnique(st);
      var m :| m in st && forall y :: y in st ==> !LexLess(y, m);
      var rest := SortSet(st - {m});
      LeastFirst(m, rest, st);
      [m] + rest
  }

  /** Two least elements are equal. */
  lemma LeastUnique(st: set<seq<char>>)
    ensures forall m1, m2 ::
              (m1 in st && m2 in st && (forall y :: y in st ==> !LexLess(y, m1))
               && (forall y :: y in st ==> !LexLess(y, m2))) ==> m1 == m2
  {
    forall m1, m2 | m1 in st && m2 in st && (forall y :: y in st ==> !LexLess(y, m1))
                    && (forall y :: y in st ==> !LexLess(y, m2))
      ensures m1 == m2
    {
      LexTotal(m1, m2);
    }
  }

  lemma LeastFirst(m: seq<char>, rest: seq<seq<char>>, st: set<seq<char>>)
    requires m in st && forall y :: y in st ==> !LexLess(y, m)
    requires Sorted(rest) && forall x :: x in rest <==> x in st - {m}
    ensures Sorted([m] + rest)
  {
    var r := [m] + rest;
    forall i, j | 0 <= i < j < |r|
      ensures !LexLess(r[j], r[i])
    {
      if i == 0 {
        assert r[j] in rest;
      }
    }
  }

  /** A sorted sequence of distinct strings is determined by its
      elements. */
  lemma {:induction false} SortedUnique(a: seq<seq<char>>, b: seq<seq<char>>)
    requires Sorted(a) && Sorted(b) && (forall x :: x in a <==> x in b)
    requires forall i, j :: 0 <= i < j < |a| ==> a[i] != a[j]
    requires forall i, j :: 0 <= i < j < |b| ==> b[i] != b[j]
    ensures a == b
    decreases |a|
  {
    assert |a| > 0 ==> a[0] in b;
    assert |b| > 0 ==> b[0] in a;
    if |a| > 0 && |b| > 0 {
      var j :| 0 <= j < |b| && b[j] == a[0];
      var i :| 0 <= i < |a| && a[i] == b[0];
      LexTotal(a[0], b[0]);
      assert a[0] == b[0];
      forall x
        ensures x in a[1..] <==> x in b[1..]
      {
        if x in a[1..] {
          var i :| 1 <= i < |a| && a[i] == x;
          assert x in b && x != b[0];
        }
        if x in b[1..] {
          var i :| 1 <= i < |b| && b[i] == x;
          assert x in a && x != a[0];
        }
      }
      SortedUnique(a[1..], b[1..]);
      assert a == [a[0]] + a[1..];
      assert b == [b[0]] + b[1..];
    }
  }
}

=== FILE: radix.dfy ===
/** Big-endian base-256 digit strings, the representation every byte-array
    number of the library uses: element 0 is the most significant byte. */
module Radix {

  /** A Java `byte` seen unsigned (`b & 0xff`). */
  type Byte = x: int | 0 <= x < 256

  function Pow256(n: nat): (p: nat)
    ensures p >= 1
  {
    if n == 0 then 1 else 256 * Pow256(n - 1)
  }

  function Pow2(n: nat): (p: nat)
    ensures p >= 1
  {
    if n == 0 then 1 else 2 * Pow2(n - 1)
  }

  /** The number a digit string denotes (Horner's rule: the last digit is
      the least significant). */
  function Val(s: seq<Byte>): (v: nat)
    ensures v < Pow256(|s|)
  {
    if |s| == 0 then 0 else 256 * Val(s[..|s| - 1]) + s[|s| - 1]
  }

  function Zeros(n: nat): (z: seq<Byte>)
    ensures |z| == n
    ensures forall i :: 0 <= i < n ==> z[i] == 0
  {
    if n == 0 then [] else [0] + Zeros(n - 1)
  }

  predicate AllZero(s: seq<Byte>) {
    forall i :: 0 <= i < |s| ==> s[i] == 0
  }

  /** The last `n` digits of `s` (all of `s` when it is shorter). */
  function Tail(s: seq<Byte>, n: nat): (t: seq<Byte>)
    ensures |t| == if |s| <= n then |s| else n
  {
    if |s| <= n then s else s[|s| - n..]
  }

  lemma PowAdd(a: nat, b: nat)
    ensures Pow256(a + b) == Pow256(a) * Pow256(b)
  {
    if a > 0 {
      PowAdd(a - 1, b);
      assert Pow256(a + b) == 256 * Pow256(a - 1 + b);
    }
  }

  lemma PowMonotone(a: nat, b: nat)
    requires a <= b
    ensures Pow256(a) <= Pow256(b)
  {
    PowAdd(a, b - a);
    assert Pow256(b) == Pow256(a) * Pow256(b - a);
  }

  lemma {:induction false} ValConcat(a: seq<Byte>, b: seq<Byte>)
    ensures Val(a + b) == Val(a) * Pow256(|b|) + Val(b)
  {
    if |b| == 0 {
      assert a + b == a;
    } else {
      var b' := b[..|b| - 1];
      var last := b[|b| - 1];
      assert (a + b)[..|a + b| - 1] == a + b';
      assert (a + b)[|a + b| - 1] == last;
      assert Val(a + b) == 256 * Val(a + b') + last;
      ValConcat(a, b');
      assert Val(b) == 256 * Val(b') + last;
      var m := Val(a) * Pow256(|b'|);
      assert Pow256(|b|) == 256 * Pow256(|b'|);
      MulAssoc256(Val(a), Pow256(|b'|));
      assert Val(a) * Pow256(|b|) == 256 * m;
    }
  }

  lemma MulAssoc256(a: int, p: int)
    ensures a * (256 * p) == 256 * (a * p)
  {
  }

  lemma Regroup(d: int, p: int, q: int, r: int, s: int)
    ensures d * (p * q) + (r * q + s) == (d * p + r) * q + s
  {
  }

  lemma MulMono(a: int, b: int, c: int)
    requires a <= b && c >= 0
    ensures a * c <= b * c
  {
  }

  /** Appending a least significant digit. */
  lemma ValSnoc(s: seq<Byte>, d: Byte)
    ensures Val(s + [d]) == Val(s) * 256 + d
  {
    assert (s + [d])[..|s|] == s;
  }

  lemma ValSplit(s: seq<Byte>, k: nat)
    requires k <= |s|
    ensures Val(s) == Val(s[..k]) * Pow256(|s| - k) + Val(s[k..])
  {
    assert s == s[..k] + s[k..];
    ValConcat(s[..k], s[k..]);
  }

  /** Prefix step, for loops that walk from the most significant digit. */
  lemma ValPrefixStep(s: seq<Byte>, i: nat)
    requires i < |s|
    ensures Val(s[..i + 1]) == Val(s[..i]) * 256 + s[i]
  {
    assert s[..i + 1] == s[..i] + [s[i]];
    ValSnoc(s[..i], s[i]);
  }

  /** Suffix step, for loops that walk from the least significant digit. */
  lemma ValSuffixStep(s: seq<Byte>, i: nat)
    requires i < |s|
    ensures Val(s[i..]) == s[i] * Pow256(|s| - i - 1) + Val(s[i + 1..])
  {
    assert s[i..] == [s[i]] + s[i + 1..];
    ValConcat([s[i]], s[i + 1..]);
    assert Val([s[i]]) == s[i] by {
      assert [s[i]][..0] == [];
    }
  }

  lemma {:induction false} ValAllZero(s: seq<Byte>)
    ensures Val(s) == 0 <==> AllZero(s)
  {
    if |s| > 0 {
      var p := s[..|s| - 1];
      ValAllZero(p);
      if AllZero(s) {
        assert AllZero(p) by {
          forall i | 0 <= i < |p| ensures p[i] == 0 {
            assert p[i] == s[i];
          }
        }
      }
      if AllZero(p) && s[|s| - 1] == 0 {
        forall i | 0 <= i < |s| ensures s[i] == 0 {
          if i < |s| - 1 { assert s[i] == p[i]; }
        }
      }
    }
  }

  lemma ValZeros(n: nat)
    ensures Val(Zeros(n)) == 0
  {
    ValAllZero(Zeros(n));
  }

  /** Leading zero digits do not change the value. */
  lemma ValLeadingZeros(z: seq<Byte>, s: seq<Byte>)
    requires AllZero(z)
    ensures Val(z + s) == Val(s)
  {
    ValConcat(z, s);
    ValAllZero(z);
  }

  /** A nonzero leading digit puts the value in the top range. */
  lemma ValLeadingDigit(s: seq<Byte>)
    requires |s| > 0
    ensures Val(s) >= s[0] * Pow256(|s| - 1)
    ensures s[0] != 0 ==> Val(s) >= Pow256(|s| - 1)
  {
    ValSuffixStep(s, 0);
    assert s[0..] == s;
    if s[0] != 0 {
      MulMono(1, s[0], Pow256(|s| - 1));
    }
  }

  lemma DivModUnique(a: int, m: int, q: int, r: int)
    requires m > 0 && 0 <= r < m && a == q * m + r
    ensures a / m == q && a % m == r
  {
    var q0, r0 := a / m, a % m;
    assert a == q0 * m + r0;
    if q0 > q {
      MulAtLeast(q0 - q, m);
      assert false;
    } else if q0 < q {
      MulAtLeast(q - q0, m);
      assert false;
    }
  }

  lemma MulAtLeast(k: int, m: int)
    requires k >= 1 && m > 0
    ensures k * m >= m
  {
  }

  /** Only the last `n` digits matter modulo 256^n. */
  lemma ValTail(s: seq<Byte>, n: nat)
    ensures Val(Tail(s, n)) == Val(s) % Pow256(n)
  {
    if |s| <= n {
      PowMonotone(|s|, n);
      DivModUnique(Val(s), Pow256(n), 0, Val(s));
    } else {
      ValSplit(s, |s| - n);
      DivModUnique(Val(s), Pow256(n), Val(s[..|s| - n]), Val(s[|s| - n..]));
    }
  }

  /** The last digit decides the parity. */
  lemma ValParity(s: seq<Byte>)
    requires |s| > 0
    ensures Val(s) % 2 == s[|s| - 1] % 2
  {
    var h := Val(s[..|s| - 1]);
    assert Val(s) == (h * 128) * 2 + s[|s| - 1];
  }

  /** Two digit strings of equal length with equal values are equal. */
  lemma {:induction false} ValInjective(a: seq<Byte>, b: seq<Byte>)
    requires |a| == |b| && Val(a) == Val(b)
    ensures a == b
  {
    if |a| > 0 {
      var n := |a| - 1;
      DivModUnique(Val(a), 256, Val(a[..n]), a[n]);
      DivModUnique(Val(b), 256, Val(b[..n]), b[n]);
      ValInjective(a[..n], b[..n]);
      assert a == a[..n] + [a[n]];
      assert b == b[..n] + [b[n]];
    }
  }

  /** The `n`-digit encoding of `v`, truncated to its low `n` digits. */
  function FromNat(v: nat, n: nat): (s: seq<Byte>)
    ensures |s| == n
    ensures Val(s) == v % Pow256(n)
  {
    if n == 0 then []
    else
      var hi := FromNat(v / 256, n - 1);
      FromNatStep(v, n, hi);
      hi + [v % 256]
  }

  lemma FromNatStep(v: nat, n: nat, hi: seq<Byte>)
    requires n > 0 && Val(hi) == (v / 256) % Pow256(n - 1)
    ensures Val(hi + [v % 256]) == v % Pow256(n)
  {
    ValSnoc(hi, v % 256);
    var p := Pow256(n - 1);
    var q := (v / 256) / p;
    DivModSplit(v / 256, p);
    DivModSplit(v, 256);
    Regrouped(v, v / 256, v % 256, q, p, Val(hi));
    DivModUnique(v, 256 * p, q, Val(hi) * 256 + v % 256);
  }

  /** Euclidean division puts the quotient and remainder back together. */
  lemma DivModSplit(a: int, m: int)
    requires m > 0
    ensures a == (a / m) * m + a % m
  {
  }

  /** `v = 256 * (q * p + h) + r` with digit `r` and `h` below `p`: `q`
      whole units of `256 * p` and a remainder below one. */
  lemma Regrouped(v: int, a: int, r: int, q: int, p: int, h: int)
    requires a == q * p + h && v == a * 256 + r && 0 <= r < 256 && 0 <= h < p
    ensures v == q * (256 * p) + (h * 256 + r)
    ensures h * 256 + r < 256 * p
  {
    MulAssoc256(q, p);
    MulMono(h + 1, p, 256);
  }

  /** Encoding a value that fits and reading it back gives the value. */
  lemma FromNatVal(s: seq<Byte>)
    ensures FromNat(Val(s), |s|) == s
  {
    DivModUnique(Val(s), Pow256(|s|), 0, Val(s));
    ValInjective(FromNat(Val(s), |s|), s);
  }

  /** Overwriting digit `j` changes the number by the difference of the
      two digits at that digit's weight. */
  lemma {:induction false} ValUpdate(r: seq<Byte>, j: nat, d: Byte)
    requires j < |r|
    ensures Val(r[j := d]) + r[j] * Pow256(|r| - j - 1) == Val(r) + d * Pow256(|r| - j - 1)
  {
    var n := |r|;
    var r' := r[j := d];
    assert r'[n - 1] == if j == n - 1 then d else r[n - 1];
    if j == n - 1 {
      assert r'[..n - 1] == r[..n - 1];
    } else {
      var s := r[..n - 1];
      assert r'[..n - 1] == s[j := d];
      assert s[j] == r[j];
      ValUpdate(s, j, d);
      var p := Pow256(n - 1 - j - 1);
      assert Pow256(n - j - 1) == 256 * p;
      MulAssoc256(r[j], p);
      MulAssoc256(d, p);
    }
  }

  /** A column result `t` splits into the stored digit and the carry
      (or, for negative `t`, the borrow) into the next column. */
  lemma ColumnSplit(t: int, p: int)
    ensures (t % 256) * p + (t / 256) * (256 * p) == t * p
  {
    assert t == 256 * (t / 256) + t % 256;
    calc {
      t * p;
      (256 * (t / 256) + t % 256) * p;
      (t % 256) * p + (t / 256) * (256 * p);
    }
  }

  lemma Distribute(a: int, b: int, c: int, p: int)
    ensures (a + b + c) * p == a * p + b * p + c * p
  {
  }

  /** Storing the low byte of a column total `t` at digit `j` and carrying
      `t / 256` (negative for a borrow) into the next column accounts for
      all of `t` at digit `j`'s weight. */
  lemma StoreColumn(r: seq<Byte>, j: nat, t: int, a: int, b: int)
    requires j < |r| && t == r[j] + a + b
    ensures Val(r[j := t % 256]) + (t / 256) * (256 * Pow256(|r| - j - 1))
            == Val(r) + a * Pow256(|r| - j - 1) + b * Pow256(|r| - j - 1)
  {
    var p := Pow256(|r| - j - 1);
    ValUpdate(r, j, t % 256);
    ColumnSplit(t, p);
    Distribute(r[j], a, b, p);
  }

  /** A carry or borrow of 0 or 1 out of the last `k` columns, as a number. */
  function Carried(c: int, k: nat): int {
    if c == 1 then Pow256(k) else 0
  }

  /** The borrow out of a column whose total is `t`. */
  function BorrowOut(t: int): (b: int)
    ensures 0 <= b <= 1 && (b == 1 <==> t < 0)
  {
    if t < 0 then 1 else 0
  }

  lemma CarriedIs(c: int, k: nat)
    requires 0 <= c <= 1
    ensures Carried(c, k) == c * Pow256(k)
  {
  }

  lemma Negate(a: int, p: int)
    ensures (-a) * p == -(a * p)
  {
  }

  /** Column `j` of an addition: digit `i` of `y` and the incoming carry are
      added into digit `j` of `r`, at equal weights. */
  lemma AddColumn(r: seq<Byte>, y: seq<Byte>, i: nat, j: nat, akku: int)
    requires j < |r| && i < |y| && |r| - j == |y| - i && 0 <= akku <= 1
    ensures var t := r[j] + akku + y[i];
            0 <= t / 256 <= 1
            && Val(r[j := t % 256]) + Carried(t / 256, |r| - j) + Val(y[i + 1..])
               == Val(r) + Carried(akku, |r| - j - 1) + Val(y[i..])
  {
    var t := r[j] + akku + y[i];
    var k := |r| - j - 1;
    var p := Pow256(k);
    assert Pow256(k + 1) == 256 * p;
    assert Pow256(|y| - i - 1) == p;
    StoreColumn(r, j, t, akku, y[i]);
    CarriedIs(akku, k);
    CarriedIs(t / 256, k + 1);
    ValSuffixStep(y, i);
  }

  /** Column `j` of a carry propagation: only the carry is added. */
  lemma CarryColumn(r: seq<Byte>, j: nat, akku: int)
    requires j < |r| && 0 <= akku <= 1
    ensures var t := r[j] + akku;
            0 <= t / 256 <= 1
            && Val(r[j := t % 256]) + Carried(t / 256, |r| - j) == Val(r) + Carried(akku, |r| - j - 1)
  {
    var t := r[j] + akku;
    var k := |r| - j - 1;
    var p := Pow256(k);
    assert Pow256(k + 1) == 256 * p;
    StoreColumn(r, j, t, akku, 0);
    CarriedIs(akku, k);
    CarriedIs(t / 256, k + 1);
  }

  /** Column `j` of a subtraction: digit `i` of `y` and the incoming borrow
      are taken from digit `j` of `r`, at equal weights. */
  lemma SubtractColumn(r: seq<Byte>, y: seq<Byte>, i: nat, j: nat, borrow: int)
    requires j < |r| && i < |y| && |r| - j == |y| - i && 0 <= borrow <= 1
    ensures var t := r[j] - y[i] - borrow;
            Val(r[j := t % 256]) - Carried(BorrowOut(t), |r| - j) + Val(y[i..])
            == Val(r) - Carried(borrow, |r| - j - 1) + Val(y[i + 1..])
  {
    var t := r[j] as int - y[i] - borrow;
    var k := |r| - j - 1;
    var p := Pow256(k);
    assert Pow256(|r| - j) == 256 * p;
    assert Pow256(|y| - i - 1) == p;
    var b := BorrowOut(t);
    assert t / 256 == -b;
    StoreColumn(r, j, t, -(y[i] as int), -borrow);
    Negate(y[i], p);
    Negate(borrow, p);
    Negate(b, 256 * p);
    CarriedIs(borrow, k);
    CarriedIs(b, |r| - j);
    ValSuffixStep(y, i);
  }

  /** Column `j` of a borrow propagation: only the borrow is taken. */
  lemma BorrowColumn(r: seq<Byte>, j: nat, borrow: int)
    requires j < |r| && 0 <= borrow <= 1
    ensures var t := r[j] - borrow;
            Val(r[j := t % 256]) - Carried(BorrowOut(t), |r| - j)
            == Val(r) - Carried(borrow, |r| - j - 1)
  {
    var t := r[j] as int - borrow;
    var k := |r| - j - 1;
    var p := Pow256(k);
    assert Pow256(k + 1) == 256 * p;
    assert t / 256 == -(BorrowOut(t));
    StoreColumn(r, j, t, -borrow, 0);
    Negate(borrow, p);
    Negate(BorrowOut(t), 256 * p);
    CarriedIs(borrow, k);
    CarriedIs(BorrowOut(t), k + 1);
  }
}

=== FILE: resources.dfy ===
/** The shared-resource manager of the newer library (`ResourceManager`):
    the rule that turns the largest supported elliptic-curve length into
    engine and buffer lengths, the allocation of the shared scratch arrays
    and numbers, their registration with the object locker, and the
    recovery operation that releases every reservation. */
module Resources {
  import opened Wrappers
  import opened ReturnCodes
  import opened Radix
  import BigNats
  import Locker
  import Allocator

  /** The five lengths a configuration fixes: the bit lengths of the RSA
      engines used for modular exponentiation and for multiplication, and
      the byte sizes of the largest number, point and coordinate. */
  datatype Lengths = Lengths(moduloBits: int, multBits: int, bigNatSize: int, pointSize: int, coordSize: int)

  /** One band of supported curve lengths: every length up to `limit`
      bits gets these nominal engine lengths and point size. */
  datatype Band = Band(limit: int, moduloBits: int, multBits: int, pointSize: int)

  /** The bands, tested in ascending order. */
  const Bands: seq<Band> := [Band(256, 512, 768, 64), Band(384, 768, 1024, 96), Band(512, 1024, 1280, 128)]

  function Max(a: int, b: int): int { if a < b then b else a }

  /** The derived sizes: one byte more than the modulo engine holds, and
      half a point per coordinate. */
  function Derive(moduloBits: int, multBits: int, pointSize: int): (r: Lengths)
    requires moduloBits >= 0 && pointSize >= 0
    ensures r.moduloBits == moduloBits && r.multBits == multBits && r.pointSize == pointSize
    ensures 8 * (r.bigNatSize - 1) <= moduloBits < 8 * r.bigNatSize
    ensures 2 * r.coordSize <= pointSize <= 2 * r.coordSize + 1
  {
    Lengths(moduloBits, multBits, moduloBits / 8 + 1, pointSize, pointSize / 2)
  }

  /** The size rule of the constructor. `minRsaBits` is the smallest RSA
      length the card's engine accepts; each engine length is raised to
      it. A curve longer than 512 bits raises SW_ECPOINT_INVALIDLENGTH
      (the three fields are zeroed first, but the object is never
      completed). */
  function ResourceLengths(maxEcLength: int, minRsaBits: int): (r: Result<Lengths, Failure>)
    ensures r.Err? <==> maxEcLength > 512
    ensures r.Err? ==> r.error == EcPointInvalidLength
    ensures r.Ok? ==>
              var v := r.value;
              v.moduloBits >= minRsaBits && v.multBits >= minRsaBits
              && v.moduloBits >= 2 * maxEcLength && v.multBits >= v.moduloBits
              && 8 * v.coordSize >= maxEcLength && 8 * v.pointSize >= 2 * maxEcLength
              && v.bigNatSize == v.moduloBits / 8 + 1 && v.coordSize == v.pointSize / 2
  {
    if maxEcLength <= 256 then Ok(Derive(Max(512, minRsaBits), Max(768, minRsaBits), 64))
    else if maxEcLength <= 384 then Ok(Derive(Max(768, minRsaBits), Max(1024, minRsaBits), 96))
    else if maxEcLength <= 512 then Ok(Derive(Max(1024, minRsaBits), Max(1280, minRsaBits), 128))
    else Err(EcPointInvalidLength)
  }

  /** Band `i` is the first whose limit admits the length. */
  predicate FirstBand(maxEcLength: int, i: int) {
    0 <= i < |Bands| && maxEcLength <= Bands[i].limit
    && forall j :: 0 <= j < i ==> Bands[j].limit < maxEcLength
  }

  /** The size rule read off the band table: the first admitting band
      decides, its engine lengths raised to the card minimum; no band
      means the length is refused. */
  lemma ResourceLengthsFollowBands(maxEcLength: int, minRsaBits: int, i: int)
    requires FirstBand(maxEcLength, i)
    ensures ResourceLengths(maxEcLength, minRsaBits)
            == Ok(Derive(Max(Bands[i].moduloBits, minRsaBits), Max(Bands[i].multBits, minRsaBits), Bands[i].pointSize))
  {
    if i == 1 {
      assert Bands[0].limit < maxEcLength;
    } else if i == 2 {
      assert Bands[1].limit < maxEcLength;
    }
  }

  lemma ResourceLengthsRefused(maxEcLength: int, minRsaBits: int)
    requires forall j :: 0 <= j < |Bands| ==> Bands[j].limit < maxEcLength
    ensures ResourceLengths(maxEcLength, minRsaBits) == Err(EcPointInvalidLength)
  {
    assert Bands[2].limit < maxEcLength;
  }

  /** A longer curve never gets smaller engines or buffers. */
  lemma ResourceLengthsMonotone(a: int, b: int, minRsaBits: int)
    requires a <= b && ResourceLengths(b, minRsaBits).Ok?
    ensures ResourceLengths(a, minRsaBits).Ok?
    ensures var x, y := ResourceLengths(a, minRsaBits).value, ResourceLengths(b, minRsaBits).value;
            x.moduloBits <= y.moduloBits && x.multBits <= y.multBits && x.bigNatSize <= y.bigNatSize
            && x.pointSize <= y.pointSize && x.coordSize <= y.coordSize
  {
  }

  /** The manager after construction: lengths, allocator, locker, the
      five shared arrays (ARRAY_A, ARRAY_B, POINT_ARRAY_A, POINT_ARRAY_B,
      HASH_ARRAY, registered with the locker under their allocator ids),
      and the shared numbers: BN_WORD, BN_A..BN_F and EC_BN_A..EC_BN_F
      with their reservation flags, and the constants ONE, TWO, THREE and
      ONE_COORD. */
  datatype Manager = Manager(
    lengths: Lengths,
    alloc: Allocator.ObjectAllocator,
    locker: Locker.ObjectLocker,
    arrays: seq<seq<Byte>>,
    word: BigNats.Reserved,
    bn: seq<BigNats.Reserved>,
    ec: seq<BigNats.Reserved>,
    constants: seq<BigNats.BigNat>)

  /** Locker identities of the shared arrays, in registration order. */
  const ArrayIds: seq<Locker.Obj> := [Allocator.ArrayA, Allocator.ArrayB, Allocator.PointArrayA, Allocator.PointArrayB, Allocator.HashArray]

  /** LOCKER_ARRAYS + LOCKER_OBJECTS: five arrays and one object. */
  const LockerSlots := 5 + 1

  /** One allocation of `n` bytes in the type the table gives `id`, with
      every type still RAM as the constructor leaves it. */
  function AllocRam(a: Allocator.ObjectAllocator, n: nat, id: nat): (r: Allocator.ObjectAllocator)
    requires |a.types| == Allocator.TypeTableLength && id < Allocator.TypeTableLength
    requires forall k :: 0 <= k < |a.types| ==> a.types[k] == Allocator.MemoryTransientReset
    ensures r.types == a.types && r.inRam == a.inRam + n && r.inEeprom == a.inEeprom
  {
    var t := Allocator.GetAllocatorType(a, id).value;
    Allocator.Allocate(a, Allocator.ByteArray(n, t)).0
  }

  /** A fresh unreserved number of `n` bytes. */
  function Fresh(n: nat): (x: BigNats.Reserved)
    ensures Sized(x, n)
  {
    BigNats.Reserved(BigNats.New(n), false)
  }

  /** The state the constructor leaves a shared number in: unreserved,
      `n` bytes of storage all in use, holding zero. */
  predicate Sized(x: BigNats.Reserved, n: int) {
    !x.locked && x.num.size == n && |x.num.value| == n && BigNats.Num(x.num) == 0
  }

  /** The shared numbers as the constructor leaves them: BN_WORD of two
      bytes, BN_A..BN_E of the largest size and BN_F two bytes larger,
      EC_BN_A of a whole point and EC_BN_B..EC_BN_F of a coordinate. */
  predicate Ready(word: BigNats.Reserved, bn: seq<BigNats.Reserved>, ec: seq<BigNats.Reserved>, v: Lengths) {
    |bn| == 6 && |ec| == 6 && Sized(word, 2)
    && (forall i :: 0 <= i < 5 ==> Sized(bn[i], v.bigNatSize)) && Sized(bn[5], v.bigNatSize + 2)
    && Sized(ec[0], v.pointSize) && (forall i :: 1 <= i < 6 ==> Sized(ec[i], v.coordSize))
  }

  /** The storage bytes of a run of numbers. */
  function Storage(xs: seq<BigNats.Reserved>): nat {
    if xs == [] then 0 else Storage(xs[..|xs| - 1]) + |xs[|xs| - 1].num.value|
  }

  /** A run whose first number has `p` storage bytes and every other `c`. */
  lemma {:induction false} StorageUniform(xs: seq<BigNats.Reserved>, p: nat, c: nat)
    requires |xs| >= 1 && |xs[0].num.value| == p
    requires forall k :: 1 <= k < |xs| ==> |xs[k].num.value| == c
    ensures Storage(xs) == p + (|xs| - 1) * c
  {
    if |xs| == 1 {
      assert xs[..0] == [];
    } else {
      StorageUniform(xs[..|xs| - 1], p, c);
    }
  }

  lemma StorageAppend(xs: seq<BigNats.Reserved>, x: BigNats.Reserved)
    ensures Storage(xs + [x]) == Storage(xs) + |x.num.value|
  {
    assert (xs + [x])[..|xs|] == xs;
  }

  /** Bytes the constructor takes from RAM: the two multiplication
      arrays, the two point arrays, the hash array, BN_WORD, five numbers
      of the largest size, BN_F two bytes larger, EC_BN_A of a whole point
      and five coordinates. */
  function RamBytes(v: Lengths, hashLength: nat): int {
    2 * (v.multBits / 8) + 2 * (v.pointSize + 1) + hashLength + 2
    + 5 * v.bigNatSize + (v.bigNatSize + 2) + v.pointSize + 5 * v.coordSize
  }

  /** The constructor. `hashLength` is the SHA-256 engine's output length
      and `minRsaBits` the card's smallest RSA length. The locker is made
      first (a field initialiser), the allocator is switched to RAM, the
      five arrays are allocated and registered, then the numbers are
      allocated in RAM and the four constants in persistent memory. */
  method New(maxEcLength: int, minRsaBits: int, hashLength: nat) returns (res: Result<Manager, Failure>)
    ensures res.Err? <==> maxEcLength > 512
    ensures res.Err? ==> res.error == EcPointInvalidLength
    ensures res.Ok? ==> res.value.lengths == ResourceLengths(maxEcLength, minRsaBits).value
    ensures res.Ok? ==>
              var m := res.value;
              Locker.Valid(m.locker) && Locker.Slots(m.locker) == LockerSlots
              && Locker.FilledWith(m.locker.ram, ArrayIds)
              && Locker.Consistent(m.locker.ram) && Locker.Mirrored(m.locker)
    ensures res.Ok? ==>
              var m := res.value;
              m.alloc.inRam == RamBytes(m.lengths, hashLength)
              && m.alloc.inEeprom == 3 + m.lengths.coordSize
    ensures res.Ok? ==>
              var m := res.value;
              |m.arrays| == 5 && |m.constants| == 4
              && Ready(m.word, m.bn, m.ec, m.lengths)
              && BigNats.Num(m.constants[0]) == 1 && BigNats.Num(m.constants[1]) == 2
              && BigNats.Num(m.constants[2]) == 3 && BigNats.Num(m.constants[3]) == 1
  {
    var v :- ResourceLengths(maxEcLength, minRsaBits);
    var locker := Locker.New(LockerSlots, false, false, false);
    var a, arrays := AllocateArrays(v, hashLength);
    locker := RegisterArrays(locker);
    var numbers;
    a, numbers := AllocateNumbers(a, v);
    var constants;
    a, constants := AllocateConstants(a, v.coordSize);
    res := Ok(Manager(v, a, locker, arrays, numbers.0, numbers.1, numbers.2, constants));
  }

  /** The allocator switched to RAM, then ARRAY_A and ARRAY_B of the
      multiplication length, POINT_ARRAY_A and POINT_ARRAY_B of an encoded
      point and HASH_ARRAY of the hash length, all zero. */
  method AllocateArrays(v: Lengths, hashLength: nat) returns (a: Allocator.ObjectAllocator, arrays: seq<seq<Byte>>)
    requires v.multBits >= 0 && v.pointSize >= 0
    ensures |a.types| == Allocator.TypeTableLength
    ensures forall k :: 0 <= k < |a.types| ==> a.types[k] == Allocator.MemoryTransientReset
    ensures a.inRam == 2 * (v.multBits / 8) + 2 * (v.pointSize + 1) + hashLength && a.inEeprom == 0
    ensures |arrays| == 5
  {
    a := Allocator.SetAllAllocatorsRam(Allocator.New());
    var arrayLength := v.multBits / 8;
    a := AllocRam(a, arrayLength, Allocator.ArrayA);
    a := AllocRam(a, arrayLength, Allocator.ArrayB);
    a := AllocRam(a, v.pointSize + 1, Allocator.PointArrayA);
    a := AllocRam(a, v.pointSize + 1, Allocator.PointArrayB);
    a := AllocRam(a, hashLength, Allocator.HashArray);
    arrays := [Zeros(arrayLength), Zeros(arrayLength), Zeros(v.pointSize + 1), Zeros(v.pointSize + 1), Zeros(hashLength)];
  }

  /** registerLock for the five arrays, in order, into a fresh table of
      six pairs. */
  method RegisterArrays(l: Locker.ObjectLocker) returns (r: Locker.ObjectLocker)
    requires l == Locker.New(LockerSlots, false, false, false)
    ensures Locker.Valid(r) && Locker.Slots(r) == LockerSlots && Locker.FilledWith(r.ram, ArrayIds)
    ensures Locker.Consistent(r.ram) && Locker.Mirrored(r)
  {
    r := l;
    var i := 0;
    while i < |ArrayIds|
      invariant 0 <= i <= |ArrayIds| && Locker.Valid(r) && Locker.Slots(r) == LockerSlots
      invariant Locker.FilledWith(r.ram, ArrayIds[..i])
      invariant Locker.Consistent(r.ram) && Locker.Mirrored(r)
    {
      Locker.RegisterNext(r, ArrayIds[..i], ArrayIds[i]);
      r := Locker.RegisterLock(r, ArrayIds[i]).value.0;
      assert ArrayIds[..i] + [ArrayIds[i]] == ArrayIds[..i + 1];
      i := i + 1;
    }
    assert ArrayIds[..i] == ArrayIds;
  }

  /** BN_WORD, BN_A..BN_F and EC_BN_A..EC_BN_F, all in RAM. */
  method AllocateNumbers(a: Allocator.ObjectAllocator, v: Lengths)
    returns (r: Allocator.ObjectAllocator, numbers: (BigNats.Reserved, seq<BigNats.Reserved>, seq<BigNats.Reserved>))
    requires |a.types| == Allocator.TypeTableLength
    requires forall k :: 0 <= k < |a.types| ==> a.types[k] == Allocator.MemoryTransientReset
    requires v.bigNatSize >= 0 && v.pointSize >= 0 && v.coordSize >= 0
    ensures r.types == a.types && r.inEeprom == a.inEeprom
    ensures r.inRam == a.inRam + 2 + 5 * v.bigNatSize + (v.bigNatSize + 2) + v.pointSize + 5 * v.coordSize
    ensures r.inRam == a.inRam + |numbers.0.num.value| + Storage(numbers.1) + Storage(numbers.2)
    ensures Ready(numbers.0, numbers.1, numbers.2, v)
  {
    r := AllocRam(a, 2, Allocator.BnWord);
    var word := Fresh(2);
    var bn, ec;
    r, bn := AllocateBn(r, v.bigNatSize);
    r, ec := AllocateEc(r, v.pointSize, v.coordSize);
    numbers := (word, bn, ec);
  }

  /** BN_A..BN_E of the largest size, BN_F two bytes larger. */
  method AllocateBn(a: Allocator.ObjectAllocator, size: nat) returns (r: Allocator.ObjectAllocator, bn: seq<BigNats.Reserved>)
    requires |a.types| == Allocator.TypeTableLength
    requires forall k :: 0 <= k < |a.types| ==> a.types[k] == Allocator.MemoryTransientReset
    ensures r.types == a.types && r.inEeprom == a.inEeprom && r.inRam == a.inRam + 5 * size + (size + 2)
    ensures |bn| == 6 && bn[5].num.size == size + 2
    ensures forall i :: 0 <= i < 6 ==> !bn[i].locked
    ensures r.inRam == a.inRam + Storage(bn)
    ensures (forall i :: 0 <= i < 5 ==> Sized(bn[i], size)) && Sized(bn[5], size + 2)
  {
    r := a;
    bn := [];
    var ids := [Allocator.BnA, Allocator.BnB, Allocator.BnC, Allocator.BnD, Allocator.BnE];
    var i := 0;
    while i < 5
      invariant 0 <= i <= 5 && |bn| == i && r.types == a.types && r.inEeprom == a.inEeprom
      invariant r.inRam == a.inRam + i * size
      invariant forall k :: 0 <= k < i ==> Sized(bn[k], size)
    {
      r := AllocRam(r, size, ids[i]);
      bn := bn + [Fresh(size)];
      i := i + 1;
    }
    StorageUniform(bn, size, size);
    r := AllocRam(r, size + 2, Allocator.BnF);
    StorageAppend(bn, Fresh(size + 2));
    bn := bn + [Fresh(size + 2)];
  }

  /** EC_BN_A of a whole point, EC_BN_B..EC_BN_F of a coordinate. */
  method AllocateEc(a: Allocator.ObjectAllocator, pointSize: nat, coordSize: nat) returns (r: Allocator.ObjectAllocator, ec: seq<BigNats.Reserved>)
    requires |a.types| == Allocator.TypeTableLength
    requires forall k :: 0 <= k < |a.types| ==> a.types[k] == Allocator.MemoryTransientReset
    ensures r.types == a.types && r.inEeprom == a.inEeprom && r.inRam == a.inRam + pointSize + 5 * coordSize
    ensures |ec| == 6 && ec[0].num.size == pointSize
    ensures forall i :: 0 <= i < 6 ==> !ec[i].locked
    ensures r.inRam == a.inRam + Storage(ec)
    ensures Sized(ec[0], pointSize) && forall i :: 1 <= i < 6 ==> Sized(ec[i], coordSize)
  {
    r := AllocRam(a, pointSize, Allocator.EcBnA);
    ec := [Fresh(pointSize)];
    var ids := [Allocator.EcBnB, Allocator.EcBnC, Allocator.EcBnD, Allocator.EcBnE, Allocator.EcBnF];
    var i := 0;
    while i < 5
      invariant 0 <= i <= 5 && |ec| == i + 1 && r.types == a.types && r.inEeprom == a.inEeprom
      invariant r.inRam == a.inRam + pointSize + i * coordSize
      invariant Sized(ec[0], pointSize)
      invariant forall k :: 1 <= k < i + 1 ==> Sized(ec[k], coordSize)
    {
      r := AllocRam(r, coordSize, ids[i]);
      ec := ec + [Fresh(coordSize)];
      i := i + 1;
    }
    StorageUniform(ec, pointSize, coordSize);
  }

  /** ONE, TWO, THREE (one byte each) and ONE_COORD (a coordinate), always
      in persistent memory. */
  method AllocateConstants(a: Allocator.ObjectAllocator, coordSize: int)
    returns (r: Allocator.ObjectAllocator, constants: seq<BigNats.BigNat>)
    requires coordSize >= 1
    ensures r.types == a.types && r.inRam == a.inRam && r.inEeprom == a.inEeprom + 3 + coordSize
    ensures |constants| == 4
    ensures BigNats.Num(constants[0]) == 1 && BigNats.Num(constants[1]) == 2
    ensures BigNats.Num(constants[2]) == 3 && BigNats.Num(constants[3]) == 1
  {
    r := a;
    constants := [];
    var values := [1, 2, 3];
    var i := 0;
    while i < 3
      invariant 0 <= i <= 3 && |constants| == i
      invariant r.types == a.types && r.inRam == a.inRam && r.inEeprom == a.inEeprom + i
      invariant forall k :: 0 <= k < i ==> BigNats.Num(constants[k]) == k + 1
    {
      r := Allocator.Allocate(r, Allocator.ByteArray(1, Allocator.MemoryPersistent)).0;
      constants := constants + [OneDigit(values[i])];
      i := i + 1;
    }
    r := Allocator.Allocate(r, Allocator.ByteArray(coordSize, Allocator.MemoryPersistent)).0;
    var one := BigNats.SetValueByte(BigNats.New(coordSize), 1).value;
    constants := constants + [one];
  }

  /** A one-byte number holding `d`. */
  function OneDigit(d: Byte): (x: BigNats.BigNat)
    ensures BigNats.Num(x) == d && x.size == 1
  {
    BigNats.SetValueByte(BigNats.New(1), d).value
  }

  /** unlockAll: every reserved number among BN_A..BN_F and EC_BN_A..EC_BN_F
      is released (BN_WORD is left as it is), then every lock flag of the
      locker is cleared; registrations, contents and counters are kept. */
  method UnlockAll(m: Manager) returns (r: Manager)
    requires Locker.Valid(m.locker) && |m.bn| == 6 && |m.ec| == 6
    ensures r.lengths == m.lengths && r.alloc == m.alloc && r.arrays == m.arrays
    ensures r.word == m.word && r.constants == m.constants
    ensures |r.bn| == 6 && |r.ec| == 6
    ensures forall i :: 0 <= i < 6 ==>
              !r.bn[i].locked && r.bn[i].num == m.bn[i].num
              && !r.ec[i].locked && r.ec[i].num == m.ec[i].num
    ensures Locker.Valid(r.locker) && |r.locker.ram| == |m.locker.ram|
    ensures !m.locker.active ==> r.locker == m.locker
    ensures m.locker.active ==>
              forall i :: 0 <= i < |r.locker.ram| ==>
                r.locker.ram[i] == if i % 2 == 0 then m.locker.ram[i] else None
  {
    var bn := ReleaseAll(m.bn);
    var ec := ReleaseAll(m.ec);
    var locker := Locker.UnlockAll(m.locker);
    r := m.(bn := bn, ec := ec, locker := locker);
  }

  /** `if (x.isLocked()) x.unlock();` for each number in turn. */
  method ReleaseAll(xs: seq<BigNats.Reserved>) returns (r: seq<BigNats.Reserved>)
    ensures |r| == |xs|
    ensures forall i :: 0 <= i < |r| ==> !r[i].locked && r[i].num == xs[i].num
  {
    r := [];
    var i := 0;
    while i < |xs|
      invariant 0 <= i <= |xs| && |r| == i
      invariant forall k :: 0 <= k < i ==> !r[k].locked && r[k].num == xs[k].num
    {
      var x := xs[i];
      if x.locked {
        x := BigNats.Unlock(x).value;
      }
      r := r + [x];
      i := i + 1;
    }
  }

  /** The constructor leaves exactly one free locker pair (the slot kept
      for LOCKER_OBJECTS): one more registration succeeds and a second is
      refused with SW_LOCK_NOFREESLOT. */
  lemma OneFreeSlot(l: Locker.ObjectLocker, obj: Locker.Obj, other: Locker.Obj)
    requires Locker.Valid(l) && Locker.Slots(l) == LockerSlots && Locker.FilledWith(l.ram, ArrayIds)
    ensures Locker.RegisterLock(l, obj).Ok?
    ensures Locker.RegisterLock(Locker.RegisterLock(l, obj).value.0, other) == Err(LockNoFreeSlot)
  {
    Locker.RegisterNext(l, ArrayIds, obj);
    var l' := Locker.RegisterLock(l, obj).value.0;
    Locker.RegisterFull(l', ArrayIds + [obj], other);
  }
}

=== FILE: returncodes.dfy ===
/** The status words the library raises through `ISOException.throwIt`.
    The two generations of the library number the same conditions
    differently; both tables are given, and each is shown to keep the
    conditions apart. */
module ReturnCodes {
  import opened Wrappers

  /** Every condition the modelled code can end in instead of returning. */
  datatype Failure =
    | ResizeToLonger            // SW_BIGNAT_RESIZETOLONGER
    | ReallocationNotAllowed    // SW_BIGNAT_REALLOCATIONNOTALLOWED
    | ModuloTooLarge            // SW_BIGNAT_MODULOTOOLARGE
    | InvalidCopyOther          // SW_BIGNAT_INVALIDCOPYOTHER
    | InvalidResize             // SW_BIGNAT_INVALIDRESIZE
    | InvalidMult               // SW_BIGNAT_INVALIDMULT (applet only)
    | InvalidSq                 // SW_BIGNAT_INVALIDSQ (applet only)
    | LockAlreadyLocked         // SW_LOCK_ALREADYLOCKED
    | LockNotLocked             // SW_LOCK_NOTLOCKED
    | LockObjectNotFound        // SW_LOCK_OBJECT_NOT_FOUND
    | LockNoFreeSlot            // SW_LOCK_NOFREESLOT
    | LockObjectMismatch        // SW_LOCK_OBJECT_MISMATCH
    | EcPointInvalidLength      // SW_ECPOINT_INVALIDLENGTH
    | EcPointUnexpectedKaLen    // SW_ECPOINT_UNEXPECTED_KA_LEN
    | EcPointInvalid            // SW_ECPOINT_INVALID (applet only)
    | AllocatorInvalidObjId     // SW_ALLOCATOR_INVALIDOBJID
    | OperationNotSupported     // SW_OPERATION_NOT_SUPPORTED (applet only)
    | ArrayIndexOutOfBounds     // a Java runtime exception, SW_ArrayIndexOutOfBoundsException when caught
    | NullPointer               // a Java runtime exception, SW_NullPointerException when caught

  /** Status word of a condition in the current (applet) library. */
  function AppletWord(f: Failure): (w: int)
    ensures 0x7000 <= w < 0x10000
  {
    match f
    case ResizeToLonger => 0x7000
    case ReallocationNotAllowed => 0x7001
    case ModuloTooLarge => 0x7002
    case InvalidCopyOther => 0x7003
    case InvalidResize => 0x7004
    case InvalidMult => 0x7005
    case InvalidSq => 0x7006
    case LockAlreadyLocked => 0x7010
    case LockNotLocked => 0x7011
    case LockObjectNotFound => 0x7012
    case LockNoFreeSlot => 0x7013
    case LockObjectMismatch => 0x7014
    case EcPointInvalidLength => 0x7020
    case EcPointUnexpectedKaLen => 0x7021
    case EcPointInvalid => 0x7022
    case AllocatorInvalidObjId => 0x7030
    case OperationNotSupported => 0x7040
    case ArrayIndexOutOfBounds => 0xff02
    case NullPointer => 0xff05
  }

  /** Status word of a condition in the legacy library (and in the merged
      single-file release); `None` for conditions it does not define. */
  function LegacyWord(f: Failure): (w: Option<int>)
    ensures w.Some? ==> 0x7000 <= w.value < 0x10000
    ensures w.None? <==> f in {InvalidMult, InvalidSq, EcPointInvalid, OperationNotSupported}
  {
    match f
    case ResizeToLonger => Some(0x7000)
    case ReallocationNotAllowed => Some(0x7001)
    case ModuloTooLarge => Some(0x7002)
    case InvalidCopyOther => Some(0x7003)
    case InvalidResize => Some(0x7004)
    case LockAlreadyLocked => Some(0x7005)
    case LockNotLocked => Some(0x7006)
    case LockObjectNotFound => Some(0x7007)
    case LockNoFreeSlot => Some(0x7008)
    case LockObjectMismatch => Some(0x7009)
    case EcPointInvalidLength => Some(0x700a)
    case EcPointUnexpectedKaLen => Some(0x700b)
    case AllocatorInvalidObjId => Some(0x700c)
    case ArrayIndexOutOfBounds => Some(0xff02)
    case NullPointer => Some(0xff05)
    case _ => None
  }

  /** A caller that sees a status word can tell which condition raised it. */
  lemma AppletWordsDistinct(f: Failure, g: Failure)
    requires f != g
    ensures AppletWord(f) != AppletWord(g)
  {
  }

  lemma LegacyWordsDistinct(f: Failure, g: Failure)
    requires f != g && LegacyWord(f).Some? && LegacyWord(g).Some?
    ensures LegacyWord(f).value != LegacyWord(g).value
  {
  }
}

=== FILE: scaled.dfy ===
/** Scaled subtraction and addition (`timesMinus`/`times_minus`,
    `timesAddShift`/`times_add_shift`) and the schoolbook multiplication
    built on the latter. The running carry `akku` is a Java short; every
    total it holds stays below 65536 and is read back only through the
    `0xff` masks, so the 16-bit wrap-around never changes a result. */
module Scaled {
  import opened Wrappers
  import opened ReturnCodes
  import opened Radix
  import opened BigNats
  import opened AddSub

  lemma MulAssoc(a: int, b: int, c: int)
    ensures a * (b * c) == (a * b) * c
  {
  }

  lemma MulDistrib(m: int, u: int, v: int)
    ensures m * (u + v) == m * u + m * v
  {
  }

  lemma ByteProduct(m: int, d: int)
    requires 0 <= m < 256 && 0 <= d < 256
    ensures 0 <= m * d <= 255 * 255
  {
    MulMono(m, 255, d);
    MulMono(d, 255, 255);
  }

  /** The digit stored by a `timesMinus` column that takes `a` from digit
      `x`: the low byte of `a` is subtracted and masked with `0xff`. */
  function OweDigit(x: Byte, a: int): Byte {
    (x - a % 256) % 256
  }

  /** What that column still owes the next one: the high byte of `a` plus
      one when the subtraction went below zero. */
  function OweNext(x: Byte, a: int): int {
    a / 256 + BorrowOut(x - a % 256)
  }

  /** Storing `OweDigit` and owing `OweNext` is subtracting `a`. */
  lemma OweStep(x: Byte, a: int)
    requires 0 <= a
    ensures x - a == OweDigit(x, a) - 256 * OweNext(x, a)
  {
    var sub := x - a % 256;
    assert a == 256 * (a / 256) + a % 256;
    assert sub % 256 == sub + 256 * BorrowOut(sub);
  }

  /** A digit change `x - d == a - 256 * n` at weight `w`, with `w' == 256 * w`. */
  lemma ScaleDifference(x: int, d: int, a: int, n: int, w: int, w': int)
    requires x - d == a - 256 * n && w' == 256 * w
    ensures x * w - d * w == a * w - n * w'
  {
    assert (x - d) * w == a * w - (256 * n) * w;
  }

  /** The product digit of a column and the rest of the multiplicand. */
  lemma ColumnProduct(owed: int, m: int, od: int, w: int, rest: int)
    ensures (owed + m * od) * w == owed * w + m * (od * w)
    ensures m * (od * w + rest) == m * (od * w) + m * rest
  {
    MulAssoc(m, od, w);
  }

  /** One column of `timesMinus`: `owed` (at most 256) is what the previous
      column still has to take, `m * o[i]` the product digit of this column. */
  lemma MinusColumn(r: seq<Byte>, o: seq<Byte>, i: nat, j: nat, owed: int, m: int)
    requires j < |r| && i < |o| && |r| - j == |o| - i
    requires 0 <= owed <= 256 && 0 <= m < 256
    ensures 0 <= OweNext(r[j], owed + m * o[i]) <= 256
    ensures Val(r[j := OweDigit(r[j], owed + m * o[i])]) - OweNext(r[j], owed + m * o[i]) * Pow256(|r| - j)
              + m * Val(o[i..])
            == Val(r) - owed * Pow256(|r| - j - 1) + m * Val(o[i + 1..])
  {
    var w: int := Pow256(|r| - j - 1);
    assert Pow256(|o| - i - 1) == w;
    var od: int := o[i];
    ByteProduct(m, od);
    var a := owed + m * od;
    var d := OweDigit(r[j], a);
    var n := OweNext(r[j], a);
    OweStep(r[j], a);
    ValUpdate(r, j, d);
    ScaleDifference(r[j], d, a, n, w, Pow256(|r| - j));
    ValSuffixStep(o, i);
    ColumnProduct(owed, m, od, w, Val(o[i + 1..]));
  }

  /** A column of the tail loop of `timesMinus`: only the owed amount is taken. */
  lemma OwedColumn(r: seq<Byte>, j: nat, owed: int)
    requires j < |r| && 0 <= owed <= 256
    ensures 0 <= OweNext(r[j], owed) <= 256
    ensures Val(r[j := OweDigit(r[j], owed)]) - OweNext(r[j], owed) * Pow256(|r| - j)
            == Val(r) - owed * Pow256(|r| - j - 1)
  {
    var w: int := Pow256(|r| - j - 1);
    var d := OweDigit(r[j], owed);
    OweStep(r[j], owed);
    ValUpdate(r, j, d);
    ScaleDifference(r[j], d, owed, OweNext(r[j], owed), w, Pow256(|r| - j));
  }

  /** What the first loop of `timesMinus` keeps: the region less what is
      still owed at column `j` is `x` less `m` times the digits of `o`
      after `i`. */
  predicate Owing(x: seq<Byte>, o: seq<Byte>, m: int, r: seq<Byte>, i: int, j: int, owed: int)
    requires -1 <= i < |o| && -1 <= j < |x|
  {
    Val(r) - owed * Pow256(|x| - j - 1) == Val(x) - m * Val(o[i + 1..])
  }

  /** One pass of the first loop keeps `Owing`. */
  lemma MinusStep(x: seq<Byte>, o: seq<Byte>, m: int, r: seq<Byte>, i: nat, j: nat, owed: int)
    requires i < |o| && j < |x| == |r| && |x| - j == |o| - i
    requires 0 <= owed <= 256 && 0 <= m < 256 && Owing(x, o, m, r, i, j, owed)
    ensures 0 <= OweNext(r[j], owed + m * o[i]) <= 256
    ensures Owing(x, o, m, r[j := OweDigit(r[j], owed + m * o[i])], i - 1, j - 1, OweNext(r[j], owed + m * o[i]))
  {
    MinusColumn(r, o, i, j, owed, m);
    assert |x| - (j - 1) - 1 == |r| - j;
  }

  /** The first loop of `timesMinus` on the region `x`: subtracts `m` times
      the digits of `o`, aligned at the right, while both have digits. */
  method MinusColumns(x: seq<Byte>, o: seq<Byte>, m: int) returns (r: seq<Byte>, j: int, owed: int)
    requires 0 <= m < 256
    ensures -1 <= j < |x| && |r| == |x| && 0 <= owed <= 256
    ensures Val(r) - owed * Pow256(|x| - j - 1) == Val(x) - m * Val(Tail(o, |x|))
  {
    r := x;
    j := |x| - 1;
    var i := |o| - 1;
    owed := 0;
    while j >= 0 && i >= 0
      invariant -1 <= j < |x| && -1 <= i < |o| && |x| - j == |o| - i
      invariant |r| == |x| && 0 <= owed <= 256
      invariant Owing(x, o, m, r, i, j, owed)
    {
      MinusStep(x, o, m, r, i, j, owed);
      var a := owed + m * o[i];
      r, owed := r[j := OweDigit(r[j], a)], OweNext(r[j], a);
      i, j := i - 1, j - 1;
    }
    assert o[i + 1..] == Tail(o, |x|);
  }

  /** The second loop of `timesMinus`: what is still owed runs on while
      there are digits. The final amount owed is dropped. */
  method OwedColumns(r0: seq<Byte>, j0: int, owed0: int, ghost diff: int) returns (r: seq<Byte>)
    requires -1 <= j0 < |r0| && 0 <= owed0 <= 256
    requires Val(r0) - owed0 * Pow256(|r0| - j0 - 1) == diff
    ensures |r| == |r0| && Val(r) == diff % Pow256(|r0|)
  {
    r := r0;
    var j := j0;
    var owed := owed0;
    while j >= 0 && owed != 0
      invariant -1 <= j < |r| == |r0| && 0 <= owed <= 256
      invariant Val(r) - owed * Pow256(|r| - j - 1) == diff
    {
      OwedColumn(r, j, owed);
      r, owed := r[j := OweDigit(r[j], owed)], OweNext(r[j], owed);
      j := j - 1;
    }
    if j == -1 {
      Settled(Val(r), owed, Pow256(|r|), diff);
    } else {
      Settled(Val(r), 0, Pow256(|r|), diff);
    }
  }

  /** A value that fits, owing `owed` units of its range, is `diff` reduced
      modulo that range. */
  lemma Settled(v: int, owed: int, p: int, diff: int)
    requires 0 <= v < p && v - owed * p == diff
    ensures v == diff % p
  {
    DivModUnique(diff, p, -owed, v);
  }

  /** The digit loops of `timesMinus` on a region: `x - m * o` modulo the
      region's range; digits of `o` beyond the region are not read. */
  method MinusDigits(x: seq<Byte>, o: seq<Byte>, m: int) returns (r: seq<Byte>)
    requires 0 <= m < 256
    ensures |r| == |x| && Val(r) == (Val(x) - m * (Val(o) % Pow256(|x|))) % Pow256(|x|)
  {
    var r1, j1, owed1 := MinusColumns(x, o, m);
    ValTail(o, |x|);
    r := OwedColumns(r1, j1, owed1, Val(x) - m * Val(Tail(o, |x|)));
  }

  /** Reducing the high part modulo `p` and putting it back above a low
      part is reducing the whole modulo `p * q`. */
  lemma ModScale(v: int, p: int, q: int, low: int)
    requires p > 0 && 0 <= low < q
    ensures ((v % p) * q + low) == (v * q + low) % (p * q)
  {
    var h := v % p;
    var k := v / p;
    assert v == k * p + h;
    assert v * q + low == k * (p * q) + (h * q + low) by {
      MulAssoc(k, p, q);
      MulDistrib(q, k * p, h);
    }
    MulMono(h, p - 1, q);
    assert (p - 1) * q + low < p * q;
    DivModUnique(v * q + low, p * q, k, h * q + low);
  }

  /** timesMinus / times_minus: `this := this - mult * other * 256^shift`,
      computed modulo 256^size. Only the digits of `this` above the shift
      take part; digits of `other` that would fall beyond the top of
      `this` are not read. When the true difference is non-negative (the
      documented requirement) it is exact. */
  method TimesMinus(b: BigNat, other: BigNat, shift: nat, mult: int) returns (r: BigNat)
    requires 0 <= mult < 256
    ensures r.size == b.size && TailKept(b, r)
    ensures shift <= b.size ==>
              Num(r) == (Num(b) - mult * (Num(other) % Pow256(b.size - shift)) * Pow256(shift)) % Pow256(b.size)
    ensures shift >= b.size ==> r == b
    ensures mult * (Num(other) * Pow256(shift)) <= Num(b) ==>
              Num(r) == Num(b) - mult * (Num(other) * Pow256(shift))
  {
    if shift >= b.size {
      NothingFacing(b, other, shift, mult);
      return b;
    }
    var n := b.size;
    var len := n - shift;
    var d := Digits(b);
    var x := d[..len];
    var low := d[len..];
    var rx := MinusDigits(x, Digits(other), mult);
    r := WithDigits(b, rx + low);
    ValConcat(rx, low);
    ValSplit(d, len);
    PowAdd(len, shift);
    Reassemble(Val(x), Val(low), Num(other) % Pow256(len), Pow256(shift), Pow256(len), mult, Num(b), Num(r), Pow256(n));
    if mult * (Num(other) * Pow256(shift)) <= Num(b) {
      ExactWhenFits(b, other, shift, mult);
    }
  }

  /** With the shift at or beyond the size no digit of `this` faces
      `other`: only a zero multiple can then be taken without underflow. */
  lemma NothingFacing(b: BigNat, other: BigNat, shift: nat, mult: int)
    requires 0 <= mult < 256 && shift >= b.size
    ensures shift == b.size ==>
              Num(b) == (Num(b) - mult * (Num(other) % Pow256(b.size - shift)) * Pow256(shift)) % Pow256(b.size)
    ensures mult * (Num(other) * Pow256(shift)) <= Num(b) ==> mult * (Num(other) * Pow256(shift)) == 0
  {
    var q: int := Pow256(shift);
    PowMonotone(b.size, shift);
    if shift == b.size {
      assert Num(other) % Pow256(0) == 0;
      DivModUnique(Num(b), Pow256(b.size), 0, Num(b));
    }
    if mult * (Num(other) * q) != 0 {
      MulAtLeast(Num(other), q);
      MulAtLeast(mult, Num(other) * q);
    }
  }

  /** The region result of `timesMinus`, put back above the untouched low
      digits, is the whole result. */
  lemma Reassemble(x: int, low: int, t: int, q: int, pl: int, mult: int, whole: int, res: int, n: int)
    requires pl > 0 && 0 <= low < q && n == pl * q
    requires whole == x * q + low && res == ((x - mult * t) % pl) * q + low
    ensures res == (whole - mult * t * q) % n
  {
    ModScale(x - mult * t, pl, q, low);
    MulDistrib(q, x, -(mult * t));
  }

  /** Under the documented requirement the result of `timesMinus` is the
      plain difference. */
  lemma ExactWhenFits(b: BigNat, other: BigNat, shift: nat, mult: int)
    requires 0 <= mult < 256 && shift < b.size
    requires mult * (Num(other) * Pow256(shift)) <= Num(b)
    ensures (Num(b) - mult * (Num(other) % Pow256(b.size - shift)) * Pow256(shift)) % Pow256(b.size)
            == Num(b) - mult * (Num(other) * Pow256(shift))
  {
    var len := b.size - shift;
    var q: int := Pow256(shift);
    var o: int := Num(other);
    PowAdd(len, shift);
    if mult > 0 {
      MulMono(1, mult, o * q);
      assert o * q < Pow256(len) * q;
      if o >= Pow256(len) {
        MulMono(Pow256(len), o, q);
        assert false;
      }
      DivModUnique(o, Pow256(len), 0, o);
    }
    MulAssoc(mult, o % Pow256(len), q);
    MulAssoc(mult, o, q);
    DivModUnique(Num(b) - mult * (o * q), Pow256(b.size), 0, Num(b) - mult * (o * q));
  }

  /** subtract(other): `timesMinus(other, 0, 1)`. */
  method Subtract(b: BigNat, other: BigNat) returns (r: BigNat)
    ensures r.size == b.size && TailKept(b, r)
    ensures Num(r) == (Num(b) - Num(other) % Pow256(b.size)) % Pow256(b.size)
    ensures Num(other) <= Num(b) ==> Num(r) == Num(b) - Num(other)
  {
    r := TimesMinus(b, other, 0, 1);
    UnitMultiple(Num(other) % Pow256(b.size), Pow256(0));
    UnitMultiple(Num(other), Pow256(0));
  }

  lemma UnitMultiple(v: int, q: int)
    requires q == 1
    ensures 1 * v * q == v && 1 * (v * q) == v
  {
  }

  /** The digit stored by a `timesAddShift` column that adds `a` to digit `x`. */
  function CarryDigit(x: Byte, a: int): Byte {
    (x + a) % 256
  }

  /** The carry that column passes on. */
  function CarryNext(x: Byte, a: int): int {
    (x + a) / 256
  }

  /** Adding `a` at digit `j` and carrying `CarryNext` out of it. */
  lemma CarryAt(r: seq<Byte>, j: nat, a: int)
    requires j < |r| && 0 <= a
    ensures Val(r[j := CarryDigit(r[j], a)]) + CarryNext(r[j], a) * Pow256(|r| - j)
            == Val(r) + a * Pow256(|r| - j - 1)
  {
    var w: int := Pow256(|r| - j - 1);
    var d := CarryDigit(r[j], a);
    var n := CarryNext(r[j], a);
    assert r[j] + a == d + 256 * n;
    ValUpdate(r, j, d);
    ScaleDifference(d, r[j], a, n, w, Pow256(|r| - j));
  }

  /** One column of `timesAddShift`: the incoming carry and `m * o[i]` are
      added into digit `j`, at equal weights. */
  lemma AddMulColumn(r: seq<Byte>, o: seq<Byte>, i: nat, j: nat, akku: int, m: int)
    requires j < |r| && i < |o| && |r| - j == |o| - i
    requires 0 <= akku <= 255 && 0 <= m < 256
    ensures 0 <= CarryNext(r[j], akku + m * o[i]) <= 255
    ensures Val(r[j := CarryDigit(r[j], akku + m * o[i])]) + CarryNext(r[j], akku + m * o[i]) * Pow256(|r| - j)
              + m * Val(o[i + 1..])
            == Val(r) + akku * Pow256(|r| - j - 1) + m * Val(o[i..])
  {
    var w: int := Pow256(|r| - j - 1);
    assert Pow256(|o| - i - 1) == w;
    var od: int := o[i];
    ByteProduct(m, od);
    var a := akku + m * od;
    CarryAt(r, j, a);
    CarryBound(r[j], a);
    ValSuffixStep(o, i);
    ColumnProduct(akku, m, od, w, Val(o[i + 1..]));
  }

  /** A column total stays below 65536, so the carry is a byte. */
  lemma CarryBound(x: Byte, a: int)
    requires 0 <= a <= 255 + 255 * 255
    ensures 0 <= CarryNext(x, a) <= 255
  {
  }

  /** A value that fits, with `n` units of its range carried out, is
      `total` reduced modulo that range. */
  lemma Overflowed(v: int, n: int, p: int, total: int)
    requires 0 <= v < p && v + n * p == total
    ensures v == total % p
  {
    DivModUnique(total, p, n, v);
  }

  /** The digit loop of `timesAddShift` on the region `g`, one digit longer
      than `xs`: adds `m * xs` into the low digits of `g`; the carry is
      left for the top digit. */
  method AddMulColumns(g: seq<Byte>, xs: seq<Byte>, m: int) returns (r: seq<Byte>, akku: int)
    requires |g| == |xs| + 1 && 0 <= m < 256
    ensures |r| == |g| && 0 <= akku <= 255
    ensures Val(r) + akku * Pow256(|g| - 1) == Val(g) + m * Val(xs)
  {
    r := g;
    var i := |xs| - 1;
    akku := 0;
    while i >= 0
      invariant -1 <= i < |xs| && |r| == |g| && 0 <= akku <= 255
      invariant Val(r) + akku * Pow256(|g| - i - 2) == Val(g) + m * Val(xs[i + 1..])
    {
      AddMulColumn(r, xs, i, i + 1, akku, m);
      var a := akku + m * xs[i];
      r, akku := r[i + 1 := CarryDigit(r[i + 1], a)], CarryNext(r[i + 1], a);
      i := i - 1;
    }
    assert xs[i + 1..] == xs;
    assert |g| - i - 2 == |g| - 1;
  }

  /** The whole of `timesAddShift` on the region: `g + m * xs` with the
      carry out of the top digit dropped. */
  method AddMulDigits(g: seq<Byte>, xs: seq<Byte>, m: int) returns (r: seq<Byte>)
    requires |g| == |xs| + 1 && 0 <= m < 256
    ensures |r| == |g| && Val(r) == (Val(g) + m * Val(xs)) % Pow256(|g|)
  {
    var r1, akku := AddMulColumns(g, xs, m);
    CarryAt(r1, 0, akku);
    r := r1[0 := CarryDigit(r1[0], akku)];
    Overflowed(Val(r), CarryNext(r1[0], akku), Pow256(|g|), Val(g) + m * Val(xs));
  }

  /** A number cut into a high part, a middle and a low part. */
  lemma ThreeParts(hi: seq<Byte>, g: seq<Byte>, low: seq<Byte>)
    ensures Val(hi + g + low) == Val(hi) * Pow256(|g| + |low|) + Val(g) * Pow256(|low|) + Val(low)
  {
    ValConcat(hi + g, low);
    ValConcat(hi, g);
    PowAdd(|g|, |low|);
    Regroup(Val(hi), Pow256(|g|), Pow256(|low|), Val(g), Val(low));
  }

  /** The middle part of a number below `pg * q` is below `pg`. */
  lemma MiddleBelow(top: int, mid: int, q: int, low: int, pg: int)
    requires top >= 0 && mid >= 0 && q > 0 && low >= 0 && top + mid * q + low < pg * q
    ensures mid < pg
  {
    if mid >= pg {
      MulMono(pg, mid, q);
    }
  }

  /** Adding a digit multiple of a number below `p` to another number below
      `p` stays below `256 * p`. */
  lemma AddFits(v: int, m: int, x: int, p: int)
    requires 0 <= v < p && 0 <= x < p && 0 <= m < 256
    ensures 0 <= m * x && v + m * x < 256 * p
  {
    MulMono(m, 255, x);
    MulMono(x, p, 255);
  }

  /** Changing the middle part by `delta` changes the number by `delta`
      at the middle's weight. */
  lemma MiddleChange(h: int, p2: int, g: int, g': int, q: int, low: int, delta: int)
    requires g' == g + delta
    ensures h * p2 + g' * q + low == (h * p2 + g * q + low) + delta * q
  {
  }

  /** When the whole number is below `256^(|low| + n)` the middle part,
      one digit longer than the `n`-digit addend, absorbs the addition. */
  lemma NoOverflow(hi: seq<Byte>, g: seq<Byte>, g': seq<Byte>, low: seq<Byte>, x: int, m: int, n: nat)
    requires |g| == |g'| == n + 1 && 0 <= x < Pow256(n) && 0 <= m < 256
    requires Val(hi + g + low) < Pow256(n + |low|)
    requires Val(g') == (Val(g) + m * x) % Pow256(|g|)
    ensures Val(hi + g' + low) == Val(hi + g + low) + m * x * Pow256(|low|)
  {
    ThreeParts(hi, g, low);
    ThreeParts(hi, g', low);
    PowAdd(n, |low|);
    NonNegProduct(Val(hi), Pow256(|g| + |low|));
    MiddleAbsorbs(Val(hi) * Pow256(|g| + |low|), Val(g), Val(g'), Pow256(|low|), Val(low), x, m,
                  Pow256(n), Pow256(|g|), Val(hi + g + low), Val(hi + g' + low));
  }

  lemma NonNegProduct(a: int, b: int)
    requires a >= 0 && b >= 0
    ensures a * b >= 0
  {
  }

  /** The arithmetic of `NoOverflow`, over the parts as numbers. */
  lemma MiddleAbsorbs(top: int, v: int, v': int, q: int, low: int, x: int, m: int,
                      pn: int, pg: int, whole: int, whole': int)
    requires top >= 0 && v >= 0 && q > 0 && 0 <= low < q && 0 <= x < pn && 0 <= m < 256
    requires pg == 256 * pn && whole == top + v * q + low && whole' == top + v' * q + low
    requires whole < pn * q && v' == (v + m * x) % pg
    ensures whole' == whole + m * x * q
  {
    MiddleBelow(top, v, q, low, pn);
    AddFits(v, m, x, pn);
    Overflowed(v + m * x, 0, pg, v + m * x);
    MulDistrib(q, v, m * x);
  }

  /** timesAddShift / times_add_shift: adds `mult * x * 256^shift` into the
      `x.size + 1` digits of `this` that face `x` and the digit above it.
      The carry out of that top digit is not propagated (the source marks
      the missing overflow check); when `this` is below `256^(shift +
      x.size)`, as in the schoolbook multiplication, nothing overflows.
      Without room for the top digit the index runs off the array. */
  method TimesAddShift(b: BigNat, x: BigNat, shift: nat, mult: int) returns (res: Result<BigNat, Failure>)
    requires 0 <= mult < 256
    ensures res.Ok? <==> shift + x.size + 1 <= b.size
    ensures res.Err? ==> res.error == ArrayIndexOutOfBounds
    ensures res.Ok? ==> res.value.size == b.size && TailKept(b, res.value)
    ensures res.Ok? ==>
              var top, end := b.size - shift - x.size - 1, b.size - shift;
              Digits(res.value)[..top] == Digits(b)[..top]
              && Digits(res.value)[end..] == Digits(b)[end..]
              && Val(Digits(res.value)[top..end]) == (Val(Digits(b)[top..end]) + mult * Num(x)) % Pow256(x.size + 1)
    ensures res.Ok? && Num(b) < Pow256(shift + x.size) ==>
              Num(res.value) == Num(b) + mult * Num(x) * Pow256(shift)
  {
    if shift + x.size + 1 > b.size {
      return Err(ArrayIndexOutOfBounds);
    }
    var top, end := b.size - shift - x.size - 1, b.size - shift;
    var d, xs := Digits(b), Digits(x);
    assert |d| == b.size && |xs| == x.size && Val(d) == Num(b) && Val(xs) == Num(x);
    var nd := AddShiftDigits(d, xs, shift, top, end, mult);
    var r := WithDigits(b, nd);
    assert Digits(r) == nd && Num(r) == Val(nd) && Digits(b) == d;
    return Ok(r);
  }

  /** The digit work of `timesAddShift` on the digit string `d`. */
  method AddShiftDigits(d: seq<Byte>, xs: seq<Byte>, shift: nat, top: nat, end: nat, mult: int) returns (nd: seq<Byte>)
    requires end == |d| - shift && top + |xs| + 1 == end && 0 <= mult < 256
    ensures |nd| == |d| && nd[..top] == d[..top] && nd[end..] == d[end..]
    ensures Val(nd[top..end]) == (Val(d[top..end]) + mult * Val(xs)) % Pow256(|xs| + 1)
    ensures Val(d) < Pow256(shift + |xs|) ==> Val(nd) == Val(d) + mult * Val(xs) * Pow256(shift)
  {
    var g' := AddMulDigits(d[top..end], xs, mult);
    nd := Spliced(d, top, end, g');
    SplicedSum(d, top, end, g', Val(xs), mult, |xs|, shift);
  }

  /** `d` with the digits from `top` to `end` replaced by `g`. */
  function Spliced(d: seq<Byte>, top: nat, end: nat, g: seq<Byte>): (r: seq<Byte>)
    requires top <= end <= |d| && |g| == end - top
    ensures |r| == |d| && r[..top] == d[..top] && r[top..end] == g && r[end..] == d[end..]
  {
    var r := d[..top] + g + d[end..];
    assert r[..top] == d[..top] && r[top..end] == g && r[end..] == d[end..];
    r
  }

  /** The splice of `timesAddShift` adds exactly when the number is below
      the weight of the addend's top digit. */
  lemma SplicedSum(d: seq<Byte>, top: nat, end: nat, g': seq<Byte>, x: int, m: int, n: nat, shift: nat)
    requires end == top + n + 1 && end + shift == |d| && |g'| == n + 1 && 0 <= x < Pow256(n) && 0 <= m < 256
    requires Val(g') == (Val(d[top..end]) + m * x) % Pow256(n + 1)
    ensures Val(d) < Pow256(shift + n) ==> Val(Spliced(d, top, end, g')) == Val(d) + m * x * Pow256(shift)
  {
    if Val(d) >= Pow256(shift + n) {
      return;
    }
    var hi, g, low := d[..top], d[top..end], d[end..];
    assert n + |low| == shift + n;
    assert d == hi + g + low;
    assert Spliced(d, top, end, g') == hi + g' + low;
    NoOverflow(hi, g, g', low, x, m, n);
  }

  /** One row of the schoolbook multiplication: `timesAddShift` of digit
      `i` of `y` times `x` at its place, onto the partial product of the
      digits after `i`. */
  method AddRow(cur: BigNat, x: BigNat, y: BigNat, i: nat) returns (res: Result<BigNat, Failure>)
    requires i < y.size && RowsIn(cur, x, y, i + 1)
    ensures res.Ok? <==> x.size + y.size - i <= cur.size
    ensures res.Ok? ==> res.value.size == cur.size && TailKept(cur, res.value)
    ensures res.Ok? ==> RowsIn(res.value, x, y, i)
  {
    var shift := y.size - 1 - i;
    SchoolbookStep(Num(cur), Num(x), x.size, Digits(y), i, y.value[i], shift);
    res := TimesAddShift(cur, x, shift, y.value[i]);
  }

  /** Two factors below `a` and `b` have a product below `a * b`. */
  lemma ProductBelow(x: int, v: int, a: int, b: int)
    requires 0 <= x < a && 0 <= v < b
    ensures x * v < a * b
  {
    MulMono(v, b, x);
    MulMono(x + 1, a, b);
  }

  /** One more digit of the multiplier: `x * (d * q + v) == x * v + d * x * q`. */
  lemma NextPartial(x: int, d: int, q: int, v: int)
    ensures x * (d * q + v) == x * v + d * x * q
  {
    MulDistrib(x, d * q, v);
    MulAssoc(x, d, q);
  }

  /** Before digit `i` (= `d`) of the multiplier is added at place `shift`,
      the partial product `c` fits below that place; adding the row
      makes it cover one more digit. */
  lemma SchoolbookStep(c: int, x: int, n: nat, ys: seq<Byte>, i: nat, d: int, shift: nat)
    requires i < |ys| && d == ys[i] && shift == |ys| - 1 - i
    requires 0 <= x < Pow256(n) && c == x * Val(ys[i + 1..])
    ensures c < Pow256(shift + n)
    ensures c + d * x * Pow256(shift) == x * Val(ys[i..])
  {
    ProductBelow(x, Val(ys[i + 1..]), Pow256(n), Pow256(shift));
    PowAdd(n, shift);
    ValSuffixStep(ys, i);
    NextPartial(x, ys[i], Pow256(shift), Val(ys[i + 1..]));
  }

  /** The partial product holds `x` times the digits of `y` from `k` on. */
  predicate RowsIn(cur: BigNat, x: BigNat, y: BigNat, k: nat)
    requires k <= y.size
  {
    Num(cur) == Num(x) * Val(Digits(y)[k..])
  }

  /** Once every digit of the multiplier is in, the partial product is
      the product. */
  lemma AllRows(cur: BigNat, x: BigNat, y: BigNat)
    requires RowsIn(cur, x, y, 0)
    ensures Num(cur) == Num(x) * Num(y)
  {
    assert Digits(y)[0..] == Digits(y);
  }

  /** mult_schoolbook / multSchoolbook: zero `this`, then add each digit of
      `y`, least significant first, times `x` at its place. Exact when the
      product has room; otherwise the index runs off the array. */
  method MultSchoolbook(b: BigNat, x: BigNat, y: BigNat) returns (res: Result<BigNat, Failure>)
    ensures res.Ok? <==> (y.size == 0 || x.size + y.size <= b.size)
    ensures res.Err? ==> res.error == ArrayIndexOutOfBounds
    ensures res.Ok? ==> res.value.size == b.size && TailKept(b, res.value)
    ensures res.Ok? ==> Num(res.value) == Num(x) * Num(y)
  {
    var cur := Zero(b);
    var i: int := y.size - 1;
    while i >= 0
      invariant -1 <= i < y.size && cur.size == b.size && TailKept(b, cur)
      invariant RowsIn(cur, x, y, i + 1)
      invariant i < y.size - 1 ==> x.size + y.size - 1 - i <= b.size
    {
      var step := AddRow(cur, x, y, i);
      if step.Err? {
        assert y.size > 0 && x.size + y.size > b.size;
        return Err(ArrayIndexOutOfBounds);
      }
      cur := step.value;
      i := i - 1;
    }
    AllRows(cur, x, y);
    res := Ok(cur);
  }
}

=== FILE: sec1.dfy ===
/** The point-encoding logic of `ECPoint` (newer generation): decoding and
    encoding points in the octet-string formats of section 2.3.3 and 2.3.4
    of SEC 1 version 2.0 (Standards for Efficient Cryptography), and the
    parity test of the y coordinate. The field square root is not
    modelled: the root the card computes is a parameter. */
module Sec1 {
  import opened Wrappers
  import opened ReturnCodes
  import opened Radix

  /** The leading octet of each format. */
  const Uncompressed: Byte := 0x04
  const CompressedEven: Byte := 0x02
  const CompressedOdd: Byte := 0x03

  /** What the formats depend on: the coordinate size in bytes
      (COORD_SIZE) and the field prime. */
  datatype Curve = Curve(coordSize: nat, p: nat)

  /** An odd prime field whose elements fit a coordinate. */
  predicate OddField(curve: Curve) {
    curve.coordSize >= 1 && curve.p % 2 == 1 && curve.p < Pow256(curve.coordSize)
  }

  /** Which of the scratch objects the point codec takes are already held
      when it starts: the numbers for x (EC_BN_D), y (EC_BN_C) and p - y
      (EC_BN_E), and the point buffer POINT_ARRAY_A (a held buffer is one
      the active locker refuses). */
  datatype Held = Held(x: bool, y: bool, buffer: bool, p: bool) {
    /** Some scratch decode's compressed path locks is held. */
    predicate Any() { x || y || buffer || p }
    /** Some number encode's recomputing path locks is held. */
    predicate AnyNumber() { x || y || p }
  }

  function UncompressedLength(curve: Curve): nat { 1 + 2 * curve.coordSize }
  function CompressedLength(curve: Curve): nat { 1 + curve.coordSize }

  /** The root the card computed is kept exactly when its parity agrees
      with the prefix: even with 0x02, odd with 0x03. Any other prefix
      never agrees. */
  predicate KeepsRoot(prefix: Byte, root: seq<Byte>)
    requires |root| >= 1
  {
    var parity := root[|root| - 1] % 2;
    (parity == 0 && prefix == CompressedEven) || (parity == 1 && prefix == CompressedOdd)
  }

  /** The y coordinate the compressed path writes: the computed root, or
      p minus it, as a coordinate. */
  function RecoverY(curve: Curve, prefix: Byte, root: seq<Byte>): (y: seq<Byte>)
    requires |root| == curve.coordSize >= 1 && Val(root) <= curve.p
    ensures |y| == curve.coordSize
    ensures KeepsRoot(prefix, root) ==> y == root
    ensures !KeepsRoot(prefix, root) ==> Val(y) == (curve.p - Val(root)) % Pow256(curve.coordSize)
  {
    if KeepsRoot(prefix, root) then root else FromNat(curve.p - Val(root), curve.coordSize)
  }

  /** The compressed path: prefix 0x04, x copied, y recovered. */
  function Expand(curve: Curve, point: seq<Byte>, offset: nat, root: seq<Byte>): (w: seq<Byte>)
    requires |root| == curve.coordSize >= 1 && Val(root) <= curve.p
    requires offset + CompressedLength(curve) <= |point|
    ensures |w| == UncompressedLength(curve) && w[0] == Uncompressed
    ensures w[1..curve.coordSize + 1] == point[offset + 1..offset + 1 + curve.coordSize]
    ensures w[curve.coordSize + 1..] == RecoverY(curve, point[offset], root)
  {
    var c := curve.coordSize;
    var w := [Uncompressed] + point[offset + 1..offset + 1 + c] + RecoverY(curve, point[offset], root);
    assert w[1..c + 1] == point[offset + 1..offset + 1 + c];
    assert w[c + 1..] == RecoverY(curve, point[offset], root);
    w
  }

  /** decode(point, offset, length). An uncompressed encoding (its length
      and prefix 0x04) is stored unchanged and reports false; a
      compressed-length encoding is expanded with x copied and y recovered
      from `root`, and reports true; any other length, or the uncompressed
      length with another prefix, raises SW_ECPOINT_INVALID. Reading past
      the array raises an index error. The compressed path locks the x
      scratch before it reads x, then the y scratch, the point buffer and
      the p scratch; each raises SW_LOCK_ALREADYLOCKED when already held.
      The stored point (setW) is the uncompressed encoding returned here. */
  function Decode(curve: Curve, point: seq<Byte>, offset: nat, length: nat, root: seq<Byte>, held: Held)
    : (r: Result<(seq<Byte>, bool), Failure>)
    requires |root| == curve.coordSize >= 1 && Val(root) <= curve.p
    ensures r.Ok? ==> offset + length <= |point| && |r.value.0| == UncompressedLength(curve)
                      && r.value.0[0] == Uncompressed
    ensures r.Ok? && !r.value.1 <==>
              length == UncompressedLength(curve) && offset + length <= |point| && point[offset] == Uncompressed
    ensures r.Ok? && !r.value.1 ==> r.value.0 == point[offset..offset + length]
    ensures r.Ok? && r.value.1 <==> length == CompressedLength(curve) && offset + length <= |point| && !held.Any()
    ensures r.Ok? && r.value.1 ==> r.value.0 == Expand(curve, point, offset, root)
    ensures r.Err? && r.error == EcPointInvalid <==>
              length != CompressedLength(curve)
              && (length != UncompressedLength(curve) || (offset < |point| && point[offset] != Uncompressed))
    ensures r.Err? && r.error == LockAlreadyLocked <==>
              length == CompressedLength(curve) && (held.x || (offset + length <= |point| && held.Any()))
  {
    var c := curve.coordSize;
    if length == UncompressedLength(curve) && offset >= |point| then Err(ArrayIndexOutOfBounds)
    else if length == UncompressedLength(curve) && point[offset] == Uncompressed then
      if offset + length <= |point| then Ok((point[offset..offset + length], false))
      else Err(ArrayIndexOutOfBounds)
    else if length == CompressedLength(curve) then
      if held.x then Err(LockAlreadyLocked)
      else if offset + length > |point| then Err(ArrayIndexOutOfBounds)
      else if held.Any() then Err(LockAlreadyLocked)
      else Ok((Expand(curve, point, offset, root), true))
    else Err(EcPointInvalid)
  }

  /** isYEven: the last byte of the stored point, the low byte of y, is
      even. The point is read through the point buffer, which is locked
      first: a held buffer raises SW_LOCK_ALREADYLOCKED. */
  function IsYEven(curve: Curve, w: seq<Byte>, bufferHeld: bool): (r: Result<bool, Failure>)
    requires |w| == UncompressedLength(curve) && curve.coordSize >= 1
    ensures r.Err? <==> bufferHeld
    ensures r.Err? ==> r.error == LockAlreadyLocked
    ensures r.Ok? ==> (r.value <==> Val(w[curve.coordSize + 1..]) % 2 == 0)
  {
    if bufferHeld then Err(LockAlreadyLocked)
    else
      var y := w[curve.coordSize + 1..];
      ValParity(y);
      assert y[|y| - 1] == w[|w| - 1];
      Ok(w[|w| - 1] % 2 == 0)
  }

  /** The compressed prefix of a stored point: 0x02 for an even low byte
      of y, 0x03 for an odd one. */
  function CompressedPrefix(w: seq<Byte>): Byte
    requires |w| >= 1
  {
    if w[|w| - 1] % 2 == 0 then CompressedEven else CompressedOdd
  }

  /** encode(output, offset, compressed). The stored point `w` is written
      at `offset` (getW), then: compressed, an 0x04 prefix is replaced by
      the parity prefix and the length COORD_SIZE+1 is returned; not
      compressed, a stored point without the 0x04 prefix has its y
      recomputed from `root` and the prefix set to 0x04, and the length
      2*COORD_SIZE+1 is returned. Only the bytes of `w` change. Writing
      past the array raises an index error; the recomputing path locks the
      x, y and p scratch numbers, each raising SW_LOCK_ALREADYLOCKED when
      already held. */
  function Encode(curve: Curve, w: seq<Byte>, output: seq<Byte>, offset: nat, compressed: bool, root: seq<Byte>, held: Held)
    : (r: Result<(seq<Byte>, nat), Failure>)
    requires |w| == UncompressedLength(curve)
    requires |root| == curve.coordSize >= 1 && Val(root) <= curve.p
    ensures r.Ok? <==> offset + |w| <= |output| && (compressed || w[0] == Uncompressed || !held.AnyNumber())
    ensures r.Err? && r.error == ArrayIndexOutOfBounds <==> offset + |w| > |output|
    ensures r.Err? && r.error == LockAlreadyLocked <==>
              offset + |w| <= |output| && !compressed && w[0] != Uncompressed && held.AnyNumber()
    ensures r.Ok? ==>
              var (out, len) := r.value;
              |out| == |output| && out[..offset] == output[..offset]
              && out[offset + |w|..] == output[offset + |w|..]
              && len == if compressed then CompressedLength(curve) else UncompressedLength(curve)
    ensures r.Ok? && compressed ==>
              var out := r.value.0;
              out[offset + 1..offset + |w|] == w[1..]
              && out[offset] == if w[0] == Uncompressed then CompressedPrefix(w) else w[0]
    ensures r.Ok? && !compressed && w[0] == Uncompressed ==> r.value.0[offset..offset + |w|] == w
    ensures r.Ok? && !compressed && w[0] != Uncompressed ==>
              var out := r.value.0;
              var c := curve.coordSize;
              out[offset] == Uncompressed && out[offset + 1..offset + 1 + c] == w[1..c + 1]
              && out[offset + 1 + c..offset + |w|] == RecoverY(curve, w[0], root)
  {
    if offset + |w| > |output| then Err(ArrayIndexOutOfBounds)
    else if compressed then Ok((WithPrefix(w, output, offset), CompressedLength(curve)))
    else if w[0] == Uncompressed then Ok((Place(output, offset, w), UncompressedLength(curve)))
    else if held.AnyNumber() then Err(LockAlreadyLocked)
    else Ok((Recomputed(curve, w, output, offset, root), UncompressedLength(curve)))
  }

  /** The compressed branch of encode: `w` written with its prefix
      replaced by the parity prefix when it is 0x04. */
  function WithPrefix(w: seq<Byte>, output: seq<Byte>, offset: nat): (out: seq<Byte>)
    requires |w| >= 1 && offset + |w| <= |output|
    ensures |out| == |output| && out[..offset] == output[..offset]
    ensures out[offset + |w|..] == output[offset + |w|..]
    ensures out[offset + 1..offset + |w|] == w[1..]
    ensures out[offset] == if w[0] == Uncompressed then CompressedPrefix(w) else w[0]
  {
    var prefix := if w[0] == Uncompressed then CompressedPrefix(w) else w[0];
    var out := Place(output, offset, [prefix] + w[1..]);
    assert out[offset + 1..offset + |w|] == ([prefix] + w[1..])[1..];
    out
  }

  /** The uncompressed branch of encode for a stored point without the
      0x04 prefix: y recomputed from `root`, prefix 0x04. */
  function Recomputed(curve: Curve, w: seq<Byte>, output: seq<Byte>, offset: nat, root: seq<Byte>): (out: seq<Byte>)
    requires |w| == UncompressedLength(curve)
    requires |root| == curve.coordSize >= 1 && Val(root) <= curve.p
    requires offset + |w| <= |output|
    ensures |out| == |output| && out[..offset] == output[..offset]
    ensures out[offset + |w|..] == output[offset + |w|..]
    ensures var c := curve.coordSize;
            out[offset] == Uncompressed && out[offset + 1..offset + 1 + c] == w[1..c + 1]
            && out[offset + 1 + c..offset + |w|] == RecoverY(curve, w[0], root)
  {
    var c := curve.coordSize;
    var point := [Uncompressed] + w[1..c + 1] + RecoverY(curve, w[0], root);
    var out := Place(output, offset, point);
    assert out[offset + 1..offset + 1 + c] == point[1..c + 1];
    assert out[offset + 1 + c..offset + |w|] == point[1 + c..];
    out
  }

  /** `v` written over `output` at `offset`. */
  function Place(output: seq<Byte>, offset: nat, v: seq<Byte>): (out: seq<Byte>)
    requires offset + |v| <= |output|
    ensures |out| == |output| && out[..offset] == output[..offset]
    ensures out[offset + |v|..] == output[offset + |v|..]
    ensures out[offset..offset + |v|] == v
  {
    var out := output[..offset] + v + output[offset + |v|..];
    assert out[offset..offset + |v|] == v;
    out
  }

  /** The prefix encode chooses says what isYEven says when it answers. */
  lemma PrefixMatchesIsYEven(curve: Curve, w: seq<Byte>, bufferHeld: bool)
    requires |w| == UncompressedLength(curve) && curve.coordSize >= 1
    ensures IsYEven(curve, w, bufferHeld).Ok? ==>
              (CompressedPrefix(w) == CompressedEven <==> IsYEven(curve, w, bufferHeld).value)
  {
  }

  /** Uncompressed encodings survive encode then decode. */
  lemma UncompressedRoundTrip(curve: Curve, w: seq<Byte>, output: seq<Byte>, offset: nat, root: seq<Byte>, held: Held)
    requires |w| == UncompressedLength(curve) && w[0] == Uncompressed
    requires |root| == curve.coordSize >= 1 && Val(root) <= curve.p
    requires offset + |w| <= |output|
    ensures var e := Encode(curve, w, output, offset, false, root, held).value;
            Decode(curve, e.0, offset, e.1, root, held) == Ok((w, false))
  {
  }

  /** Compressed encodings survive encode then decode, for a stored point
      with a reduced y, whatever root of y^2 the card returns: the prefix
      carries the parity of y, and over an odd prime the two roots y and
      p - y have opposite parities (section 2.3.4 of SEC 1). */
  lemma CompressedRoundTrip(curve: Curve, w: seq<Byte>, output: seq<Byte>, offset: nat, root: seq<Byte>, held: Held)
    requires !held.Any()
    requires OddField(curve)
    requires |w| == UncompressedLength(curve) && w[0] == Uncompressed
    requires Val(w[curve.coordSize + 1..]) < curve.p
    requires |root| == curve.coordSize && Val(root) < curve.p
    requires Val(root) == Val(w[curve.coordSize + 1..]) || Val(root) == curve.p - Val(w[curve.coordSize + 1..])
    requires offset + |w| <= |output|
    ensures var e := Encode(curve, w, output, offset, true, root, held).value;
            Decode(curve, e.0, offset, e.1, root, held) == Ok((w, true))
  {
    var e := Encode(curve, w, output, offset, true, root, held).value;
    PrefixParity(curve, w);
    CompressedShape(curve, w, output, offset, root, held);
    DecodeCompressedPoint(curve, e.0, offset, root, w, held);
  }

  /** The compressed prefix is the parity of y read as a number. */
  lemma PrefixParity(curve: Curve, w: seq<Byte>)
    requires |w| == UncompressedLength(curve) && curve.coordSize >= 1
    ensures CompressedPrefix(w) == if Val(w[curve.coordSize + 1..]) % 2 == 0 then CompressedEven else CompressedOdd
  {
    var y := w[curve.coordSize + 1..];
    assert y[|y| - 1] == w[|w| - 1];
    ValParity(y);
  }

  /** A buffer holding the parity prefix of `w` and its x at `offset`
      decodes, through either root, to `w`. */
  lemma DecodeCompressedPoint(curve: Curve, point: seq<Byte>, offset: nat, root: seq<Byte>, w: seq<Byte>, held: Held)
    requires !held.Any()
    requires OddField(curve)
    requires |w| == UncompressedLength(curve) && w[0] == Uncompressed
    requires Val(w[curve.coordSize + 1..]) < curve.p
    requires |root| == curve.coordSize && Val(root) < curve.p
    requires Val(root) == Val(w[curve.coordSize + 1..]) || Val(root) == curve.p - Val(w[curve.coordSize + 1..])
    requires offset + CompressedLength(curve) <= |point|
    requires point[offset] == if Val(w[curve.coordSize + 1..]) % 2 == 0 then CompressedEven else CompressedOdd
    requires point[offset + 1..offset + 1 + curve.coordSize] == w[1..curve.coordSize + 1]
    ensures Decode(curve, point, offset, CompressedLength(curve), root, held) == Ok((w, true))
  {
    RecoveredY(curve, point[offset], root, w[curve.coordSize + 1..]);
    DecodeExpands(curve, point, offset, root, w, held);
  }

  /** A compressed encoding at `offset` whose x and recovered y are those
      of `w` decodes to `w`. */
  lemma DecodeExpands(curve: Curve, point: seq<Byte>, offset: nat, root: seq<Byte>, w: seq<Byte>, held: Held)
    requires !held.Any()
    requires |root| == curve.coordSize >= 1 && Val(root) <= curve.p
    requires |w| == UncompressedLength(curve) && w[0] == Uncompressed
    requires offset + CompressedLength(curve) <= |point|
    requires point[offset + 1..offset + 1 + curve.coordSize] == w[1..curve.coordSize + 1]
    requires RecoverY(curve, point[offset], root) == w[curve.coordSize + 1..]
    ensures Decode(curve, point, offset, CompressedLength(curve), root, held) == Ok((w, true))
  {
    SameParts(Expand(curve, point, offset, root), w, curve.coordSize);
  }

  /** What compressed encoding leaves at the offset: the parity prefix,
      then x. */
  lemma CompressedShape(curve: Curve, w: seq<Byte>, output: seq<Byte>, offset: nat, root: seq<Byte>, held: Held)
    requires |w| == UncompressedLength(curve) && w[0] == Uncompressed
    requires |root| == curve.coordSize >= 1 && Val(root) <= curve.p
    requires offset + |w| <= |output|
    ensures var e := Encode(curve, w, output, offset, true, root, held).value;
            var c := curve.coordSize;
            e.1 == c + 1 && offset + c + 1 <= |e.0|
            && e.0[offset] == CompressedPrefix(w) && e.0[offset + 1..offset + 1 + c] == w[1..c + 1]
  {
    var c := curve.coordSize;
    var out := Encode(curve, w, output, offset, true, root, held).value.0;
    assert out[offset + 1..offset + |w|] == w[1..];
    assert out[offset + 1..offset + 1 + c] == out[offset + 1..offset + |w|][..c];
  }

  /** Two uncompressed encodings with the same prefix, x and y are equal. */
  lemma SameParts(a: seq<Byte>, b: seq<Byte>, c: nat)
    requires |a| == |b| == 1 + 2 * c && a[0] == b[0]
    requires a[1..c + 1] == b[1..c + 1] && a[c + 1..] == b[c + 1..]
    ensures a == b
  {
    assert a == [a[0]] + a[1..c + 1] + a[c + 1..];
    assert b == [b[0]] + b[1..c + 1] + b[c + 1..];
  }

  /** The y the compressed path recovers is the y whose parity the prefix
      recorded. */
  lemma RecoveredY(curve: Curve, prefix: Byte, root: seq<Byte>, y: seq<Byte>)
    requires OddField(curve)
    requires |y| == |root| == curve.coordSize && Val(y) < curve.p && Val(root) < curve.p
    requires Val(root) == Val(y) || Val(root) == curve.p - Val(y)
    requires prefix == if Val(y) % 2 == 0 then CompressedEven else CompressedOdd
    ensures RecoverY(curve, prefix, root) == y
  {
    var vr: int, vy: int := Val(root), Val(y);
    ValParity(root);
    if vr == vy {
      ValInjective(root, y);
    } else {
      OppositeParity(curve.p, vy);
      assert !KeepsRoot(prefix, root);
      var r := RecoverY(curve, prefix, root);
      assert curve.p - vr == vy;
      DivModUnique(vy, Pow256(curve.coordSize), 0, vy);
      ValInjective(r, y);
    }
  }

  /** Over an odd modulus, y and p - y have opposite parities. */
  lemma OppositeParity(p: int, y: int)
    requires p % 2 == 1
    ensures (p - y) % 2 != y % 2
  {
    var k := p / 2;
    assert p == 2 * k + 1;
    if y % 2 == 0 {
      assert p - y == 2 * (k - y / 2) + 1;
    } else {
      assert p - y == 2 * (k - y / 2);
    }
  }
}

=== FILE: shifts.dfy ===
/** Right shifts by fewer than eight bits (`shiftRight`, `divide_by_2`):
    each byte is shifted and the bits that fall out of the previous byte
    are ORed in at the top. */
module Shifts {
  import opened Radix
  import opened BigNats
  import AddSub

  /** Java's `|` on non-negative integers, bit by bit. */
  function Or(a: nat, b: nat): nat
    decreases a + b
  {
    if a == 0 then b
    else if b == 0 then a
    else 2 * Or(a / 2, b / 2) + (if a % 2 == 1 || b % 2 == 1 then 1 else 0)
  }

  lemma Halve(c: nat, n: nat)
    requires n >= 1
    ensures c * Pow2(n) == 2 * (c * Pow2(n - 1))
    ensures (c * Pow2(n)) / 2 == c * Pow2(n - 1) && (c * Pow2(n)) % 2 == 0
  {
    assert c * Pow2(n) == c * (2 * Pow2(n - 1));
  }

  /** ORing a value below `2^n` into a multiple of `2^n` adds it. */
  lemma {:induction false} OrDisjoint(x: nat, c: nat, n: nat)
    requires x < Pow2(n)
    ensures Or(x, c * Pow2(n)) == x + c * Pow2(n)
  {
    if n == 0 {
      assert x == 0;
    } else if x == 0 || c == 0 {
    } else {
      Halve(c, n);
      OrDisjoint(x / 2, c, n - 1);
    }
  }

  lemma Pow2Add(a: nat, b: nat)
    ensures Pow2(a + b) == Pow2(a) * Pow2(b)
  {
    if a > 0 {
      Pow2Add(a - 1, b);
      assert 2 * (Pow2(a - 1) * Pow2(b)) == (2 * Pow2(a - 1)) * Pow2(b);
    }
  }

  lemma Pow2Split(bits: nat)
    requires bits <= 8
    ensures Pow2(bits) * Pow2(8 - bits) == 256
  {
    Pow2Add(bits, 8 - bits);
    assert Pow2(8) == 256 by {
      assert Pow2(4) == 16;
    }
  }

  /** One byte of the shift: the high bits of `x` land at the bottom of the
      output byte, the low bits of the previous byte (`rem`) at its top,
      and the two parts do not overlap. */
  lemma ColumnDigit(rem: int, x: int, k: int, h: int)
    requires k >= 1 && h >= 1 && k * h == 256 && 0 <= rem < k && 0 <= x < 256
    ensures 0 <= x / k < h && 0 <= x % k < k && 0 <= rem * h
    ensures x / k + rem * h < 256
  {
    var t := x / k;
    if t >= h {
      MulMono(h, t, k);
    }
    MulMono(rem, k - 1, h);
    assert (k - 1) * h == 256 - h;
  }

  /** The shifted prefix grows by one output byte while the bits shifted
      out are those of the new input byte. */
  lemma ColumnValue(v: int, o: int, rem: int, x: int, k: int, h: int, digit: int)
    requires k >= 1 && k * h == 256 && v == k * o + rem && digit == x / k + rem * h
    ensures 256 * v + x == k * (256 * o + digit) + x % k
  {
    assert x == k * (x / k) + x % k;
    assert 256 * (k * o) == k * (256 * o);
    assert k * (rem * h) == rem * (k * h);
    assert k * (256 * o + digit) == k * (256 * o) + k * (x / k) + k * (rem * h);
  }

  /** The byte loop of `shiftRight(bits, 0)`: `current >> bits` ORed with
      the carry `(previous & mask) << (8 - bits)`. */
  method ShiftDigitsRight(d: seq<Byte>, bits: nat) returns (out: seq<Byte>)
    requires bits < 8
    ensures |out| == |d| && Val(out) == Val(d) / Pow2(bits)
  {
    var k: int := Pow2(bits);
    var h: int := Pow2(8 - bits);
    Pow2Split(bits);
    out := [];
    var carry: int := 0;
    ghost var rem: int := 0;
    var i := 0;
    while i < |d|
      invariant 0 <= i <= |d| && |out| == i
      invariant 0 <= rem < k && carry == rem * h
      invariant Val(d[..i]) == k * Val(out) + rem
    {
      var current: int := d[i];
      ColumnDigit(rem, current, k, h);
      OrDisjoint(current / k, rem, 8 - bits);
      var digit: Byte := Or(current / k, carry);
      ColumnValue(Val(d[..i]), Val(out), rem, current, k, h, digit);
      ValPrefixStep(d, i);
      ValSnoc(out, digit);
      out := out + [digit];
      carry := (current % k) * h;
      rem := current % k;
      i := i + 1;
    }
    assert d[..i] == d;
    assert k * Val(out) == Val(out) * k;
    DivModUnique(Val(d), k, Val(out), rem);
  }

  /** shiftRight(bits): divides by `2^bits`, rounding down. */
  method ShiftRight(b: BigNat, bits: nat) returns (r: BigNat)
    requires bits < 8
    ensures r.size == b.size && TailKept(b, r)
    ensures Num(r) == Num(b) / Pow2(bits)
  {
    var out := ShiftDigitsRight(Digits(b), bits);
    r := AddSub.WithDigits(b, out);
  }

  /** divide_by_2(): the same byte loop with the shift fixed at one bit
      (mask 1, carry moved to bit 7). */
  method DivideBy2(b: BigNat) returns (r: BigNat)
    ensures r.size == b.size && TailKept(b, r)
    ensures Num(r) == Num(b) / 2
  {
    var out := ShiftDigitsRight(Digits(b), 1);
    assert Pow2(1) == 2;
    r := AddSub.WithDigits(b, out);
  }
}

=== FILE: tonelli.dfy ===
/** The host-side modular square root the tests use as a reference
    (`tonelliShanks`): Tonelli-Shanks over arbitrary-precision integers.
    The three searches of the algorithm are loops whose termination rests
    on number theory the code does not check, so each loop here runs for
    at most `fuel` iterations and an exhausted budget is its own outcome. */
module Tonelli {
  import opened Wrappers
  import opened Radix

  /** How a call ends: a value, the ArithmeticException of a negative
      exponent with no inverse, or still looping when the budget ran out. */
  datatype Outcome = Returned(root: int) | Threw | OutOfSteps

  /** BigInteger.modPow with a non-negative exponent: the least
      non-negative residue of b^e. */
  function ModPow(b: int, e: nat, m: int): (r: int)
    requires m >= 1
    ensures 0 <= r < m
    decreases e
  {
    if e == 0 then 1 % m else (b * ModPow(b, e - 1, m)) % m
  }

  /** Step 1: p - 1 = Q * 2^S with Q odd (halving while even). */
  function OddPart(q: int): (r: (int, nat))
    requires q >= 1
    ensures r.0 >= 1 && r.0 % 2 == 1
    ensures r.0 * Pow2(r.1) == q
    decreases q
  {
    if q % 2 == 1 then (q, 0)
    else
      var rest := OddPart(q / 2);
      Doubled(rest.0, Pow2(rest.1), q / 2);
      (rest.0, rest.1 + 1)
  }

  lemma Doubled(o: int, w: int, h: int)
    requires o * w == h
    ensures o * (2 * w) == 2 * h
  {
  }

  /** Step 2: the first z from `z` on with z^((p-1)/2) = -1 (mod p). */
  function NonResidueSearch(z: int, p: int, fuel: nat): (r: Option<int>)
    requires p >= 3
    ensures r.Some? ==> r.value >= z && ModPow(r.value, (p - 1) / 2, p) == p - 1
    decreases fuel
  {
    if ModPow(z, (p - 1) / 2, p) == p - 1 then Some(z)
    else if fuel == 0 then None
    else NonResidueSearch(z + 1, p, fuel - 1)
  }

  /** The inner loop: square `tt` until it is 1, counting the squarings
      from `i`. */
  function Squarings(tt: int, i: nat, p: int, fuel: nat): (r: Option<nat>)
    requires p >= 3
    ensures r.Some? ==> r.value >= i && (tt != 1 ==> r.value > i)
    decreases fuel
  {
    if tt == 1 then Some(i)
    else if fuel == 0 then None
    else Squarings((tt * tt) % p, i + 1, p, fuel - 1)
  }

  /** The outer loop: while t is not 1, find the least i with t^(2^i) = 1,
      set b = c^(2^(M-i-1) mod (p-1)), and update R, c, t and M. An
      exponent M-i-1 below zero asks BigInteger.modPow for an inverse of 2
      modulo the even p-1, which does not exist. */
  function Rounds(r: int, c: int, t: int, m: int, p: int, fuel: nat): (o: Outcome)
    requires p >= 3 && p % 2 == 1 && 0 <= r < p
    ensures o.Returned? ==> 0 <= o.root < p
    decreases fuel
  {
    if t == 1 then Returned(r)
    else if fuel == 0 then OutOfSteps
    else
      match Squarings(t, 0, p, fuel)
      case None => OutOfSteps
      case Some(i) =>
        var e := m - i - 1;
        if e < 0 then Threw
        else
          var b := ModPow(c, ModPow(2, e, p - 1), p);
          var b2 := (b * b) % p;
          Rounds((r * b) % p, b2, (t * b2) % p, i, p, fuel - 1)
  }

  /** tonelliShanks(n, p) for an odd modulus p: the candidate root R the
      loops leave is returned when R*R = n (mod p), and 0 otherwise. */
  function TonelliShanks(n: int, p: int, fuel: nat): (o: Outcome)
    requires p >= 3 && p % 2 == 1
    ensures o.Returned? ==> 0 <= o.root < p
    ensures o.Returned? ==> o.root == 0 || (o.root * o.root) % p == n
  {
    var qs := OddPart(p - 1);
    var q, s := qs.0, qs.1;
    match NonResidueSearch(1, p, fuel)
    case None => OutOfSteps
    case Some(z) =>
      var r := ModPow(n, (q + 1) / 2, p);
      var c := ModPow(z, q, p);
      var t := ModPow(n, q, p);
      match Rounds(r, c, t, s, p, fuel)
      case Returned(root) => if (root * root) % p == n then Returned(root) else Returned(0)
      case other => other
  }

  /** No nonzero answer for an n without a square root modulo p: the
      corollary of TonelliShanks's ensures for such an n, stated on its own
      for the final check of JCMathLibTest.java:524-528. */
  lemma NonSquareGivesZero(n: int, p: int, fuel: nat)
    requires p >= 3 && p % 2 == 1
    requires forall x :: 0 <= x < p ==> (x * x) % p != n
    ensures TonelliShanks(n, p, fuel).Returned? ==> TonelliShanks(n, p, fuel).root == 0
  {
  }

  /** Reducing a factor first does not change a product's residue. */
  lemma ModMulLeft(x: int, y: int, m: int)
    requires m >= 1
    ensures ((x % m) * y) % m == (x * y) % m
  {
    var k, r := x / m, x % m;
    assert x == k * m + r;
    assert x * y == (k * m + r) * y == r * y + (k * y) * m;
    ModAddMultiple((x % m) * y, k * y, m);
  }

  lemma ModMulRight(x: int, y: int, m: int)
    requires m >= 1
    ensures (x * (y % m)) % m == (x * y) % m
  {
    ModMulLeft(y, x, m);
  }

  lemma ModAddMultiple(z: int, k: int, m: int)
    requires m >= 1
    ensures (z + k * m) % m == z % m
  {
    var q := z / m;
    assert z == q * m + z % m;
    assert (q + k) * m == q * m + k * m;
    DivModUnique(z + k * m, m, q + k, z % m);
  }

  /** The square of the candidate root tracks n times t modulo p: the
      invariant R^2 = n*t (mod p) of the outer loop. */
  predicate Tracks(r: int, t: int, n: int, p: int)
    requires p >= 1
  {
    (r * r) % p == (n * t) % p
  }

  /** One round keeps the invariant: R becomes R*b and t becomes t*b^2. */
  lemma TracksStep(r: int, t: int, b: int, n: int, p: int)
    requires p >= 1 && Tracks(r, t, n, p)
    ensures Tracks((r * b) % p, (t * ((b * b) % p)) % p, n, p)
  {
    var rb := (r * b) % p;
    var b2 := (b * b) % p;
    calc {
      (rb * rb) % p;
      { ModMulLeft(r * b, rb, p); }
      ((r * b) * rb) % p;
      { ModMulRight(r * b, r * b, p); }
      ((r * b) * (r * b)) % p;
      { assert (r * b) * (r * b) == (r * r) * (b * b); }
      ((r * r) * (b * b)) % p;
      { ModMulLeft(r * r, b * b, p); }
      (((r * r) % p) * (b * b)) % p;
      (((n * t) % p) * (b * b)) % p;
      { ModMulLeft(n * t, b * b, p); }
      ((n * t) * (b * b)) % p;
      { assert (n * t) * (b * b) == n * (t * (b * b)); }
      (n * (t * (b * b))) % p;
      { ModMulRight(t, b * b, p); ModMulRight(n, t * (b * b), p); ModMulRight(n, t * b2, p); }
      (n * ((t * b2) % p)) % p;
    }
  }

  /** A returned candidate squares to n modulo p. */
  lemma {:induction false} RoundsSquare(r: int, c: int, t: int, m: int, n: int, p: int, fuel: nat)
    requires p >= 3 && p % 2 == 1 && 0 <= r < p && Tracks(r, t, n, p)
    ensures Rounds(r, c, t, m, p, fuel).Returned? ==>
              (Rounds(r, c, t, m, p, fuel).root * Rounds(r, c, t, m, p, fuel).root) % p == n % p
    decreases fuel
  {
    if t != 1 && fuel > 0 && Squarings(t, 0, p, fuel).Some? {
      var i := Squarings(t, 0, p, fuel).value;
      if m - i - 1 >= 0 {
        var b := ModPow(c, ModPow(2, m - i - 1, p - 1), p);
        TracksStep(r, t, b, n, p);
        RoundsSquare((r * b) % p, (b * b) % p, (t * ((b * b) % p)) % p, i, n, p, fuel - 1);
      }
    } else if t == 1 {
      ModMulRight(n, 1, p);
    }
  }

  /** The starting values R = n^((Q+1)/2) and t = n^Q satisfy the
      invariant, Q being odd. */
  lemma StartTracks(n: int, q: int, p: int)
    requires p >= 3 && q >= 1 && q % 2 == 1
    ensures Tracks(ModPow(n, (q + 1) / 2, p), ModPow(n, q, p), n, p)
  {
    var h := (q + 1) / 2;
    ModPowAdd(n, h, h, p);
    assert h + h == q + 1;
    ModMulLeft(n, ModPow(n, q, p), p);
    ModMulRight(n % p, ModPow(n, q, p), p);
  }

  /** Powers multiply by adding exponents. */
  lemma {:induction false} ModPowAdd(b: int, e1: nat, e2: nat, m: int)
    requires m >= 2
    ensures (ModPow(b, e1, m) * ModPow(b, e2, m)) % m == ModPow(b, e1 + e2, m)
    decreases e1
  {
    var y := ModPow(b, e2, m);
    if e1 == 0 {
      OneTimes(y, m);
    } else {
      ModPowAdd(b, e1 - 1, e2, m);
      PowStep(b, ModPow(b, e1 - 1, m), y, ModPow(b, e1 - 1 + e2, m), m);
    }
  }

  lemma OneTimes(y: int, m: int)
    requires m >= 2 && 0 <= y < m
    ensures ((1 % m) * y) % m == y
  {
  }

  /** The arithmetic of one more factor `b` on each side. */
  lemma PowStep(b: int, x: int, y: int, xy: int, m: int)
    requires m >= 1 && (x * y) % m == xy
    ensures (((b * x) % m) * y) % m == (b * xy) % m
  {
    ModMulLeft(b * x, y, m);
    Assoc(b, x, y);
    ModMulRight(b, x * y, m);
  }

  lemma Assoc(a: int, b: int, c: int)
    ensures (a * b) * c == a * (b * c)
  {
  }

  /** For 0 <= n < p, whatever tonelliShanks returns passes its own final
      check: a returned value is a square root of n, and not 0 when n is
      not. The loops keep R^2 = n*t (mod p) and stop at t = 1. */
  lemma ReturnedIsRoot(n: int, p: int, fuel: nat)
    requires p >= 3 && p % 2 == 1 && 0 <= n < p
    ensures TonelliShanks(n, p, fuel).Returned? ==>
              (TonelliShanks(n, p, fuel).root * TonelliShanks(n, p, fuel).root) % p == n
    ensures n != 0 && TonelliShanks(n, p, fuel).Returned? ==> TonelliShanks(n, p, fuel).root != 0
  {
    var qs := OddPart(p - 1);
    var q, s := qs.0, qs.1;
    if NonResidueSearch(1, p, fuel).Some? {
      var z := NonResidueSearch(1, p, fuel).value;
      var r, t := ModPow(n, (q + 1) / 2, p), ModPow(n, q, p);
      StartTracks(n, q, p);
      RoundsSquare(r, ModPow(z, q, p), t, s, n, p, fuel);
      var o := Rounds(r, ModPow(z, q, p), t, s, p, fuel);
      if o.Returned? {
        var root := o.root;
        assert (root * root) % p == n % p;
        SmallMod(n, p);
        assert TonelliShanks(n, p, fuel) == Returned(root);
        ZeroSquare(root, p);
      }
    }
  }

  lemma SmallMod(n: int, p: int)
    requires 0 <= n < p
    ensures n % p == n
  {
  }

  lemma ZeroSquare(x: int, p: int)
    requires p >= 1
    ensures x == 0 ==> (x * x) % p == 0
  {
  }

  lemma {:induction false} SearchFuel(z: int, p: int, fuel: nat, more: nat)
    requires p >= 3 && fuel <= more
    requires NonResidueSearch(z, p, fuel).Some?
    ensures NonResidueSearch(z, p, more) == NonResidueSearch(z, p, fuel)
    decreases fuel
  {
    if ModPow(z, (p - 1) / 2, p) != p - 1 {
      SearchFuel(z + 1, p, fuel - 1, more - 1);
    }
  }

  lemma {:induction false} SquaringsFuel(tt: int, i: nat, p: int, fuel: nat, more: nat)
    requires p >= 3 && fuel <= more
    requires Squarings(tt, i, p, fuel).Some?
    ensures Squarings(tt, i, p, more) == Squarings(tt, i, p, fuel)
    decreases fuel
  {
    if tt != 1 {
      SquaringsFuel((tt * tt) % p, i + 1, p, fuel - 1, more - 1);
    }
  }

  lemma {:induction false} RoundsFuel(r: int, c: int, t: int, m: int, p: int, fuel: nat, more: nat)
    requires p >= 3 && p % 2 == 1 && 0 <= r < p && fuel <= more
    requires Rounds(r, c, t, m, p, fuel) != OutOfSteps
    ensures Rounds(r, c, t, m, p, more) == Rounds(r, c, t, m, p, fuel)
    decreases fuel
  {
    if t != 1 {
      var i := Squarings(t, 0, p, fuel).value;
      SquaringsFuel(t, 0, p, fuel, more);
      var e := m - i - 1;
      if e >= 0 {
        var b := ModPow(c, ModPow(2, e, p - 1), p);
        var b2 := (b * b) % p;
        RoundsFuel((r * b) % p, b2, (t * b2) % p, i, p, fuel - 1, more - 1);
      }
    }
  }

  /** The budget decides only whether a call finishes, never what it
      ends in. */
  lemma FuelMonotone(n: int, p: int, fuel: nat, more: nat)
    requires p >= 3 && p % 2 == 1 && fuel <= more
    requires TonelliShanks(n, p, fuel) != OutOfSteps
    ensures TonelliShanks(n, p, more) == TonelliShanks(n, p, fuel)
  {
    var qs := OddPart(p - 1);
    var q, s := qs.0, qs.1;
    SearchFuel(1, p, fuel, more);
    var z := NonResidueSearch(1, p, fuel).value;
    RoundsFuel(ModPow(n, (q + 1) / 2, p), ModPow(z, q, p), ModPow(n, q, p), s, p, fuel, more);
  }

  /** The modulus 7: 6 = 3 * 2, and 3 is the first non-residue. */
  lemma SevenSetup()
    ensures OddPart(6) == (3, 1)
    ensures NonResidueSearch(1, 7, 10) == Some(3)
    ensures ModPow(3, 2, 7) == 2 && ModPow(3, 3, 7) == 6
    ensures ModPow(2, 2, 7) == 4 && ModPow(2, 3, 7) == 1
  {
    assert ModPow(1, 1, 7) == 1 && ModPow(1, 2, 7) == 1 && ModPow(1, 3, 7) == 1;
    assert ModPow(2, 1, 7) == 2 && ModPow(2, 2, 7) == 4 && ModPow(2, 3, 7) == 1;
    assert ModPow(3, 1, 7) == 3 && ModPow(3, 2, 7) == 2 && ModPow(3, 3, 7) == 6;
    assert NonResidueSearch(3, 7, 8) == Some(3);
    assert NonResidueSearch(2, 7, 9) == Some(3);
  }

  /** As written, 3 (not a square modulo 7) needs the whole order of t,
      so M-i-1 is -1 and modPow throws instead of 0 being returned. */
  lemma NonSquareThrows()
    ensures TonelliShanks(3, 7, 10) == Threw
  {
    SevenSetup();
    SevenNonSquareRounds();
  }

  lemma SevenNonSquareRounds()
    ensures Rounds(2, 6, 6, 1, 7, 10) == Threw
  {
    assert Squarings(1, 1, 7, 9) == Some(1);
    assert Squarings(6, 0, 7, 10) == Some(1);
  }

  /** Zero never squares to one. */
  lemma {:induction false} ZeroNeverOne(i: nat, p: int, fuel: nat)
    requires p >= 3
    ensures Squarings(0, i, p, fuel) == None
    decreases fuel
  {
    if fuel > 0 {
      ZeroNeverOne(i + 1, p, fuel - 1);
    }
  }

  lemma ZeroPower(e: nat, p: int)
    requires p >= 1 && e >= 1
    ensures ModPow(0, e, p) == 0
  {
  }

  /** As written, n = 0 never returns: t starts at 0 and the inner loop
      squares 0 forever, whatever the budget. */
  lemma ZeroNeverReturns(p: int, fuel: nat)
    requires p >= 3 && p % 2 == 1
    ensures TonelliShanks(0, p, fuel) == OutOfSteps
  {
    var qs := OddPart(p - 1);
    var q, s := qs.0, qs.1;
    ZeroPower(q, p);
    if NonResidueSearch(1, p, fuel).Some? && fuel > 0 {
      ZeroNeverOne(0, p, fuel);
    }
  }

  /** The inner loop with its bound restored: reaching i = M returns 0. */
  function SquaringsBounded(tt: int, i: nat, m: nat, p: int): (r: Option<nat>)
    requires p >= 3 && i < m
    ensures r.Some? ==> i <= r.value < m && (tt != 1 ==> r.value > i)
    decreases m - i
  {
    if tt == 1 then Some(i)
    else if i + 1 == m then None
    else SquaringsBounded((tt * tt) % p, i + 1, m, p)
  }

  /** The outer loop with the bound: M falls every round, so it ends
      without a budget, and the exponent M-i-1 is never negative. `None`
      is the early return of 0. */
  function RoundsBounded(r: int, c: int, t: int, m: nat, p: int): (o: Option<int>)
    requires p >= 3 && p % 2 == 1 && 0 <= r < p && m >= 1
    ensures o.Some? ==> 0 <= o.value < p
    decreases m
  {
    if t == 1 then Some(r)
    else
      match SquaringsBounded(t, 0, m, p)
      case None => None
      case Some(i) =>
        var b := ModPow(c, ModPow(2, m - i - 1, p - 1), p);
        var b2 := (b * b) % p;
        RoundsBounded((r * b) % p, b2, (t * b2) % p, i, p)
  }

  /** tonelliShanks with the bound on the inner loop: no exception, and a
      value with no root gives 0. */
  function TonelliShanksFixed(n: int, p: int, fuel: nat): (o: Outcome)
    requires p >= 3 && p % 2 == 1
    ensures o != Threw
    ensures o.Returned? ==> 0 <= o.root < p
    ensures o.Returned? ==> o.root == 0 || (o.root * o.root) % p == n
  {
    var qs := OddPart(p - 1);
    var q, s := qs.0, qs.1;
    OddPartOfEven(p - 1);
    match NonResidueSearch(1, p, fuel)
    case None => OutOfSteps
    case Some(z) =>
      var r := ModPow(n, (q + 1) / 2, p);
      match RoundsBounded(r, ModPow(z, q, p), ModPow(n, q, p), s, p)
      case None => Returned(0)
      case Some(root) => if (root * root) % p == n then Returned(root) else Returned(0)
  }

  /** An even number has at least one factor 2. */
  lemma OddPartOfEven(q: int)
    requires q >= 2 && q % 2 == 0
    ensures OddPart(q).1 >= 1
  {
  }

  /** Corrected, 0 has the root 0. */
  lemma FixedZero(p: int, fuel: nat)
    requires p >= 3 && p % 2 == 1
    requires NonResidueSearch(1, p, fuel).Some?
    ensures TonelliShanksFixed(0, p, fuel) == Returned(0)
  {
    var qs := OddPart(p - 1);
    var q, s := qs.0, qs.1;
    OddPartOfEven(p - 1);
    ZeroPower(q, p);
    ZeroBounded(0, s, p);
  }

  /** Corrected, 3 modulo 7 gives 0. */
  lemma FixedNonSquare()
    ensures TonelliShanksFixed(3, 7, 10) == Returned(0)
  {
    SevenSetup();
    assert SquaringsBounded(6, 0, 1, 7) == None;
    assert RoundsBounded(2, 6, 6, 1, 7) == None;
  }

  lemma {:induction false} ZeroBounded(i: nat, m: nat, p: int)
    requires p >= 3 && i < m
    ensures SquaringsBounded(0, i, m, p) == None
    decreases m - i
  {
    if i + 1 < m {
      ZeroBounded(i + 1, m, p);
    }
  }
}

=== FILE: wrappers.dfy ===
/** Failure-compatible Option and Result types used throughout the model.
    `Err` carries whatever the modelled code raises: a card status word
    (`ReturnCodes.Failure`) for the on-card library, a Python exception
    kind for the packaging script. */
module Wrappers {

  datatype Option<+T> = None | Some(value: T) {
    predicate IsFailure() {
      None?
    }

    function PropagateFailure<U>(): Option<U>
      requires None?
    {
      None
    }

    function Extract(): T
      requires Some?
    {
      value
    }
  }

  datatype Result<+T, +E> = Ok(value: T) | Err(error: E) {
    predicate IsFailure() {
      Err?
    }

    function PropagateFailure<U>(): Result<U, E>
      requires Err?
    {
      Err(error)
    }

    function Extract(): T
      requires Ok?
    {
      value
    }
  }
}
